=== FILE: README.md ===
# pas_database — a Dafny model of the transaction protocols, the schema runner and the query definitions

`pas_database` wraps SQLAlchemy. Several generations of it live side by side:
the current `pas_database` package, the `dNG` package and the older `dNG.pas`
package, plus an old script copy of the connection. This project models the
deterministic part of each generation in Dafny and proves properties of it.
Each generation is modelled on its own terms.

- **Connection and transaction nesting.** The per-thread counters of
  `Connection` (module `ConnectionDng`, `ConnectionPas` and `ConnectionScripts`,
  one per generation), `TransactionContext` (`TxContext`, `TxContextPas`) and the
  `with instance:` protocol of `Instance` (`InstanceModern`, `InstanceDng`,
  `InstancePas`).
  - Every operation is a pure transition `State -> (State, trace, raised)`.
  - The trace records native session calls, connection calls, row calls and
    lock events (module `Trace`).
  - A failing native or session call is a parameter of the operation that
    makes it: a boolean, or a `Fault` saying which of its calls fails. The
    raising call is still in the trace, and a counter is left as the code
    leaves it at that point. Where an operation opens an instance block only
    to read (`is_known()`, `delete()` and `save()` of the oldest instance), the
    block's entry does not fail; the entry on its own states the failures.
- **Connection settings.** The URL and prefix logic of the settings loaders:
  `DbUrl`, and `ResolveSettings` in both connection modules. It also covers the
  `[path_base]` loader of the script connection and the LIKE escaping.
- **Schema runner.**
  - `SqlFile` is the statement splitter of `_apply_sql_file()`: prefix
    substitution, comment lines, `;` with backslash escaping.
  - `SchemaRunner` is `apply_version()`, `_upgrade()` and
    `_check_upgrade_dependencies()` of the current and the dNG generation, whose
    code is the same in every modelled branch.
  - `SchemaPas` is the oldest runner.
- **Query definitions.**
  - `ConditionDng` and `ConditionPas`: condition definitions compiled into an
    abstract clause datatype.
  - `SortDefinition`: the sort definition compiled into a list of `ORDER BY`
    terms.
  - `FilterParser`: the CRUD filter parser that turns `!name<=`-style keys into
    condition records.
- **Key store entries.** The validity window, reloadability, the value
  dictionary, the maintenance purge and the lookups.
  - `KeyStore` covers the current and the dNG entry; their guards are the same.
  - `KeyStorePas` covers the oldest entry.

Shared helpers are `Wrappers` (`Option`, `Result`, the exception kinds), `Values`
(Python values), `Text` (strip, split, join, replace, integer formatting) and
`Rows` (ORM row states and the polymorphic constructor).

The SQLAlchemy engine and session, the lock, the clock, random draws, settings
files, the file system, JSON decoding and `urlsplit` are not executed. Their
results are parameters of the functions that use them, and their calls are
trace events.

## Model

| member | source | states |
|---|---|---|
| ConnectionDng.TransactionDepth | src/dNG/database/connection.py:381-390 | the depth is the counter, never negative while the counters are valid, and 0 only for an empty counter |
| ConnectionDng.Begin | src/dNG/database/connection.py:185-203 | a begin raises exactly when binding the session fails or, on an open counter, the native begin fails, and then leaves the counter; otherwise it binds a session and raises the counter by exactly 1; the first begin at 0 makes no native call, each later one exactly one, of the configured kind |
| ConnectionDng.NativeBegin | src/dNG/database/connection.py:198-199 | a nested begin is a SAVEPOINT exactly when native nesting is configured and a subtransaction otherwise |
| ConnectionDng.Commit | src/dNG/database/connection.py:205-219 | a commit raises exactly when binding the session or the native commit fails, and then leaves the counter; otherwise one native commit, and the counter drops by 1 only when positive, so it never goes negative |
| ConnectionDng.Rollback | src/dNG/database/connection.py:419-438 | without native nesting at depth n > 1, n native rollbacks and the counter ends at 0; otherwise one rollback and a decrement when positive; a failing native rollback raises after the calls before it, leaving the counter as the loop left it |
| ConnectionDng.RollbackCalls | src/dNG/database/connection.py:429-436 | more than one native rollback exactly when native nesting is off and more than one level is open |
| ConnectionDng.Enter | src/dNG/database/connection.py:271-303 | the lock is taken only by the outermost entry in serialised mode; a failing session set-up leaves the state unchanged and raises; a successful one counts the block and binds the session; nothing is committed or rolled back |
| ConnectionDng.EnterBalance | src/dNG/database/connection.py:283-303 | an entry changes the lock balance of the trace by exactly the change in whether the lock is held, so a failing set-up that took the lock gives it back |
| ConnectionDng.Exit | src/dNG/database/connection.py:327-365 | inner exits only decrement; the outermost exit with a session commits iff the block was clean and the session active and rolls back otherwise, resets the counter unless the native call raises, raises exactly when that call does, and releases the lock in serialised mode; it never acquires |
| ConnectionDng.ExitBalance | src/dNG/database/connection.py:337-365 | an exit commits or rolls back at most once, and changes the lock balance by exactly the change in whether the lock is held, also when the native call raises |
| ConnectionDng.BeginsOpen | src/dNG/database/connection.py:196-202 | n begins raise the counter by n and open n − 1 native levels from a fresh counter (n otherwise), all of the configured kind, and never commit or roll back |
| ConnectionDng.BeginsCount | src/dNG/database/connection.py:196-202 | n begins raise the transaction counter by exactly n and leave the context depth |
| ConnectionDng.BeginsKind | src/dNG/database/connection.py:196-200 | every native call n begins make is of the one kind the configuration selects |
| ConnectionDng.BeginsLength | src/dNG/database/connection.py:196-200 | n begins make n − 1 native calls from a fresh counter and n from an open one |
| ConnectionDng.BeginsNative | src/dNG/database/connection.py:196-202 | the native levels n begins open are counted as above, none of the other kind, and none is committed or rolled back |
| ConnectionDng.CommitsClose | src/dNG/database/connection.py:216-219 | n commits issue exactly n native commits and lower the counter by n |
| ConnectionDng.BeginsThenCommits | src/dNG/database/connection.py:196-219 | n begins then n commits from 0 end at depth 0 with n native commits and n − 1 native begins |
| ConnectionDng.RollbackAfterBegins | src/dNG/database/connection.py:429-438 | after n > 1 begins without native nesting one rollback issues n native rollbacks and returns to depth 0 |
| ConnectionDng.With | src/dNG/database/connection.py:137-160 | a `with connection:` block from outside any block leaves the lock balanced; a failing set-up or a raising body raises |
| ConnectionDng.NestInnerSilent | src/dNG/database/connection.py:283-295 | blocks nested inside an open block neither take the lock nor commit nor roll back |
| ConnectionDng.NestOutermost | src/dNG/database/connection.py:337-354 | any depth of nested blocks entered from outside reduces to one outermost enter and exit |
| ConnectionDng.NestClosed | src/dNG/database/connection.py:271-365 | k nested blocks from outside any block make exactly: the lock taken, one commit (one rollback when the body raises), the lock given back, and leave a fresh counter with a bound session |
| ConnectionDng.OutermostBlockResets | src/dNG/database/connection.py:337-354 | after nested blocks from outside, the context depth and the transaction counter are both back to 0 |
| ConnectionDng.OutermostBlockActs | src/dNG/database/connection.py:341-365 | the whole trace of nested blocks is the outermost block's: at most one commit or rollback and a balanced lock |
| ConnectionDng.EscapeLikeIsLiteral | src/dNG/database/connection.py:307-324 | the corrected escaping makes a backslash-escaped LIKE pattern match exactly the given value |
| ConnectionDng.EscapeLikeAgreesWithoutBackslash | src/dNG/database/connection.py:321-322 | for values without a backslash the escaping as written equals the corrected one |
| ConnectionDng.EscapeLikeAsWrittenCounterexample | src/dNG/database/connection.py:321-322 | as written, the value `\%` becomes a pattern with a wildcard, so it does not match only itself |
| ConnectionDng.ResolveSettings | src/dNG/database/connection.py:478-491 | corrected: merged credentials give exactly `DbUrl.WithCredentials`, which keeps the configured port; a missing URL raises ValueException |
| ConnectionDng.Resolve | src/dNG/database/connection.py:442-491 | a missing URL raises ValueException; the prefix defaults to `pas`; serialised iff threading is off; the back end name is the scheme before `+`; credentials are merged only into a URL without user and password when both settings exist, behind the scheme |
| ConnectionDng.ResolveSettingsAsWritten | src/dNG/database/connection.py:478-491 | as written, merged credentials give exactly `DbUrl.WithCredentialsAsWritten`, the URL without the port; a missing URL raises ValueException |
| ConnectionDng.ResolveSettingsKeepsPort | src/dNG/database/connection.py:478-491 | the corrected settings differ from the as-written ones only in the SQLAlchemy URL, only when credentials are merged into a URL with a port, and then by `:port` inserted after the host |
| DbUrl.QueryAndFragment | src/dNG/database/connection.py:487-488 | `?query` and `#fragment` are appended each only when not empty |
| DbUrl.HostPort | src/dNG/database/connection.py:480-485 | the host alone without a port; host, `:` and the port's digits otherwise |
| DbUrl.PortDroppedAsWritten | src/dNG/database/connection.py:480-485 | as written, the credentials URL does not depend on the configured port |
| DbUrl.PortDroppedExample | src/dNG/pas/database/connection.py:420-433 | `pg://db:5433/x` with user `u` and password `p` becomes `pg://u:p@db/x` as written and `pg://u:p@db:5433/x` corrected |
| DbUrl.WithCredentialsKeepsPort | src/dNG/database/connection.py:480-488 | the corrected URL equals the as-written one without a port; with one, it is the as-written URL up to the end of the host, then `:` and the port's digits, then the rest of the as-written URL |
| DbUrl.BackendName | src/dNG/database/connection.py:472 | the back end name is the longest prefix of the scheme without `+`: the whole scheme, or the part before its first `+` |
| ConnectionPas.TransactionDepth | src/dNG/pas/database/connection.py:308-316 | the -1 sentinel and any other negative counter read as depth 0; a non-negative counter is its own depth |
| ConnectionPas.Acquire | src/dNG/pas/database/connection.py:377-386 | the lock is taken exactly in serialised mode |
| ConnectionPas.Release | src/dNG/pas/database/connection.py:503-511 | the lock is given back exactly in serialised mode |
| ConnectionPas.Begin | src/dNG/pas/database/connection.py:253-268 | from -1 the counter jumps to 1 without a native call; from 0 on, one native begin (a SAVEPOINT iff nesting is on) and plus 1; the call raises exactly when that native begin fails, and then the counter is left as it was; otherwise the depth grows by 1 |
| ConnectionPas.Commit | src/dNG/pas/database/connection.py:272-291 | nothing when no transaction is open; otherwise one native commit and the depth drops by 1 unless the commit raises |
| ConnectionPas.Rollback | src/dNG/pas/database/connection.py:345-370 | nothing when no transaction is open; without native nesting every open level is rolled back and the counter returns to -1; it raises exactly when one of its native rollbacks fails, which is the last call of the trace; a failing call of the unwinding loop leaves the counter as it was, a failing final rollback after the loop leaves it at 1 |
| ConnectionPas.Enter | src/dNG/pas/database/connection.py:167-195 | the lock is taken on every entry and given back when the entry fails; only an idle connection begins a transaction and counts the context |
| ConnectionPas.Finish | src/dNG/pas/database/connection.py:214-227 | the last exit commits iff clean with a transaction open and rolls back on an exception; an error is logged exactly when the native call fails with a transaction open; a failing commit is followed by one rollback, and the exit raises exactly when a clean exit's commit and that rollback both fail; a failing rollback after an exception never raises |
| ConnectionPas.Exit | src/dNG/pas/database/connection.py:198-233 | corrected exit: exactly one release in serialised mode, last in the trace, whatever the commit or rollback does; no acquisition |
| ConnectionPas.ExitAgreesAsWritten | src/dNG/pas/database/connection.py:198-233 | the corrected exit does what the exit as written does wherever that does not raise, and otherwise only adds the release |
| ConnectionPas.ExitLockFree | src/dNG/pas/database/connection.py:214-227 | the commit or rollback part of an exit never touches the lock, so the corrected exit differs from the as-written one only by its release |
| ConnectionPas.ExitAsWrittenKeepsLock | src/dNG/pas/database/connection.py:226-233 | as written, a failing commit whose fallback rollback fails raises before the release, so the lock stays held |
| ConnectionPas.OpenTransactionUntouched | src/dNG/pas/database/connection.py:181-216 | a block over an open transaction with no context neither begins nor commits nor rolls back |
| ConnectionPas.FreshBlock | src/dNG/pas/database/connection.py:167-233 | a clean block on a fresh connection reaches depth 1, commits once and returns to -1 with a balanced lock |
| ConnectionPas.BeginsFromNone | src/dNG/pas/database/connection.py:261-267 | n begins from -1 reach depth n with n − 1 native begins |
| ConnectionPas.BeginsFromOpen | src/dNG/pas/database/connection.py:261-267 | n begins from an open counter add n with n native begins of the configured kind |
| ConnectionPas.RollbackUnwinds | src/dNG/pas/database/connection.py:359-370 | after n > 1 begins without native nesting one rollback issues n native rollbacks and ends at -1 |
| ConnectionPas.ResolveSettings | src/dNG/pas/database/connection.py:405-433 | corrected: the configured URL is kept with `[rewrite]path_base[/rewrite]` replaced; merged credentials give exactly `DbUrl.WithCredentials`, which keeps the configured port; a missing URL raises ValueException |
| ConnectionPas.Resolve | src/dNG/pas/database/connection.py:390-433 | a missing URL raises ValueException; the prefix defaults to `pas`; serialised iff `pas_database_threaded` is present and false; credentials are merged only into a URL without user and password, behind the scheme; otherwise the URL is copied |
| ConnectionPas.ResolveSettingsAsWritten | src/dNG/pas/database/connection.py:405-433 | as written, the configured URL is kept with `[rewrite]path_base[/rewrite]` replaced, and merged credentials give exactly `DbUrl.WithCredentialsAsWritten`, the URL without the port; a missing URL raises ValueException |
| ConnectionPas.ResolveSettingsKeepsPort | src/dNG/pas/database/connection.py:418-433 | the corrected settings differ from the as-written ones only in the SQLAlchemy URL, only when credentials are merged into a URL with a port, and then by `:port` inserted after the host |
| ConnectionScripts.TransactionDepth | scripts/dNG/pas/database/connection.py:180-188 | never negative: equal to the counter whenever the counter is valid, and 1 for a negative counter |
| ConnectionScripts.Begin | scripts/dNG/pas/database/connection.py:131-145 | exactly one native begin, a SAVEPOINT iff a transaction is open and nesting is on; it raises exactly when that call fails, leaving the counter, and otherwise the counter grows by 1 |
| ConnectionScripts.Commit | scripts/dNG/pas/database/connection.py:149-164 | only with an open transaction: one native commit and minus 1; a failing commit raises and leaves the counter; without an open transaction nothing happens; the counter stays valid |
| ConnectionScripts.Rollback | scripts/dNG/pas/database/connection.py:213-229 | only with an open transaction: one rollback and minus 1, and a second native rollback when the counter reaches 0; it raises exactly when one of these calls fails: a failing first call leaves the counter, a failing second call comes after the decrement |
| ConnectionScripts.BeginsNative | scripts/dNG/pas/database/connection.py:131-145 | n begins make n native calls, each a SAVEPOINT iff a level is already open and nesting is on |
| ConnectionScripts.CommitsUnwind | scripts/dNG/pas/database/connection.py:149-164 | with n levels open, n commits lower the counter by n with exactly n native commits |
| ConnectionScripts.BeginsThenCommits | scripts/dNG/pas/database/connection.py:131-164 | n begins then n commits give the counter back, with one native commit per begin |
| ConnectionScripts.RollbacksUnwind | scripts/dNG/pas/database/connection.py:213-229 | with n levels open, n rollbacks lower the counter by n with one native rollback each, plus one when they reach 0 |
| ConnectionScripts.BeginsThenRollbacks | scripts/dNG/pas/database/connection.py:131-229 | n > 0 begins then n rollbacks from 0 end at 0 with n + 1 native rollbacks and nothing else |
| ConnectionScripts.Stripped | scripts/dNG/pas/database/connection.py:285-288 | every `pas_db_` setting is copied under its name without the prefix, and nothing else |
| ConnectionScripts.InsertCredentials | scripts/dNG/pas/database/connection.py:295-296 | `user:password@` is inserted right after the last `://` that follows the first character |
| ConnectionScripts.CredentialsRemovable | scripts/dNG/pas/database/connection.py:296 | removing the inserted credentials gives the URL back |
| ConnectionScripts.Derive | scripts/dNG/pas/database/connection.py:291-296 | a missing `url` raises RuntimeError; the prefix defaults to `pas`; the SQLAlchemy URL is the URL itself if it has `@` or lacks user or password, otherwise with credentials inserted |
| ConnectionScripts.LoadAsWritten | scripts/dNG/pas/database/connection.py:285-288 | as written the loaded settings are exactly the prefix-stripped copy: the `[path_base]` substitution is overwritten |
| ConnectionScripts.Load | scripts/dNG/pas/database/connection.py:285-288 | corrected: `url` is the configured URL with `[path_base]` replaced, every other setting is the prefix-stripped copy |
| ConnectionScripts.GetSettings | scripts/dNG/pas/database/connection.py:263-300 | corrected: a non-empty cache is returned unless refreshed; a load fails iff `pas_db_url` is missing; a successful load holds the substituted URL |
| ConnectionScripts.GetSettingsAsWritten | scripts/dNG/pas/database/connection.py:263-300 | as written: a non-empty cache is returned unless refreshed; a load fails iff `pas_db_url` is missing; a successful load holds the configured URL unsubstituted |
| ConnectionScripts.GetSettingsAgreesAsWritten | scripts/dNG/pas/database/connection.py:285-288 | where the configured URL has no `[path_base]`, the as-written and corrected loaders give the same settings |
| ConnectionScripts.PathBaseLostAsWritten | scripts/dNG/pas/database/connection.py:287-288 | a URL of `[path_base]` keeps the placeholder as written and becomes the base path corrected |
| ConnectionScripts.FailedLoadIsCached | scripts/dNG/pas/database/connection.py:276-291 | a load that raises for want of a URL leaves the copied settings cached, so the next call returns them without error |
| TxContext.Enter | src/pas_database/transaction_context.py:60-88 | an entry raises exactly when the outermost block cannot enter the connection context or the begin fails; a raising entry leaves the depth, a successful one counts it |
| TxContext.EnterCalls | src/pas_database/transaction_context.py:74-86 | only an entry at depth < 1 enters the connection context, and leaves it again exactly when its begin fails after entering; a successful entry has begun its level; nothing is committed or rolled back |
| TxContext.Exit | src/pas_database/transaction_context.py:90-111 | every exit decrements the depth and raises exactly when a clean exit's commit and its fallback rollback both fail |
| TxContext.ExitCalls | src/pas_database/transaction_context.py:90-111 | an exit commits exactly when clean, rolls back after an exception or a failed native call, and leaves the connection context with the body's exception exactly when the depth drops below 1; it never enters or begins |
| TxContext.With | src/pas_database/transaction_context.py:115-128 | a block, or a call through `wrap_callable`, restores the depth and never swallows the body's exception |
| TxContext.NestInner | src/pas_database/transaction_context.py:74-108 | inside an open block of the same object, k nested blocks make k begins and k commits (or rollbacks) and never touch the connection context |
| TxContext.Outermost | src/pas_database/transaction_context.py:74-108 | k nested blocks of one object not entered yet enter and exit the connection context once and pair every begin with a commit or rollback |
| TxContext.NestFreshRestores | src/pas_database/transaction_context.py:54-108 | a nest of fresh objects leaves its outermost object at depth 0 and lets the body's exception through |
| TxContext.NestFreshShare | src/pas_database/transaction_context.py:54-108 | by induction on the nest: k fresh blocks hold each call of one outermost block k times and no other call |
| TxContext.NestFreshCounts | src/pas_database/transaction_context.py:54-108 | with a fresh object per block, each call of one outermost block (enter, begin, commit or rollback, exit) occurs k times in the nest, and no other call occurs |
| TxContext.FreshInstancesPairs | src/pas_database/transaction_context.py:115-128 | k nested fresh objects, as `wrap_callable` creates, enter and exit the connection context k times and pair their k begins with k commits (or rollbacks) |
| TxContext.BeginFailureCleansUp | src/pas_database/transaction_context.py:83-86 | a failing begin in the outermost block exits the connection context again and leaves the depth at 0 |
| TxContextPas.Enter | src/dNG/pas/database/transaction_context.py:62-84 | the lock is taken and the depth counted before the begin; a failing begin gives the lock back but keeps the count |
| TxContextPas.Finish | src/dNG/pas/database/transaction_context.py:97-111 | commit when clean, rollback otherwise; on failure one fallback rollback and no decrement; the connection is unbound when the depth reaches 0 |
| TxContextPas.Exit | src/dNG/pas/database/transaction_context.py:87-114 | corrected exit: exactly one release, last, at every depth and whatever the native calls do |
| TxContextPas.ExitAsWrittenKeepsLock | src/dNG/pas/database/transaction_context.py:110-114 | as written, a commit and a fallback rollback that both fail skip the release |
| TxContextPas.With | src/dNG/pas/database/transaction_context.py:62-114 | corrected: a block takes the lock once and gives it back once, and never swallows the body's exception |
| TxContextPas.ExitAsWritten | src/dNG/pas/database/transaction_context.py:87-114 | as written, the exit raises exactly when a clean exit's commit and its fallback rollback both fail, and then gives nothing back; otherwise exactly one release |
| TxContextPas.WithAsWritten | src/dNG/pas/database/transaction_context.py:62-114 | as written, a block takes the lock once and gives it back once, except when a clean body's commit and its fallback rollback both fail: then it is never given back |
| TxContextPas.WithAgreesAsWritten | src/dNG/pas/database/transaction_context.py:62-114 | the corrected block is the as-written one, plus the missing release in the double-failure case |
| TxContextPas.CleanBlock | src/dNG/pas/database/transaction_context.py:62-114 | a block from a fresh context begins and commits one level and ends unbound at depth 0 |
| InstanceModern.Attach | src/pas_database/instance.py:309-359 | a missing row of a reloadable class (a key-store entry with an id, src/pas_database/instances/key_store.py:77-88) is fetched by its id and becomes persistent, and the fetch raises when no row has that id; a missing row of any other class is replaced by a new one when the class names a database class, and stays missing otherwise; a detached row is merged, loading unless persistent; a failing session call keeps the row |
| InstanceModern.Enter | src/pas_database/instance.py:362-405 | only the entry from depth 0 enters the connection context; a failing attach restores the depth and exits the connection context iff this entry entered it; a successful entry has a row iff it had one, the class is reloadable or it names a database class, and its row is known iff it was known or fetched by id; the code at src/dNG/database/instance.py:243-287 is the same |
| InstanceModern.EnsureTransaction | src/pas_database/instance.py:329-341 | begins only when the connection depth is below 1; it raises exactly when that begin fails, and then leaves the instance unmarked; otherwise it marks a wrapped transaction; the code at src/dNG/database/instance.py:210-223 is the same |
| InstanceModern.Exit | src/pas_database/instance.py:408-433 | only the exit to depth < 1 of a wrapped transaction commits or rolls back, keeping the mark after a failing commit; only that exit leaves the connection context; the code at src/dNG/database/instance.py:289-315 is the same |
| InstanceModern.Insert | src/pas_database/instance.py:517-524 | only a transient row is added; a missing row raises |
| InstanceModern.SaveBody | src/pas_database/instance.py:599-613 | the body of `save()` begins iff no transaction is open; it raises iff that begin fails or there is no row, and adds iff the begin succeeded and the row is transient |
| InstanceModern.SaveEntered | src/pas_database/instance.py:608-613 | the body of `save()` and its exit: the depth drops by one; a failing begin raises and the outermost exit leaves the connection context with that exception; a save from outside whose begin succeeded commits |
| InstanceModern.Save | src/pas_database/instance.py:599-613 | a row known on entry, or fetched by id then, is never added; a row is added exactly when the entry and the begin succeed and the row is transient or newly created; a failing begin raises without commit and, from outside, exits the connection context with the exception; a save from outside commits; the code at src/dNG/database/instance.py:518-533 is the same |
| InstanceModern.SaveFresh | src/pas_database/instance.py:599-613 | a fresh wrapper saved outside any transaction enters, begins, adds, commits and exits in that order |
| InstanceModern.SaveTwiceAddsOnce | src/pas_database/instance.py:599-613 | saving twice adds the row once |
| InstanceModern.DeleteEntered | src/pas_database/instance.py:297-304 | the body of `delete()` for a known row and its exit: the row is deleted iff the begin and the session delete succeed, and the delete is tried iff the begin succeeded; otherwise the call raises and the row stays |
| InstanceModern.Delete | src/pas_database/instance.py:286-306 | deleted iff the row is known, or is fetched by id on entry, and the entry, the begin and the session delete succeed; the row is then dropped; a raising begin or session delete raises and keeps the row; nothing is deleted otherwise |
| InstanceModern.DeleteTwice | src/pas_database/instance.py:286-306 | after a delete, deleting again deletes nothing and returns False, unless the class is reloadable: then the second delete fetches the row again by id and can only delete when that fetch succeeds |
| InstanceModern.InnerExitIsSilent | src/pas_database/instance.py:378-433 | entering twice and exiting once, for any class, neither commits nor leaves the connection context; the row is the fetched, new or missing one of the first entry |
| InstanceModern.ReloadOnFirstEntry | src/pas_database/instances/key_store.py:142-153 | a reloadable entry entered fresh in a thread fetches its row by id and is then never added by `save()`; when no row has that id, the entry raises and leaves the connection context |
| InstanceModern.GetSort | src/pas_database/instance.py:470-487 | no context gives the default; a known context gives its entry; anything else, or a missing default, gives an empty definition; the code at src/dNG/database/instance.py:362-380 is the same |
| InstanceModern.SetSort | src/pas_database/instance.py:642-657 | anything but a sort definition raises TypeException; the code at src/dNG/database/instance.py:545-560 is the same |
| InstanceModern.SortRoundTrip | src/pas_database/instance.py:470-487 | a stored definition is what its context resolves to, and other contexts resolve as before |
| InstanceModern.GetAttribute | src/pas_database/instance.py:436-449 | an attribute the row lacks reads as None |
| InstanceModern.GetAttributes | src/pas_database/instance.py:452-467 | one entry per requested name, each the attribute's value |
| InstanceModern.IsAttributeNone | src/pas_database/instance.py:551-570 | true iff some requested attribute reads as None |
| InstanceModern.IsAttributeNoneReadsAttributes | src/pas_database/instance.py:551-570 | agrees with a None among the values `get_data_attributes` returns |
| InstanceModern.SetAttribute | src/pas_database/instance.py:616-627 | only an attribute the row has is written; any other raises ValueException; nothing else changes |
| InstanceModern.SetAttributes | src/pas_database/instance.py:630-639 | succeeds iff every keyword names an attribute of the row, else ValueException; the columns stay the same |
| InstanceModern.SetThenGet | src/pas_database/instance.py:630-639 | what was written reads back, and the other attributes read as before |
| InstanceDng.Delete | src/dNG/database/instance.py:167-187 | `is_known()` is asked before any context: an unknown row touches nothing and gives False; a known row is deleted unless the entry, the begin or the session delete fails, and a known row that is not deleted raises |
| InstanceDng.DeleteAgreesOnKnownRows | src/dNG/database/instance.py:178-185 | for a known row the dNG delete is the current generation's |
| InstanceDng.UnknownRowCostsContext | src/dNG/database/instance.py:178-187 | for an unknown row the current generation enters and leaves a context where dNG does nothing |
| InstanceDng.SetAttributes | src/dNG/database/instance.py:535-542 | the base class always raises NotImplementedException |
| InstanceDng.WrapSetter | src/dNG/database/instance.py:685-708 | the generated setter is `set_data_attributes(key = value)` |
| InstanceDng.WrapGetter | src/dNG/database/instance.py:659-680 | the generated getter is `get_data_attributes(key)[key]` |
| InstanceDng.WrapGetterReads | src/dNG/database/instance.py:659-680 | the generated getter reads the column itself, None when the row lacks it |
| InstancePas.EnterBody | src/dNG/pas/database/instance.py:99-123 | begins and counts depth 1 only when neither the instance nor the connection has anything open, counts further only when already counting; a raising begin leaves depth, row and connection as they were; a missing row is fetched by id for a key-store entry with an id (src/dNG/pas/data/text/key_store.py:119-134), which raises when no row has it, and raises for any other class |
| InstancePas.Enter | src/dNG/pas/database/instance.py:91-124 | the lock is taken first on every entry and given back when the entry fails |
| InstancePas.EnterTakesLockOnce | src/dNG/pas/database/instance.py:91-124 | every entry takes the lock once and releases it only when it fails |
| InstancePas.EnterBeginFails | src/dNG/pas/database/instance.py:98-123 | a raising `begin()` leaves the depth, the row and the connection as they were, and the entry gives the lock back last |
| InstancePas.EnterFetchesById | src/dNG/pas/data/text/key_store.py:119-134 | a fresh key-store entry with an id fetches its row on entry and counts depth 1; when no row has that id, the entry raises and gives the lock back |
| InstancePas.Exit | src/dNG/pas/database/instance.py:127-156 | corrected exit: the last exit commits or rolls back with one fallback rollback and unbinds the connection; the lock is given back exactly once, last |
| InstancePas.ExitAsWrittenKeepsLock | src/dNG/pas/database/instance.py:149-156 | as written, a failing commit whose fallback rollback fails skips the release |
| InstancePas.ExitReleasesOnce | src/dNG/pas/database/instance.py:127-156 | every corrected exit releases once and acquires nothing |
| InstancePas.OpenTransactionUntouched | src/dNG/pas/database/instance.py:104-135 | entered over an open transaction, the depth stays 0 and the exit neither commits nor rolls back |
| InstancePas.FreshBlock | src/dNG/pas/database/instance.py:91-156 | a block on a known row from a fresh connection begins and commits one transaction and leaves the lock balanced |
| InstancePas.Cycle | src/dNG/pas/database/instance.py:91-156 | a failing entry is the whole block |
| InstancePas.IsKnown | src/dNG/pas/database/instance.py:267-276 | raises for a missing row; otherwise answers whether the row has an identity |
| InstancePas.Delete | src/dNG/pas/database/instance.py:216-237 | True iff the row is known; only then is it deleted and dropped |
| InstancePas.Insert | src/dNG/pas/database/instance.py:252-264 | a transient row is added only while the connection is bound; outside an instance block the add raises |
| InstancePas.Save | src/dNG/pas/database/instance.py:305-314 | a persistent row is never added |
| InstancePas.SaveOutsideBlockRaises | src/dNG/pas/database/instance.py:305-314 | a new row saved outside an instance block raises, because the `is_known()` block unbinds the connection |
| InstancePas.SaveInsideBlockAdds | src/dNG/pas/database/instance.py:305-314 | inside an instance block a new row is added without error |
| InstancePas.DataGet | src/dNG/pas/database/instance.py:159-202 | one entry per requested name; an attribute the row lacks reads as None |
| InstancePas.DataSet | src/dNG/pas/database/instance.py:205-213 | always raises, whatever it is given |
| InstancePas.Reload | src/dNG/pas/database/instance.py:293-301 | a wrapper without a row is refused; otherwise the row is refreshed, which raises outside an instance block |
| Rows.ConstructedClass | src/pas_database/instance.py:174-198 | the constructed class differs from the requested one iff the row names another loadable class, which is then constructed; the code at src/dNG/pas/database/instance.py:367-382 is the same |
| Rows.ConstructedClassIsFixpoint | src/pas_database/instance.py:191-195 | following the redirect once more lands on the same class |
| SqlFile.StripComments | src/pas_database/schema.py:62 | removing comment lines never lengthens the text |
| SqlFile.NoDashesNoChange | src/pas_database/schema.py:62 | a text without `--` is left unchanged |
| SqlFile.CommentLineRemoved | src/pas_database/schema.py:187 | a comment line goes together with its indentation, and its line break stays |
| SqlFile.BackslashRunMaximal | src/pas_database/schema.py:58 | the counted trailing run is all backslashes and cannot be extended |
| SqlFile.Collect | src/pas_database/schema.py:192-209 | every executed statement is stripped and non-empty, at most one per piece |
| SqlFile.CollectEscaped | src/pas_database/schema.py:195-197 | a piece with an odd trailing backslash run joins the statement being collected |
| SqlFile.CollectCompletes | src/pas_database/schema.py:198-209 | any other piece completes the statement, which runs when not blank |
| SqlFile.CollectUnescaped | src/pas_database/schema.py:190-209 | without escapes, each non-blank piece is one statement, stripped, in file order |
| SqlFile.CollectPair | src/pas_database/schema.py:193-209 | an escaped piece followed by a plain one make a single statement |
| SqlFile.EscapedSemicolon | src/pas_database/schema.py:197 | as written the escaped `;` is dropped from the joined statement; corrected it is kept |
| SqlFile.EscapedOdd | src/pas_database/schema.py:58 | a piece counts as escaped exactly when the backslash run at its end, before an optional final line break, is odd |
| SqlFile.EscapedSemicolonExample | src/pas_database/schema.py:197 | `x\;y` runs as `x\y` as written and as `x\;y` corrected |
| SqlFile.Statements | src/pas_database/schema.py:186-209 | the statements of a file are stripped and non-empty |
| SqlFile.ApplySqlFile | src/pas_database/schema.py:167-210 | corrected: an unreadable file raises IOException before any statement runs; otherwise the statements, escaped `;` kept, are stripped and non-empty; the code at src/dNG/database/schema.py:169-212 is the same; the code at src/dNG/pas/database/schema.py:207-255 is the same |
| SqlFile.ApplySqlFileAsWritten | src/pas_database/schema.py:167-210 | as written: an unreadable file raises IOException before any statement runs; otherwise the statements, escaped `;` dropped, are stripped and non-empty |
| SqlFile.ApplySqlFileAgrees | src/pas_database/schema.py:186-209 | a file in which no `;` is escaped runs the same statements as written and corrected: the non-blank stripped pieces in order |
| SqlFile.CollectAt | src/pas_database/schema.py:193-209 | one turn of the loop keeps the statements run so far plus those the rest of the loop runs |
| SqlFile.RunStatements | src/pas_database/schema.py:193-209 | the loop itself, with "" put back for an escaped `;` as the code does (";" corrected), executes the collected statements, and without escapes exactly the non-blank pieces |
| SchemaRunner.LatestVersion | src/pas_database/schema.py:245-266 | the highest version recorded for the name, which is recorded, and None iff the name has no row |
| SchemaRunner.LoadLatest | src/pas_database/schema.py:245-266 | NothingMatchedException iff the name has no row; otherwise a row of that name |
| SchemaRunner.CurrentVersion | src/pas_database/schema.py:112-116 | the latest recorded version, or 0 when the lookup raises |
| SchemaRunner.RecordLatest | src/pas_database/schema.py:245-266 | recording a row makes the name's latest version the larger of the old and the new; other names keep theirs |
| SchemaRunner.SchemaFiles | src/pas_database/schema.py:130-137 | exactly the listed names that match the pattern, ignoring case; none for an unreadable directory |
| SchemaRunner.LookupNamesListed | src/pas_database/schema.py:133 | the names looked up for a version pass the pattern; the `.sql`-only pattern refuses settings files |
| SchemaRunner.RequiredVersion | src/pas_database/schema.py:234 | an integer or bool requirement compares; anything else raises TypeError |
| SchemaRunner.Unmet | src/pas_database/schema.py:228-238 | an entry lacking `name` or `version_required` is ignored; otherwise it stops the upgrade iff the recorded version (0 if none) is below the requirement |
| SchemaRunner.DependenciesMet | src/pas_database/schema.py:215-241 | True iff no entry stops the upgrade; False names an entry that does; errors are TypeError; the code at src/dNG/database/schema.py:217-243 is the same |
| SchemaRunner.Proceed | src/pas_database/schema.py:288-313 | an unreadable or non-JSON settings file raises IOException; settings without a dependency list let the step run |
| SchemaRunner.Steps | src/pas_database/schema.py:283 | every step is in (current, target] with a script, in ascending order |
| SchemaRunner.StepsComplete | src/pas_database/schema.py:283 | no version in the range that has a script is skipped |
| SchemaRunner.NoSteps | src/pas_database/schema.py:283 | no steps for an empty range or without scripts |
| SchemaRunner.PreparedIsApplySqlFile | src/pas_database/schema.py:318 | running a step's script is `_apply_sql_file()` on it, as written for the as-written preparation and corrected for the corrected one: IOException when it cannot be opened |
| SchemaRunner.Upgrade | src/pas_database/schema.py:285-330 | the applied versions are a prefix of the steps, and the run stopped iff not all were applied; the code at src/dNG/database/schema.py:271-335 is the same |
| SchemaRunner.UpgradeStopsAtUnmet | src/pas_database/schema.py:305-313 | a stopped upgrade stopped at a step that has a settings file whose dependencies are unmet against the versions recorded before it |
| SchemaRunner.RecordAscending | src/pas_database/schema.py:318-323 | recording ascending steps above the current version leaves the last of them as the latest version |
| SchemaRunner.Apply | src/pas_database/schema.py:92-151 | TypeException iff the class is invalid; rows are only appended, all for the class; scripts run only when a version is recorded and below the target; the code at src/dNG/database/schema.py:100-153 is the same |
| SchemaRunner.ApplyVersion | src/pas_database/schema.py:92-151 | corrected (escaped `;` kept): the listed directory is filtered by the pattern; an unreadable directory gives no files |
| SchemaRunner.ApplyVersionAsWritten | src/pas_database/schema.py:92-151 | as written (escaped `;` dropped): the listed directory is filtered by the pattern; an unreadable directory gives no files |
| SchemaRunner.UpgradeScriptsIrrelevant | src/pas_database/schema.py:285-330 | the loop's failure, the versions it applies and whether it stops depend on which scripts can be opened, not on what they contain |
| SchemaRunner.ApplyScriptsIrrelevant | src/pas_database/schema.py:92-151 | the same for the whole run: the version table and the stop flag do not depend on the scripts' contents |
| SchemaRunner.ApplyVersionAgreesAsWritten | src/pas_database/schema.py:92-151 | the as-written and corrected runs fail alike and record the same versions; only the executed statements can differ |
| SchemaRunner.FreshSchemaRecordsTarget | src/pas_database/schema.py:140-145 | a schema without a recorded version gets its target recorded and runs no script |
| SchemaRunner.UpgradeRecordsSteps | src/pas_database/schema.py:318-323 | an upgrade that was not stopped recorded every step, in order |
| SchemaRunner.UpgradeReachesLastStep | src/pas_database/schema.py:283-323 | an upgrade that was not stopped leaves the schema at its highest step |
| SchemaRunner.NothingToApply | src/pas_database/schema.py:146-148 | with no script left in the range nothing changes |
| SchemaRunner.UpgradeLeavesNothing | src/pas_database/schema.py:283-323 | after a complete upgrade no version up to the target has a script left to run |
| SchemaRunner.NothingAfterLastStep | src/pas_database/schema.py:283 | past the last version of a range that has a script, or from the start of a range without one, no version up to the target has a script |
| SchemaRunner.ApplyVersionIdempotent | src/pas_database/schema.py:92-151 | applying the version a second time after a complete upgrade changes nothing |
| SchemaRunner.StepsExample | src/pas_database/schema.py:283 | scripts for 2, 3 and 5 from version 1 to 5 give the steps 2, 3, 5 |
| SchemaRunner.DependencyStopsExample | src/pas_database/schema.py:305-323 | an unmet dependency at step 3 keeps step 2 applied and recorded and raises nothing |
| SchemaRunner.SetDataAttributes | src/dNG/database/schema.py:85-97 | only `name`, `version` and `applied` are written; without them the row is unchanged |
| SchemaRunner.SetDataAttributesWritesColumnsOnly | src/dNG/database/schema.py:92-96 | other keywords make no difference, and writing twice is writing once |
| SchemaPas.Upgrade | src/dNG/pas/database/schema.py:159-177 | the only error is IOException; a successful run executes the first step's script first |
| SchemaPas.UpgradeFails | src/dNG/pas/database/schema.py:159-177 | the loop raises exactly when the script of some step cannot be opened |
| SchemaPas.Apply | src/dNG/pas/database/schema.py:101-187 | TypeException iff the class is invalid; never stopped by dependencies |
| SchemaPas.ApplyVersion | src/dNG/pas/database/schema.py:101-187 | corrected (escaped `;` kept): the same with the `.sql`-only listing |
| SchemaPas.ApplyVersionAsWritten | src/dNG/pas/database/schema.py:101-187 | as written (escaped `;` dropped): TypeException iff the class is invalid; never stopped by dependencies |
| SchemaPas.ApplyScriptsIrrelevant | src/dNG/pas/database/schema.py:149-177 | whether the run fails and the version table depend on which scripts can be opened, not on what they contain |
| SchemaPas.ApplyVersionAgreesAsWritten | src/dNG/pas/database/schema.py:101-187 | the as-written and corrected runs fail alike and record the same versions |
| SchemaPas.UpgradeAgrees | src/dNG/pas/database/schema.py:159-177 | without settings files the newer loop does what this one does |
| SchemaPas.NoSettingsListed | src/dNG/pas/database/schema.py:133 | the `.sql` listing holds no settings file |
| SchemaPas.ApplyAgreesOn | src/dNG/pas/database/schema.py:149-177 | over any listing without settings files both runners give the same outcome |
| SchemaPas.ApplyAgrees | src/dNG/pas/database/schema.py:131-177 | this runner is the newer one fed the `.sql` listing |
| ConditionDng.TypeOp | src/dNG/database/condition_definition.py:388-435 | exactly the known leaf types compile to a comparison |
| ConditionDng.OpType | src/dNG/database/condition_definition.py:49-98 | each comparison has a record type that compiles to it |
| ConditionDng.TypeOpInjective | src/dNG/database/condition_definition.py:49-98 | distinct known types compile to distinct comparisons |
| ConditionDng.New | src/dNG/database/condition_definition.py:103-119 | only AND or OR is accepted, else ValueException; a new definition is empty |
| ConditionDng.SetConcatenation | src/dNG/database/condition_definition.py:471-481 | only AND or OR, else ValueException; the records stay |
| ConditionDng.Add | src/dNG/database/condition_definition.py:134-310 | each scalar builder appends exactly one record, of that builder's type, with the attribute and value, and keeps the records before it |
| ConditionDng.AddList | src/dNG/database/condition_definition.py:262-277 | a list builder appends only for a non-empty list |
| ConditionDng.AddInList | src/dNG/database/condition_definition.py:262-277 | one record more iff the value is a non-empty list |
| ConditionDng.AddNotInListAsWritten | src/dNG/database/condition_definition.py:312-326 | as written, the not-in-list builder appends for a non-empty list |
| ConditionDng.NotInListAsWrittenIncludes | src/dNG/database/condition_definition.py:322-326 | as written, the not-in-list builder stores the in-list record, so it compiles to IN instead of NOT IN |
| ConditionDng.NotInListExample | src/dNG/database/condition_definition.py:312-326 | excluding id 1 compiles to `id IN (1)` as written and `id NOT IN (1)` corrected |
| ConditionDng.AddNotInList | src/dNG/database/condition_definition.py:312-326 | corrected: one not-in-list record more iff the value is a non-empty list |
| ConditionDng.AddSubCondition | src/dNG/database/condition_definition.py:330-345 | anything but a definition raises TypeException; an empty definition is ignored |
| ConditionDng.Clear | src/dNG/database/condition_definition.py:367-374 | the records go, the concatenation stays |
| ConditionDng.Combine | src/dNG/database/condition_definition.py:449-468 | no clauses give None, one gives itself, more are joined by AND or OR as configured |
| ConditionDng.Apply | src/dNG/database/condition_definition.py:348-364 | the query is unchanged when nothing compiles, otherwise it gets exactly one filter |
| ConditionDng.CompileMeaning | src/dNG/database/condition_definition.py:438-468 | a well-formed definition compiles to None iff it is empty, and otherwise to a clause that holds iff the records hold under the concatenation |
| ConditionDng.RecordMeaning | src/dNG/database/condition_definition.py:388-435 | a well-formed record, sub-conditions included, compiles to a clause that holds iff the record does |
| ConditionDng.ClausesAppend | src/dNG/database/condition_definition.py:449-452 | appending a record appends its clause, if any, to the compiled clauses |
| ConditionDng.AddCompiles | src/dNG/database/condition_definition.py:134-310 | a scalar builder adds exactly its comparison to the compiled clauses |
| ConditionPas.TypeOp | src/dNG/pas/database/condition_definition.py:129-169 | only the five comparisons compile; both LIKE types and unknown types give None |
| ConditionPas.Add | src/dNG/pas/database/condition_definition.py:207-295 | each builder appends one record with its own type, which compiles to the builder's comparison |
| ConditionPas.ClausesAppend | src/dNG/pas/database/condition_definition.py:185-191 | appending a record appends its clause, if any, to the clauses collected |
| ConditionPas.NullsAppendCompiling | src/dNG/pas/database/condition_definition.py:185-191 | as written, appending a record that compiles adds nothing to the clauses kept |
| ConditionPas.AddCompiles | src/dNG/pas/database/condition_definition.py:172-295 | a builder adds exactly its comparison to the clauses collected, and nothing to those the code as written keeps |
| ConditionPas.AddSubCondition | src/dNG/pas/database/condition_definition.py:297-311 | anything but a definition raises TypeException; an empty definition is appended all the same |
| ConditionPas.CompileAsWritten | src/dNG/pas/database/condition_definition.py:172-204 | as written, a definition compiles to nothing when at most one of its records compiles to None, a single kept None being returned as it is; otherwise to an AND or OR of at least two NULLs and nothing else |
| ConditionPas.CompileAsWrittenNeverHolds | src/dNG/pas/database/condition_definition.py:186-203 | as written, no row ever passes the filter a definition compiles to |
| ConditionPas.SingleNoneExample | src/dNG/pas/database/condition_definition.py:194 | a sub-condition holding one exact match gives one kept None, which the definition returns: no filter |
| ConditionPas.LeavesVanish | src/dNG/pas/database/condition_definition.py:186-190 | as written, records that all compile leave nothing to join |
| ConditionPas.Apply | src/dNG/pas/database/condition_definition.py:109-126 | the query is unchanged when nothing compiles, otherwise it gets exactly one filter |
| ConditionPas.CompileAgrees | src/dNG/pas/database/condition_definition.py:172-204 | with the intended filter this generation compiles as the newer one once types are renumbered |
| ConditionPas.LostFilterExample | src/dNG/pas/database/condition_definition.py:190 | an exact match on `id` filters nothing as written, and `id == 5` corrected |
| SortDefinition.ValidateDirection | src/pas_database/sort_definition.py:143-152 | only ASCENDING or DESCENDING (a Python `True` equals 1), else ValueException; the code at src/dNG/pas/database/sort_definition.py:130-138 is the same |
| SortDefinition.Append | src/pas_database/sort_definition.py:98-112 | after validation the pair goes last and the others keep their order; validity is kept |
| SortDefinition.Prepend | src/pas_database/sort_definition.py:125-139 | after validation the pair goes first and the others keep their order; validity is kept |
| SortDefinition.Clear | src/pas_database/sort_definition.py:115-122 | the list is empty |
| SortDefinition.Construct | src/pas_database/sort_definition.py:46-66 | succeeds iff every element is a valid pair, otherwise the first bad element's exception; input order is kept; the code at src/dNG/pas/database/sort_definition.py:52-74 is the same |
| SortDefinition.Apply | src/pas_database/sort_definition.py:68-95 | one term per tuple after the query's own, in list order, ascending only for ASCENDING |
| SortDefinition.ApplyAppend | src/pas_database/sort_definition.py:98-112 | an appended pair adds its term last |
| SortDefinition.ApplyPrepend | src/pas_database/sort_definition.py:125-139 | a prepended pair puts its term first |
| SortDefinition.GetList | src/dNG/pas/database/sort_definition.py:76-85 | the stored tuples, in order |
| FilterParser.TextOperator | src/pas_database/crud/instances/database_filter_parser.py:41 | an operator text is read back only as an operator that spells it |
| FilterParser.TextOperatorInverse | src/pas_database/crud/instances/database_filter_parser.py:41 | every operator is read back as itself |
| FilterParser.MatchKey | src/pas_database/crud/instances/database_filter_parser.py:41 | a match's name is a non-empty run of word characters |
| FilterParser.MatchKeyRenders | src/pas_database/crud/instances/database_filter_parser.py:41 | whatever matches is the key its groups spell, possibly with one final line break |
| FilterParser.MatchRender | src/pas_database/crud/instances/database_filter_parser.py:41 | every key the groups can spell is matched back into those groups |
| FilterParser.KeyType | src/pas_database/crud/instances/database_filter_parser.py:189-204 | the type table of bare, negated and operator keys; list values and negated comparisons raise InputValidationException where the code does |
| FilterParser.KeyTypeInverse | src/pas_database/crud/instances/database_filter_parser.py:189-204 | the record type determines the key form, so distinct forms never share a type |
| FilterParser.ParseKeyCondition | src/pas_database/crud/instances/database_filter_parser.py:169-204 | None for a None key; a key that does not match raises; the stored key is the whole key text |
| FilterParser.TypeBuilder | src/pas_database/crud/instances/database_filter_parser.py:73-85 | a scalar builder is found only for its own type |
| FilterParser.AddCondition | src/pas_database/crud/instances/database_filter_parser.py:62-85 | corrected (not-in-list stores its own type): exactly the matching builder appends; unknown types add nothing |
| FilterParser.AddConditionAsWritten | src/pas_database/crud/instances/database_filter_parser.py:62-85 | as written, a not-in-list key with a non-empty list appends an in-list record where the corrected one appends a not-in-list record; every other key adds what the corrected one adds |
| FilterParser.AndFold | src/pas_database/crud/instances/database_filter_parser.py:96-106 | fails iff some entry's key is refused; at most one record per entry |
| FilterParser.ParseAnd | src/pas_database/crud/instances/database_filter_parser.py:88-108 | an AND definition with at most one record per entry; fails iff some key is refused |
| FilterParser.AndFoldSnoc | src/pas_database/crud/instances/database_filter_parser.py:96-106 | the loop over the entries and one more is the loop over the entries followed by that entry's step |
| FilterParser.ParseAndSnoc | src/pas_database/crud/instances/database_filter_parser.py:88-108 | one plain entry more is one `_add_condition()` more on the definition of the others, or the key's refusal |
| FilterParser.ParseAndSingle | src/pas_database/crud/instances/database_filter_parser.py:88-108 | `{key: value}` parses to the key's condition added to an empty AND definition |
| FilterParser.OrStep | src/pas_database/crud/instances/database_filter_parser.py:125-141 | without a list key a plain entry raises; a nested definition is always accepted |
| FilterParser.ParseOrAsWritten | src/pas_database/crud/instances/database_filter_parser.py:111-150 | errors are input validation or TypeError |
| FilterParser.ParseAndAdd | src/pas_database/crud/instances/database_filter_parser.py:153-166 | a None key raises |
| FilterParser.ParseOr | src/pas_database/crud/instances/database_filter_parser.py:111-150 | corrected: the only errors are input validation and TypeError from the nested parse |
| FilterParser.OrFoldCollects | src/pas_database/crud/instances/database_filter_parser.py:136-141 | under an exact-match key the loop collects the scalars instead of adding them |
| FilterParser.OrOfScalars | src/pas_database/crud/instances/database_filter_parser.py:143-147 | as written, collected scalars make the parser raise TypeError; corrected, one value is an exact match and several an in-list match |
| FilterParser.OrOfScalarsExample | src/pas_database/crud/instances/database_filter_parser.py:143-147 | `{"id": [1, 2]}` raises as written and filters `id IN (1, 2)` corrected |
| FilterParser.TopLevelOrRefusesValues | src/pas_database/crud/instances/database_filter_parser.py:127-133 | without a key, a plain entry in the list raises InputValidationException |
| FilterParser.SetFilter | src/pas_database/crud/instances/database_filter_parser.py:46-59 | only a condition definition is accepted, else OperationNotSupportedException |
| FilterParser.EmptyFilter | src/pas_database/crud/instances/database_filter_parser.py:207-215 | a default OR definition, which compiles to nothing |
| KeyStore.Number | src/pas_database/instances/key_store.py:101-102 | an int or bool compares as a number; anything else does not |
| KeyStore.Before | src/pas_database/instances/key_store.py:101-102 | comparing a non-number with the clock raises TypeError |
| KeyStore.Window | src/pas_database/instances/key_store.py:91-105 | raises TypeError only for a non-numeric date that is compared; numeric dates always give an answer |
| KeyStore.WindowOnNumbers | src/pas_database/instances/key_store.py:101-102 | valid iff the start is 0 or before now, and the end is 0 or not before now |
| KeyStore.OpenEndedStaysValid | src/pas_database/instances/key_store.py:101-102 | an entry that has started and never ends stays valid at every later time |
| KeyStore.IsValid | src/pas_database/instances/key_store.py:91-105 | the window on the row's validity columns |
| KeyStore.New | src/pas_database/instances/key_store.py:62-71 | the id is the row's, None without a row |
| KeyStore.Reload | src/pas_database/instances/key_store.py:142-152 | IOException iff there is no row and no id; otherwise the stored row |
| KeyStore.FreshEntryNotReloadable | src/pas_database/instances/key_store.py:78-87 | a new entry is not reloadable and its reload raises IOException |
| KeyStore.ValueDict | src/pas_database/instances/key_store.py:109-125 | an empty dictionary for a None value; ValueException when decoding yields None |
| KeyStore.SetValueDict | src/pas_database/instances/key_store.py:129-139 | anything but a dictionary raises TypeException; a dictionary is stored encoded |
| KeyStore.SetDataAttribute | src/pas_database/instances/key_store.py:155-169 | a mapping written to `value` goes through the value dictionary; other writes set the attribute |
| KeyStore.ValueDictRoundTrip | src/pas_database/instances/key_store.py:109-139 | a dictionary stored through the setter reads back through the getter |
| KeyStore.ValueDictDng | src/dNG/data/text/key_store.py:89-100 | ValueException when decoding yields None |
| KeyStore.SetDataAttributesDng | src/dNG/data/text/key_store.py:151-165 | only the key, the two validity columns and the value are written |
| KeyStore.SetDataAttributesDngIgnoresOthers | src/dNG/data/text/key_store.py:161-164 | other keywords make no difference, and writing twice is writing once |
| KeyStore.SetValueDictDng | src/dNG/data/text/key_store.py:168-180 | anything but a dictionary raises TypeException; a dictionary is stored encoded |
| KeyStore.Truncate | src/pas_database/instances/key_store.py:191 | `int(time())` truncates toward zero |
| KeyStore.Delete | src/pas_database/instances/key_store.py:189-193 | a row survives iff it does not meet the condition |
| KeyStore.Purge | src/pas_database/instances/key_store.py:187-193 | the purge deletes exactly the rows whose positive end lies before the truncated clock |
| KeyStore.ValidNotEnded | src/pas_database/instances/key_store.py:101-102 | an entry that is valid now has not ended |
| KeyStore.PurgeKeepsValid | src/pas_database/instances/key_store.py:187-193 | the purge never deletes an entry `is_valid()` accepts |
| KeyStore.Load | src/pas_database/instances/key_store.py:173-205 | a missing row gives none; a row of another class raises ValueException; a row of the class gives its entry exactly when it is valid, and none when it is not |
| KeyStore.Find | src/pas_database/instances/key_store.py:220-222 | the first row whose column equals the value, None when there is none |
| KeyStore.Maintain | src/pas_database/instances/key_store.py:187-193 | the purge runs iff auto-maintenance is off and the draw is 0 |
| KeyStore.MaintainKeepsValid | src/pas_database/instances/key_store.py:187-193 | maintenance never removes a valid entry |
| KeyStore.LoadBy | src/pas_database/instances/key_store.py:209-249 | None raises NothingMatchedException, and so does a missing or invalid row; a row of another class raises ValueException; a valid first matching row gives its entry |
| KeyStore.LoadId | src/pas_database/instances/key_store.py:209-225 | a loaded entry has the requested id and is reloadable; the code at src/dNG/data/text/key_store.py:224-241 is the same |
| KeyStore.LoadKey | src/pas_database/instances/key_store.py:229-249 | a loaded entry has the requested key; the code at src/dNG/data/text/key_store.py:245-267 is the same |
| KeyStore.LoadKeyFindsValid | src/pas_database/instances/key_store.py:229-249 | with unique keys, a valid entry is found by its key even after maintenance |
| KeyStorePas.New | src/dNG/pas/data/text/key_store.py:50-64 | a given row is wrapped with its own id; without one, a new row is substituted that carries the fresh `uuid().hex` id of src/dNG/pas/database/instances/key_store.py:84, and the entry keeps it for reloading |
| KeyStorePas.FreshRow | src/dNG/pas/database/instances/key_store.py:75-85 | a new row carries the fresh id and no key, dates or value |
| KeyStorePas.Wrap | src/dNG/pas/data/text/key_store.py:58-64 | the entry holds the row and reloads by the row's id, so it is reloadable iff that id is set |
| KeyStorePas.IsValid | src/dNG/pas/data/text/key_store.py:100-116 | the window rule on the `_date` columns |
| KeyStorePas.FreshRowNotComparable | src/dNG/pas/data/text/key_store.py:112-113 | a new entry's unset dates cannot be compared with the clock |
| KeyStorePas.DataSetAsWritten | src/dNG/pas/data/text/key_store.py:67-81 | as written, both dates land in `validity_date`, the end date last |
| KeyStorePas.DataSetAsWrittenKeepsValidity | src/dNG/pas/data/text/key_store.py:78-79 | as written, `data_set()` never changes whether the entry is valid |
| KeyStorePas.DataSet | src/dNG/pas/data/text/key_store.py:67-81 | corrected: each given column is written, everything else stays |
| KeyStorePas.DataSetDecidesValidity | src/dNG/pas/data/text/key_store.py:78-79 | corrected, the dates given decide validity by the window rule |
| KeyStorePas.DataSetExample | src/dNG/pas/data/text/key_store.py:78-79 | an entry ended at 5 is still valid at 10 as written and no longer valid corrected |
| KeyStorePas.PurgeAsWritten | src/dNG/pas/data/text/key_store.py:154 | as written, the purge deletes every row whose end is at or before the truncated clock |
| KeyStorePas.PurgeAsWrittenDeletesValid | src/dNG/pas/data/text/key_store.py:154 | as written, an entry valid for ever (end 0) is purged |
| KeyStorePas.Purge | src/dNG/pas/data/text/key_store.py:150-156 | corrected: exactly the rows whose positive end lies before the truncated clock |
| KeyStorePas.PurgeKeepsValid | src/dNG/pas/data/text/key_store.py:150-156 | the corrected purge never deletes a valid entry |
| KeyStorePas.Load | src/dNG/pas/data/text/key_store.py:139-161 | a missing or invalid row gives None, a valid row its entry; a row whose dates do not compare raises TypeError |
| KeyStorePas.LoadId | src/dNG/pas/data/text/key_store.py:165-176 | nothing found is None, not an exception; a loaded entry has the id |
| KeyStorePas.LoadKey | src/dNG/pas/data/text/key_store.py:180-191 | nothing found is None; a loaded entry has the key |
| KeyStorePas.LoadKeyFindsValid | src/dNG/pas/data/text/key_store.py:180-191 | with unique keys, a valid entry is what `load_key()` gives for its key |
| KeyStorePas.LoadIdReloadable | src/dNG/pas/data/text/key_store.py:165-176 | an entry `load_id()` gives for an id other than None is reloadable by that id |

## Left out

- The SQLAlchemy engine, session, query and `inspect()` are not executed. A native call is a trace event. A row is one of the states transient, pending, persistent or detached.
- Thread-local storage, the weak singleton cache and the destructors are left out. Each model is the state of one thread.
- `ThreadLock` time-outs are a failing acquisition where the source has one (`ConnectionPas.Enter`'s `lockFails`); the `InstanceLock` around attribute access is left out. The serialisation lock is a pair of acquire and release events.
- Logging is left out. A swallowed exception is the event `ErrorLogged` where the protocol logs it.
- `InteractiveCli` output in the schema runners is left out.
- Settings files, `Settings.get`, `os.access`, `os.listdir`, `File`, JSON decoding and `urlsplit` are not executed. Their results are parameters: a map of settings, an optional list of names, a map of script texts, a map of decoded settings, a URL-parts record.
- `time()` is the parameter `now`. The maintenance draw `randrange(0, 3)` and the auto-maintenance setting are parameters of `KeyStore.Maintain`.
- `optimize_random` after a purge is left out; it only reorganises the table.
- Python's `\w`, `\d` and `re.I` are read as ASCII. `\s` and `str.strip()` use Unicode's white space.
- `Binary.utf8` and `Binary.str` leave a string as it is. Byte strings are not modelled.
- Only string dependency names are modelled. `version_required` values other than int and bool raise TypeError.
- `_get_db_column` and `get_db_column` (resolving an attribute name to a column) are left out. Compiled clauses and sort terms name the attribute.
- A sub-condition is captured by value. Later changes to a shared definition object are not seen.
- The base parser's `_parse()` is left out. Its results (nested definition or plain value) are given to the filter parser.
- src/pas_database/connection.py and src/pas_database/condition_definition.py are not part of this model. The current generation reaches them only through connection events and through the dNG condition definition.
- The `with self` blocks around key-store reads and around `data_get` are left out. Their traces are those of `InstancePas.Cycle` and `InstanceModern.Enter`/`Exit`.
- `TracedException` of the oldest generation appears as `NotImplementedException` in `InstancePas.DataSet` and as a raised step in `InstancePas.Reload`.
- `IOException` stands for `TracedException` in `KeyStore.Reload` for the oldest key store.
- InstanceModern.SetAttributes: does not model the attributes written before an unknown keyword raises. Those writes go to a row the caller sees failing.
- KeyStore.Number: a float in a validity column is not modelled. Only int and bool compare numerically.
- KeyStore.Reload: the lock of the oldest `_reload` is left out. A failing database refresh is `BackendError`.
- SchemaRunner.Apply: the `HookContext` around the branch and the `TransactionContext` around the loop are left out. A raised error leaves the table as it was before the call.
- InstancePas.Cycle: its entry never fails and its class cannot fetch a missing row by id. `EnterBody`, `EnterBeginFails` and `EnterFetchesById` state those paths of the entry on their own.
- InstancePas.IsKnown: the block it opens is entered as in `Cycle`, so a missing row always raises; a key-store entry with an id would fetch it there.
- InstancePas.Delete: the blocks it opens are entered as in `Cycle`.
- InstancePas.Save: its blocks are entered as in `Cycle`. It states only that a persistent row is never added. The remaining paths are stated by `SaveOutsideBlockRaises` and `SaveInsideBlockAdds`.
- FilterParser.ParseOrAsWritten: states only the kinds of error. The failure itself is stated by `OrOfScalars` and `OrOfScalarsExample`.
- FilterParser.ParseOr: states only the kinds of error. What it builds for collected values is stated by `OrOfScalars`.
- ConnectionDng.ResolveSettings: keeps the configured port, which the source drops. `ResolveSettingsAsWritten` is the source's URL, and `ResolveSettingsKeepsPort` states the difference.
- ConnectionPas.ResolveSettings: keeps the configured port, which the source drops. `ResolveSettingsAsWritten` is the source's URL, and `ResolveSettingsKeepsPort` states the difference.
- ConnectionScripts.GetSettings: keeps the `[path_base]` substitution that the source overwrites. `GetSettingsAsWritten` is the source's loader, and `GetSettingsAgreesAsWritten` states where they agree.
- ConnectionScripts.InsertCredentials: inserts the user and password literally. The source formats them into the replacement template of `re.sub`, so a `\` in them is read as an escape or a group reference, and a bad escape raises.
- SqlFile.ApplySqlFile: keeps the escaped `;` that the source drops. `ApplySqlFileAsWritten` is the source's, and `ApplySqlFileAgrees` states where they agree.
- SchemaRunner.ApplyVersion: runs the scripts with the escaped `;` kept. `ApplyVersionAsWritten` runs them as the source does, and `ApplyVersionAgreesAsWritten` states that only the executed statements differ.
- SchemaPas.ApplyVersion: runs the scripts with the escaped `;` kept. `ApplyVersionAsWritten` runs them as the source does, and `ApplyVersionAgreesAsWritten` states that only the executed statements differ.
- TxContextPas.With: releases the lock on every exit. `WithAsWritten` is the source's block, and `WithAgreesAsWritten` states the difference.
- FilterParser.AddCondition: stores the not-in-list type for a not-in-list key. `AddConditionAsWritten` stores the in-list type as the source does. `ParseAnd`, `ParseOr` and `ParseOrAsWritten` build on the corrected one.
- InstanceModern.Delete: when the call raises, `delete()` returns nothing. `deleted` then only records whether the row was deleted in the session: a raising exit can follow a delete, while a raising begin or session delete leaves the row.
- ConnectionPas.Finish: a failing commit or rollback is its first native call. A later call of the unwinding loop can fail alike; `ConnectionPas.Rollback` states that case.
- KeyStorePas.Load: the random purge inside `_load` (src/dNG/pas/data/text/key_store.py:152-154) is not part of it. The row is fetched before the purge, so the purge cannot change the result; `KeyStorePas.PurgeAsWritten` models the purge itself.
- The CLI tools, plugins, CRUD glue, ORM table declarations, iterators, date-time types, autoloading maps and exception classes are outside the modelled core.

## Findings

| source | as written | input that shows it | evidently intended | confidence | as-written member | corrected member |
|---|---|---|---|---|---|---|
| src/dNG/database/connection.py:480-485 | the URL with credentials is rebuilt from scheme, host and path; the port is dropped (the same at src/dNG/pas/database/connection.py:420-425) | `pg://db:5433/x` with user `u` and password `p` gives `pg://u:p@db/x` | keep `:5433` after the host | not executed | DbUrl.PortDroppedExample | DbUrl.WithCredentialsKeepsPort |
| src/dNG/database/connection.py:321-322 | `%` and `_` are escaped with `\`, but `\` itself is not | the value `\%` becomes `\\%`, a literal backslash followed by a wildcard | escape `\` first, so the pattern matches only the value | not executed | ConnectionDng.EscapeLikeAsWrittenCounterexample | ConnectionDng.EscapeLikeIsLiteral |
| src/dNG/pas/database/connection.py:226-233 | when the commit fails and the fallback rollback raises, `_release()` is never reached | serialised mode, clean exit, commit and rollback both raise | give the lock back on every exit | not executed | ConnectionPas.ExitAsWrittenKeepsLock | ConnectionPas.Exit |
| src/dNG/pas/database/transaction_context.py:110-114 | a raising fallback rollback skips `Connection._release()` | clean exit, commit and rollback both raise | release on every exit | not executed | TxContextPas.ExitAsWrittenKeepsLock | TxContextPas.Exit |
| src/dNG/pas/database/instance.py:149-156 | a raising fallback rollback skips `Connection._release()` | clean exit at depth 1, commit and rollback both raise | release on every exit | not executed | InstancePas.ExitAsWrittenKeepsLock | InstancePas.ExitReleasesOnce |
| scripts/dNG/pas/database/connection.py:287-288 | the `[path_base]` substitution into `url` is overwritten by the plain prefix-stripped copy | `pas_db_url` of `[path_base]` keeps the placeholder | `url` holds the substituted path | not executed | ConnectionScripts.PathBaseLostAsWritten | ConnectionScripts.Load |
| src/pas_database/schema.py:197 | a piece ending in an escaped `;` is joined without the `;` (the same at src/dNG/database/schema.py:199 and src/dNG/pas/database/schema.py:239) | `x\;y` runs as `x\y` | run `x\;y`, keeping the escaped `;` | not executed | SqlFile.EscapedSemicolonExample | SqlFile.Statements |
| src/dNG/database/condition_definition.py:323 | the not-in-list builder stores the in-list type | excluding `[1]` from `id` filters `id IN (1)` | store the not-in-list type | not executed | ConditionDng.NotInListAsWrittenIncludes | ConditionDng.AddNotInList |
| src/dNG/pas/database/condition_definition.py:190 | `_get_conditions()` keeps only the clauses that are None | an exact match on `id` compiles to no filter | keep the clauses that are not None | not executed | ConditionPas.LostFilterExample | ConditionPas.CompileAgrees |
| src/pas_database/crud/instances/database_filter_parser.py:145-147 | the collected values are added under the key string rather than the parsed key definition, and indexing a string with `'key'` raises TypeError | `{"id": [1, 2]}` as an OR list | add an exact or in-list match on `id` | not executed | FilterParser.OrOfScalarsExample | FilterParser.OrOfScalars |
| src/dNG/pas/data/text/key_store.py:78-79 | both dates are written to `validity_date`, which no column backs | an entry valid for ever, then `data_set(validity_end_date = 5)`, is still valid at 10 | write each date to its own column | not executed | KeyStorePas.DataSetExample | KeyStorePas.DataSetDecidesValidity |
| src/dNG/pas/data/text/key_store.py:154 | the purge deletes rows with `validity_end_date <= int(time())`, which includes the never-ending end 0 | start 0, end 0, now 10: valid, yet purged | delete only rows whose positive end lies in the past | not executed | KeyStorePas.PurgeAsWrittenDeletesValid | KeyStorePas.PurgeKeepsValid |

=== FILE: condition_dng.dfy ===
/** `ConditionDefinition` of src/dNG/database/condition_definition.py: a list of
    typed condition records, each a comparison of one attribute or a nested
    definition, joined by AND or OR.

    SQLAlchemy clauses are replaced by the abstract `Clause` datatype, and the
    column an attribute name resolves to is represented by the name itself. */
module ConditionDng {
  import opened Wrappers
  import opened Values

  /** Concatenations. */
  const And := 1
  const Or := 2

  /** Record types. */
  const TypeExactMatch := 1
  const TypeExactNoMatch := 2
  const TypeInListMatch := 3
  const TypeNotInListMatch := 4
  const TypeCaseSensitiveMatch := 5
  const TypeCaseSensitiveNoMatch := 6
  const TypeCaseInsensitiveMatch := 7
  const TypeCaseInsensitiveNoMatch := 8
  const TypeLessThanMatch := 9
  const TypeLessThanOrEqualMatch := 10
  const TypeGreaterThanMatch := 11
  const TypeGreaterThanOrEqualMatch := 12
  const TypeSubCondition := 13

  /** The column comparisons SQLAlchemy is asked for; the LIKE family always
      names `\` as its escape character. */
  datatype Op =
    | Eq | Ne | In | NotIn
    | Like | NotLike | ILike | NotILike
    | Lt | Le | Gt | Ge

  /** A compiled condition clause. */
  datatype Clause =
    /** `column <op> operand`. */
    | Compare(op: Op, column: string, operand: Value)
    /** `and_(*clauses)`. */
    | AllOf(clauses: seq<Clause>)
    /** `or_(*clauses)`. */
    | AnyOf(clauses: seq<Clause>)
    /** A Python `None` handed to `and_()` or `or_()`; SQL NULL, never true. */
    | NullLiteral

  /** One stored condition record. */
  datatype Record =
    | Leaf(kind: int, attribute: string, value: Value)
    | SubCondition(definition: Def)

  datatype Def = Def(concatenation: Value, conditions: seq<Record>)

  /** A fresh definition with the default OR concatenation. */
  const Empty := Def(VInt(Or), [])

  /** The comparison `_get_condition()` builds for a leaf type; None for a type
      it does not know. */
  function TypeOp(kind: int): (r: Option<Op>)
    ensures r.Some? <==> TypeExactMatch <= kind <= TypeGreaterThanOrEqualMatch
  {
    if kind == TypeCaseInsensitiveMatch then Some(ILike)
    else if kind == TypeCaseInsensitiveNoMatch then Some(NotILike)
    else if kind == TypeCaseSensitiveMatch then Some(Like)
    else if kind == TypeCaseSensitiveNoMatch then Some(NotLike)
    else if kind == TypeExactMatch then Some(Eq)
    else if kind == TypeExactNoMatch then Some(Ne)
    else if kind == TypeGreaterThanMatch then Some(Gt)
    else if kind == TypeGreaterThanOrEqualMatch then Some(Ge)
    else if kind == TypeInListMatch then Some(In)
    else if kind == TypeLessThanMatch then Some(Lt)
    else if kind == TypeLessThanOrEqualMatch then Some(Le)
    else if kind == TypeNotInListMatch then Some(NotIn)
    else None
  }

  /** The record type that compiles to a comparison: the inverse of `TypeOp`. */
  function OpType(op: Op): (kind: int)
    ensures TypeOp(kind) == Some(op)
  {
    match op
    case Eq => TypeExactMatch
    case Ne => TypeExactNoMatch
    case In => TypeInListMatch
    case NotIn => TypeNotInListMatch
    case Like => TypeCaseSensitiveMatch
    case NotLike => TypeCaseSensitiveNoMatch
    case ILike => TypeCaseInsensitiveMatch
    case NotILike => TypeCaseInsensitiveNoMatch
    case Lt => TypeLessThanMatch
    case Le => TypeLessThanOrEqualMatch
    case Gt => TypeGreaterThanMatch
    case Ge => TypeGreaterThanOrEqualMatch
  }

  /** Every known type compiles to its own comparison. */
  lemma TypeOpInjective(kind: int)
    requires TypeOp(kind).Some?
    ensures OpType(TypeOp(kind).value) == kind
  {
  }

  /** A concatenation `set_concatenation()` accepts. */
  predicate ValidConcatenation(c: Value) {
    EqualsInt(c, And) || EqualsInt(c, Or)
  }

  /** The invariant every builder keeps: a valid concatenation, leaves of a
      known type, and non-empty, themselves well-formed sub-conditions. */
  predicate WellFormed(d: Def)
    decreases d, 1
  {
    && ValidConcatenation(d.concatenation)
    && forall i :: 0 <= i < |d.conditions| ==> RecordWellFormed(d.conditions[i])
  }

  predicate RecordWellFormed(r: Record)
    decreases r
  {
    match r
    case Leaf(kind, _, _) => TypeOp(kind).Some?
    case SubCondition(s) => |s.conditions| > 0 && WellFormed(s)
  }

  /** `conditions_count`. */
  function Count(d: Def): nat {
    |d.conditions|
  }

  /** The constructor and `set_concatenation()`: only AND and OR are accepted. */
  function New(concatenation: Value): (r: Result<Def>)
    ensures r.Success? <==> ValidConcatenation(concatenation)
    ensures r.Failure? ==> r.error == ValueException
    ensures r.Success? ==> WellFormed(r.value) && Count(r.value) == 0
  {
    if ValidConcatenation(concatenation) then Success(Def(concatenation, [])) else Failure(ValueException)
  }

  /** `set_concatenation()` on an existing definition: the records stay. */
  function SetConcatenation(d: Def, concatenation: Value): (r: Result<Def>)
    ensures r.Success? <==> ValidConcatenation(concatenation)
    ensures r.Failure? ==> r.error == ValueException
    ensures r.Success? ==> r.value.conditions == d.conditions && r.value.concatenation == concatenation
    ensures r.Success? && WellFormed(d) ==> WellFormed(r.value)
  {
    if ValidConcatenation(concatenation) then Success(d.(concatenation := concatenation))
    else Failure(ValueException)
  }

  /** The ten builders that append a record unconditionally. */
  datatype Builder =
    | CaseInsensitiveMatch | CaseInsensitiveNoMatch
    | CaseSensitiveMatch | CaseSensitiveNoMatch
    | ExactMatch | ExactNoMatch
    | GreaterThanMatch | GreaterThanOrEqualMatch
    | LessThanMatch | LessThanOrEqualMatch

  /** The record type each builder stores. */
  function BuilderType(b: Builder): int {
    match b
    case CaseInsensitiveMatch => TypeCaseInsensitiveMatch
    case CaseInsensitiveNoMatch => TypeCaseInsensitiveNoMatch
    case CaseSensitiveMatch => TypeCaseSensitiveMatch
    case CaseSensitiveNoMatch => TypeCaseSensitiveNoMatch
    case ExactMatch => TypeExactMatch
    case ExactNoMatch => TypeExactNoMatch
    case GreaterThanMatch => TypeGreaterThanMatch
    case GreaterThanOrEqualMatch => TypeGreaterThanOrEqualMatch
    case LessThanMatch => TypeLessThanMatch
    case LessThanOrEqualMatch => TypeLessThanOrEqualMatch
  }

  /** `add_*_condition(attribute, value)` of the scalar builders: exactly one
      record of the builder's type goes last. */
  function Add(d: Def, b: Builder, attribute: string, value: Value): (r: Def)
    ensures r.concatenation == d.concatenation
    ensures Count(r) == Count(d) + 1 && r.conditions[..Count(d)] == d.conditions
    ensures var last := r.conditions[Count(d)];
      && last.Leaf? && last.attribute == attribute && last.value == value
      && last.kind == BuilderType(b) && TypeOp(last.kind).Some?
    ensures WellFormed(d) ==> WellFormed(r)
  {
    Def(d.concatenation, d.conditions + [Leaf(BuilderType(b), attribute, value)])
  }

  /** A non-empty Python list. */
  predicate NonEmptyList(v: Value) {
    v.VList? && |v.items| > 0
  }

  /** Appends a leaf only for a non-empty list value, as both list builders do. */
  function AddList(d: Def, kind: int, attribute: string, value: Value): (r: Def)
    ensures r.concatenation == d.concatenation
    ensures !NonEmptyList(value) ==> r == d
    ensures NonEmptyList(value) ==> r.conditions == d.conditions + [Leaf(kind, attribute, value)]
  {
    if NonEmptyList(value) then Def(d.concatenation, d.conditions + [Leaf(kind, attribute, value)]) else d
  }

  /** `add_in_list_match_condition()`. */
  function AddInList(d: Def, attribute: string, value: Value): (r: Def)
    ensures NonEmptyList(value) <==> Count(r) == Count(d) + 1
    ensures !NonEmptyList(value) ==> r == d
    ensures WellFormed(d) ==> WellFormed(r)
  {
    AddList(d, TypeInListMatch, attribute, value)
  }

  /** `add_not_in_list_match_condition()` as written: it stores the in-list
      type, so the record it appends is the one `AddInList` appends. */
  function AddNotInListAsWritten(d: Def, attribute: string, value: Value): (r: Def)
    ensures NonEmptyList(value) <==> Count(r) == Count(d) + 1
    ensures WellFormed(d) ==> WellFormed(r)
  {
    AddList(d, TypeInListMatch, attribute, value)
  }

  /** `add_not_in_list_match_condition()` storing `TYPE_NOT_IN_LIST_MATCH`,
      the type its name and the type table give it; the filter parser uses
      this one. */
  function AddNotInList(d: Def, attribute: string, value: Value): (r: Def)
    ensures NonEmptyList(value) <==> Count(r) == Count(d) + 1
    ensures !NonEmptyList(value) ==> r == d
    ensures WellFormed(d) ==> WellFormed(r)
  {
    AddList(d, TypeNotInListMatch, attribute, value)
  }

  /** The argument of `add_sub_condition()`: a definition or something else. */
  datatype SubArgument = Definition(definition: Def) | NotADefinition(other: Value)

  /** `add_sub_condition()`: anything but a definition raises TypeException; an
      empty definition is ignored. */
  function AddSubCondition(d: Def, arg: SubArgument): (r: Result<Def>)
    ensures r.Failure? <==> arg.NotADefinition?
    ensures r.Failure? ==> r.error == TypeException
    ensures r.Success? && Count(arg.definition) == 0 ==> r.value == d
    ensures r.Success? && Count(arg.definition) > 0 ==>
      r.value.conditions == d.conditions + [SubCondition(arg.definition)]
    ensures r.Success? && WellFormed(d) && WellFormed(arg.definition) ==> WellFormed(r.value)
  {
    match arg
    case NotADefinition(_) => Failure(TypeException)
    case Definition(s) =>
      if Count(s) > 0 then Success(Def(d.concatenation, d.conditions + [SubCondition(s)]))
      else Success(d)
  }

  /** `clear()`: the records go, the concatenation stays. */
  function Clear(d: Def): (r: Def)
    ensures Count(r) == 0 && r.concatenation == d.concatenation
    ensures WellFormed(d) ==> WellFormed(r)
  {
    d.(conditions := [])
  }

  /** `_get_conditions()`: the clauses of the records that compile, joined. */
  function Compile(d: Def): (r: Option<Clause>)
    decreases d, 2
  {
    Combine(d.concatenation, Clauses(d, 0))
  }

  /** The clauses of the records from index `i` on, dropping those that compile
      to None. */
  function Clauses(d: Def, i: nat): (r: seq<Clause>)
    requires i <= |d.conditions|
    ensures |r| <= |d.conditions| - i
    decreases d, 1, |d.conditions| - i
  {
    if i == |d.conditions| then []
    else
      var c := RecordClause(d.conditions[i]);
      (if c.Some? then [c.value] else []) + Clauses(d, i + 1)
  }

  /** `_get_condition()`: a sub-condition compiles with its own concatenation. */
  function RecordClause(r: Record): (c: Option<Clause>)
    decreases r
  {
    match r
    case SubCondition(s) => Compile(s)
    case Leaf(kind, attribute, value) =>
      match TypeOp(kind)
      case None => None
      case Some(op) => Some(Compare(op, attribute, value))
  }

  /** Zero clauses give None, one gives itself, more are joined by `and_` when
      the concatenation is AND and by `or_` otherwise. */
  function Combine(concatenation: Value, clauses: seq<Clause>): (r: Option<Clause>)
    ensures r.None? <==> |clauses| == 0
    ensures |clauses| == 1 ==> r == Some(clauses[0])
    ensures |clauses| > 1 ==> r.value.AllOf? == EqualsInt(concatenation, And)
  {
    if |clauses| == 0 then None
    else if |clauses| == 1 then Some(clauses[0])
    else if EqualsInt(concatenation, And) then Some(AllOf(clauses))
    else Some(AnyOf(clauses))
  }

  /** `apply()` on a query modelled by the filters it carries. */
  function Apply(d: Def, query: seq<Clause>): (r: seq<Clause>)
    ensures Compile(d).None? ==> r == query
    ensures Compile(d).Some? ==> |r| == |query| + 1 && r[..|query|] == query
  {
    match Compile(d)
    case None => query
    case Some(c) => query + [c]
  }

  /** The meaning of a clause for one row: `atom(op, column, operand)` is what
      one comparison gives on that row. */
  predicate Holds(c: Clause, atom: (Op, string, Value) -> bool)
    decreases c
  {
    match c
    case Compare(op, column, operand) => atom(op, column, operand)
    case AllOf(cs) => forall i :: 0 <= i < |cs| ==> Holds(cs[i], atom)
    case AnyOf(cs) => exists i :: 0 <= i < |cs| && Holds(cs[i], atom)
    case NullLiteral => false
  }

  /** The meaning the definition is meant to have, read off the records
      directly: with AND every record must hold, otherwise some record. */
  predicate Satisfies(d: Def, atom: (Op, string, Value) -> bool)
    requires WellFormed(d)
    decreases d, 1
  {
    if EqualsInt(d.concatenation, And) then
      forall i :: 0 <= i < |d.conditions| ==> RecordSatisfies(d.conditions[i], atom)
    else exists i :: 0 <= i < |d.conditions| && RecordSatisfies(d.conditions[i], atom)
  }

  predicate RecordSatisfies(r: Record, atom: (Op, string, Value) -> bool)
    requires RecordWellFormed(r)
    decreases r
  {
    match r
    case Leaf(kind, attribute, value) => atom(TypeOp(kind).value, attribute, value)
    case SubCondition(s) => Satisfies(s, atom)
  }

  /** In a well-formed definition every record from `i` on compiles, each to
      its own clause. */
  lemma {:induction false} ClausesAll(d: Def, i: nat)
    requires WellFormed(d) && i <= |d.conditions|
    ensures |Clauses(d, i)| == |d.conditions| - i
    ensures forall j :: i <= j < |d.conditions| ==>
      RecordClause(d.conditions[j]).Some? && Clauses(d, i)[j - i] == RecordClause(d.conditions[j]).value
    decreases d, 0, |d.conditions| - i
  {
    if i < |d.conditions| {
      RecordCompiles(d.conditions[i]);
      ClausesAll(d, i + 1);
    }
  }

  /** A well-formed record compiles to a clause. */
  lemma {:induction false} RecordCompiles(r: Record)
    requires RecordWellFormed(r)
    ensures RecordClause(r).Some?
    decreases r
  {
    if r.SubCondition? {
      ClausesAll(r.definition, 0);
    }
  }

  /** A well-formed definition compiles to None exactly when it is empty, and
      otherwise to a clause that holds exactly when the definition's records,
      joined by its concatenation, hold. */
  lemma {:induction false} CompileMeaning(d: Def, atom: (Op, string, Value) -> bool)
    requires WellFormed(d)
    ensures Compile(d).None? <==> Count(d) == 0
    ensures Compile(d).Some? ==> (Holds(Compile(d).value, atom) <==> Satisfies(d, atom))
    decreases d, 1
  {
    ClausesAll(d, 0);
    var cs := Clauses(d, 0);
    forall j | 0 <= j < |d.conditions|
      ensures Holds(cs[j], atom) <==> RecordSatisfies(d.conditions[j], atom)
    {
      RecordMeaning(d.conditions[j], atom);
    }
  }

  /** A well-formed record's clause holds exactly when the record does. */
  lemma {:induction false} RecordMeaning(r: Record, atom: (Op, string, Value) -> bool)
    requires RecordWellFormed(r)
    ensures RecordClause(r).Some?
    ensures Holds(RecordClause(r).value, atom) <==> RecordSatisfies(r, atom)
    decreases r, 0
  {
    if r.SubCondition? {
      CompileMeaning(r.definition, atom);
    }
  }

  /** Appending a record adds that record's clause, if any, to the compiled
      ones. */
  lemma {:induction false} ClausesAppend(d: Def, r: Record, i: nat)
    requires i <= |d.conditions|
    ensures var e := Def(d.concatenation, d.conditions + [r]);
      var c := RecordClause(r);
      Clauses(e, i) == Clauses(d, i) + (if c.Some? then [c.value] else [])
    decreases |d.conditions| - i
  {
    var e := Def(d.concatenation, d.conditions + [r]);
    if i < |d.conditions| {
      ClausesAppend(d, r, i + 1);
      assert e.conditions[i] == d.conditions[i];
    } else {
      assert e.conditions[i] == r;
    }
  }

  /** A scalar builder adds exactly its comparison to the compiled clauses. */
  lemma AddCompiles(d: Def, b: Builder, attribute: string, value: Value)
    ensures Clauses(Add(d, b, attribute, value), 0)
      == Clauses(d, 0) + [Compare(TypeOp(BuilderType(b)).value, attribute, value)]
  {
    ClausesAppend(d, Leaf(BuilderType(b), attribute, value), 0);
  }

  /** The not-in-list builder as written appends the same record as the in-list
      builder, so the query it builds keeps the listed values instead of
      excluding them; the corrected builder appends the excluding comparison. */
  lemma NotInListAsWrittenIncludes(d: Def, attribute: string, value: Value)
    requires NonEmptyList(value)
    ensures AddNotInListAsWritten(d, attribute, value) == AddInList(d, attribute, value)
    ensures Clauses(AddNotInListAsWritten(d, attribute, value), 0)
      == Clauses(d, 0) + [Compare(In, attribute, value)]
    ensures Clauses(AddNotInList(d, attribute, value), 0)
      == Clauses(d, 0) + [Compare(NotIn, attribute, value)]
  {
    ClausesAppend(d, Leaf(TypeInListMatch, attribute, value), 0);
    ClausesAppend(d, Leaf(TypeNotInListMatch, attribute, value), 0);
  }

  /** The concrete case: excluding id 1 from an empty definition. */
  lemma NotInListExample()
    ensures Compile(AddNotInListAsWritten(Empty, "id", VList([VInt(1)]))) == Some(Compare(In, "id", VList([VInt(1)])))
    ensures Compile(AddNotInList(Empty, "id", VList([VInt(1)]))) == Some(Compare(NotIn, "id", VList([VInt(1)])))
  {
    NotInListAsWrittenIncludes(Empty, "id", VList([VInt(1)]));
  }
}

=== FILE: condition_pas.dfy ===
/** The older `ConditionDefinition` of src/dNG/pas/database/condition_definition.py.
    Its records have the shape of ConditionDng's, with other type numbers, five
    scalar builders, and a `_get_conditions()` whose filter keeps the wrong
    clauses. */
module ConditionPas {
  import opened Wrappers
  import opened Values
  import D = ConditionDng

  /** Record types of this generation. */
  const TypeExactMatch := 1
  const TypeCaseSensitiveMatch := 2
  const TypeCaseInsensitiveMatch := 3
  const TypeLessThanMatch := 4
  const TypeLessThanOrEqualMatch := 5
  const TypeGreaterThanMatch := 6
  const TypeGreaterThanOrEqualMatch := 7
  const TypeSubCondition := 8

  /** The comparison `_get_condition()` builds for a leaf type: only the five
      comparisons; both LIKE types and everything else give None. */
  function TypeOp(kind: int): (r: Option<D.Op>)
    ensures r.Some? <==> kind == TypeExactMatch || TypeLessThanMatch <= kind <= TypeGreaterThanOrEqualMatch
    ensures r.Some? ==> r.value in {D.Eq, D.Lt, D.Le, D.Gt, D.Ge}
  {
    if kind == TypeExactMatch then Some(D.Eq)
    else if kind == TypeGreaterThanMatch then Some(D.Gt)
    else if kind == TypeGreaterThanOrEqualMatch then Some(D.Ge)
    else if kind == TypeLessThanMatch then Some(D.Lt)
    else if kind == TypeLessThanOrEqualMatch then Some(D.Le)
    else None
  }

  /** The five builders. */
  datatype Builder = ExactMatch | GreaterThanMatch | GreaterThanOrEqualMatch | LessThanMatch | LessThanOrEqualMatch

  function BuilderType(b: Builder): int {
    match b
    case ExactMatch => TypeExactMatch
    case GreaterThanMatch => TypeGreaterThanMatch
    case GreaterThanOrEqualMatch => TypeGreaterThanOrEqualMatch
    case LessThanMatch => TypeLessThanMatch
    case LessThanOrEqualMatch => TypeLessThanOrEqualMatch
  }

  /** The comparison each builder is named after. */
  function BuilderOp(b: Builder): D.Op {
    match b
    case ExactMatch => D.Eq
    case GreaterThanMatch => D.Gt
    case GreaterThanOrEqualMatch => D.Ge
    case LessThanMatch => D.Lt
    case LessThanOrEqualMatch => D.Le
  }

  /** `add_*_condition(attribute, value)`: one record of the builder's type goes
      last, and `_get_condition()` compiles it to the builder's comparison. */
  function Add(d: D.Def, b: Builder, attribute: string, value: Value): (r: D.Def)
    ensures r.concatenation == d.concatenation
    ensures |r.conditions| == |d.conditions| + 1 && r.conditions[..|d.conditions|] == d.conditions
    ensures var last := r.conditions[|d.conditions|];
      && last.Leaf? && last.attribute == attribute && last.value == value
      && last.kind == BuilderType(b) && TypeOp(last.kind) == Some(BuilderOp(b))
  {
    D.Def(d.concatenation, d.conditions + [D.Leaf(BuilderType(b), attribute, value)])
  }

  /** `add_sub_condition()`: anything but a definition raises TypeException; an
      empty definition is appended all the same. */
  function AddSubCondition(d: D.Def, arg: D.SubArgument): (r: Result<D.Def>)
    ensures r.Failure? <==> arg.NotADefinition?
    ensures r.Failure? ==> r.error == TypeException
    ensures r.Success? ==> (
      && |r.value.conditions| == |d.conditions| + 1
      && r.value.conditions[..|d.conditions|] == d.conditions
      && r.value.conditions[|d.conditions|] == D.SubCondition(arg.definition))
  {
    match arg
    case NotADefinition(_) => Failure(TypeException)
    case Definition(s) => Success(D.Def(d.concatenation, d.conditions + [D.SubCondition(s)]))
  }

  /** `_get_conditions()` as written: the filter keeps the clauses whose type is
      NoneType, so each kept entry is a None and every real clause is lost. A
      single kept entry is returned as it is, that is as None; two or more are
      handed to `and_()` or `or_()`, which read each as SQL NULL. */
  function CompileAsWritten(d: D.Def): (r: Option<D.Clause>)
    ensures r.None? <==> |NullsAsWritten(d, 0)| <= 1
    ensures r.Some? ==>
      && (r.value.AllOf? || r.value.AnyOf?)
      && |r.value.clauses| >= 2
      && forall j :: 0 <= j < |r.value.clauses| ==> r.value.clauses[j] == D.NullLiteral
    decreases d, 2
  {
    var kept := NullsAsWritten(d, 0);
    if |kept| == 1 then None else D.Combine(d.concatenation, kept)
  }

  /** As written, no row ever passes the filter a definition compiles to: it is
      either absent or a conjunction or disjunction of NULLs. */
  lemma CompileAsWrittenNeverHolds(d: D.Def, atom: (D.Op, string, Value) -> bool)
    ensures CompileAsWritten(d).Some? ==> !D.Holds(CompileAsWritten(d).value, atom)
  {
    var r := CompileAsWritten(d);
    if r.Some? {
      var cs := r.value.clauses;
      assert !D.Holds(cs[0], atom);
    }
  }

  /** A sub-condition holding a single exact match: its one record compiles to
      None as written, and that single None is what the whole definition gives. */
  lemma SingleNoneExample()
    ensures var inner := Add(D.Empty, ExactMatch, "id", VInt(5));
      CompileAsWritten(D.Def(VInt(D.And), [D.SubCondition(inner)])).None?
  {
    var inner := Add(D.Empty, ExactMatch, "id", VInt(5));
    var d := D.Def(VInt(D.And), [D.SubCondition(inner)]);
    LeavesVanish(inner, 0);
    assert RecordClauseAsWritten(d.conditions[0]).None?;
    assert NullsAsWritten(d, 1) == [];
    assert |NullsAsWritten(d, 0)| == 1;
  }

  function NullsAsWritten(d: D.Def, i: nat): (r: seq<D.Clause>)
    requires i <= |d.conditions|
    ensures forall j :: 0 <= j < |r| ==> r[j] == D.NullLiteral
    decreases d, 1, |d.conditions| - i
  {
    if i == |d.conditions| then []
    else (if RecordClauseAsWritten(d.conditions[i]).None? then [D.NullLiteral] else []) + NullsAsWritten(d, i + 1)
  }

  function RecordClauseAsWritten(r: D.Record): (c: Option<D.Clause>)
    decreases r
  {
    match r
    case SubCondition(s) => CompileAsWritten(s)
    case Leaf(kind, attribute, value) =>
      match TypeOp(kind)
      case None => None
      case Some(op) => Some(D.Compare(op, attribute, value))
  }

  /** As written, a definition whose records are all compiling leaves compiles
      to None, so `apply()` hands the query back without any filter. */
  lemma {:induction false} LeavesVanish(d: D.Def, i: nat)
    requires i <= |d.conditions|
    requires forall j :: i <= j < |d.conditions| ==> d.conditions[j].Leaf? && TypeOp(d.conditions[j].kind).Some?
    ensures NullsAsWritten(d, i) == []
    decreases |d.conditions| - i
  {
    if i < |d.conditions| {
      LeavesVanish(d, i + 1);
    }
  }

  /** `_get_conditions()` with the evidently intended filter: the clauses that
      are not None are kept. */
  function Compile(d: D.Def): (r: Option<D.Clause>)
    decreases d, 2
  {
    D.Combine(d.concatenation, Clauses(d, 0))
  }

  /** The clauses of the records from index `i` on, each compiled with this
      generation's operator table (`RecordClause` below); `ClausesAgree`
      relates them to the newer generation's. */
  function Clauses(d: D.Def, i: nat): (r: seq<D.Clause>)
    requires i <= |d.conditions|
    ensures |r| <= |d.conditions| - i
    decreases d, 1, |d.conditions| - i
  {
    if i == |d.conditions| then []
    else
      var c := RecordClause(d.conditions[i]);
      (if c.Some? then [c.value] else []) + Clauses(d, i + 1)
  }

  /** `_get_condition()` of this generation: a sub-condition compiles with its
      own concatenation, a leaf by this generation's operator table. */
  function RecordClause(r: D.Record): (c: Option<D.Clause>)
    decreases r
  {
    match r
    case SubCondition(s) => Compile(s)
    case Leaf(kind, attribute, value) =>
      match TypeOp(kind)
      case None => None
      case Some(op) => Some(D.Compare(op, attribute, value))
  }

  /** `apply()`: the query unchanged when the conditions compile to None,
      otherwise with exactly that one filter more. */
  function Apply(compiled: Option<D.Clause>, query: seq<D.Clause>): (r: seq<D.Clause>)
    ensures compiled.None? ==> r == query
    ensures compiled.Some? ==> |r| == |query| + 1 && r[..|query|] == query && r[|query|] == compiled.value
  {
    match compiled
    case None => query
    case Some(c) => query + [c]
  }

  /** The record with its type renumbered to the newer generation's table;
      types this generation does not compile map to 0, which neither does. */
  function RenumberType(kind: int): (k: int)
    ensures D.TypeOp(k) == TypeOp(kind)
  {
    if kind == TypeExactMatch then D.TypeExactMatch
    else if kind == TypeGreaterThanMatch then D.TypeGreaterThanMatch
    else if kind == TypeGreaterThanOrEqualMatch then D.TypeGreaterThanOrEqualMatch
    else if kind == TypeLessThanMatch then D.TypeLessThanMatch
    else if kind == TypeLessThanOrEqualMatch then D.TypeLessThanOrEqualMatch
    else 0
  }

  function Renumber(d: D.Def): (r: D.Def)
    ensures |r.conditions| == |d.conditions| && r.concatenation == d.concatenation
    decreases d, 1
  {
    D.Def(d.concatenation, RenumberFrom(d, 0))
  }

  function RenumberFrom(d: D.Def, i: nat): (r: seq<D.Record>)
    requires i <= |d.conditions|
    ensures |r| == |d.conditions| - i
    ensures forall j :: 0 <= j < |r| ==> r[j] == RenumberRecord(d.conditions[i + j])
    decreases d, 0, |d.conditions| - i
  {
    if i == |d.conditions| then [] else [RenumberRecord(d.conditions[i])] + RenumberFrom(d, i + 1)
  }

  function RenumberRecord(r: D.Record): (s: D.Record)
    decreases r
  {
    match r
    case Leaf(kind, attribute, value) => D.Leaf(RenumberType(kind), attribute, value)
    case SubCondition(sub) => D.SubCondition(Renumber(sub))
  }

  /** With the intended filter this generation compiles exactly as the newer
      one does once the types are renumbered. */
  lemma {:induction false} CompileAgrees(d: D.Def)
    ensures Compile(d) == D.Compile(Renumber(d))
    decreases d, 2
  {
    ClausesAgree(d, 0);
  }

  lemma {:induction false} ClausesAgree(d: D.Def, i: nat)
    requires i <= |d.conditions|
    ensures Clauses(d, i) == D.Clauses(Renumber(d), i)
    decreases d, 1, |d.conditions| - i
  {
    if i < |d.conditions| {
      RecordAgrees(d.conditions[i]);
      ClausesAgree(d, i + 1);
    }
  }

  lemma {:induction false} RecordAgrees(r: D.Record)
    ensures RecordClause(r) == D.RecordClause(RenumberRecord(r))
    decreases r
  {
    if r.SubCondition? {
      CompileAgrees(r.definition);
    }
  }

  /** Appending a record appends its clause, if it has one, to the intended
      compilation. */
  lemma {:induction false} ClausesAppend(d: D.Def, rec: D.Record, i: nat)
    requires i <= |d.conditions|
    ensures var c := RecordClause(rec);
      Clauses(D.Def(d.concatenation, d.conditions + [rec]), i) == Clauses(d, i) + (if c.Some? then [c.value] else [])
    decreases |d.conditions| - i
  {
    var e := D.Def(d.concatenation, d.conditions + [rec]);
    if i < |d.conditions| {
      ClausesAppend(d, rec, i + 1);
      assert e.conditions[i] == d.conditions[i];
    } else {
      assert e.conditions[i] == rec;
      assert Clauses(e, i + 1) == [];
    }
  }

  /** Appending a record that compiles adds nothing to what the filter as
      written keeps. */
  lemma {:induction false} NullsAppendCompiling(d: D.Def, rec: D.Record, i: nat)
    requires i <= |d.conditions| && RecordClauseAsWritten(rec).Some?
    ensures NullsAsWritten(D.Def(d.concatenation, d.conditions + [rec]), i) == NullsAsWritten(d, i)
    decreases |d.conditions| - i
  {
    var e := D.Def(d.concatenation, d.conditions + [rec]);
    if i < |d.conditions| {
      NullsAppendCompiling(d, rec, i + 1);
      assert e.conditions[i] == d.conditions[i];
    } else {
      assert e.conditions[i] == rec;
      assert NullsAsWritten(e, i + 1) == [];
    }
  }

  /** A builder adds exactly its comparison to the intended compilation, and
      nothing to what the filter as written keeps. */
  lemma AddCompiles(d: D.Def, b: Builder, attribute: string, value: Value)
    ensures Clauses(Add(d, b, attribute, value), 0) == Clauses(d, 0) + [D.Compare(BuilderOp(b), attribute, value)]
    ensures NullsAsWritten(Add(d, b, attribute, value), 0) == NullsAsWritten(d, 0)
  {
    var rec := D.Leaf(BuilderType(b), attribute, value);
    ClausesAppend(d, rec, 0);
    NullsAppendCompiling(d, rec, 0);
  }

  /** A single exact match: as written the definition filters nothing, while
      the intended one filters `id == 5`. */
  lemma LostFilterExample()
    ensures var d := Add(D.Empty, ExactMatch, "id", VInt(5));
      && CompileAsWritten(d).None?
      && Apply(CompileAsWritten(d), []) == []
      && Compile(d) == Some(D.Compare(D.Eq, "id", VInt(5)))
  {
    var d := Add(D.Empty, ExactMatch, "id", VInt(5));
    LeavesVanish(d, 0);
    assert RecordClause(d.conditions[0]) == Some(D.Compare(D.Eq, "id", VInt(5)));
    assert Clauses(d, 1) == [];
  }
}

=== FILE: connection_dng.dfy ===
/** The per-thread transaction counter, the `with connection:` protocol, the LIKE
    escaping and the settings of the connection in src/dNG/database/connection.py.

    The SQLAlchemy session is not executed: its calls are trace events. The
    counter starts at 0, the outermost `begin()` relies on the transaction the
    session opens by itself, and every further `begin()` opens a SAVEPOINT or a
    subtransaction. */
module ConnectionDng {
  import opened Wrappers
  import opened Trace
  import Text
  import DbUrl

  /** The per-thread state: `local.context_depth`, `local.transactions` and
      whether `local.sa_session` is set. */
  datatype Conn = Conn(contextDepth: int, transactions: int, hasSession: bool)

  /** `_ensure_thread_local()` for a thread that has not used the connection yet. */
  const Fresh := Conn(0, 0, false)

  /** The two settings the transaction logic reads:
      `pas_database_transaction_use_native_nested` and the serialised mode. */
  datatype Config = Config(nativeNested: bool, serialized: bool)

  /** The default of `pas_database_transaction_use_native_nested`. */
  const NativeNestedDefault := true

  /** One call: the state afterwards, what it did, and whether an exception escapes. */
  datatype Step = Step(conn: Conn, events: seq<Event>, raised: bool)

  /** The counters the connection keeps never go below zero. */
  predicate Valid(c: Conn) {
    c.contextDepth >= 0 && c.transactions >= 0
  }

  /** This thread holds the serialisation lock. */
  predicate HoldsLock(cfg: Config, c: Conn) {
    cfg.serialized && c.contextDepth >= 1
  }

  /** Lock acquisitions minus lock releases in a trace. */
  function LockBalance(t: seq<Event>): int {
    Count(t, LockAcquire) - Count(t, LockRelease)
  }

  /** Native SAVEPOINTs and subtransactions opened in a trace. */
  function NativeBegins(t: seq<Event>): nat {
    Count(t, SessionBeginNested) + Count(t, SessionBeginSub)
  }

  /** `get_transaction_depth()`. */
  function TransactionDepth(c: Conn): (d: int)
    ensures Valid(c) ==> d >= 0
    ensures d == 0 ==> c.transactions == 0
  {
    c.transactions
  }

  /** The native call a nested `begin()` makes: a SAVEPOINT with native
      nesting, a subtransaction without. */
  function NativeBegin(cfg: Config): (e: Event)
    ensures e == SessionBeginNested || e == SessionBeginSub
    ensures e == SessionBeginNested <==> cfg.nativeNested
  {
    if cfg.nativeNested then SessionBeginNested else SessionBeginSub
  }

  /** Which call of one operation raises: none, `_ensure_thread_local_session()`
      before any native call, or the native session call with the given index
      (counted from 0; an index past the operation's last native call means
      none raises). */
  datatype Fault = NoFault | SessionFault | NativeFault(call: nat)

  /** The fault makes an operation with `calls` native calls raise. */
  predicate Raises(f: Fault, calls: nat) {
    f.SessionFault? || (f.NativeFault? && f.call < calls)
  }

  /** `begin()`: the outermost call only counts (the session has opened its
      transaction already), every nested call opens a SAVEPOINT or, when native
      nesting is switched off, a subtransaction. A raising call escapes before
      the counter is raised. */
  function Begin(c: Conn, cfg: Config, f: Fault): (r: Step)
    ensures r.raised <==> Raises(f, if c.transactions > 0 then 1 else 0)
    ensures r.raised ==> r.conn.transactions == c.transactions
    ensures !r.raised ==> r.conn.transactions == c.transactions + 1 && r.conn.hasSession
    ensures r.conn.contextDepth == c.contextDepth
    ensures |r.events| <= 1 && (r.events != [] <==> c.transactions > 0 && !f.SessionFault?)
    ensures forall e :: e in r.events ==> e == NativeBegin(cfg)
  {
    if f.SessionFault? then Step(c, [], true)
    else
      var native := if c.transactions > 0 then [NativeBegin(cfg)] else [];
      if Raises(f, |native|) then Step(c.(hasSession := true), native, true)
      else Step(c.(transactions := c.transactions + 1, hasSession := true), native, false)
  }

  /** `commit()`: always one native commit; the counter never drops below zero,
      and a raising call escapes before it is lowered. */
  function Commit(c: Conn, f: Fault): (r: Step)
    ensures r.raised <==> Raises(f, 1)
    ensures r.events == if f.SessionFault? then [] else [SessionCommit]
    ensures r.conn.transactions ==
      if r.raised then c.transactions
      else if c.transactions > 0 then c.transactions - 1 else c.transactions
    ensures Valid(c) ==> Valid(r.conn)
  {
    if f.SessionFault? then Step(c, [], true)
    else if Raises(f, 1) then Step(c.(hasSession := true), [SessionCommit], true)
    else
      Step(c.(transactions := if c.transactions > 0 then c.transactions - 1 else c.transactions, hasSession := true),
           [SessionCommit], false)
  }

  /** The native rollbacks one `rollback()` makes: every level when native
      nesting is off and a nested level is open, one otherwise. */
  function RollbackCalls(c: Conn, cfg: Config): (m: nat)
    ensures m >= 1
    ensures m > 1 <==> !cfg.nativeNested && c.transactions > 1
  {
    if !cfg.nativeNested && c.transactions > 1 then c.transactions else 1
  }

  /** `rollback()`: without native nesting, a rollback of a nested level unwinds
      every level, one native rollback each, and leaves the counter at zero. A
      raising native rollback escapes: during the unwinding the counter is as it
      was, at the last call it has already been set to 1. */
  function Rollback(c: Conn, cfg: Config, f: Fault): (r: Step)
    ensures r.raised <==> Raises(f, RollbackCalls(c, cfg))
    ensures |r.events| == Count(r.events, SessionRollback)
    ensures |r.events| == if f.SessionFault? then 0 else if r.raised then f.call + 1 else RollbackCalls(c, cfg)
    ensures !r.raised ==>
              r.conn.transactions == if !cfg.nativeNested && c.transactions > 1 then 0
                                     else if c.transactions > 0 then c.transactions - 1 else c.transactions
    ensures r.raised ==>
              r.conn.transactions == if f.NativeFault? && RollbackCalls(c, cfg) > 1 && f.call == RollbackCalls(c, cfg) - 1
                                     then 1 else c.transactions
    ensures Valid(c) ==> Valid(r.conn)
  {
    var m := RollbackCalls(c, cfg);
    if f.SessionFault? then Step(c, [], true)
    else if Raises(f, m) then
      var t := if m > 1 && f.call == m - 1 then 1 else c.transactions;
      CountRepeat(SessionRollback, f.call + 1, SessionRollback);
      Step(c.(transactions := t, hasSession := true), Repeat(SessionRollback, f.call + 1), true)
    else
      var t := if m > 1 then 1 else c.transactions;
      CountRepeat(SessionRollback, m, SessionRollback);
      Step(c.(transactions := if t > 0 then t - 1 else t, hasSession := true), Repeat(SessionRollback, m), false)
  }

  /** `_enter_context()`: the outermost entry takes the lock in serialised mode;
      if making sure of a usable session fails, the lock is given back and the
      exception escapes. */
  function Enter(c: Conn, cfg: Config, sessionFails: bool): (r: Step)
    ensures r.raised == sessionFails
    ensures sessionFails ==> r.conn == c
    ensures !sessionFails ==> r.conn == c.(contextDepth := c.contextDepth + 1, hasSession := true)
    ensures LockAcquire in r.events <==> cfg.serialized && c.contextDepth < 1
    ensures SessionCommit !in r.events && SessionRollback !in r.events
  {
    var acquire := if c.contextDepth < 1 && cfg.serialized then [LockAcquire] else [];
    if sessionFails then
      var release := if c.contextDepth < 1 && cfg.serialized then [LockRelease] else [];
      Step(c, acquire + release, true)
    else
      Step(c.(contextDepth := c.contextDepth + 1, hasSession := true), acquire, false)
  }

  /** `_exit_context()`: the outermost exit commits a clean, active session and
      rolls back otherwise, then forgets every open level; a failing native call
      escapes and leaves the counter as it was. The lock is given back in any case. */
  function Exit(c: Conn, cfg: Config, exc: bool, active: bool, nativeFails: bool): (r: Step)
    ensures r.conn.contextDepth == c.contextDepth - 1 && r.conn.hasSession == c.hasSession
    ensures c.contextDepth > 1 ==> r.events == [] && r.conn == c.(contextDepth := c.contextDepth - 1) && !r.raised
    ensures c.contextDepth <= 1 && !r.raised ==> r.conn.transactions == 0
    ensures r.raised <==> c.contextDepth <= 1 && c.hasSession && nativeFails
    ensures SessionCommit in r.events <==> c.contextDepth <= 1 && c.hasSession && !exc && active
    ensures SessionRollback in r.events <==> c.contextDepth <= 1 && c.hasSession && (exc || !active)
    ensures LockRelease in r.events <==> cfg.serialized && c.contextDepth <= 1
    ensures LockAcquire !in r.events
  {
    var depth := c.contextDepth - 1;
    if depth >= 1 then
      Step(c.(contextDepth := depth), [], false)
    else
      var native := if c.hasSession then [if !exc && active then SessionCommit else SessionRollback] else [];
      var failed := c.hasSession && nativeFails;
      var release := if cfg.serialized then [LockRelease] else [];
      var after := if failed then c.(contextDepth := depth) else c.(contextDepth := depth, transactions := 0);
      Step(after, native + release, failed)
  }

  /** An entry changes the lock balance by whether it leaves the thread holding
      the lock: +1 for the outermost entry in serialised mode, 0 otherwise,
      also when it fails and gives the lock back. */
  lemma EnterBalance(c: Conn, cfg: Config, sessionFails: bool)
    requires c.contextDepth >= 0
    ensures var r := Enter(c, cfg, sessionFails);
      LockBalance(r.events) == (if HoldsLock(cfg, r.conn) then 1 else 0) - (if HoldsLock(cfg, c) then 1 else 0)
  {
    CountSingle(LockAcquire, LockAcquire);
    CountSingle(LockAcquire, LockRelease);
    CountSingle(LockRelease, LockRelease);
    CountConcat([LockAcquire], [LockRelease], LockAcquire);
    CountConcat([LockAcquire], [LockRelease], LockRelease);
  }

  /** An exit issues at most one native commit or rollback and changes the lock
      balance by -1 exactly when it leaves the lock it held. */
  lemma ExitBalance(c: Conn, cfg: Config, exc: bool, active: bool, nativeFails: bool)
    requires c.contextDepth >= 1
    ensures var r := Exit(c, cfg, exc, active, nativeFails);
      && Count(r.events, SessionCommit) + Count(r.events, SessionRollback) <= 1
      && LockBalance(r.events) == (if HoldsLock(cfg, r.conn) then 1 else 0) - (if HoldsLock(cfg, c) then 1 else 0)
  {
    if c.contextDepth <= 1 {
      var native := if c.hasSession then [if !exc && active then SessionCommit else SessionRollback] else [];
      var release := if cfg.serialized then [LockRelease] else [];
      assert Exit(c, cfg, exc, active, nativeFails).events == native + release;
      CountConcat(native, release, SessionCommit);
      CountConcat(native, release, SessionRollback);
      CountConcat(native, release, LockRelease);
      CountSingle(LockRelease, LockRelease);
    }
  }

  /** `n` calls of `begin()` in a row, none of them raising. */
  function Begins(c: Conn, cfg: Config, n: nat): Step
    decreases n
  {
    if n == 0 then Step(c, [], false)
    else
      var first := Begin(c, cfg, NoFault);
      var rest := Begins(first.conn, cfg, n - 1);
      Step(rest.conn, first.events + rest.events, false)
  }

  /** `n` calls of `commit()` in a row, none of them raising. */
  function Commits(c: Conn, n: nat): Step
    decreases n
  {
    if n == 0 then Step(c, [], false)
    else
      var first := Commit(c, NoFault);
      var rest := Commits(first.conn, n - 1);
      Step(rest.conn, first.events + rest.events, false)
  }

  /** `n` begins raise the counter by `n` and leave the block depth alone. */
  lemma {:induction false} BeginsCount(c: Conn, cfg: Config, n: nat)
    ensures Begins(c, cfg, n).conn.transactions == c.transactions + n
    ensures Begins(c, cfg, n).conn.contextDepth == c.contextDepth
    decreases n
  {
    if n > 0 {
      BeginsCount(Begin(c, cfg, NoFault).conn, cfg, n - 1);
    }
  }

  /** Every event of `n` begins is the native begin the setting selects. */
  lemma {:induction false} BeginsKind(c: Conn, cfg: Config, n: nat)
    ensures forall e :: e in Begins(c, cfg, n).events ==> e == NativeBegin(cfg)
    decreases n
  {
    if n > 0 {
      BeginsKind(Begin(c, cfg, NoFault).conn, cfg, n - 1);
    }
  }

  /** `n` begins from a zero counter make one native call fewer than `n`, from
      a positive counter one each. */
  lemma {:induction false} BeginsLength(c: Conn, cfg: Config, n: nat)
    requires c.transactions >= 0
    ensures |Begins(c, cfg, n).events| == if c.transactions == 0 && n > 0 then n - 1 else n
    decreases n
  {
    if n > 0 {
      var first := Begin(c, cfg, NoFault);
      assert first.conn.transactions == c.transactions + 1;
      BeginsLength(first.conn, cfg, n - 1);
    }
  }

  /** The native levels `n` begins open: one fewer than the calls from a zero
      counter, all of the kind the setting selects, and no commit or rollback. */
  lemma BeginsNative(c: Conn, cfg: Config, n: nat)
    requires c.transactions >= 0
    ensures NativeBegins(Begins(c, cfg, n).events) == if c.transactions == 0 && n > 0 then n - 1 else n
    ensures Count(Begins(c, cfg, n).events, if cfg.nativeNested then SessionBeginSub else SessionBeginNested) == 0
    ensures SessionCommit !in Begins(c, cfg, n).events && SessionRollback !in Begins(c, cfg, n).events
  {
    var t := Begins(c, cfg, n).events;
    BeginsKind(c, cfg, n);
    BeginsLength(c, cfg, n);
    CountAll(t, NativeBegin(cfg));
    var other := if cfg.nativeNested then SessionBeginSub else SessionBeginNested;
    assert other !in t;
  }

  /** `n` begins open `n - 1` native levels (the outermost one is the session's
      own), all SAVEPOINTs or all subtransactions depending on the setting. */
  lemma BeginsOpen(c: Conn, cfg: Config, n: nat)
    requires c.transactions >= 0
    ensures Begins(c, cfg, n).conn.transactions == c.transactions + n
    ensures Begins(c, cfg, n).conn.contextDepth == c.contextDepth
    ensures NativeBegins(Begins(c, cfg, n).events) == if c.transactions == 0 && n > 0 then n - 1 else n
    ensures Count(Begins(c, cfg, n).events, if cfg.nativeNested then SessionBeginSub else SessionBeginNested) == 0
    ensures Count(Begins(c, cfg, n).events, SessionCommit) == Count(Begins(c, cfg, n).events, SessionRollback) == 0
  {
    BeginsCount(c, cfg, n);
    BeginsNative(c, cfg, n);
  }

  /** `n` commits issue `n` native commits and lower the counter by `n`. */
  lemma {:induction false} CommitsClose(c: Conn, n: nat)
    requires c.transactions >= n
    ensures Commits(c, n).conn.transactions == c.transactions - n
    ensures Count(Commits(c, n).events, SessionCommit) == |Commits(c, n).events| == n
    decreases n
  {
    if n > 0 {
      var first := Commit(c, NoFault);
      CommitsClose(first.conn, n - 1);
      CountConcat(first.events, Commits(first.conn, n - 1).events, SessionCommit);
    }
  }

  /** Balanced begins and commits on a fresh counter: back to zero, one native
      commit per `commit()`, one native begin fewer than `begin()` calls. */
  lemma BeginsThenCommits(c: Conn, cfg: Config, n: nat)
    requires c.transactions == 0
    ensures Commits(Begins(c, cfg, n).conn, n).conn.transactions == 0
    ensures Count(Commits(Begins(c, cfg, n).conn, n).events, SessionCommit) == n
    ensures NativeBegins(Begins(c, cfg, n).events) == if n == 0 then 0 else n - 1
  {
    BeginsOpen(c, cfg, n);
    CommitsClose(Begins(c, cfg, n).conn, n);
  }

  /** After `n > 1` begins, a rollback without native nesting unwinds all `n`
      levels; with native nesting it undoes one SAVEPOINT. */
  lemma RollbackAfterBegins(c: Conn, cfg: Config, n: nat)
    requires c.transactions == 0 && n > 1
    ensures var r := Rollback(Begins(c, cfg, n).conn, cfg, NoFault);
      if cfg.nativeNested then r.conn.transactions == n - 1 && |r.events| == 1
      else r.conn.transactions == 0 && Count(r.events, SessionRollback) == n
  {
    BeginsOpen(c, cfg, n);
  }

  /** The environment of one `with connection:` block: whether making sure of a
      session fails, whether the session is active at exit, whether the native
      commit or rollback at exit fails. */
  datatype Env = Env(sessionFails: bool, active: bool, nativeFails: bool)

  /** `with connection: <body>` for a body that raises or not. */
  function With(c: Conn, cfg: Config, bodyRaises: bool, env: Env): (r: Step)
    ensures c.contextDepth == 0 ==> LockBalance(r.events) == 0
    ensures env.sessionFails ==> r.raised && r.conn == c
    ensures bodyRaises ==> r.raised
  {
    var enter := Enter(c, cfg, env.sessionFails);
    if enter.raised then enter
    else
      var exit := Exit(enter.conn, cfg, bodyRaises, env.active, env.nativeFails);
      var r := Step(exit.conn, enter.events + exit.events, bodyRaises || exit.raised);
      if c.contextDepth == 0 then
        EnterBalance(c, cfg, false);
        ExitBalance(enter.conn, cfg, bodyRaises, env.active, env.nativeFails);
        CountConcat(enter.events, exit.events, LockAcquire);
        CountConcat(enter.events, exit.events, LockRelease);
        r
      else r
  }

  /** `k` nested `with connection:` blocks around a body that raises or not, with
      an active session and no failing native call. */
  function Nest(c: Conn, cfg: Config, k: nat, bodyRaises: bool): Step
    decreases k
  {
    if k == 0 then Step(c, [], bodyRaises)
    else
      var enter := Enter(c, cfg, false);
      var inner := Nest(enter.conn, cfg, k - 1, bodyRaises);
      var exit := Exit(inner.conn, cfg, inner.raised, true, false);
      Step(exit.conn, enter.events + inner.events + exit.events, inner.raised || exit.raised)
  }

  /** Inner blocks are silent: they neither take the lock nor commit nor roll back. */
  lemma {:induction false} NestInnerSilent(c: Conn, cfg: Config, k: nat, bodyRaises: bool)
    requires c.contextDepth >= 1 && c.hasSession
    ensures Nest(c, cfg, k, bodyRaises) == Step(c, [], bodyRaises)
    decreases k
  {
    if k > 0 {
      var enter := Enter(c, cfg, false);
      NestInnerSilent(enter.conn, cfg, k - 1, bodyRaises);
    }
  }

  /** The outermost entry when making sure of a session succeeds. */
  lemma EnterFirst(c: Conn, cfg: Config)
    requires c.contextDepth == 0
    ensures Enter(c, cfg, false) == Step(c.(contextDepth := 1, hasSession := true), if cfg.serialized then [LockAcquire] else [], false)
  {
  }

  /** The outermost exit of an active session whose native call succeeds. */
  lemma ExitLast(c: Conn, cfg: Config, exc: bool)
    requires c.contextDepth == 1 && c.hasSession
    ensures Exit(c, cfg, exc, true, false)
      == Step(c.(contextDepth := 0, transactions := 0), [if exc then SessionRollback else SessionCommit] + (if cfg.serialized then [LockRelease] else []), false)
  {
  }

  /** Nested blocks entered from outside any block, in closed form: the
      outermost entry's acquisition, one commit or rollback, the release. */
  lemma NestClosed(c: Conn, cfg: Config, k: nat, bodyRaises: bool)
    requires c.contextDepth == 0 && k >= 1
    ensures Nest(c, cfg, k, bodyRaises)
      == Step(c.(transactions := 0, hasSession := true),
              (if cfg.serialized then [LockAcquire] else [])
              + [if bodyRaises then SessionRollback else SessionCommit]
              + (if cfg.serialized then [LockRelease] else []),
              bodyRaises)
  {
    var first := c.(contextDepth := 1, hasSession := true);
    var last := c.(transactions := 0, hasSession := true);
    var acquire: seq<Event> := if cfg.serialized then [LockAcquire] else [];
    var native := [if bodyRaises then SessionRollback else SessionCommit];
    var release: seq<Event> := if cfg.serialized then [LockRelease] else [];
    EnterFirst(c, cfg);
    assert Enter(c, cfg, false) == Step(first, acquire, false);
    NestInnerSilent(first, cfg, k - 1, bodyRaises);
    assert Nest(first, cfg, k - 1, bodyRaises) == Step(first, [], bodyRaises);
    ExitLast(first, cfg, bodyRaises);
    assert Exit(first, cfg, bodyRaises, true, false) == Step(last, native + release, false);
    Append(acquire, native, release);
    assert Nest(c, cfg, k, bodyRaises) == Step(last, acquire + [] + (native + release), bodyRaises);
  }

  /** Nested blocks entered from outside any block reduce to the outermost
      entry and exit. */
  lemma NestOutermost(c: Conn, cfg: Config, k: nat, bodyRaises: bool)
    requires c.contextDepth == 0 && k >= 1
    ensures var enter := Enter(c, cfg, false);
      var exit := Exit(enter.conn, cfg, bodyRaises, true, false);
      Nest(c, cfg, k, bodyRaises) == Step(exit.conn, enter.events + exit.events, bodyRaises || exit.raised)
  {
    NestClosed(c, cfg, k, bodyRaises);
    EnterFirst(c, cfg);
    ExitLast(c.(contextDepth := 1, hasSession := true), cfg, bodyRaises);
    var acquire: seq<Event> := if cfg.serialized then [LockAcquire] else [];
    var native := [if bodyRaises then SessionRollback else SessionCommit];
    var release: seq<Event> := if cfg.serialized then [LockRelease] else [];
    Append(acquire, native, release);
  }

  /** Nested blocks entered from outside any block end with both counters back
      at zero, and the body's exception escapes. */
  lemma OutermostBlockResets(c: Conn, cfg: Config, k: nat, bodyRaises: bool)
    requires Valid(c) && c.contextDepth == 0 && k >= 1
    ensures var r := Nest(c, cfg, k, bodyRaises);
      r.conn.contextDepth == 0 && r.conn.transactions == 0 && r.raised == bodyRaises
  {
    NestClosed(c, cfg, k, bodyRaises);
  }

  /** Only the outermost of nested blocks acts: the whole trace of `k` nested
      blocks is one lock acquisition (serialised mode), one native commit on a
      clean exit or one rollback when the body raised, and one release. */
  lemma OutermostBlockActs(c: Conn, cfg: Config, k: nat, bodyRaises: bool)
    requires Valid(c) && c.contextDepth == 0 && k >= 1
    ensures Nest(c, cfg, k, bodyRaises).events
      == (if cfg.serialized then [LockAcquire] else [])
         + [if bodyRaises then SessionRollback else SessionCommit]
         + (if cfg.serialized then [LockRelease] else [])
  {
    NestClosed(c, cfg, k, bodyRaises);
  }

  /** `escape_like_condition()` as written: `%` and `_` are escaped with a
      backslash, the backslash itself is not. */
  function EscapeLikeAsWritten(v: string): string {
    Text.Replace(Text.Replace(v, "%", "\\%"), "_", "\\_")
  }

  /** The escaping the method promises for the backslash escape character: the
      escape character itself is escaped first. */
  function EscapeLike(v: string): string {
    Text.Replace(Text.Replace(Text.Replace(v, "\\", "\\\\"), "%", "\\%"), "_", "\\_")
  }

  /** A LIKE pattern element under `ESCAPE '\'`. */
  datatype LikeToken = Literal(c: char) | AnyChar | AnyRun

  /** How the database reads a LIKE pattern with backslash as escape character;
      `None` for a pattern that ends in a lone escape character. */
  function LikeTokens(p: string): Option<seq<LikeToken>>
  {
    if |p| == 0 then Some([])
    else if p[0] == '\\' then
      if |p| == 1 then None
      else
        match LikeTokens(p[2..])
        case None => None
        case Some(rest) => Some([Literal(p[1])] + rest)
    else
      match LikeTokens(p[1..])
      case None => None
      case Some(rest) => Some([if p[0] == '%' then AnyRun else if p[0] == '_' then AnyChar else Literal(p[0])] + rest)
  }

  /** The pattern that matches exactly the string `v`. */
  function Literals(v: string): (r: seq<LikeToken>)
    ensures |r| == |v|
  {
    if |v| == 0 then [] else [Literal(v[0])] + Literals(v[1..])
  }

  /** One character of `v` as the corrected escaping writes it. */
  function EscapeChar(c: char): string {
    if c == '\\' || c == '%' || c == '_' then ['\\', c] else [c]
  }

  /** The corrected escaping, character by character. */
  function EscapeChars(v: string): string {
    if |v| == 0 then "" else EscapeChar(v[0]) + EscapeChars(v[1..])
  }

  lemma {:induction false} EscapeLikeCharwise(v: string)
    ensures EscapeLike(v) == EscapeChars(v)
  {
    Text.ReplaceSingle(v, '\\', "\\\\");
    var a := Text.ReplaceChar(v, '\\', "\\\\");
    Text.ReplaceSingle(a, '%', "\\%");
    var b := Text.ReplaceChar(a, '%', "\\%");
    Text.ReplaceSingle(b, '_', "\\_");
    ThreePasses(v);
  }

  lemma {:induction false} ThreePasses(v: string)
    ensures Text.ReplaceChar(Text.ReplaceChar(Text.ReplaceChar(v, '\\', "\\\\"), '%', "\\%"), '_', "\\_") == EscapeChars(v)
  {
    if |v| > 0 {
      var head := if v[0] == '\\' then "\\\\" else [v[0]];
      var tail := Text.ReplaceChar(v[1..], '\\', "\\\\");
      Text.ReplaceCharConcat(head, tail, '%', "\\%");
      var head2 := Text.ReplaceChar(head, '%', "\\%");
      var tail2 := Text.ReplaceChar(tail, '%', "\\%");
      Text.ReplaceCharConcat(head2, tail2, '_', "\\_");
      if v[0] == '%' {
        assert head2 == "\\%" by {
          assert head[1..] == [];
        }
        Text.ReplaceCharAbsent(head2, '_', "\\_");
      } else {
        Text.ReplaceCharAbsent(head, '%', "\\%");
        if v[0] == '_' {
          assert head2[1..] == [];
        } else {
          Text.ReplaceCharAbsent(head2, '_', "\\_");
        }
      }
      ThreePasses(v[1..]);
    }
  }

  /** The corrected escaping makes the database read the value literally. */
  lemma {:induction false} EscapeLikeIsLiteral(v: string)
    ensures LikeTokens(EscapeLike(v)) == Some(Literals(v))
  {
    EscapeLikeCharwise(v);
    EscapeCharsLiteral(v);
  }

  lemma {:induction false} EscapeCharsLiteral(v: string)
    ensures LikeTokens(EscapeChars(v)) == Some(Literals(v))
  {
    if |v| > 0 {
      EscapeCharsLiteral(v[1..]);
      var e := EscapeChars(v);
      assert e == EscapeChar(v[0]) + EscapeChars(v[1..]);
      if v[0] == '\\' || v[0] == '%' || v[0] == '_' {
        assert e[2..] == EscapeChars(v[1..]);
      } else {
        assert e[1..] == EscapeChars(v[1..]);
      }
    }
  }

  /** Without a backslash in the value, the as-written escaping is the corrected one. */
  lemma EscapeLikeAgreesWithoutBackslash(v: string)
    requires '\\' !in v
    ensures EscapeLikeAsWritten(v) == EscapeLike(v)
  {
    forall i | 0 <= i && i + 1 <= |v| ensures !Text.OccursAt(v, "\\", i) {
      assert v[i..i + 1][0] == v[i];
    }
    Text.ReplaceAbsent(v, "\\", "\\\\");
  }

  /** A value the as-written escaping turns into a pattern: a backslash followed
      by a percent sign matches a backslash followed by anything. */
  lemma EscapeLikeAsWrittenCounterexample()
    ensures EscapeLikeAsWritten("\\%") == "\\\\%"
    ensures LikeTokens(EscapeLikeAsWritten("\\%")) == Some([Literal('\\'), AnyRun])
    ensures LikeTokens(EscapeLikeAsWritten("\\%")) != Some(Literals("\\%"))
  {
    assert Text.Replace("\\%", "%", "\\%") == "\\\\%" by {
      assert Text.Replace("%", "%", "\\%") == "\\%";
    }
    assert Text.Replace("\\\\%", "_", "\\_") == "\\\\%" by {
      assert Text.Replace("%", "_", "\\_") == "%";
      assert Text.Replace("\\%", "_", "\\_") == "\\%";
    }
    assert LikeTokens("%") == Some([AnyRun]) by {
      assert "%"[1..] == "";
      assert LikeTokens("") == Some([]);
      assert [AnyRun] + [] == [AnyRun];
    }
    assert LikeTokens("\\\\%") == Some([Literal('\\'), AnyRun]) by {
      assert "\\\\%"[2..] == "%";
      assert "\\\\%"[1] == '\\';
      assert [Literal('\\')] + [AnyRun] == [Literal('\\'), AnyRun];
    }
    assert Literals("\\%")[1] == Literal('%');
  }

  /** The settings `_ensure_settings()` reads. */
  datatype Settings = Settings(
    url: Option<string>,
    tablePrefix: Option<string>,
    threaded: Option<bool>,
    user: Option<string>,
    password: Option<string>)

  /** What `_ensure_settings()` derives from them. */
  datatype Resolved = Resolved(sqlalchemyUrl: string, tablePrefix: string, serialized: bool, backendName: string)

  /** The configured URL with `__path_base__` replaced by the absolute base path. */
  function ConfiguredUrl(url: string, pathBase: string): string {
    Text.Replace(url, "__path_base__", pathBase)
  }

  /** The user and password settings are merged into the URL exactly when both
      are configured and the URL carries neither. */
  predicate InjectsCredentials(s: Settings, parts: DbUrl.UrlParts) {
    parts.username.None? && parts.password.None? && s.user.Some? && s.password.Some?
  }

  /** `_ensure_settings()`; `urlsplit` stands for Python's URL parser. The URL
      with credentials is built as the source builds it (`keepPort` false) or
      with the configured port kept (`keepPort` true). */
  function Resolve(s: Settings, pathBase: string, urlsplit: string -> DbUrl.UrlParts, keepPort: bool): (r: Result<Resolved>)
    ensures r.Failure? <==> s.url.None?
    ensures r.Failure? ==> r.error == ValueException
    ensures r.Success? ==> r.value.tablePrefix == s.tablePrefix.GetOr("pas")
    ensures r.Success? ==> (r.value.serialized <==> s.threaded == Some(false))
    ensures r.Success? ==>
      var parts := urlsplit(ConfiguredUrl(s.url.value, pathBase));
      && '+' !in r.value.backendName && Text.StartsWith(parts.scheme, r.value.backendName)
      && (r.value.backendName == parts.scheme || parts.scheme[|r.value.backendName|] == '+')
      && (!InjectsCredentials(s, parts) ==> r.value.sqlalchemyUrl == ConfiguredUrl(s.url.value, pathBase))
      && (InjectsCredentials(s, parts) ==>
            Text.StartsWith(r.value.sqlalchemyUrl, parts.scheme + "://" + s.user.value + ":" + s.password.value + "@"))
  {
    if s.url.None? then Failure(ValueException)
    else
      var url := ConfiguredUrl(s.url.value, pathBase);
      var parts := urlsplit(url);
      var withCredentials :=
        if !InjectsCredentials(s, parts) then ""
        else if keepPort then DbUrl.WithCredentials(parts, s.user.value, s.password.value)
        else DbUrl.WithCredentialsAsWritten(parts, s.user.value, s.password.value);
      var sqlalchemyUrl := if InjectsCredentials(s, parts) then withCredentials else url;
      var prefix := parts.scheme + "://" + s.user.GetOr("") + ":" + s.password.GetOr("") + "@";
      assert InjectsCredentials(s, parts) ==> sqlalchemyUrl[..|prefix|] == prefix;
      Success(Resolved(sqlalchemyUrl, s.tablePrefix.GetOr("pas"), !s.threaded.GetOr(true), DbUrl.BackendName(parts.scheme)))
  }

  /** The settings as the source resolves them: merged credentials lose the port. */
  function ResolveSettingsAsWritten(s: Settings, pathBase: string, urlsplit: string -> DbUrl.UrlParts): (r: Result<Resolved>)
    ensures r.Failure? <==> s.url.None?
    ensures r.Success? ==>
      var parts := urlsplit(ConfiguredUrl(s.url.value, pathBase));
      InjectsCredentials(s, parts) ==>
        r.value.sqlalchemyUrl == DbUrl.WithCredentialsAsWritten(parts, s.user.value, s.password.value)
  {
    Resolve(s, pathBase, urlsplit, false)
  }

  /** The settings with the configured port kept in merged credentials. */
  function ResolveSettings(s: Settings, pathBase: string, urlsplit: string -> DbUrl.UrlParts): (r: Result<Resolved>)
    ensures r.Failure? <==> s.url.None?
    ensures r.Success? ==>
      var parts := urlsplit(ConfiguredUrl(s.url.value, pathBase));
      InjectsCredentials(s, parts) ==>
        r.value.sqlalchemyUrl == DbUrl.WithCredentials(parts, s.user.value, s.password.value)
  {
    Resolve(s, pathBase, urlsplit, true)
  }

  /** The corrected settings differ from the source's only in the SQLAlchemy URL,
      and only when credentials are merged into a URL that names a port; there
      the corrected URL is the source's with `:port` inserted after the host. */
  lemma ResolveSettingsKeepsPort(s: Settings, pathBase: string, urlsplit: string -> DbUrl.UrlParts)
    requires s.url.Some?
    ensures
      var a := ResolveSettingsAsWritten(s, pathBase, urlsplit);
      var c := ResolveSettings(s, pathBase, urlsplit);
      var parts := urlsplit(ConfiguredUrl(s.url.value, pathBase));
      && a.Success? && c.Success?
      && c.value == a.value.(sqlalchemyUrl := c.value.sqlalchemyUrl)
      && (!InjectsCredentials(s, parts) || parts.port.None? ==> c.value == a.value)
      && (InjectsCredentials(s, parts) && parts.port.Some? ==>
            var k := DbUrl.HostEnd(parts, s.user.value, s.password.value);
            && k <= |a.value.sqlalchemyUrl|
            && c.value.sqlalchemyUrl
               == a.value.sqlalchemyUrl[..k] + ":" + Text.NatToString(parts.port.value) + a.value.sqlalchemyUrl[k..])
  {
    var parts := urlsplit(ConfiguredUrl(s.url.value, pathBase));
    if InjectsCredentials(s, parts) {
      DbUrl.WithCredentialsKeepsPort(parts, s.user.value, s.password.value);
    }
  }
}

=== FILE: connection_pas.dfy ===
/** The transaction counter, the `with connection:` protocol and the settings of
    the older connection in src/dNG/pas/database/connection.py.

    Here the counter starts at -1 ("no transaction"): the first `begin()` only
    moves it to 1, and committing or rolling back the last level moves it back
    to -1. Entering a connection begins a transaction only when neither a
    context nor a transaction is open. */
module ConnectionPas {
  import opened Wrappers
  import opened Trace
  import Text
  import DbUrl

  /** `context_depth` and `transactions` of the connection. */
  datatype Conn = Conn(contextDepth: int, transactions: int)

  /** The state `__init__()` sets up. */
  const Fresh := Conn(0, -1)

  /** `pas_database_transaction_use_native_nested` and the serialised mode. */
  datatype Config = Config(nativeNested: bool, serialized: bool)

  /** The default of `pas_database_transaction_use_native_nested` in this generation. */
  const NativeNestedDefault := false

  /** One call: the state afterwards, what it did, and whether an exception escapes. */
  datatype Step = Step(conn: Conn, events: seq<Event>, raised: bool)

  /** The counter is -1 or at least 1; the context depth is never negative. */
  predicate Valid(c: Conn) {
    c.contextDepth >= 0 && (c.transactions == -1 || c.transactions >= 1)
  }

  /** `get_transaction_depth()`: -1 reads as 0. */
  function TransactionDepth(c: Conn): (d: int)
    ensures d >= 0
    ensures Valid(c) ==> (d == 0 <==> c.transactions == -1)
    ensures c.transactions >= 0 ==> d == c.transactions
    ensures c.transactions < 0 ==> d == 0
  {
    if c.transactions < 0 then 0 else c.transactions
  }

  /** `_acquire()`: takes the lock in serialised mode only. */
  function Acquire(cfg: Config): (t: seq<Event>)
    ensures t == [] || t == [LockAcquire]
    ensures LockAcquire in t <==> cfg.serialized
  {
    if cfg.serialized then [LockAcquire] else []
  }

  /** `_release()`: gives the lock back in serialised mode only. */
  function Release(cfg: Config): (t: seq<Event>)
    ensures t == [] || t == [LockRelease]
    ensures LockRelease in t <==> cfg.serialized
  {
    if cfg.serialized then [LockRelease] else []
  }

  /** `begin()`: from "no transaction" the counter moves to 1 without a native
      call; otherwise a SAVEPOINT (native nesting) or a subtransaction is opened,
      and a failing one leaves the counter as it was and escapes. */
  function Begin(c: Conn, cfg: Config, fails: bool): (r: Step)
    ensures r.raised <==> c.transactions >= 0 && fails
    ensures r.conn.contextDepth == c.contextDepth
    ensures r.raised ==> r.conn == c
    ensures !r.raised ==> r.conn.transactions == if c.transactions < 0 then 1 else c.transactions + 1
    ensures !r.raised ==> TransactionDepth(r.conn) == TransactionDepth(c) + 1
    ensures r.events == [] <==> c.transactions < 0
    ensures |r.events| <= 1 && SessionCommit !in r.events && SessionRollback !in r.events
    ensures SessionBeginNested in r.events <==> c.transactions >= 0 && cfg.nativeNested
    ensures Valid(c) ==> Valid(r.conn)
  {
    if c.transactions < 0 then Step(c.(transactions := 1), [], false)
    else
      var native := [if cfg.nativeNested then SessionBeginNested else SessionBeginSub];
      if fails then Step(c, native, true)
      else Step(c.(transactions := c.transactions + 1), native, false)
  }

  /** `commit()`: a native commit only while a transaction is open; committing
      the last level returns to "no transaction". A failing native commit leaves
      the counter as it was and escapes. */
  function Commit(c: Conn, fails: bool): (r: Step)
    ensures r.events == (if c.transactions > 0 then [SessionCommit] else [])
    ensures r.raised <==> c.transactions > 0 && fails
    ensures r.raised || c.transactions <= 0 ==> r.conn == c
    ensures !r.raised && c.transactions > 0 ==> TransactionDepth(r.conn) == TransactionDepth(c) - 1
    ensures Valid(c) ==> Valid(r.conn)
  {
    if c.transactions <= 0 then Step(c, [], false)
    else if fails then Step(c, [SessionCommit], true)
    else Step(c.(transactions := if c.transactions < 2 then -1 else c.transactions - 1), [SessionCommit], false)
  }

  /** Which native call of an operation raises, counting from 0. */
  datatype Fault = NoFault | NativeFault(call: nat)

  /** The fault makes an operation with `calls` native calls raise. */
  predicate Raises(f: Fault, calls: nat) {
    f.NativeFault? && f.call < calls
  }

  /** A failing operation whose first native call raises. */
  function FirstCallFails(fails: bool): (f: Fault)
    ensures forall calls: nat :: Raises(f, calls) <==> fails && calls > 0
  {
    if fails then NativeFault(0) else NoFault
  }

  /** The native rollbacks `rollback()` issues: without native nesting one per
      open level, otherwise one. */
  function RollbackCalls(c: Conn, cfg: Config): nat {
    if c.transactions <= 0 then 0
    else if !cfg.nativeNested && c.transactions > 1 then c.transactions
    else 1
  }

  /** `rollback()`: without native nesting every open level is rolled back, one
      native rollback each, ending at "no transaction". The unwinding loop sets
      the counter to 1 before the last call, so a raising last call leaves 1,
      and a raising earlier one leaves the counter as it was. */
  function Rollback(c: Conn, cfg: Config, f: Fault): (r: Step)
    ensures r.raised <==> Raises(f, RollbackCalls(c, cfg))
    ensures c.transactions <= 0 ==> r == Step(c, [], false)
    ensures r.conn.contextDepth == c.contextDepth
    ensures Count(r.events, SessionRollback) == |r.events|
    ensures |r.events| == if r.raised then f.call + 1 else RollbackCalls(c, cfg)
    ensures r.raised ==>
      r.conn.transactions == (if RollbackCalls(c, cfg) > 1 && f.call == RollbackCalls(c, cfg) - 1 then 1 else c.transactions)
    ensures !r.raised && c.transactions > 0 ==>
      TransactionDepth(r.conn) == (if cfg.nativeNested then c.transactions - 1 else 0)
    ensures Valid(c) ==> Valid(r.conn)
  {
    var m := RollbackCalls(c, cfg);
    if m == 0 then Step(c, [], false)
    else if Raises(f, m) then
      CountRepeat(SessionRollback, f.call + 1, SessionRollback);
      Step(if m > 1 && f.call == m - 1 then c.(transactions := 1) else c, Repeat(SessionRollback, f.call + 1), true)
    else
      var t := if m > 1 then 1 else c.transactions;
      CountRepeat(SessionRollback, m, SessionRollback);
      Step(c.(transactions := if t < 2 then -1 else t - 1), Repeat(SessionRollback, m), false)
  }

  /** `__enter__()`: the lock is taken on every entry. With neither a context nor
      a transaction open, a transaction is begun and the depth set to 1; inside a
      context the depth grows; with only a transaction open nothing changes. If
      the connection's own lock cannot be taken, the serialisation lock is given
      back and the exception escapes. */
  function Enter(c: Conn, cfg: Config, lockFails: bool): (r: Step)
    ensures r.raised == lockFails
    ensures lockFails ==> r.conn == c && r.events == Acquire(cfg) + Release(cfg)
    ensures !lockFails && Valid(c) ==> r.events == Acquire(cfg)
    ensures !lockFails && Valid(c) ==>
      r.conn.contextDepth == (if c.contextDepth > 0 || c.transactions == -1 then c.contextDepth + 1 else 0)
    ensures !lockFails && Valid(c) && c.transactions == -1 && c.contextDepth == 0 ==> r.conn == Conn(1, 1)
    ensures Valid(c) ==> Valid(r.conn)
    ensures RowAdd !in r.events && RowDelete !in r.events
  {
    if lockFails then Step(c, Acquire(cfg) + Release(cfg), true)
    else if c.contextDepth + c.transactions < 0 then
      var b := Begin(c, cfg, false);
      assert Valid(c) ==> Acquire(cfg) + b.events == Acquire(cfg);
      Step(b.conn.(contextDepth := 1), Acquire(cfg) + b.events, false)
    else if c.contextDepth > 0 then Step(c.(contextDepth := c.contextDepth + 1), Acquire(cfg), false)
    else Step(c, Acquire(cfg), false)
  }

  /** The commit or rollback the last exit makes, as written: a failing commit is
      logged and followed by a rollback; a failing rollback after an exception is
      logged and swallowed; a failing fallback rollback escapes. */
  function Finish(c: Conn, cfg: Config, exc: bool, nativeFails: bool, fallbackFails: bool): (r: Step)
    ensures r.raised <==> !exc && nativeFails && fallbackFails && c.transactions > 0
    ensures exc ==> !r.raised
    ensures SessionCommit in r.events <==> !exc && c.transactions > 0
    ensures exc && c.transactions > 0 ==> SessionRollback in r.events
    ensures ErrorLogged in r.events <==> nativeFails && c.transactions > 0
    ensures !exc && nativeFails && c.transactions > 0 ==>
      ErrorLogged in r.events && SessionRollback in r.events && (r.raised <==> fallbackFails)
    ensures !nativeFails ==> !r.raised
    ensures !nativeFails && c.transactions > 0 ==>
      TransactionDepth(r.conn) == if exc && !cfg.nativeNested then 0 else TransactionDepth(c) - 1
    ensures LockAcquire !in r.events && LockRelease !in r.events
    ensures RowAdd !in r.events && RowDelete !in r.events
  {
    if !exc then
      var commit := Commit(c, nativeFails);
      if !commit.raised then commit
      else
        var rollback := Rollback(commit.conn, cfg, FirstCallFails(fallbackFails));
        Step(rollback.conn, commit.events + [ErrorLogged] + rollback.events, rollback.raised)
    else
      var rollback := Rollback(c, cfg, FirstCallFails(nativeFails));
      if rollback.raised then Step(rollback.conn, rollback.events + [ErrorLogged], false) else rollback
  }

  /** `__exit__()` as written: the release is skipped when the fallback rollback
      raises, so the serialisation lock stays taken. */
  function ExitAsWritten(c: Conn, cfg: Config, exc: bool, nativeFails: bool, fallbackFails: bool): (r: Step)
  {
    if c.contextDepth > 0 then
      var after := c.(contextDepth := c.contextDepth - 1);
      if after.contextDepth < 1 then
        var f := Finish(after, cfg, exc, nativeFails, fallbackFails);
        if f.raised then f else Step(f.conn, f.events + Release(cfg), false)
      else Step(after, Release(cfg), false)
    else Step(c, Release(cfg), false)
  }

  /** `__exit__()` with the release the enter promises: given back whatever the
      commit or rollback does. Only the last exit commits or rolls back. */
  function Exit(c: Conn, cfg: Config, exc: bool, nativeFails: bool, fallbackFails: bool): (r: Step)
    ensures cfg.serialized ==> |r.events| > 0 && r.events[|r.events| - 1] == LockRelease
    ensures r.conn.contextDepth == if c.contextDepth > 0 then c.contextDepth - 1 else c.contextDepth
    ensures c.contextDepth != 1 ==> r == Step(c.(contextDepth := r.conn.contextDepth), Release(cfg), false)
    ensures c.contextDepth == 1 ==> (SessionCommit in r.events <==> !exc && c.transactions > 0)
    ensures Count(r.events, LockRelease) == (if cfg.serialized then 1 else 0)
    ensures Count(r.events, LockAcquire) == 0
    ensures RowAdd !in r.events && RowDelete !in r.events
  {
    if c.contextDepth == 1 then
      var f := Finish(c.(contextDepth := 0), cfg, exc, nativeFails, fallbackFails);
      CountConcat(f.events, Release(cfg), LockRelease);
      CountConcat(f.events, Release(cfg), LockAcquire);
      CountSingle(LockRelease, LockRelease);
      CountSingle(LockRelease, LockAcquire);
      Step(f.conn, f.events + Release(cfg), f.raised)
    else
      CountSingle(LockRelease, LockRelease);
      CountSingle(LockRelease, LockAcquire);
      Step(c.(contextDepth := if c.contextDepth > 0 then c.contextDepth - 1 else c.contextDepth), Release(cfg), false)
  }

  /** Where the exit as written does not raise, the corrected exit does the
      same; where it raises, the corrected exit adds only the release. */
  lemma ExitAgreesAsWritten(c: Conn, cfg: Config, exc: bool, nativeFails: bool, fallbackFails: bool)
    ensures var w := ExitAsWritten(c, cfg, exc, nativeFails, fallbackFails);
      Exit(c, cfg, exc, nativeFails, fallbackFails) == if w.raised then Step(w.conn, w.events + Release(cfg), true) else w
  {
  }

  /** The native part of an exit never touches the lock. */
  lemma ExitLockFree(c: Conn, cfg: Config, exc: bool, nativeFails: bool, fallbackFails: bool)
    ensures var w := ExitAsWritten(c, cfg, exc, nativeFails, fallbackFails);
      && (w.raised ==> Count(w.events, LockRelease) == 0 && Count(w.events, LockAcquire) == 0)
      && (!w.raised ==>
            && |w.events| >= |Release(cfg)| && w.events[|w.events| - |Release(cfg)|..] == Release(cfg)
            && Count(w.events, LockRelease) == (if cfg.serialized then 1 else 0) && Count(w.events, LockAcquire) == 0)
  {
    if c.contextDepth == 1 {
      var f := Finish(c.(contextDepth := 0), cfg, exc, nativeFails, fallbackFails);
      if !f.raised {
        CountConcat(f.events, Release(cfg), LockRelease);
        CountConcat(f.events, Release(cfg), LockAcquire);
        assert (f.events + Release(cfg))[|f.events|..] == Release(cfg);
      }
    }
  }

  /** As written, a commit and a fallback rollback that both fail leave the
      serialisation lock taken after the outermost exit. */
  lemma ExitAsWrittenKeepsLock()
    ensures var cfg := Config(false, true);
      var r := ExitAsWritten(Conn(1, 1), cfg, false, true, true);
      r.raised && Count(r.events, LockAcquire) == 0 && Count(r.events, LockRelease) == 0
  {
    var cfg := Config(false, true);
    ExitLockFree(Conn(1, 1), cfg, false, true, true);
  }

  /** With a transaction already open and no context, a block neither begins,
      commits nor rolls back: it only takes and gives back the lock. */
  lemma OpenTransactionUntouched(c: Conn, cfg: Config, exc: bool, nativeFails: bool, fallbackFails: bool)
    requires c.contextDepth == 0 && c.transactions >= 1
    ensures var e := Enter(c, cfg, false);
      && e.conn == c
      && Exit(e.conn, cfg, exc, nativeFails, fallbackFails) == Step(c, Release(cfg), false)
  {
  }

  /** A block outside any context and transaction begins one transaction and ends
      it: committed on a clean exit, rolled back when the body raised, and the
      counter back at "no transaction". */
  lemma FreshBlock(cfg: Config, exc: bool)
    ensures var e := Enter(Fresh, cfg, false);
      var x := Exit(e.conn, cfg, exc, false, false);
      && e.conn == Conn(1, 1)
      && x.conn == Fresh
      && e.events + x.events == Acquire(cfg) + [if exc then SessionRollback else SessionCommit] + Release(cfg)
  {
    var e := Enter(Fresh, cfg, false);
    assert e.conn == Conn(1, 1);
    var f := Finish(Conn(0, 1), cfg, exc, false, false);
    if exc {
      assert Rollback(Conn(0, 1), cfg, NoFault) == Step(Fresh, [SessionRollback], false);
    } else {
      assert Commit(Conn(0, 1), false) == Step(Fresh, [SessionCommit], false);
    }
    assert f == Step(Fresh, [if exc then SessionRollback else SessionCommit], false);
    assert ExitAsWritten(e.conn, cfg, exc, false, false) == Step(Fresh, f.events + Release(cfg), false);
  }

  /** `n` calls of `begin()` in a row. */
  function Begins(c: Conn, cfg: Config, n: nat): Step
    decreases n
  {
    if n == 0 then Step(c, [], false)
    else
      var first := Begin(c, cfg, false);
      var rest := Begins(first.conn, cfg, n - 1);
      Step(rest.conn, first.events + rest.events, false)
  }

  /** `n` begins from "no transaction" reach depth `n` with `n - 1` native begins. */
  lemma {:induction false} BeginsFromNone(c: Conn, cfg: Config, n: nat)
    requires c.transactions == -1 && n >= 1
    ensures Begins(c, cfg, n).conn.transactions == n
    ensures |Begins(c, cfg, n).events| == n - 1
    ensures forall i :: 0 <= i < n - 1 ==>
      Begins(c, cfg, n).events[i] == if cfg.nativeNested then SessionBeginNested else SessionBeginSub
    decreases n
  {
    var first := Begin(c, cfg, false);
    BeginsFromOpen(first.conn, cfg, n - 1);
  }

  lemma {:induction false} BeginsFromOpen(c: Conn, cfg: Config, n: nat)
    requires c.transactions >= 1
    ensures Begins(c, cfg, n).conn.transactions == c.transactions + n
    ensures |Begins(c, cfg, n).events| == n
    ensures forall i :: 0 <= i < n ==>
      Begins(c, cfg, n).events[i] == if cfg.nativeNested then SessionBeginNested else SessionBeginSub
    decreases n
  {
    if n > 0 {
      var first := Begin(c, cfg, false);
      BeginsFromOpen(first.conn, cfg, n - 1);
    }
  }

  /** After `n > 1` begins, one rollback without native nesting unwinds all `n`
      levels back to "no transaction". */
  lemma RollbackUnwinds(c: Conn, cfg: Config, n: nat)
    requires c.transactions == -1 && n > 1 && !cfg.nativeNested
    ensures var r := Rollback(Begins(c, cfg, n).conn, cfg, NoFault);
      r.conn.transactions == -1 && |r.events| == n && Count(r.events, SessionRollback) == n
  {
    BeginsFromNone(c, cfg, n);
  }

  /** The settings `_ensure_thread_local()` reads. */
  datatype Settings = Settings(
    url: Option<string>,
    tablePrefix: Option<string>,
    threaded: Option<bool>,
    user: Option<string>,
    password: Option<string>)

  /** What `_ensure_thread_local()` derives from them. */
  datatype Resolved = Resolved(url: string, sqlalchemyUrl: string, tablePrefix: string, serialized: bool, backendName: string)

  /** The configured URL with `[rewrite]path_base[/rewrite]` replaced by the absolute base path. */
  function ConfiguredUrl(url: string, pathBase: string): string {
    Text.Replace(url, "[rewrite]path_base[/rewrite]", pathBase)
  }

  /** The user and password settings are merged into the URL exactly when both
      are configured and the URL carries neither. */
  predicate InjectsCredentials(s: Settings, parts: DbUrl.UrlParts) {
    parts.username.None? && parts.password.None? && s.user.Some? && s.password.Some?
  }

  /** `_ensure_thread_local()`; `urlsplit` stands for Python's URL parser.
      Access is serialised only when `pas_database_threaded` is present and false.
      The URL with credentials is built as the source builds it (`keepPort`
      false) or with the configured port kept (`keepPort` true). */
  function Resolve(s: Settings, pathBase: string, urlsplit: string -> DbUrl.UrlParts, keepPort: bool): (r: Result<Resolved>)
    ensures r.Failure? <==> s.url.None?
    ensures r.Failure? ==> r.error == ValueException
    ensures r.Success? ==> r.value.url == ConfiguredUrl(s.url.value, pathBase)
    ensures r.Success? ==> r.value.tablePrefix == s.tablePrefix.GetOr("pas")
    ensures r.Success? ==> (r.value.serialized <==> s.threaded == Some(false))
    ensures r.Success? ==>
      var parts := urlsplit(r.value.url);
      && '+' !in r.value.backendName && Text.StartsWith(parts.scheme, r.value.backendName)
      && (r.value.backendName == parts.scheme || parts.scheme[|r.value.backendName|] == '+')
      && (!InjectsCredentials(s, parts) ==> r.value.sqlalchemyUrl == r.value.url)
      && (InjectsCredentials(s, parts) ==>
            Text.StartsWith(r.value.sqlalchemyUrl, parts.scheme + "://" + s.user.value + ":" + s.password.value + "@"))
  {
    if s.url.None? then Failure(ValueException)
    else
      var url := ConfiguredUrl(s.url.value, pathBase);
      var parts := urlsplit(url);
      var withCredentials :=
        if !InjectsCredentials(s, parts) then ""
        else if keepPort then DbUrl.WithCredentials(parts, s.user.value, s.password.value)
        else DbUrl.WithCredentialsAsWritten(parts, s.user.value, s.password.value);
      var sqlalchemyUrl := if InjectsCredentials(s, parts) then withCredentials else url;
      var prefix := parts.scheme + "://" + s.user.GetOr("") + ":" + s.password.GetOr("") + "@";
      assert InjectsCredentials(s, parts) ==> sqlalchemyUrl[..|prefix|] == prefix;
      Success(Resolved(url, sqlalchemyUrl, s.tablePrefix.GetOr("pas"), s.threaded == Some(false), DbUrl.BackendName(parts.scheme)))
  }

  /** The settings as the source resolves them: merged credentials lose the port. */
  function ResolveSettingsAsWritten(s: Settings, pathBase: string, urlsplit: string -> DbUrl.UrlParts): (r: Result<Resolved>)
    ensures r.Failure? <==> s.url.None?
    ensures r.Success? ==> r.value.url == ConfiguredUrl(s.url.value, pathBase)
    ensures r.Success? ==>
      var parts := urlsplit(ConfiguredUrl(s.url.value, pathBase));
      InjectsCredentials(s, parts) ==>
        r.value.sqlalchemyUrl == DbUrl.WithCredentialsAsWritten(parts, s.user.value, s.password.value)
  {
    Resolve(s, pathBase, urlsplit, false)
  }

  /** The settings with the configured port kept in merged credentials. */
  function ResolveSettings(s: Settings, pathBase: string, urlsplit: string -> DbUrl.UrlParts): (r: Result<Resolved>)
    ensures r.Failure? <==> s.url.None?
    ensures r.Success? ==> r.value.url == ConfiguredUrl(s.url.value, pathBase)
    ensures r.Success? ==>
      var parts := urlsplit(ConfiguredUrl(s.url.value, pathBase));
      InjectsCredentials(s, parts) ==>
        r.value.sqlalchemyUrl == DbUrl.WithCredentials(parts, s.user.value, s.password.value)
  {
    Resolve(s, pathBase, urlsplit, true)
  }

  /** The corrected settings differ from the source's only in the SQLAlchemy URL,
      and only when credentials are merged into a URL that names a port; there
      the corrected URL is the source's with `:port` inserted after the host. */
  lemma ResolveSettingsKeepsPort(s: Settings, pathBase: string, urlsplit: string -> DbUrl.UrlParts)
    requires s.url.Some?
    ensures
      var a := ResolveSettingsAsWritten(s, pathBase, urlsplit);
      var c := ResolveSettings(s, pathBase, urlsplit);
      var parts := urlsplit(ConfiguredUrl(s.url.value, pathBase));
      && a.Success? && c.Success?
      && c.value == a.value.(sqlalchemyUrl := c.value.sqlalchemyUrl)
      && (!InjectsCredentials(s, parts) || parts.port.None? ==> c.value == a.value)
      && (InjectsCredentials(s, parts) && parts.port.Some? ==>
            var k := DbUrl.HostEnd(parts, s.user.value, s.password.value);
            && k <= |a.value.sqlalchemyUrl|
            && c.value.sqlalchemyUrl
               == a.value.sqlalchemyUrl[..k] + ":" + Text.NatToString(parts.port.value) + a.value.sqlalchemyUrl[k..])
  {
    var parts := urlsplit(ConfiguredUrl(s.url.value, pathBase));
    if InjectsCredentials(s, parts) {
      DbUrl.WithCredentialsKeepsPort(parts, s.user.value, s.password.value);
    }
  }
}

=== FILE: connection_scripts.dfy ===
/** The transaction counter and the settings loader of the oldest connection, in
    scripts/dNG/pas/database/connection.py.

    The counter starts at 0; every `begin()` makes a native call (the first one a
    subtransaction), and rolling back the last level rolls the session back a
    second time. */
module ConnectionScripts {
  import opened Wrappers
  import opened Trace
  import Text

  /** `transactions` of the connection. */
  datatype Conn = Conn(transactions: int)

  const Fresh := Conn(0)

  /** `pas_db_transaction_use_native_nested` (default true). */
  datatype Config = Config(nativeNested: bool)

  /** What happened: the new counter, the native calls issued (a call that
      raises is issued all the same) and whether the operation raised. */
  datatype Step = Step(conn: Conn, events: seq<Event>, raised: bool)

  /** Which native call of an operation raises, counting from 0. */
  datatype Fault = NoFault | NativeFault(call: nat)

  /** The fault makes an operation with `calls` native calls raise. */
  predicate Raises(f: Fault, calls: nat) {
    f.NativeFault? && f.call < calls
  }

  predicate Valid(c: Conn) {
    c.transactions >= 0
  }

  /** `get_transaction_depth()`: a negative counter would read as 1. */
  function TransactionDepth(c: Conn): (d: int)
    ensures d >= 0
    ensures Valid(c) ==> d == c.transactions
    ensures c.transactions < 0 ==> d == 1
  {
    if c.transactions < 0 then 1 else c.transactions
  }

  /** `begin()`: always one native call, a SAVEPOINT only for a nested level with
      native nesting configured; the counter is raised only after the call
      returns. */
  function Begin(c: Conn, cfg: Config, f: Fault): (r: Step)
    ensures r.raised <==> Raises(f, 1)
    ensures r.conn.transactions == if r.raised then c.transactions else c.transactions + 1
    ensures |r.events| == 1 && SessionCommit !in r.events && SessionRollback !in r.events
    ensures r.events[0] == SessionBeginNested <==> c.transactions > 0 && cfg.nativeNested
  {
    var native := [if c.transactions > 0 && cfg.nativeNested then SessionBeginNested else SessionBeginSub];
    if Raises(f, 1) then Step(c, native, true)
    else Step(Conn(c.transactions + 1), native, false)
  }

  /** `commit()`: only while a transaction is open; a raising native commit
      leaves the counter. */
  function Commit(c: Conn, f: Fault): (r: Step)
    ensures r.raised <==> c.transactions > 0 && Raises(f, 1)
    ensures r.raised ==> r == Step(c, [SessionCommit], true)
    ensures c.transactions > 0 && !r.raised ==> r == Step(Conn(c.transactions - 1), [SessionCommit], false)
    ensures c.transactions <= 0 ==> r == Step(c, [], false)
    ensures Valid(c) ==> Valid(r.conn)
  {
    if c.transactions > 0 then
      if Raises(f, 1) then Step(c, [SessionCommit], true)
      else Step(Conn(c.transactions - 1), [SessionCommit], false)
    else Step(c, [], false)
  }

  /** The native rollbacks `rollback()` issues: none without an open
      transaction, two for the last level, one otherwise. */
  function RollbackCalls(c: Conn): nat {
    if c.transactions == 1 then 2 else if c.transactions > 1 then 1 else 0
  }

  /** `rollback()`: only while a transaction is open; rolling back the last level
      issues a second native rollback. The counter is lowered between the two
      calls, so only a raising first call leaves it. */
  function Rollback(c: Conn, f: Fault): (r: Step)
    ensures r.raised <==> Raises(f, RollbackCalls(c))
    ensures c.transactions <= 0 ==> r == Step(c, [], false)
    ensures c.transactions > 0 ==>
      r.conn.transactions == if r.raised && f.call == 0 then c.transactions else c.transactions - 1
    ensures Count(r.events, SessionRollback) == |r.events|
    ensures |r.events| == if r.raised then f.call + 1 else RollbackCalls(c)
    ensures Valid(c) ==> Valid(r.conn)
  {
    if c.transactions > 0 then
      if Raises(f, 1) then Step(c, [SessionRollback], true)
      else
        var t := c.transactions - 1;
        var second := if t < 1 then [SessionRollback] else [];
        CountCons(SessionRollback, second, SessionRollback);
        Step(Conn(t), [SessionRollback] + second, Raises(f, RollbackCalls(c)))
    else Step(c, [], false)
  }

  /** `n` calls of `begin()` in a row. */
  function Begins(c: Conn, cfg: Config, n: nat): Step
    decreases n
  {
    if n == 0 then Step(c, [], false)
    else
      var first := Begin(c, cfg, NoFault);
      var rest := Begins(first.conn, cfg, n - 1);
      Step(rest.conn, first.events + rest.events, false)
  }

  /** `n` begins make `n` native calls; on a fresh counter the first is a
      subtransaction and, with native nesting, every further one a SAVEPOINT. */
  lemma {:induction false} BeginsNative(c: Conn, cfg: Config, n: nat)
    requires c.transactions >= 0
    ensures var r := Begins(c, cfg, n);
      && r.conn.transactions == c.transactions + n
      && |r.events| == n
      && (forall i :: 0 <= i < n ==>
            r.events[i] == if (c.transactions + i > 0) && cfg.nativeNested then SessionBeginNested else SessionBeginSub)
    decreases n
  {
    if n > 0 {
      var first := Begin(c, cfg, NoFault);
      BeginsNative(first.conn, cfg, n - 1);
      var rest := Begins(first.conn, cfg, n - 1);
      forall i | 0 < i < n
        ensures (first.events + rest.events)[i] == if (c.transactions + i > 0) && cfg.nativeNested then SessionBeginNested else SessionBeginSub
      {
        assert (first.events + rest.events)[i] == rest.events[i - 1];
      }
    }
  }

  /** `n` calls of `commit()` in a row. */
  function Commits(c: Conn, n: nat): Step
    decreases n
  {
    if n == 0 then Step(c, [], false)
    else
      var first := Commit(c, NoFault);
      var rest := Commits(first.conn, n - 1);
      Step(rest.conn, first.events + rest.events, false)
  }

  /** With `n` levels open, `n` commits close them with one native commit each. */
  lemma {:induction false} CommitsUnwind(c: Conn, n: nat)
    requires c.transactions >= n
    ensures Commits(c, n) == Step(Conn(c.transactions - n), Repeat(SessionCommit, n), false)
    decreases n
  {
    if n > 0 {
      CommitsUnwind(Commit(c, NoFault).conn, n - 1);
    }
  }

  /** `n` begins followed by `n` commits give the counter back, with exactly
      one native commit per begin. */
  lemma BeginsThenCommits(c: Conn, cfg: Config, n: nat)
    requires Valid(c)
    ensures var b := Begins(c, cfg, n);
      Commits(b.conn, n) == Step(c, Repeat(SessionCommit, n), false)
  {
    BeginsNative(c, cfg, n);
    CommitsUnwind(Begins(c, cfg, n).conn, n);
  }

  /** `n` calls of `rollback()` in a row. */
  function Rollbacks(c: Conn, n: nat): Step
    decreases n
  {
    if n == 0 then Step(c, [], false)
    else
      var first := Rollback(c, NoFault);
      var rest := Rollbacks(first.conn, n - 1);
      Step(rest.conn, first.events + rest.events, false)
  }

  /** With `n` levels open, `n` rollbacks close them with one native rollback
      each, and one more when they reach the outermost level. */
  lemma {:induction false} RollbacksUnwind(c: Conn, n: nat)
    requires c.transactions >= n
    ensures var r := Rollbacks(c, n);
      && r.conn == Conn(c.transactions - n)
      && Count(r.events, SessionRollback) == |r.events|
      && |r.events| == n + (if n > 0 && c.transactions == n then 1 else 0)
    decreases n
  {
    if n > 0 {
      var first := Rollback(c, NoFault);
      RollbacksUnwind(first.conn, n - 1);
      CountConcat(first.events, Rollbacks(first.conn, n - 1).events, SessionRollback);
    }
  }

  /** `n` begins on a fresh connection followed by `n` rollbacks give the
      counter back with `n + 1` native rollbacks. */
  lemma BeginsThenRollbacks(cfg: Config, n: nat)
    requires n > 0
    ensures var b := Begins(Conn(0), cfg, n);
      var r := Rollbacks(b.conn, n);
      r.conn == Conn(0) && Count(r.events, SessionRollback) == |r.events| == n + 1
  {
    BeginsNative(Conn(0), cfg, n);
    RollbacksUnwind(Begins(Conn(0), cfg, n).conn, n);
  }

  /** The settings loader state: `Connection.settings`, shared by all threads. */
  type SettingsMap = map<string, string>

  /** The prefix every setting of this generation carries. */
  const Prefix := "pas_db_"

  /** The names of the `pas_db_` settings, without the prefix. */
  function Names(source: SettingsMap): set<string> {
    set k | k in source && Text.StartsWith(k, Prefix) :: k[|Prefix|..]
  }

  /** Every `pas_db_` setting under its name without the prefix (what the loop
      copies, in whatever order it visits the keys). */
  function Stripped(source: SettingsMap): (m: SettingsMap)
    ensures forall k :: k in source && Text.StartsWith(k, Prefix) ==> k[|Prefix|..] in m && m[k[|Prefix|..]] == source[k]
    ensures forall n :: n in m <==> Prefix + n in source
    ensures forall n :: n in m ==> m[n] == source[Prefix + n]
  {
    forall n | n in Names(source) ensures Prefix + n in source {
      var k :| k in source && Text.StartsWith(k, Prefix) && k[|Prefix|..] == n;
      assert k == Prefix + n;
    }
    forall n | Prefix + n in source ensures n in Names(source) {
      assert (Prefix + n)[|Prefix|..] == n;
      assert Text.StartsWith(Prefix + n, Prefix);
    }
    forall k | k in source && Text.StartsWith(k, Prefix) ensures k == Prefix + k[|Prefix|..] {
      assert k == k[..|Prefix|] + k[|Prefix|..];
    }
    map n | n in Names(source) :: source[Prefix + n]
  }

  /** The URL the regular expression `^(.+)\://(.*)$` splits: the match cannot
      cross a line break, except that `$` also matches before one final one. */
  function MatchedLine(url: string): string {
    if |url| > 0 && url[|url| - 1] == '\n' then url[..|url| - 1] else url
  }

  /** The index of the last `://` after the first character of `s`, the split
      point the greedy `(.+)` picks. */
  function LastSeparator(s: string): (r: Option<nat>)
    ensures r.Some? ==> 1 <= r.value && Text.OccursAt(s, "://", r.value)
    ensures r.Some? ==> forall j :: r.value < j ==> !Text.OccursAt(s, "://", j)
    ensures r.None? ==> forall j :: 1 <= j ==> !Text.OccursAt(s, "://", j)
    decreases |s|
  {
    LastSeparatorBelow(s, |s|)
  }

  function LastSeparatorBelow(s: string, end: nat): (r: Option<nat>)
    requires end <= |s|
    ensures r.Some? ==> 1 <= r.value < end && Text.OccursAt(s, "://", r.value)
    ensures r.Some? ==> forall j :: r.value < j < end ==> !Text.OccursAt(s, "://", j)
    ensures r.None? ==> forall j :: 1 <= j < end ==> !Text.OccursAt(s, "://", j)
    ensures end == |s| ==> forall j :: j >= end ==> !Text.OccursAt(s, "://", j)
    decreases end
  {
    if end <= 1 then None
    else if Text.OccursAt(s, "://", end - 1) then Some(end - 1)
    else LastSeparatorBelow(s, end - 1)
  }

  /** `re.sub("^(.+)\://(.*)$", "\1://user:password@\2", url)`: the credentials
      are inserted after the last `://`, or the URL is returned unchanged when
      the expression does not match. */
  function InsertCredentials(url: string, user: string, password: string): (r: string)
    ensures
      var line := MatchedLine(url);
      if '\n' in line || LastSeparator(line).None? then r == url
      else
        var i := LastSeparator(line).value;
        r == url[..i + 3] + user + ":" + password + "@" + url[i + 3..]
  {
    var line := MatchedLine(url);
    if '\n' in line then url
    else
      match LastSeparator(line)
      case None => url
      case Some(i) =>
        assert url[..i + 3] == line[..i + 3];
        assert url[i + 3..] == line[i + 3..] + url[|line|..];
        line[..i + 3] + user + ":" + password + "@" + line[i + 3..] + url[|line|..]
  }

  /** Removing the inserted `user:password@` gives the URL back. */
  lemma CredentialsRemovable(url: string, user: string, password: string)
    requires '\n' !in MatchedLine(url) && LastSeparator(MatchedLine(url)).Some?
    ensures var i := LastSeparator(MatchedLine(url)).value;
      var r := InsertCredentials(url, user, password);
      var n := |user| + |password| + 2;
      && r[i..i + 3] == "://"
      && r[..i + 3] + r[i + 3 + n..] == url
      && r[i + 3..i + 3 + n] == user + ":" + password + "@"
  {
    var i := LastSeparator(MatchedLine(url)).value;
    var r := InsertCredentials(url, user, password);
    var n := |user| + |password| + 2;
    assert r == url[..i + 3] + (user + ":" + password + "@") + url[i + 3..];
    assert r[..i + 3] == url[..i + 3];
    assert r[i + 3 + n..] == url[i + 3..];
    assert url[..i + 3] + url[i + 3..] == url;
  }

  /** The derived settings: URL, table prefix and SQLAlchemy URL. */
  function Derive(loaded: SettingsMap): (r: Result<SettingsMap>)
    ensures r.Failure? <==> "url" !in loaded
    ensures r.Failure? ==> r.error == RuntimeError
    ensures r.Success? ==>
      && "url" in r.value && "table_prefix" in r.value
      && r.value["url"] == loaded["url"]
      && r.value["table_prefix"] == (if "table_prefix" in loaded then loaded["table_prefix"] else "pas")
      && "sqlalchemy_url" in r.value
      && (Text.Contains(loaded["url"], "@") || "password" !in loaded || "user" !in loaded ==>
            r.value["sqlalchemy_url"] == loaded["url"])
  {
    if "url" !in loaded then Failure(RuntimeError)
    else
      var withPrefix := if "table_prefix" in loaded then loaded else loaded["table_prefix" := "pas"];
      var url := withPrefix["url"];
      var sqlalchemyUrl :=
        if Text.Contains(url, "@") || "password" !in withPrefix || "user" !in withPrefix then url
        else InsertCredentials(url, withPrefix["user"], withPrefix["password"]);
      Success(withPrefix["sqlalchemy_url" := sqlalchemyUrl])
  }

  /** The entries of one settings load, as written: `url` is first set from
      `pas_db_url` with `[path_base]` replaced, then overwritten by the plain
      copy of the same setting. */
  function LoadAsWritten(source: SettingsMap, pathBase: string): (m: SettingsMap)
    ensures m == Stripped(source)
  {
    var withUrl := if "pas_db_url" in source then map["url" := Text.Replace(source["pas_db_url"], "[path_base]", pathBase)] else map[];
    var copied := Stripped(source);
    assert "pas_db_url" in source ==> "url" in copied && copied["url"] == source["pas_db_url"] by {
      if "pas_db_url" in source {
        assert Text.StartsWith("pas_db_url", Prefix);
        assert "pas_db_url"[|Prefix|..] == "url";
      }
    }
    withUrl + copied
  }

  /** The entries of one settings load with the `[path_base]` substitution kept. */
  function Load(source: SettingsMap, pathBase: string): (m: SettingsMap)
    ensures "pas_db_url" in source <==> "url" in m
    ensures "pas_db_url" in source ==> m["url"] == Text.Replace(source["pas_db_url"], "[path_base]", pathBase)
    ensures forall n :: n in m && n != "url" ==> Prefix + n in source && m[n] == source[Prefix + n]
    ensures forall n :: n != "url" && Prefix + n in source ==> n in m
  {
    var copied := Stripped(source);
    assert "url" in copied <==> "pas_db_url" in source by {
      assert Text.StartsWith("pas_db_url", Prefix);
      assert "pas_db_url"[|Prefix|..] == "url";
      assert Prefix + "url" == "pas_db_url";
    }
    forall n | n != "url" && Prefix + n in source ensures n in copied {
      assert (Prefix + n)[|Prefix|..] == n;
      assert Text.StartsWith(Prefix + n, Prefix);
    }
    if "pas_db_url" in source then copied["url" := Text.Replace(source["pas_db_url"], "[path_base]", pathBase)] else copied
  }

  /** `get_settings(refresh)` as written: `(Connection.settings afterwards, result)`. */
  function GetSettingsAsWritten(cache: SettingsMap, refresh: bool, source: SettingsMap, pathBase: string): (r: (SettingsMap, Result<SettingsMap>))
    ensures !refresh && |cache| >= 1 ==> r == (cache, Success(cache))
    ensures (refresh || |cache| == 0) ==> (r.1.Failure? <==> "pas_db_url" !in source)
    ensures (refresh || |cache| == 0) && r.1.Success? ==>
      "pas_db_url" in source && "url" in r.1.value && r.1.value["url"] == source["pas_db_url"] && r.0 == r.1.value
  {
    assert Prefix + "url" == "pas_db_url";
    var current := if refresh then map[] else cache;
    if |current| >= 1 then (current, Success(current))
    else
      var loaded := LoadAsWritten(source, pathBase);
      match Derive(loaded)
      case Failure(e) => (loaded, Failure(e))
      case Success(s) => (s, Success(s))
  }

  /** `get_settings(refresh)` with the substituted URL: a cached, non-empty
      settings map is returned as it is, otherwise the settings are loaded. */
  function GetSettings(cache: SettingsMap, refresh: bool, source: SettingsMap, pathBase: string): (r: (SettingsMap, Result<SettingsMap>))
    ensures !refresh && |cache| >= 1 ==> r == (cache, Success(cache))
    ensures (refresh || |cache| == 0) ==> (r.1.Failure? <==> "pas_db_url" !in source)
    ensures (refresh || |cache| == 0) && r.1.Success? ==>
      "pas_db_url" in source && "url" in r.1.value && r.1.value["url"] == Text.Replace(source["pas_db_url"], "[path_base]", pathBase) && r.0 == r.1.value
  {
    var current := if refresh then map[] else cache;
    if |current| >= 1 then (current, Success(current))
    else
      var loaded := Load(source, pathBase);
      match Derive(loaded)
      case Failure(e) => (loaded, Failure(e))
      case Success(s) => (s, Success(s))
  }

  /** A configuration the as-written loader gets wrong: the base path placeholder
      survives in the URL. */
  lemma PathBaseLostAsWritten()
    ensures var source := map["pas_db_url" := "[path_base]"];
      && GetSettingsAsWritten(map[], false, source, "/srv").1.Success?
      && GetSettingsAsWritten(map[], false, source, "/srv").1.value["url"] == "[path_base]"
      && GetSettings(map[], false, source, "/srv").1.Success?
      && GetSettings(map[], false, source, "/srv").1.value["url"] == "/srv"
  {
    var source := map["pas_db_url" := "[path_base]"];
    assert Text.StartsWith("pas_db_url", Prefix);
    assert "pas_db_url"[|Prefix|..] == "url";
    assert Text.Replace("[path_base]", "[path_base]", "/srv") == "/srv" by {
      assert "[path_base]"[|"[path_base]"|..] == "";
    }
  }

  /** A load that fails for want of a URL leaves the copied settings behind, and
      the next call returns them without a URL instead of failing again. */
  lemma FailedLoadIsCached(source: SettingsMap, pathBase: string)
    requires "pas_db_url" !in source && "pas_db_table_prefix" in source
    ensures GetSettings(map[], false, source, pathBase).1 == Failure(RuntimeError)
    ensures var cache := GetSettings(map[], false, source, pathBase).0;
      && "url" !in cache
      && GetSettings(cache, false, source, pathBase).1 == Success(cache)
  {
    var cache := GetSettings(map[], false, source, pathBase).0;
    assert "table_prefix" in cache by {
      assert Prefix + "table_prefix" == "pas_db_table_prefix";
    }
  }

  /** Where the configured URL has no `[path_base]` placeholder, the lost
      substitution makes no difference: both loaders give the same settings. */
  lemma GetSettingsAgreesAsWritten(cache: SettingsMap, refresh: bool, source: SettingsMap, pathBase: string)
    requires "pas_db_url" in source ==> !Text.Contains(source["pas_db_url"], "[path_base]")
    ensures GetSettings(cache, refresh, source, pathBase) == GetSettingsAsWritten(cache, refresh, source, pathBase)
  {
    if "pas_db_url" in source {
      Text.ReplaceAbsent(source["pas_db_url"], "[path_base]", pathBase);
    }
    assert Load(source, pathBase) == LoadAsWritten(source, pathBase);
  }
}

=== FILE: db_url.dfy ===
/** The SQLAlchemy URL both connection generations build from the configured
    database URL when the user name and password are configured separately. */
module DbUrl {
  import opened Wrappers
  import Text

  /** What `urllib.parse.urlsplit()` reports about a URL (the parser itself is
      outside the model; callers pass its result in). */
  datatype UrlParts = UrlParts(
    scheme: string,
    username: Option<string>,
    password: Option<string>,
    hostname: Option<string>,
    port: Option<nat>,
    path: string,
    query: string,
    fragment: string)

  /** `"{0}".format(x)` for an optional string: Python prints `None` as "None". */
  function Show(o: Option<string>): string {
    match o
    case Some(s) => s
    case None => "None"
  }

  /** The `?query` and `#fragment` parts, each only when it is not empty. */
  function QueryAndFragment(p: UrlParts): (r: string)
    ensures p.query == "" && p.fragment == "" ==> r == ""
    ensures p.query != "" ==> Text.StartsWith(r, "?" + p.query)
    ensures |r| == (if p.query == "" then 0 else |p.query| + 1) + (if p.fragment == "" then 0 else |p.fragment| + 1)
  {
    (if p.query != "" then "?" + p.query else "") + (if p.fragment != "" then "#" + p.fragment else "")
  }

  /** The URL with credentials as both connection generations build it: the host
      is taken from `hostname`, which never includes the port. */
  function WithCredentialsAsWritten(p: UrlParts, user: string, password: string): string {
    p.scheme + "://" + user + ":" + password + "@" + Show(p.hostname) + p.path + QueryAndFragment(p)
  }

  /** The host and, when the URL names one, the port. */
  function HostPort(p: UrlParts): (r: string)
    ensures p.port.None? ==> r == Show(p.hostname)
    ensures p.port.Some? ==> |r| == |Show(p.hostname)| + 1 + |Text.NatToString(p.port.value)|
  {
    Show(p.hostname) + (if p.port.Some? then ":" + Text.NatToString(p.port.value) else "")
  }

  /** The URL with credentials, keeping the port of the configured URL. */
  function WithCredentials(p: UrlParts, user: string, password: string): string {
    p.scheme + "://" + user + ":" + password + "@" + HostPort(p) + p.path + QueryAndFragment(p)
  }

  /** As written, the port of the configured URL has no influence on the result:
      a database on a non-default port is reached on the default one. */
  lemma PortDroppedAsWritten(p: UrlParts, user: string, password: string)
    ensures WithCredentialsAsWritten(p, user, password) == WithCredentialsAsWritten(p.(port := None), user, password)
  {
  }

  /** A configured port that the as-written URL loses. */
  const ExampleParts := UrlParts("pg", None, None, Some("db"), Some(5433), "/x", "", "")

  /** A concrete configuration the as-written URL gets wrong. */
  lemma PortDroppedExample()
    ensures WithCredentialsAsWritten(ExampleParts, "u", "p") == "pg://u:p@db/x"
    ensures WithCredentials(ExampleParts, "u", "p") == "pg://u:p@db:5433/x"
  {
    ExampleAsWritten();
    ExampleCorrected();
  }

  lemma ExampleAsWritten()
    ensures WithCredentialsAsWritten(ExampleParts, "u", "p") == "pg://u:p@db/x"
  {
    assert QueryAndFragment(ExampleParts) == "";
  }

  lemma ExampleCorrected()
    ensures WithCredentials(ExampleParts, "u", "p") == "pg://u:p@db:5433/x"
  {
    assert QueryAndFragment(ExampleParts) == "";
    ExamplePortText();
    var host := HostPort(ExampleParts);
    assert host == "db:5433";
    assert "pg" + "://" + "u" + ":" + "p" + "@" == "pg://u:p@";
    assert WithCredentials(ExampleParts, "u", "p") == "pg://u:p@" + host + "/x" + "";
    assert "pg://u:p@" + "db:5433" + "/x" + "" == "pg://u:p@db:5433/x";
  }

  /** The example's port printed in decimal. */
  lemma ExamplePortText()
    ensures Text.NatToString(5433) == "5433"
  {
    assert Text.NatToString(5) == "5";
    assert Text.NatToString(54) == Text.NatToString(5) + "4";
    assert Text.NatToString(543) == Text.NatToString(54) + "3";
    assert Text.NatToString(5433) == Text.NatToString(543) + "3";
  }

  /** Where the host ends in a URL with credentials: everything before it is the
      scheme, `://`, the user, `:`, the password, `@` and the host. */
  function HostEnd(p: UrlParts, user: string, password: string): nat {
    |p.scheme| + 3 + |user| + 1 + |password| + 1 + |Show(p.hostname)|
  }

  /** The corrected URL agrees with the as-written one when no port is configured;
      when one is, it is the as-written URL with `:port` inserted right after the host. */
  lemma {:induction false} WithCredentialsKeepsPort(p: UrlParts, user: string, password: string)
    ensures p.port.None? ==> WithCredentials(p, user, password) == WithCredentialsAsWritten(p, user, password)
    ensures HostEnd(p, user, password) <= |WithCredentialsAsWritten(p, user, password)|
    ensures p.port.Some? ==>
      var a := WithCredentialsAsWritten(p, user, password);
      var k := HostEnd(p, user, password);
      WithCredentials(p, user, password) == a[..k] + ":" + Text.NatToString(p.port.value) + a[k..]
  {
    var head := p.scheme + "://" + user + ":" + password + "@" + Show(p.hostname);
    var tail := p.path + QueryAndFragment(p);
    var a := WithCredentialsAsWritten(p, user, password);
    assert a == head + tail;
    assert |head| == HostEnd(p, user, password);
    assert a[..|head|] == head && a[|head|..] == tail;
    if p.port.Some? {
      var port := ":" + Text.NatToString(p.port.value);
      assert HostPort(p) == Show(p.hostname) + port;
      assert WithCredentials(p, user, password) == head + port + tail;
    }
  }

  /** `scheme.split("+")[0]`: the back end name of a dialect+driver scheme. */
  function BackendName(scheme: string): (r: string)
    ensures '+' !in r
    ensures Text.StartsWith(scheme, r)
    ensures '+' !in scheme ==> r == scheme
    ensures r == scheme || (|r| < |scheme| && scheme[|r|] == '+')
  {
    var pieces := Text.Split(scheme, '+');
    Text.JoinSplit(scheme, '+');
    assert '+' !in scheme ==> pieces == [scheme] by {
      if '+' !in scheme {
        Text.SplitNoSep(scheme, '+');
      }
    }
    JoinHead(pieces, '+');
    pieces[0]
  }

  lemma JoinHead(pieces: seq<string>, sep: char)
    requires |pieces| >= 1
    ensures Text.StartsWith(Text.Join(pieces, sep), pieces[0])
    ensures var j := Text.Join(pieces, sep);
      j == pieces[0] || (|pieces[0]| < |j| && j[|pieces[0]|] == sep)
  {
    if |pieces| > 1 {
      assert Text.Join(pieces, sep) == pieces[0] + ([sep] + Text.Join(pieces[1..], sep));
    }
  }
}

=== FILE: filter_parser.dfy ===
/** `DatabaseFilterParser` of src/pas_database/crud/instances/database_filter_parser.py:
    it turns a decoded filter document into a ConditionDng definition.

    The recursive `_parse()` belongs to the base class; what it returned for
    each entry of a level is an input here (`Parsed`). The condition definition
    the parser builds is the ConditionDng model with its corrected not-in-list
    builder. */
module FilterParser {
  import opened Wrappers
  import opened Values
  import opened Text
  import D = ConditionDng

  /** The operator group of `^(!?)(\w+)([<>]=?|~=)?$`. */
  datatype Operator = NoOperator | Less | LessEqual | Greater | GreaterEqual | Similar

  /** The three groups of a key the pattern matched. */
  datatype KeyParts = KeyParts(negated: bool, name: string, op: Operator)

  function OperatorText(op: Operator): string {
    match op
    case NoOperator => ""
    case Less => "<"
    case LessEqual => "<="
    case Greater => ">"
    case GreaterEqual => ">="
    case Similar => "~="
  }

  /** The operator a text is, if any. */
  function TextOperator(t: string): (r: Option<Operator>)
    ensures r.Some? ==> OperatorText(r.value) == t
  {
    if t == "" then Some(NoOperator)
    else if t == "<" then Some(Less)
    else if t == "<=" then Some(LessEqual)
    else if t == ">" then Some(Greater)
    else if t == ">=" then Some(GreaterEqual)
    else if t == "~=" then Some(Similar)
    else None
  }

  /** Every operator's text is read back as that operator. */
  lemma TextOperatorInverse(op: Operator)
    ensures TextOperator(OperatorText(op)) == Some(op)
  {
  }

  /** What `\w+` accepts. */
  predicate ValidName(name: string) {
    |name| > 0 && forall i :: 0 <= i < |name| ==> IsWordChar(name[i])
  }

  /** The key the groups spell. */
  function Render(p: KeyParts): string {
    (if p.negated then "!" else "") + p.name + OperatorText(p.op)
  }

  /** The length of the longest prefix of word characters. */
  function WordRun(s: string): (n: nat)
    ensures n <= |s|
    ensures forall i :: 0 <= i < n ==> IsWordChar(s[i])
    ensures n < |s| ==> !IsWordChar(s[n])
  {
    if |s| == 0 || !IsWordChar(s[0]) then 0 else 1 + WordRun(s[1..])
  }

  /** The text after the optional `!`. */
  function AfterBang(key: string): string {
    if |key| > 0 && key[0] == '!' then key[1..] else key
  }

  /** The text with one final newline dropped, as Python's `$` allows. */
  function DropFinalNewline(t: string): (r: string)
    ensures t == r || t == r + "\n"
  {
    if |t| > 0 && t[|t| - 1] == '\n' then t[..|t| - 1] else t
  }

  /** `RE_KEY_CONDITION.match(key)`: the optional `!`, the longest run of word
      characters, an operator, and the end of the text or a final newline
      before it. */
  function MatchKey(key: string): (r: Option<KeyParts>)
    ensures r.Some? ==> ValidName(r.value.name)
  {
    var rest := AfterBang(key);
    var n := WordRun(rest);
    if n == 0 then None
    else match TextOperator(DropFinalNewline(rest[n..]))
      case None => None
      case Some(op) => Some(KeyParts(|key| > 0 && key[0] == '!', rest[..n], op))
  }

  /** Whatever the pattern matches is the key its groups spell, possibly with a
      final newline. */
  lemma MatchKeyRenders(key: string)
    requires MatchKey(key).Some?
    ensures var p := MatchKey(key).value;
      key == Render(p) || key == Render(p) + "\n"
  {
    var p := MatchKey(key).value;
    var bang := if p.negated then "!" else "";
    var op := OperatorText(p.op);
    var tail := MatchKeyParts(key);
    Spell(bang, p.name, op, tail);
  }

  /** The pieces a match splits the key into. */
  lemma MatchKeyParts(key: string) returns (tail: string)
    requires MatchKey(key).Some?
    ensures var p := MatchKey(key).value;
      && key == (if p.negated then "!" else "") + (p.name + tail)
      && (tail == OperatorText(p.op) || tail == OperatorText(p.op) + "\n")
  {
    var rest := AfterBang(key);
    var n := WordRun(rest);
    tail := rest[n..];
    assert rest == rest[..n] + tail;
  }

  lemma Spell(bang: string, name: string, op: string, tail: string)
    requires tail == op || tail == op + "\n"
    ensures bang + (name + tail) == bang + name + op || bang + (name + tail) == bang + name + op + "\n"
  {
    if tail == op {
      assert bang + (name + op) == bang + name + op;
    } else {
      assert bang + (name + (op + "\n")) == bang + name + op + "\n";
    }
  }

  /** The word run of a name followed by an operator is the name. */
  lemma WordRunOfRendered(name: string, tail: string)
    requires ValidName(name)
    requires |tail| == 0 || !IsWordChar(tail[0])
    ensures WordRun(name + tail) == |name|
  {
    var s := name + tail;
    var n := WordRun(s);
    // The run cannot stop inside the name, nor pass the character after it.
    assert forall i :: 0 <= i < |name| ==> s[i] == name[i];
    assert |tail| > 0 ==> s[|name|] == tail[0];
  }

  /** Every key the groups can spell is matched back into those groups, with or
      without a final newline. */
  lemma {:induction false} MatchRender(p: KeyParts, newline: bool)
    requires ValidName(p.name)
    ensures MatchKey(Render(p) + (if newline then "\n" else "")) == Some(p)
  {
    var nl := if newline then "\n" else "";
    var bang := if p.negated then "!" else "";
    var suffix := OperatorText(p.op) + nl;
    var rest := p.name + suffix;
    var key := Render(p) + nl;
    assert key == bang + rest by {
      assert Render(p) + nl == bang + p.name + OperatorText(p.op) + nl;
    }
    BangSplit(p.negated, rest);
    assert WordRun(rest) == |p.name| by {
      assert |suffix| == 0 || !IsWordChar(suffix[0]);
      WordRunOfRendered(p.name, suffix);
    }
    assert rest[..|p.name|] == p.name && rest[|p.name|..] == suffix;
    DropRenderedNewline(p.op, newline);
    MatchKeyOf(key, rest, p);
  }

  /** The last step of `MatchKey` once the pieces are known. */
  lemma MatchKeyOf(key: string, rest: string, p: KeyParts)
    requires |p.name| > 0 && AfterBang(key) == rest && ((|key| > 0 && key[0] == '!') <==> p.negated)
    requires WordRun(rest) == |p.name| && rest[..|p.name|] == p.name
    requires DropFinalNewline(rest[|p.name|..]) == OperatorText(p.op)
    ensures MatchKey(key) == Some(p)
  {
    TextOperatorInverse(p.op);
  }

  /** The optional `!` is told apart from a name that follows it. */
  lemma BangSplit(negated: bool, rest: string)
    requires |rest| > 0 && IsWordChar(rest[0])
    ensures var key := (if negated then "!" else "") + rest;
      && AfterBang(key) == rest
      && ((|key| > 0 && key[0] == '!') <==> negated)
  {
    assert !IsWordChar('!');
  }

  lemma DropRenderedNewline(op: Operator, newline: bool)
    ensures DropFinalNewline(OperatorText(op) + (if newline then "\n" else "")) == OperatorText(op)
  {
    var t := OperatorText(op) + (if newline then "\n" else "");
    if newline {
      assert t[..|t| - 1] == OperatorText(op);
    }
  }

  /** The record type `_parse_key_condition()` gives the key's groups; a list
      value admits only a bare or negated name. */
  function KeyType(p: KeyParts, isList: bool): (r: Result<int>)
    ensures r.Failure? ==> r.error == InputValidationException
    ensures r.Failure? <==> (
      || (isList && p.op != NoOperator)
      || (!isList && p.negated && p.op in {Less, LessEqual, Greater, GreaterEqual}))
  {
    if isList then
      if p.op != NoOperator then Failure(InputValidationException)
      else if p.negated then Success(D.TypeNotInListMatch)
      else Success(D.TypeInListMatch)
    else match (p.negated, p.op)
      case (false, NoOperator) => Success(D.TypeExactMatch)
      case (true, NoOperator) => Success(D.TypeExactNoMatch)
      case (false, Less) => Success(D.TypeLessThanMatch)
      case (false, LessEqual) => Success(D.TypeLessThanOrEqualMatch)
      case (false, Greater) => Success(D.TypeGreaterThanMatch)
      case (false, GreaterEqual) => Success(D.TypeGreaterThanOrEqualMatch)
      case (false, Similar) => Success(D.TypeCaseInsensitiveMatch)
      case (true, Similar) => Success(D.TypeCaseInsensitiveNoMatch)
      case _ => Failure(InputValidationException)
  }

  /** The key form a record type comes from: the inverse of `KeyType`. */
  function TypeForm(kind: int): (r: Option<(bool, Operator, bool)>)
  {
    if kind == D.TypeExactMatch then Some((false, NoOperator, false))
    else if kind == D.TypeExactNoMatch then Some((true, NoOperator, false))
    else if kind == D.TypeLessThanMatch then Some((false, Less, false))
    else if kind == D.TypeLessThanOrEqualMatch then Some((false, LessEqual, false))
    else if kind == D.TypeGreaterThanMatch then Some((false, Greater, false))
    else if kind == D.TypeGreaterThanOrEqualMatch then Some((false, GreaterEqual, false))
    else if kind == D.TypeCaseInsensitiveMatch then Some((false, Similar, false))
    else if kind == D.TypeCaseInsensitiveNoMatch then Some((true, Similar, false))
    else if kind == D.TypeInListMatch then Some((false, NoOperator, true))
    else if kind == D.TypeNotInListMatch then Some((true, NoOperator, true))
    else None
  }

  /** Distinct key forms get distinct record types: the type determines the
      negation, the operator and whether the value was a list. */
  lemma KeyTypeInverse(p: KeyParts, isList: bool)
    requires KeyType(p, isList).Success?
    ensures TypeForm(KeyType(p, isList).value) == Some((p.negated, p.op, isList))
  {
  }

  /** A parsed key: the whole key text and the record type. */
  datatype KeyDef = KeyDef(key: string, kind: int)

  /** `_parse_key_condition(key, value)`: None for a None key; the key text is
      kept whole, `!` and operator included. */
  function ParseKeyCondition(key: Option<string>, value: Value): (r: Result<Option<KeyDef>>)
    ensures key.None? ==> r == Success(None)
    ensures r.Failure? ==> r.error == InputValidationException
    ensures key.Some? && MatchKey(key.value).None? ==> r.Failure?
    ensures r.Success? && key.Some? ==> (
      && r.value.Some? && r.value.value.key == key.value && MatchKey(key.value).Some?
      && KeyType(MatchKey(key.value).value, value.VList?) == Success(r.value.value.kind))
  {
    match key
    case None => Success(None)
    case Some(k) =>
      match MatchKey(k)
      case None => Failure(InputValidationException)
      case Some(p) =>
        var kind :- KeyType(p, value.VList?);
        Success(Some(KeyDef(k, kind)))
  }

  /** The scalar builder for a record type, if one exists. */
  function TypeBuilder(kind: int): (r: Option<D.Builder>)
    ensures r.Some? ==> D.BuilderType(r.value) == kind
  {
    if kind == D.TypeExactMatch then Some(D.ExactMatch)
    else if kind == D.TypeExactNoMatch then Some(D.ExactNoMatch)
    else if kind == D.TypeLessThanMatch then Some(D.LessThanMatch)
    else if kind == D.TypeLessThanOrEqualMatch then Some(D.LessThanOrEqualMatch)
    else if kind == D.TypeGreaterThanMatch then Some(D.GreaterThanMatch)
    else if kind == D.TypeGreaterThanOrEqualMatch then Some(D.GreaterThanOrEqualMatch)
    else if kind == D.TypeCaseInsensitiveMatch then Some(D.CaseInsensitiveMatch)
    else if kind == D.TypeCaseInsensitiveNoMatch then Some(D.CaseInsensitiveNoMatch)
    else None
  }

  /** `_add_condition()`: the builder matching the type is called with the key
      text as attribute; a type without a builder adds nothing. */
  function AddCondition(d: D.Def, kd: KeyDef, value: Value): (r: D.Def)
    ensures r.concatenation == d.concatenation
    ensures TypeBuilder(kd.kind).Some? ==> r.conditions == d.conditions + [D.Leaf(kd.kind, kd.key, value)]
    ensures kd.kind in {D.TypeInListMatch, D.TypeNotInListMatch} && D.NonEmptyList(value) ==>
      r.conditions == d.conditions + [D.Leaf(kd.kind, kd.key, value)]
    ensures TypeForm(kd.kind).None? || (kd.kind in {D.TypeInListMatch, D.TypeNotInListMatch} && !D.NonEmptyList(value)) ==> r == d
    ensures D.WellFormed(d) ==> D.WellFormed(r)
  {
    match TypeBuilder(kd.kind)
    case Some(b) => D.Add(d, b, kd.key, value)
    case None =>
      if kd.kind == D.TypeInListMatch then D.AddInList(d, kd.key, value)
      else if kd.kind == D.TypeNotInListMatch then D.AddNotInList(d, kd.key, value)
      else d
  }

  /** `_add_condition()` as the source runs it: the not-in-list builder stores
      the in-list type, so an excluded list becomes an included one; every
      other type is added as `AddCondition` adds it. */
  function AddConditionAsWritten(d: D.Def, kd: KeyDef, value: Value): (r: D.Def)
    ensures kd.kind != D.TypeNotInListMatch ==> r == AddCondition(d, kd, value)
    ensures kd.kind == D.TypeNotInListMatch && D.NonEmptyList(value) ==>
      && r.concatenation == d.concatenation
      && r.conditions == d.conditions + [D.Leaf(D.TypeInListMatch, kd.key, value)]
      && AddCondition(d, kd, value).conditions == d.conditions + [D.Leaf(D.TypeNotInListMatch, kd.key, value)]
    ensures kd.kind == D.TypeNotInListMatch && !D.NonEmptyList(value) ==> r == d == AddCondition(d, kd, value)
  {
    if kd.kind == D.TypeNotInListMatch then D.AddNotInListAsWritten(d, kd.key, value) else AddCondition(d, kd, value)
  }

  /** What the base class's `_parse()` returned for one entry: a nested
      definition, or the plain value. */
  datatype Parsed = Nested(definition: D.Def) | Plain(value: Value)

  /** One entry of an "and" level. */
  function AndStep(d: D.Def, key: string, p: Parsed): (r: Result<D.Def>)
    ensures r.Failure? <==> p.Plain? && ParseKeyCondition(Some(key), p.value).Failure?
    ensures r.Failure? ==> r.error == InputValidationException
    ensures r.Success? ==> (
      && r.value.concatenation == d.concatenation
      && |d.conditions| <= |r.value.conditions| <= |d.conditions| + 1
      && r.value.conditions[..|d.conditions|] == d.conditions)
    ensures r.Success? && D.WellFormed(d) && (p.Nested? ==> D.WellFormed(p.definition)) ==> D.WellFormed(r.value)
  {
    match p
    case Nested(s) => D.AddSubCondition(d, D.Definition(s))
    case Plain(v) =>
      var kd :- ParseKeyCondition(Some(key), v);
      Success(AddCondition(d, kd.value, v))
  }

  /** A nested result and its entry's definitions are well-formed. */
  predicate NestedWellFormed(entries: seq<(string, Parsed)>) {
    forall i :: 0 <= i < |entries| ==> entries[i].1.Nested? ==> D.WellFormed(entries[i].1.definition)
  }

  /** Whether the plain value of an entry carries a key the parser refuses. */
  predicate RefusedEntry(e: (string, Parsed)) {
    e.1.Plain? && ParseKeyCondition(Some(e.0), e.1.value).Failure?
  }

  function AndFold(d: D.Def, entries: seq<(string, Parsed)>): (r: Result<D.Def>)
    ensures r.Failure? <==> exists i :: 0 <= i < |entries| && RefusedEntry(entries[i])
    ensures r.Failure? ==> r.error == InputValidationException
    ensures r.Success? ==> (
      && r.value.concatenation == d.concatenation
      && |d.conditions| <= |r.value.conditions| <= |d.conditions| + |entries|
      && r.value.conditions[..|d.conditions|] == d.conditions)
    ensures r.Success? && D.WellFormed(d) && NestedWellFormed(entries) ==> D.WellFormed(r.value)
    decreases |entries|
  {
    if |entries| == 0 then Success(d)
    else
      var e :- AndStep(d, entries[0].0, entries[0].1);
      assert forall i :: 1 <= i < |entries| ==> entries[1..][i - 1] == entries[i];
      AndFold(e, entries[1..])
  }

  /** `_parse_and_concatenation()`: an AND definition with one record per
      plain entry (a list only when non-empty) and one per non-empty nested
      definition, in the document's order. */
  function ParseAnd(entries: seq<(string, Parsed)>): (r: Result<D.Def>)
    ensures r.Failure? <==> exists i :: 0 <= i < |entries| && RefusedEntry(entries[i])
    ensures r.Failure? ==> r.error == InputValidationException
    ensures r.Success? ==> r.value.concatenation == VInt(D.And) && |r.value.conditions| <= |entries|
    ensures r.Success? && NestedWellFormed(entries) ==> D.WellFormed(r.value)
  {
    AndFold(D.Def(VInt(D.And), []), entries)
  }

  /** The "and" loop one entry further: the fold over the entries and one more
      is the fold over the entries followed by that entry's step. */
  lemma {:induction false} AndFoldSnoc(d: D.Def, entries: seq<(string, Parsed)>, e: (string, Parsed))
    ensures AndFold(d, entries + [e])
      == match AndFold(d, entries) case Failure(x) => Failure(x) case Success(f) => AndStep(f, e.0, e.1)
    decreases |entries|
  {
    if |entries| == 0 {
      assert ([] + [e])[1..] == [];
    } else {
      assert (entries + [e])[0] == entries[0];
      assert (entries + [e])[1..] == entries[1..] + [e];
      var s := AndStep(d, entries[0].0, entries[0].1);
      if s.Success? {
        AndFoldSnoc(s.value, entries[1..], e);
      }
    }
  }

  /** `_parse_and_concatenation()` is the entries' conditions added one after
      another to an empty AND definition: one entry more is one
      `_add_condition()` (or sub-condition) more. */
  lemma ParseAndSnoc(entries: seq<(string, Parsed)>, key: string, value: Value)
    ensures ParseAnd(entries + [(key, Plain(value))])
      == match ParseAnd(entries)
         case Failure(x) => Failure(x)
         case Success(f) =>
           match ParseKeyCondition(Some(key), value)
           case Failure(x) => Failure(x)
           case Success(kd) => Success(AddCondition(f, kd.value, value))
  {
    AndFoldSnoc(D.Def(VInt(D.And), []), entries, (key, Plain(value)));
  }

  /** A single plain entry `{key: value}` parses to the key's condition added
      to an empty AND definition. */
  lemma ParseAndSingle(key: string, value: Value)
    requires ParseKeyCondition(Some(key), value).Success?
    ensures ParseAnd([(key, Plain(value))])
      == Success(AddCondition(D.Def(VInt(D.And), []), ParseKeyCondition(Some(key), value).value.value, value))
  {
    ParseAndSnoc([], key, value);
    assert [] + [(key, Plain(value))] == [(key, Plain(value))];
  }

  /** The state of the "or" loop: the definition so far and the exact-match
      values collected. */
  datatype OrState = OrState(def: D.Def, values: seq<Value>)

  /** One entry of an "or" list under the list's key. */
  function OrStep(key: Option<string>, listKey: Option<KeyDef>, st: OrState, p: Parsed): (r: Result<OrState>)
    ensures r.Failure? ==> r.error == InputValidationException
    ensures p.Plain? && listKey.None? ==> r.Failure?
    ensures p.Nested? ==> r.Success?
  {
    match p
    case Nested(s) =>
      var d := D.AddSubCondition(st.def, D.Definition(s)).value;
      Success(OrState(d, st.values))
    case Plain(v) =>
      if listKey.None? then Failure(InputValidationException)
      else
        var kd :- if v.VList? then ParseKeyCondition(key, v) else Success(listKey);
        if kd.None? then Failure(InputValidationException)
        else if kd.value.kind == D.TypeExactMatch then Success(OrState(st.def, st.values + [v]))
        else Success(OrState(AddCondition(st.def, kd.value, v), st.values))
  }

  function OrFold(key: Option<string>, listKey: Option<KeyDef>, st: OrState, parsed: seq<Parsed>): (r: Result<OrState>)
    ensures r.Failure? ==> r.error == InputValidationException
    decreases |parsed|
  {
    if |parsed| == 0 then Success(st)
    else
      var next :- OrStep(key, listKey, st, parsed[0]);
      OrFold(key, listKey, next, parsed[1..])
  }

  /** `_parse_or_concatenation()` as written: the collected exact-match values
      are handed to `_add_condition()` with the key string where a key
      definition belongs, and `key_definition['key']` on a string raises
      Python's TypeError. */
  function ParseOrAsWritten(key: Option<string>, parsed: seq<Parsed>): (r: Result<D.Def>)
    ensures r.Failure? ==> r.error in {InputValidationException, PythonTypeError}
  {
    var listKey :- ParseKeyCondition(key, VNone);
    var st :- OrFold(key, listKey, OrState(D.Def(VInt(D.Or), []), []), parsed);
    if |st.values| > 0 then Failure(PythonTypeError) else Success(st.def)
  }

  /** `_parse_and_add_condition()`. */
  function ParseAndAdd(d: D.Def, key: Option<string>, value: Value): (r: Result<D.Def>)
    ensures key.None? ==> r.Failure?
    ensures r.Failure? ==> r.error in {InputValidationException, PythonTypeError}
  {
    var kd :- ParseKeyCondition(key, value);
    if kd.None? then Failure(PythonTypeError) else Success(AddCondition(d, kd.value, value))
  }

  /** `_parse_or_concatenation()` with the collected values parsed against the
      list's key, as `_parse_and_add_condition()` does: several values become
      one in-list condition, a single one an exact match. */
  function ParseOr(key: Option<string>, parsed: seq<Parsed>): (r: Result<D.Def>)
    ensures r.Failure? ==> r.error in {InputValidationException, PythonTypeError}
  {
    var listKey :- ParseKeyCondition(key, VNone);
    var st :- OrFold(key, listKey, OrState(D.Def(VInt(D.Or), []), []), parsed);
    if |st.values| > 1 then ParseAndAdd(st.def, key, VList(st.values))
    else if |st.values| == 1 then ParseAndAdd(st.def, key, st.values[0])
    else Success(st.def)
  }

  /** Plain values that are not lists. */
  predicate AllScalars(parsed: seq<Parsed>) {
    forall i :: 0 <= i < |parsed| ==> parsed[i].Plain? && !parsed[i].value.VList?
  }

  function PlainValues(parsed: seq<Parsed>): (r: seq<Value>)
    requires AllScalars(parsed)
    ensures |r| == |parsed| && forall i :: 0 <= i < |r| ==> r[i] == parsed[i].value
  {
    if |parsed| == 0 then [] else [parsed[0].value] + PlainValues(parsed[1..])
  }

  /** The first plain value, then the rest's. */
  lemma PlainValuesFirst(parsed: seq<Parsed>)
    requires AllScalars(parsed) && |parsed| > 0
    ensures AllScalars(parsed[1..])
    ensures PlainValues(parsed) == [parsed[0].value] + PlainValues(parsed[1..])
  {
    assert forall i :: 0 <= i < |parsed| - 1 ==> parsed[1..][i] == parsed[i + 1];
  }

  /** Collected values append regardless of grouping. */
  lemma ValuesAppend(a: seq<Value>, b: seq<Value>, c: seq<Value>)
    ensures a + b + c == a + (b + c)
    ensures a + [] == a
  {
  }

  /** Under an exact-match key, a scalar is collected. */
  lemma OrStepCollects(key: Option<string>, listKey: Option<KeyDef>, st: OrState, v: Value)
    requires !v.VList? && listKey.Some? && listKey.value.kind == D.TypeExactMatch
    ensures OrStep(key, listKey, st, Plain(v)) == Success(OrState(st.def, st.values + [v]))
  {
  }

  lemma OrFoldStep(key: Option<string>, listKey: Option<KeyDef>, st: OrState, parsed: seq<Parsed>, next: OrState)
    requires |parsed| > 0 && OrStep(key, listKey, st, parsed[0]) == Success(next)
    ensures OrFold(key, listKey, st, parsed) == OrFold(key, listKey, next, parsed[1..])
  {
  }

  /** Under an exact-match key, the "or" loop only collects scalar values. */
  lemma {:induction false} OrFoldCollects(key: Option<string>, listKey: Option<KeyDef>, st: OrState, parsed: seq<Parsed>)
    requires AllScalars(parsed) && listKey.Some? && listKey.value.kind == D.TypeExactMatch
    ensures OrFold(key, listKey, st, parsed) == Success(OrState(st.def, st.values + PlainValues(parsed)))
    decreases |parsed|
  {
    if |parsed| > 0 {
      var v := parsed[0].value;
      var next := OrState(st.def, st.values + [v]);
      OrStepCollects(key, listKey, st, v);
      OrFoldStep(key, listKey, st, parsed, next);
      PlainValuesFirst(parsed);
      OrFoldCollects(key, listKey, next, parsed[1..]);
      ValuesAppend(st.values, [v], PlainValues(parsed[1..]));
    } else {
      ValuesAppend(st.values, [], []);
    }
  }

  /** An exact-match key with at least one scalar value: as written the parser
      raises TypeError; corrected, the values become one condition, an in-list
      for several and an exact match for one. */
  lemma OrOfScalars(name: string, parsed: seq<Parsed>)
    requires ValidName(name) && AllScalars(parsed) && |parsed| > 0
    ensures ParseOrAsWritten(Some(name), parsed) == Failure(PythonTypeError)
    ensures |parsed| > 1 ==>
      ParseOr(Some(name), parsed) == Success(D.Def(VInt(D.Or), [D.Leaf(D.TypeInListMatch, name, VList(PlainValues(parsed)))]))
    ensures |parsed| == 1 ==>
      ParseOr(Some(name), parsed) == Success(D.Def(VInt(D.Or), [D.Leaf(D.TypeExactMatch, name, parsed[0].value)]))
  {
    var listKey := Some(KeyDef(name, D.TypeExactMatch));
    var start := OrState(D.Def(VInt(D.Or), []), []);
    var values := PlainValues(parsed);
    BareNameKey(name, VNone);
    OrFoldCollects(Some(name), listKey, start, parsed);
    assert [] + values == values;
    OrFinish(Some(name), parsed, listKey, OrState(start.def, values));
    AddBareName(name, VList(values));
    AddBareName(name, parsed[0].value);
  }

  /** `_parse_and_add_condition()` of a bare name on an empty "or" definition. */
  lemma AddBareName(name: string, value: Value)
    requires ValidName(name) && (value.VList? ==> |value.items| > 0)
    ensures ParseAndAdd(D.Def(VInt(D.Or), []), Some(name), value)
      == Success(D.Def(VInt(D.Or), [D.Leaf(if value.VList? then D.TypeInListMatch else D.TypeExactMatch, name, value)]))
  {
    BareNameKey(name, value);
    var kind := if value.VList? then D.TypeInListMatch else D.TypeExactMatch;
    var d := D.Def(VInt(D.Or), []);
    var leaf := D.Leaf(kind, name, value);
    assert ParseAndAdd(d, Some(name), value) == Success(AddCondition(d, KeyDef(name, kind), value));
    if value.VList? {
      assert D.NonEmptyList(value);
    } else {
      assert TypeBuilder(kind) == Some(D.ExactMatch);
    }
    assert [] + [leaf] == [leaf];
    assert AddCondition(d, KeyDef(name, kind), value).conditions == [leaf];
  }

  /** A bare name parses to the exact-match type, or to in-list for a list. */
  lemma BareNameKey(name: string, value: Value)
    requires ValidName(name)
    ensures ParseKeyCondition(Some(name), value)
      == Success(Some(KeyDef(name, if value.VList? then D.TypeInListMatch else D.TypeExactMatch)))
  {
    var p := KeyParts(false, name, NoOperator);
    MatchRender(p, false);
    assert Render(p) + "" == name;
  }

  /** Both "or" parsers once the list key is parsed and the loop has run. */
  lemma OrFinish(key: Option<string>, parsed: seq<Parsed>, listKey: Option<KeyDef>, st: OrState)
    requires ParseKeyCondition(key, VNone) == Success(listKey)
    requires OrFold(key, listKey, OrState(D.Def(VInt(D.Or), []), []), parsed) == Success(st)
    ensures ParseOrAsWritten(key, parsed) == if |st.values| > 0 then Failure(PythonTypeError) else Success(st.def)
    ensures ParseOr(key, parsed)
      == if |st.values| > 1 then ParseAndAdd(st.def, key, VList(st.values))
         else if |st.values| == 1 then ParseAndAdd(st.def, key, st.values[0])
         else Success(st.def)
  {
  }

  /** The concrete case: `{"id": [1, 2]}` handed down as an "or" list. */
  lemma OrOfScalarsExample()
    ensures ParseOrAsWritten(Some("id"), [Plain(VInt(1)), Plain(VInt(2))]) == Failure(PythonTypeError)
    ensures ParseOr(Some("id"), [Plain(VInt(1)), Plain(VInt(2))])
      == Success(D.Def(VInt(D.Or), [D.Leaf(D.TypeInListMatch, "id", VList([VInt(1), VInt(2)]))]))
  {
    assert ValidName("id");
    var parsed := [Plain(VInt(1)), Plain(VInt(2))];
    OrOfScalars("id", parsed);
    assert PlainValues(parsed) == [VInt(1), VInt(2)];
  }

  /** A top-level "or" list (no key) admits only nested definitions. */
  lemma TopLevelOrRefusesValues(parsed: seq<Parsed>, i: nat)
    requires i < |parsed| && parsed[i].Plain?
    requires forall j :: 0 <= j < i ==> parsed[j].Nested?
    ensures ParseOr(None, parsed) == Failure(InputValidationException)
    ensures ParseOrAsWritten(None, parsed) == Failure(InputValidationException)
  {
    TopLevelFold(OrState(D.Def(VInt(D.Or), []), []), parsed, i);
  }

  lemma {:induction false} TopLevelFold(st: OrState, parsed: seq<Parsed>, i: nat)
    requires i < |parsed| && parsed[i].Plain?
    requires forall j :: 0 <= j < i ==> parsed[j].Nested?
    ensures OrFold(None, None, st, parsed) == Failure(InputValidationException)
    decreases i
  {
    if i > 0 {
      var next := OrStep(None, None, st, parsed[0]);
      TopLevelFold(next.value, parsed[1..], i - 1);
    }
  }

  /** The `filter` setter: only a condition definition is accepted. */
  function SetFilter(arg: D.SubArgument): (r: Result<D.Def>)
    ensures r.Failure? <==> arg.NotADefinition?
    ensures r.Failure? ==> r.error == OperationNotSupportedException
    ensures r.Success? ==> r.value == arg.definition
  {
    match arg
    case NotADefinition(_) => Failure(OperationNotSupportedException)
    case Definition(d) => Success(d)
  }

  /** `_set_empty_filter()`: a fresh definition with the default concatenation,
      which compiles to no filter at all. */
  function EmptyFilter(): (r: D.Def)
    ensures D.New(VInt(D.Or)) == Success(r)
    ensures D.WellFormed(r) && D.Compile(r).None?
  {
    D.Empty
  }
}

=== FILE: instance_dng.dfy ===
/** The members of the dNG instance wrapper, src/dNG/database/instance.py, that
    differ from the current generation; its `with` protocol, `save()`, sort
    resolution and attribute reads are those of InstanceModern. */
module InstanceDng {
  import opened Wrappers
  import opened Values
  import opened Trace
  import opened Rows
  import M = InstanceModern

  /** `delete()`: `is_known()` is asked before any context is entered, so an
      unknown row returns False without a single call into the connection. */
  function Delete(i: M.Inst, cfg: M.Config, connDepth: int, env: M.Env): (r: M.Deleted)
    ensures !Known(i.row) ==> r == M.Deleted(M.Step(i, [], false), false)
    ensures var begun := !(connDepth < 1 && env.beginFails);
      && (r.deleted <==> Known(i.row) && !M.Enter(i, cfg, env).raised && begun && !env.deleteFails)
      && (RowDelete in r.step.events <==> Known(i.row) && !M.Enter(i, cfg, env).raised && begun)
    ensures r.deleted ==> r.step.inst.row.None?
    ensures Known(i.row) && !r.deleted ==> r.step.raised
  {
    if !Known(i.row) then M.Deleted(M.Step(i, [], false), false)
    else
      var e := M.Enter(i, cfg, env);
      if e.raised then M.Deleted(e, false)
      else
        var d := M.DeleteEntered(e.inst, connDepth, env);
        M.Deleted(M.Step(d.step.inst, e.events + d.step.events, d.step.raised), d.deleted)
  }

  /** For a known row both generations delete alike; they differ only in
      whether an unknown row costs a context cycle. */
  lemma DeleteAgreesOnKnownRows(i: M.Inst, cfg: M.Config, connDepth: int, env: M.Env)
    requires Known(i.row)
    ensures Delete(i, cfg, connDepth, env) == M.Delete(i, cfg, connDepth, env)
  {
    var e := M.Enter(i, cfg, env);
    assert !e.raised ==> Known(e.inst.row);
  }

  /** For an unknown row the current generation still enters and leaves the
      connection context, where this one makes no call at all. */
  lemma UnknownRowCostsContext(cfg: M.Config, connDepth: int)
    ensures var i := M.Inst(0, Some(Transient), false);
      && Delete(i, cfg, connDepth, M.NoFailure).step.events == []
      && M.Delete(i, cfg, connDepth, M.NoFailure).step.events == [ConnEnter, ConnExit(false)]
  {
  }

  /** `set_data_attributes()` of the base class is not implemented. */
  function SetAttributes(cols: M.Columns, values: map<string, Value>): (r: Result<M.Columns>)
    ensures r == Failure(NotImplementedException)
  {
    Failure(NotImplementedException)
  }

  /** The method `_wrap_setter(key)` generates: `set_data_attributes(key = value)`. */
  function WrapSetter(key: string): (setter: (M.Columns, Value) -> Result<M.Columns>)
    ensures forall cols, v :: setter(cols, v) == SetAttributes(cols, map[key := v])
  {
    (cols: M.Columns, v: Value) => SetAttributes(cols, map[key := v])
  }

  /** The method `_wrap_getter(key)` generates: `get_data_attributes(key)[key]`. */
  function WrapGetter(key: string): (getter: M.Columns -> Value)
    ensures forall cols :: getter(cols) == M.GetAttributes(cols, [key])[key]
  {
    (cols: M.Columns) => M.GetAttributes(cols, [key])[key]
  }

  /** A generated getter reads the column itself, None when the row lacks it. */
  lemma WrapGetterReads(key: string, cols: M.Columns)
    ensures WrapGetter(key)(cols) == M.GetAttribute(cols, key)
    ensures key !in cols ==> WrapGetter(key)(cols) == VNone
  {
  }
}

=== FILE: instance_modern.dfy ===
/** The `with instance:` protocol and the row operations of the database
    instance wrapper in src/pas_database/instance.py. The dNG generation,
    src/dNG/database/instance.py, runs the same protocol; the members where it
    differs are in InstanceDng.

    The outermost block of a thread enters the connection context and the exit
    that brings the depth back below 1 leaves it again; a transaction is begun
    only by `_ensure_transaction_context()`, which remembers that it did so in
    `wrapped_transaction`, and only the outermost exit ends such a transaction.
    The Connection of this generation is not part of this model: its methods
    appear as `Conn*` events, and the transaction depth it reports is passed in. */
module InstanceModern {
  import opened Wrappers
  import opened Values
  import opened Trace
  import opened Rows
  import SortDefinition

  /** `local.context_depth`, the state of `local.db_instance` and
      `local.wrapped_transaction` of the thread. */
  datatype Inst = Inst(depth: int, row: Option<RowState>, wrapped: bool)

  /** A wrapper that no thread has entered and that has no row yet. */
  const Fresh := Inst(0, None, false)

  /** `is_reloadable` of the concrete class, and whether it names a row class in
      `_DB_INSTANCE_CLASS` (`get_db_class()` returns None otherwise). The base
      class is never reloadable; a key-store entry is reloadable exactly when
      it has an id, and its `_reload()` fetches a missing row by that id. */
  datatype Config = Config(reloadable: bool, hasDbClass: bool)

  /** What can fail: entering the connection context, the session call that
      attaches the row (the merge of a detached row, or the `.one()` fetching a
      missing row by id, which raises when no row has it), the `begin()` of `_ensure_transaction_context()`, the
      session's `delete()`, the commit or rollback at the outermost exit, and
      the fallback rollback after a failed commit. */
  datatype Env = Env(
    connEnterFails: bool,
    sessionFails: bool,
    beginFails: bool,
    deleteFails: bool,
    nativeFails: bool,
    fallbackFails: bool)

  const NoFailure := Env(false, false, false, false, false, false)

  /** One call: the state afterwards, the calls made, and whether an exception escapes. */
  datatype Step = Step(inst: Inst, events: seq<Event>, raised: bool)

  /** `is_known` once the row is attached: it had an identity, or it is missing
      and fetched by id. */
  predicate KnownOnEntry(row: Option<RowState>, cfg: Config) {
    Known(row) || (row.None? && cfg.reloadable)
  }

  /** A row that `save()` has to add once it is attached: a transient one, or a
      missing one the row class supplies because it cannot be reloaded. */
  predicate NewOnEntry(row: Option<RowState>, cfg: Config) {
    (row.None? && !cfg.reloadable && cfg.hasDbClass) || row == Some(Transient)
  }

  /** The row after `_ensure_thread_local_instance()` or `_ensure_attached_instance()`. */
  datatype Load = Load(row: Option<RowState>, events: seq<Event>, raised: bool)

  /** A missing row is reloaded by id when the wrapper is reloadable (the
      connection context is entered by then, so `reload()` reaches `_reload()`),
      replaced by a new transient one of the row class otherwise, and stays
      missing when the class names none; a detached row is merged back into the
      session, loading it unless it is persistent. A failing session call
      leaves the row as it was. */
  function Attach(row: Option<RowState>, cfg: Config, sessionFails: bool): (r: Load)
    ensures r.raised <==> ((row.None? && cfg.reloadable) || row == Some(Detached)) && sessionFails
    ensures r.raised ==> r.row == row
    ensures !r.raised ==> (r.row.Some? <==> row.Some? || cfg.reloadable || cfg.hasDbClass)
    ensures !r.raised && r.row.Some? ==> r.row.value != Detached
    ensures !r.raised ==> (Known(r.row) <==> KnownOnEntry(row, cfg))
    ensures row.None? && cfg.reloadable ==>
      r == Load(if sessionFails then None else Some(Persistent), [RowQuery], sessionFails)
    ensures row.None? && !cfg.reloadable ==> r == Load(if cfg.hasDbClass then Some(Transient) else None, [], false)
    ensures row.Some? && row.value != Detached ==> r == Load(row, [], false)
    ensures row == Some(Detached) ==> r.events == [RowMerge(true)]
  {
    match row
    case None =>
      if cfg.reloadable then
        if sessionFails then Load(row, [RowQuery], true) else Load(Some(Persistent), [RowQuery], false)
      else if cfg.hasDbClass then Load(Some(Transient), [], false)
      else Load(None, [], false)
    case Some(s) =>
      if s != Detached then Load(row, [], false)
      else
        // In SQLAlchemy's state model a detached row always has an identity
        // and is never persistent: the `add()` branch cannot be taken, and the
        // merge always loads.
        assert HasIdentity(s) && s != Persistent;
        if sessionFails then Load(row, [RowMerge(true)], true) else Load(Some(Persistent), [RowMerge(true)], false)
  }

  /** `_enter_context()`: only the entry from depth 0 enters the connection
      context. When attaching the row fails, the depth is restored and the
      connection context is left again exactly when this call entered it. */
  function Enter(i: Inst, cfg: Config, env: Env): (r: Step)
    ensures r.raised <==> (i.depth < 1 && env.connEnterFails) || Attach(i.row, cfg, env.sessionFails).raised
    ensures i.depth >= 0 && r.raised ==> r.inst == i
    ensures !r.raised ==> r.inst.depth == i.depth + 1 && r.inst.wrapped == i.wrapped
    ensures !r.raised ==> (r.inst.row.Some? <==> i.row.Some? || cfg.reloadable || cfg.hasDbClass)
    ensures !r.raised && r.inst.row.Some? ==> r.inst.row.value != Detached
    ensures !r.raised ==> (Known(r.inst.row) <==> KnownOnEntry(i.row, cfg))
    ensures ConnEnter in r.events <==> i.depth < 1
    ensures ConnExit(false) in r.events <==> i.depth < 1 && !env.connEnterFails && r.raised
    ensures ConnExit(true) !in r.events && ConnBegin !in r.events
    ensures ConnCommit !in r.events && ConnRollback !in r.events && RowAdd !in r.events && RowDelete !in r.events
  {
    var outer := i.depth < 1;
    if outer && env.connEnterFails then Step(i, [ConnEnter], true)
    else
      var enter := if outer then [ConnEnter] else [];
      var depth := i.depth + 1;
      var l := Attach(i.row, cfg, env.sessionFails);
      if l.raised then
        Step(Inst(if depth > 0 then depth - 1 else depth, l.row, i.wrapped),
             enter + l.events + (if outer then [ConnExit(false)] else []), true)
      else Step(Inst(depth, l.row, i.wrapped), enter + l.events, false)
  }

  /** `_ensure_transaction_context()`: a transaction is begun, and marked as
      wrapped, only when the connection has none open (`connDepth` is what
      `get_transaction_depth()` reports). A raising `begin()` escapes before
      the mark is set. */
  function EnsureTransaction(i: Inst, connDepth: int, beginFails: bool): (r: Step)
    ensures r.inst.depth == i.depth && r.inst.row == i.row
    ensures r.raised <==> connDepth < 1 && beginFails
    ensures r.raised ==> r.inst == i
    ensures ConnBegin in r.events <==> connDepth < 1
    ensures r.inst.wrapped <==> i.wrapped || (connDepth < 1 && !beginFails)
    ensures connDepth >= 1 ==> r == Step(i, [], false)
    ensures RowDelete !in r.events
  {
    if connDepth < 1 then
      if beginFails then Step(i, [ConnBegin], true) else Step(i.(wrapped := true), [ConnBegin], false)
    else Step(i, [], false)
  }

  /** `_exit_context()`: the exit that leaves the depth below 1 ends a wrapped
      transaction, committing on a clean exit and rolling back otherwise, and
      clears the mark; a failed commit or rollback is logged and keeps the mark,
      a failed commit is followed by a rollback. The connection context is then
      left, unless that fallback rollback raised. */
  function Exit(i: Inst, exc: bool, env: Env): (r: Step)
    ensures r.inst.depth == i.depth - 1 && r.inst.row == i.row
    ensures var closes := i.depth - 1 < 1 && i.wrapped;
      && (ConnCommit in r.events <==> closes && !exc)
      && (ConnRollback in r.events <==> closes && (exc || env.nativeFails))
      && (r.inst.wrapped <==> i.wrapped && !(closes && !env.nativeFails))
      && (r.raised <==> closes && !exc && env.nativeFails && env.fallbackFails)
    ensures ConnExit(exc) in r.events <==> i.depth - 1 < 1 && !r.raised
    ensures ConnExit(!exc) !in r.events && ConnEnter !in r.events && ConnBegin !in r.events && RowDelete !in r.events
    ensures i.depth >= 2 ==> r == Step(i.(depth := i.depth - 1), [], false)
  {
    var depth := i.depth - 1;
    var closes := depth < 1 && i.wrapped;
    var native :=
      if !closes then []
      else if !exc then [ConnCommit] + (if env.nativeFails then [ErrorLogged, ConnRollback] else [])
      else [ConnRollback] + (if env.nativeFails then [ErrorLogged] else []);
    var raised := closes && !exc && env.nativeFails && env.fallbackFails;
    var wrapped := if closes && !env.nativeFails then false else i.wrapped;
    Step(Inst(depth, i.row, wrapped), native + (if depth < 1 && !raised then [ConnExit(exc)] else []), raised)
  }

  /** `_insert()`: only a transient row is added to the session. */
  function Insert(i: Inst): (r: Step)
    ensures r.inst.depth == i.depth && r.inst.wrapped == i.wrapped
    ensures r.raised <==> i.row.None?
    ensures RowAdd in r.events <==> i.row == Some(Transient)
    ensures !r.raised ==> r.inst.row.Some? && r.inst.row.value != Transient
    ensures i.row.Some? && i.row.value != Transient ==> r == Step(i, [], false)
  {
    match i.row
    case None => Step(i, [], true)
    case Some(s) =>
      if s == Transient then Step(i.(row := Some(Pending)), [RowAdd], false) else Step(i, [], false)
  }

  /** The body of `save()`: ensure a transaction, then `_update()` (a no-op)
      for a known row and `_insert()` otherwise. A raising `begin()` ends the
      body before the row is touched. */
  function SaveBody(i: Inst, connDepth: int, beginFails: bool): (r: Step)
    ensures var begun := !(connDepth < 1 && beginFails);
      && r.inst.depth == i.depth
      && (r.raised <==> !begun || i.row.None?)
      && (RowAdd in r.events <==> begun && i.row == Some(Transient))
      && (!begun ==> r.inst == i)
    ensures ConnBegin in r.events <==> connDepth < 1
    ensures r.inst.wrapped <==> i.wrapped || (connDepth < 1 && !beginFails)
    ensures !r.raised ==> r.inst.row.Some? && r.inst.row.value != Transient
    ensures !r.raised && i.row.value != Detached ==> r.inst.row.value != Detached
    ensures forall e :: e in r.events ==> e in {ConnBegin, RowAdd}
  {
    var t := EnsureTransaction(i, connDepth, beginFails);
    if t.raised || Known(t.inst.row) then t
    else
      var ins := Insert(t.inst);
      Step(ins.inst, t.events + ins.events, ins.raised)
  }

  /** The body of `save()` and the exit of its block, once the context is
      entered (`i.depth` is the depth after the entry). */
  function SaveEntered(i: Inst, connDepth: int, env: Env): (r: Step)
    ensures var begun := !(connDepth < 1 && env.beginFails);
      RowAdd in r.events <==> begun && i.row == Some(Transient)
    ensures r.inst.depth == i.depth - 1
    ensures !r.raised ==> r.inst.row.Some? && r.inst.row.value != Transient
    ensures !r.raised && i.row.Some? && i.row.value != Detached ==> r.inst.row.value != Detached
    ensures i.depth == 1 && !env.nativeFails ==> !r.inst.wrapped
    ensures i.depth == 1 && connDepth < 1 && !env.beginFails && !env.nativeFails && i.row.Some? ==>
      ConnBegin in r.events && ConnCommit in r.events && ConnExit(false) in r.events
    ensures connDepth < 1 && env.beginFails ==>
      r.raised && ConnCommit !in r.events && (i.depth == 1 ==> ConnExit(true) in r.events)
    ensures i.depth >= 2 ==> ConnCommit !in r.events && ConnRollback !in r.events && ConnExit(false) !in r.events
  {
    var b := SaveBody(i, connDepth, env.beginFails);
    var x := Exit(b.inst, b.raised, env);
    Step(x.inst, b.events + x.events, b.raised || x.raised)
  }

  /** `save()`: the body inside `with self`. Only a new row (a transient one,
      or a missing one the row class supplies) is added, and a saved row is no
      longer transient; the depth comes back to where it was, and a save from
      depth 0 that had to begin a transaction commits it and clears the mark
      unless the commit failed. A raising `begin()` adds nothing, and the exit
      sees the exception. */
  function Save(i: Inst, cfg: Config, connDepth: int, env: Env): (r: Step)
    ensures var begun := !(connDepth < 1 && env.beginFails);
      RowAdd in r.events <==>
        !Enter(i, cfg, env).raised && begun && NewOnEntry(i.row, cfg)
    ensures !Enter(i, cfg, env).raised ==> r.inst.depth == i.depth
    ensures !r.raised ==> r.inst.row.Some? && r.inst.row.value != Transient && r.inst.row.value != Detached
    ensures !Enter(i, cfg, env).raised && i.depth == 0 && !env.nativeFails ==> !r.inst.wrapped
    ensures
      (!Enter(i, cfg, env).raised && i.depth == 0 && connDepth < 1 && !env.beginFails && !env.nativeFails
       && Enter(i, cfg, env).inst.row.Some?) ==>
        ConnBegin in r.events && ConnCommit in r.events && ConnExit(false) in r.events
    ensures !Enter(i, cfg, env).raised && connDepth < 1 && env.beginFails ==>
      && r.raised && ConnCommit !in r.events
      && (i.depth == 0 ==> ConnExit(true) in r.events)
    ensures KnownOnEntry(i.row, cfg) ==> RowAdd !in r.events
    ensures i.depth >= 1 ==> ConnCommit !in r.events && ConnRollback !in r.events && ConnExit(false) !in r.events
  {
    var e := Enter(i, cfg, env);
    if e.raised then e
    else
      var x := SaveEntered(e.inst, connDepth, env);
      Step(x.inst, e.events + x.events, x.raised)
  }

  /** A fresh wrapper saved outside any transaction: the connection context is
      entered, a transaction begun, the new row added and committed, and the
      context left. */
  lemma SaveFresh()
    ensures Save(Fresh, Config(false, true), 0, NoFailure)
         == Step(Inst(0, Some(Pending), false), [ConnEnter, ConnBegin, RowAdd, ConnCommit, ConnExit(false)], false)
  {
    var e := Enter(Fresh, Config(false, true), NoFailure);
    assert e == Step(Inst(1, Some(Transient), false), [ConnEnter], false);
    var b := SaveBody(e.inst, 0, false);
    assert b == Step(Inst(1, Some(Pending), true), [ConnBegin, RowAdd], false);
    var x := Exit(b.inst, false, NoFailure);
    assert x == Step(Inst(0, Some(Pending), false), [ConnCommit, ConnExit(false)], false);
    assert SaveEntered(e.inst, 0, NoFailure) == Step(x.inst, [ConnBegin, RowAdd] + [ConnCommit, ConnExit(false)], false);
    assert [ConnEnter] + ([ConnBegin, RowAdd] + [ConnCommit, ConnExit(false)]) == [ConnEnter, ConnBegin, RowAdd, ConnCommit, ConnExit(false)];
  }

  /** A new row saved without failure is added exactly once. */
  lemma SaveAddsOnce(i: Inst, cfg: Config, connDepth: int)
    requires NewOnEntry(i.row, cfg)
    requires !Enter(i, cfg, NoFailure).raised
    ensures var s := Save(i, cfg, connDepth, NoFailure);
      !s.raised && Count(s.events, RowAdd) == 1
  {
    var e := Enter(i, cfg, NoFailure);
    var b := SaveBody(e.inst, connDepth, false);
    assert Count(b.events, RowAdd) == 1 by {
      var t := EnsureTransaction(e.inst, connDepth, false);
      assert b.events == t.events + [RowAdd];
      CountConcat(t.events, [RowAdd], RowAdd);
    }
    var x := Exit(b.inst, b.raised, NoFailure);
    CountConcat(b.events, x.events, RowAdd);
    CountConcat(e.events, b.events + x.events, RowAdd);
  }

  /** Saving twice adds the row once: the second save finds it pending or known. */
  lemma SaveTwiceAddsOnce(i: Inst, cfg: Config, connDepth1: int, connDepth2: int)
    requires NewOnEntry(i.row, cfg)
    requires !Enter(i, cfg, NoFailure).raised
    ensures var s1 := Save(i, cfg, connDepth1, NoFailure);
      var s2 := Save(s1.inst, cfg, connDepth2, NoFailure);
      !s1.raised && Count(s1.events + s2.events, RowAdd) == 1
  {
    var s1 := Save(i, cfg, connDepth1, NoFailure);
    var s2 := Save(s1.inst, cfg, connDepth2, NoFailure);
    SaveAddsOnce(i, cfg, connDepth1);
    CountConcat(s1.events, s2.events, RowAdd);
  }

  /** What `delete()` returns together with its effects. */
  datatype Deleted = Deleted(step: Step, deleted: bool)

  /** The body of `delete()` and the exit of its block, once the context is
      entered with a known row: a transaction is ensured, the row deleted in the
      session and dropped from the wrapper. A raising `begin()` or session
      `delete()` keeps the row, and the exit sees the exception. `deleted` says
      that the session delete went through. */
  function DeleteEntered(i: Inst, connDepth: int, env: Env): (r: Deleted)
    ensures var begun := !(connDepth < 1 && env.beginFails);
      && (r.deleted <==> begun && !env.deleteFails)
      && (RowDelete in r.step.events <==> begun)
    ensures r.step.inst.depth == i.depth - 1
    ensures r.deleted ==> r.step.inst.row.None?
    ensures !r.deleted ==> r.step.raised && r.step.inst.row == i.row
    ensures ConnEnter !in r.step.events
  {
    var t := EnsureTransaction(i, connDepth, env.beginFails);
    if t.raised then
      var x := Exit(t.inst, true, env);
      Deleted(Step(x.inst, t.events + x.events, true), false)
    else if env.deleteFails then
      var x := Exit(t.inst, true, env);
      Deleted(Step(x.inst, t.events + [RowDelete] + x.events, true), false)
    else
      var x := Exit(t.inst.(row := None), false, env);
      Deleted(Step(x.inst, t.events + [RowDelete] + x.events, x.raised), true)
  }

  /** `delete()`: inside `with self`, a known row is deleted in a transaction and
      dropped from the wrapper; any other row is left alone and False returned.
      `deleted` is what `delete()` returns when nothing escapes; when something
      raises, nothing is returned, and `deleted` only records whether the row
      was deleted in the session before the exception. */
  function Delete(i: Inst, cfg: Config, connDepth: int, env: Env): (r: Deleted)
    ensures var e := Enter(i, cfg, env);
      var begun := !(connDepth < 1 && env.beginFails);
      && (r.deleted <==> !e.raised && KnownOnEntry(i.row, cfg) && begun && !env.deleteFails)
      && (RowDelete in r.step.events <==> !e.raised && KnownOnEntry(i.row, cfg) && begun)
      && (!e.raised ==> r.step.inst.depth == i.depth)
      && (!e.raised && KnownOnEntry(i.row, cfg) && !r.deleted ==> r.step.raised && r.step.inst.row == e.inst.row)
    ensures r.deleted ==> r.step.inst.row.None?
  {
    var e := Enter(i, cfg, env);
    if e.raised then Deleted(e, false)
    else if Known(e.inst.row) then
      var d := DeleteEntered(e.inst, connDepth, env);
      Deleted(Step(d.step.inst, e.events + d.step.events, d.step.raised), d.deleted)
    else
      var x := Exit(e.inst, false, env);
      Deleted(Step(x.inst, e.events + x.events, x.raised), false)
  }

  /** Deleting again is refused: the first delete dropped the row, so the
      second finds nothing known, deletes nothing and returns False. Only a
      reloadable entry fetches a row by its id again, and it deletes only when
      that fetch finds one (against the database it raises, the row being
      gone). */
  lemma DeleteTwice(i: Inst, cfg: Config, connDepth: int, env: Env, env2: Env)
    requires Delete(i, cfg, connDepth, env).deleted
    ensures var again := Delete(Delete(i, cfg, connDepth, env).step.inst, cfg, connDepth, env2);
      && (RowDelete in again.step.events ==> cfg.reloadable && !env2.sessionFails)
      && (!cfg.reloadable ==> !again.deleted && RowDelete !in again.step.events)
  {
  }

  /** A reloadable entry (a key store with an id) used in a thread that has no
      row yet: the entry fetches the row by id and holds it as persistent, and
      saving it there adds nothing. When no row has the id, the entry raises
      and leaves the connection context again. */
  lemma ReloadOnFirstEntry(cfg: Config, connDepth: int)
    requires cfg.reloadable
    ensures Enter(Fresh, cfg, NoFailure) == Step(Inst(1, Some(Persistent), false), [ConnEnter, RowQuery], false)
    ensures RowAdd !in Save(Fresh, cfg, connDepth, NoFailure).events
    ensures var missing := NoFailure.(sessionFails := true);
      Enter(Fresh, cfg, missing) == Step(Fresh, [ConnEnter, RowQuery, ConnExit(false)], true)
  {
  }

  /** Two nested entries and one exit: the inner exit neither ends the
      transaction nor leaves the connection context. */
  lemma InnerExitIsSilent(cfg: Config, exc: bool, env: Env)
    ensures var e1 := Enter(Fresh, cfg, NoFailure);
      var e2 := Enter(e1.inst, cfg, NoFailure);
      var x := Exit(e2.inst, exc, env);
      var row := if cfg.reloadable then Some(Persistent) else if cfg.hasDbClass then Some(Transient) else None;
      && !e1.raised && !e2.raised
      && x == Step(Inst(1, row, false), [], false)
  {
  }

  // Sort definitions

  /** `_db_sort_definition` and `_db_context_sort_definition`. */
  datatype Sorts = Sorts(default: Option<SortDefinition.Def>, byContext: map<string, SortDefinition.Def>)

  /** `_get_db_sort_definition(context)`: the default for no context, the
      context's own entry if there is one, and a fresh empty definition otherwise. */
  function GetSort(s: Sorts, context: Option<string>): (r: SortDefinition.Def)
    ensures context.None? ==> r == s.default.GetOr(SortDefinition.Empty)
    ensures context.Some? ==> r == if context.value in s.byContext then s.byContext[context.value] else SortDefinition.Empty
  {
    match context
    case None => if s.default.Some? then s.default.value else SortDefinition.Empty
    case Some(c) => if c in s.byContext then s.byContext[c] else SortDefinition.Empty
  }

  /** The argument of `set_sort_definition()`: a SortDefinition or anything else. */
  datatype SortArg = ASort(def: SortDefinition.Def) | NotASort

  /** `set_sort_definition(definition, context)`. */
  function SetSort(s: Sorts, arg: SortArg, context: Option<string>): (r: Result<Sorts>)
    ensures r.Failure? <==> arg.NotASort?
    ensures r.Failure? ==> r.error == TypeException
  {
    match arg
    case NotASort => Failure(TypeException)
    case ASort(d) =>
      match context
      case None => Success(s.(default := Some(d)))
      case Some(c) => Success(s.(byContext := s.byContext[c := d]))
  }

  /** A stored definition is what resolution returns for its context, and every
      other context resolves as before. */
  lemma SortRoundTrip(s: Sorts, d: SortDefinition.Def, context: Option<string>, other: Option<string>)
    requires other != context
    ensures SetSort(s, ASort(d), context).Success?
    ensures GetSort(SetSort(s, ASort(d), context).value, context) == d
    ensures GetSort(SetSort(s, ASort(d), context).value, other) == GetSort(s, other)
  {
  }

  // Attributes

  /** The columns of the row; an attribute the row does not have is absent. */
  type Columns = map<string, Value>

  /** `_get_data_attribute()`: an unknown attribute reads as None. */
  function GetAttribute(cols: Columns, a: string): (v: Value)
    ensures a !in cols ==> v == VNone
    ensures a in cols ==> v == cols[a]
  {
    if a in cols then cols[a] else VNone
  }

  /** `get_data_attributes(*names)`: one entry per requested name. */
  function GetAttributes(cols: Columns, names: seq<string>): (r: map<string, Value>)
    ensures r.Keys == set n | n in names
    ensures forall n :: n in r ==> r[n] == GetAttribute(cols, n)
  {
    map n | n in names :: GetAttribute(cols, n)
  }

  /** `is_data_attribute_none(*names)`: stops at the first name that reads as None. */
  function IsAttributeNone(cols: Columns, names: seq<string>): (b: bool)
    ensures b <==> exists i | 0 <= i < |names| :: GetAttribute(cols, names[i]) == VNone
  {
    if |names| == 0 then false
    else GetAttribute(cols, names[0]) == VNone || IsAttributeNone(cols, names[1..])
  }

  /** The None test agrees with the dictionary `get_data_attributes` returns. */
  lemma IsAttributeNoneReadsAttributes(cols: Columns, names: seq<string>)
    ensures IsAttributeNone(cols, names) <==> VNone in GetAttributes(cols, names).Values
  {
    var m := GetAttributes(cols, names);
    if IsAttributeNone(cols, names) {
      var i :| 0 <= i < |names| && GetAttribute(cols, names[i]) == VNone;
      assert m[names[i]] == VNone;
    }
    if VNone in m.Values {
      var n :| n in m && m[n] == VNone;
      var i :| 0 <= i < |names| && names[i] == n;
      assert GetAttribute(cols, names[i]) == VNone;
    }
  }

  /** `_set_data_attribute()`: only an attribute the row has can be written;
      any other raises ValueException. */
  function SetAttribute(cols: Columns, a: string, v: Value): (r: Result<Columns>)
    ensures r.Success? <==> a in cols
    ensures r.Failure? ==> r.error == ValueException
    ensures r.Success? ==> r.value.Keys == cols.Keys && GetAttribute(r.value, a) == v
    ensures r.Success? ==> forall b :: b in cols && b != a ==> r.value[b] == cols[b]
  {
    if a in cols then Success(cols[a := v]) else Failure(ValueException)
  }

  /** `set_data_attributes(**values)`: every keyword must name an attribute of
      the row; then each named attribute takes its value and the others keep theirs. */
  function SetAttributes(cols: Columns, values: map<string, Value>): (r: Result<Columns>)
    ensures r.Success? <==> values.Keys <= cols.Keys
    ensures r.Failure? ==> r.error == ValueException
    ensures r.Success? ==> r.value.Keys == cols.Keys
  {
    if values.Keys <= cols.Keys then Success(cols + values) else Failure(ValueException)
  }

  /** What was written is what is read back, and unwritten attributes read as before. */
  lemma SetThenGet(cols: Columns, values: map<string, Value>, a: string)
    requires values.Keys <= cols.Keys
    ensures a in values ==> GetAttribute(SetAttributes(cols, values).value, a) == values[a]
    ensures a !in values ==> GetAttribute(SetAttributes(cols, values).value, a) == GetAttribute(cols, a)
  {
  }
}

=== FILE: instance_pas.dfy ===
/** The `with instance:` protocol and the row operations of the oldest instance
    wrapper, src/dNG/pas/database/instance.py, over the connection of its
    generation (ConnectionPas).

    Every entry takes the serialisation lock and every exit gives it back. The
    instance counts its own depth, but only starts counting when neither it nor
    the connection has anything open: then it begins a transaction; entered
    while a transaction is already open, its depth stays 0 and its exit leaves
    that transaction alone. */
module InstancePas {
  import opened Wrappers
  import opened Trace
  import opened Rows
  import opened Values
  import M = InstanceModern
  import C = ConnectionPas

  /** `context_depth`, the state of `local.db_instance`, and whether `_database`
      is bound to the connection. */
  datatype Inst = Inst(depth: int, row: Option<RowState>, bound: bool)

  /** The wrapper together with the connection it drives. */
  datatype World = World(inst: Inst, conn: C.Conn)

  /** One call: the state afterwards, the calls made, and whether an exception escapes. */
  datatype Step = Step(w: World, events: seq<Event>, raised: bool)

  /** What an entry depends on beyond the states: whether the class's
      `_reload()` fetches a missing row by its id (a key-store entry with a
      `db_id`; the base class refuses a missing row), whether the connection's
      `begin()` raises, and whether the session call on the row raises (the add
      of a detached row, or the `.one()` that finds no row with that id). */
  datatype Env = Env(byId: bool, beginFails: bool, sessionFails: bool)

  const NoFailure := Env(false, false, false)

  /** Whether the entry begins a transaction: neither the instance nor the
      connection has anything open. */
  predicate Begins(w: World)
  {
    w.inst.depth + C.TransactionDepth(w.conn) < 1
  }

  /** The entry's `begin()` reaches the native begin and that raises. */
  predicate BeginRaises(w: World, env: Env)
  {
    Begins(w) && w.conn.transactions >= 0 && env.beginFails
  }

  /** Once begun and counted, attaching the row raises: a missing row that
      cannot be fetched, or a session call that fails. */
  predicate AttachRaises(row: Option<RowState>, env: Env)
  {
    (row.None? && (!env.byId || env.sessionFails)) || (row == Some(Detached) && env.sessionFails)
  }

  /** The part of `__enter__()` inside its `try`: begin (or count) and attach the row. */
  function EnterBody(w: World, cfg: C.Config, env: Env): (r: Step)
    ensures r.raised <==> BeginRaises(w, env) || AttachRaises(w.inst.row, env)
    ensures r.raised ==> r.w.inst.row == w.inst.row
    ensures !r.raised ==> r.w.inst.row.Some? && r.w.inst.row.value != Detached
    ensures BeginRaises(w, env) ==>
      && r.w.inst.depth == w.inst.depth && r.w.conn == w.conn
      && RowAdd !in r.events && RowQuery !in r.events
    ensures !BeginRaises(w, env) && w.inst.row.None? && env.byId ==>
      && RowQuery in r.events
      && (!r.raised ==> r.w.inst.row == Some(Persistent))
    ensures r.w.inst.bound && C.Valid(w.conn) ==> C.Valid(r.w.conn)
    ensures r.w.conn.contextDepth == w.conn.contextDepth
    ensures !BeginRaises(w, env) ==>
      r.w.inst.depth == (if Begins(w) then 1 else if w.inst.depth > 0 then w.inst.depth + 1 else w.inst.depth)
    ensures (Begins(w) && !BeginRaises(w, env)) <==>
      C.TransactionDepth(r.w.conn) == C.TransactionDepth(w.conn) + 1
    ensures LockAcquire !in r.events && LockRelease !in r.events
    ensures SessionCommit !in r.events && SessionRollback !in r.events
  {
    var i := w.inst;
    var b := if Begins(w) then C.Begin(w.conn, cfg, env.beginFails) else C.Step(w.conn, [], false);
    if b.raised then Step(World(i.(bound := true), w.conn), b.events, true)
    else
      var depth := if Begins(w) then 1 else if i.depth > 0 then i.depth + 1 else i.depth;
      var counted := World(Inst(depth, i.row, true), b.conn);
      match i.row
      // `reload()` with `_database` bound: a key-store entry with an id fetches
      // its row with `.one()`; the base `_reload()` refuses a missing row
      case None =>
        if !env.byId then Step(counted, b.events, true)
        else if env.sessionFails then Step(counted, b.events + [RowQuery], true)
        else Step(counted.(inst := counted.inst.(row := Some(Persistent))), b.events + [RowQuery], false)
      case Some(s) =>
        if s != Detached then Step(counted, b.events, false)
        else if env.sessionFails then Step(counted, b.events + [RowAdd], true)
        else Step(counted.(inst := counted.inst.(row := Some(Persistent))), b.events + [RowAdd], false)
  }

  /** `__enter__()`: the lock is taken first; if anything inside fails it is
      given back and the exception escapes, but what was begun and counted
      stays. */
  function Enter(w: World, cfg: C.Config, env: Env): (r: Step)
    ensures r.w == EnterBody(w, cfg, env).w && r.raised == EnterBody(w, cfg, env).raised
    ensures r.events == C.Acquire(cfg) + EnterBody(w, cfg, env).events + (if r.raised then C.Release(cfg) else [])
  {
    var body := EnterBody(w, cfg, env);
    Step(body.w, C.Acquire(cfg) + body.events + (if body.raised then C.Release(cfg) else []), body.raised)
  }

  /** Every entry takes the lock once, and gives it back only when it fails. */
  lemma EnterTakesLockOnce(w: World, cfg: C.Config, env: Env)
    requires cfg.serialized
    ensures var r := Enter(w, cfg, env);
      && r.events[0] == LockAcquire && Count(r.events, LockAcquire) == 1
      && Count(r.events, LockRelease) == (if r.raised then 1 else 0)
  {
    var body := EnterBody(w, cfg, env);
    var release := if body.raised then C.Release(cfg) else [];
    CountConcat(C.Acquire(cfg), body.events, LockAcquire);
    CountConcat(C.Acquire(cfg) + body.events, release, LockAcquire);
    CountConcat(C.Acquire(cfg), body.events, LockRelease);
    CountConcat(C.Acquire(cfg) + body.events, release, LockRelease);
  }

  /** A raising `begin()` leaves the instance's depth, its row and the
      connection as they were, and the entry gives the lock back last. */
  lemma EnterBeginFails(w: World, cfg: C.Config, env: Env)
    requires cfg.serialized && BeginRaises(w, env)
    ensures var r := Enter(w, cfg, env);
      && r.raised && r.w.inst.depth == w.inst.depth && r.w.inst.row == w.inst.row && r.w.conn == w.conn
      && r.events[|r.events| - 1] == LockRelease
      && Count(r.events, LockAcquire) == 1 && Count(r.events, LockRelease) == 1
  {
    EnterTakesLockOnce(w, cfg, env);
  }

  /** A key-store entry with an id but no row in this thread fetches the row on
      entry; when no row has that id the entry raises and gives the lock back. */
  lemma EnterFetchesById(cfg: C.Config)
    requires cfg.serialized
    ensures var w := World(Inst(0, None, false), C.Fresh);
      && Enter(w, cfg, Env(true, false, false)) ==
           Step(World(Inst(1, Some(Persistent), true), C.Conn(0, 1)), [LockAcquire, RowQuery], false)
      && Enter(w, cfg, Env(true, false, true)) ==
           Step(World(Inst(1, None, true), C.Conn(0, 1)), [LockAcquire, RowQuery, LockRelease], true)
  {
  }

  /** `__exit__()` as written: the last exit commits or rolls back (with the
      connection's fallback rollback after a failed commit) and unbinds the
      connection; the lock is given back afterwards, which a raising fallback
      rollback skips. */
  function ExitAsWritten(w: World, cfg: C.Config, exc: bool, nativeFails: bool, fallbackFails: bool): (r: Step)
  {
    var i := w.inst;
    if i.depth > 0 && i.depth - 1 < 1 then
      var f := C.Finish(w.conn, cfg, exc, nativeFails, fallbackFails);
      var after := World(Inst(i.depth - 1, i.row, false), f.conn);
      if f.raised then Step(after.(inst := after.inst.(bound := true)), f.events, true)
      else Step(after, f.events + C.Release(cfg), false)
    else if i.depth > 0 then Step(w.(inst := i.(depth := i.depth - 1)), C.Release(cfg), false)
    else Step(w, C.Release(cfg), false)
  }

  /** `__exit__()` with the lock given back whatever the commit or rollback does,
      as `__enter__()` promises. Only the exit from depth 1 ends the transaction. */
  function Exit(w: World, cfg: C.Config, exc: bool, nativeFails: bool, fallbackFails: bool): (r: Step)
    ensures r.w.inst.depth == if w.inst.depth > 0 then w.inst.depth - 1 else w.inst.depth
    ensures r.w.inst.row == w.inst.row
    ensures cfg.serialized ==> |r.events| > 0 && r.events[|r.events| - 1] == LockRelease
    ensures w.inst.depth != 1 ==> r.events == C.Release(cfg) && r.w.conn == w.conn && !r.raised
    ensures w.inst.depth == 1 ==>
      && (SessionCommit in r.events <==> !exc && w.conn.transactions > 0)
      && (r.raised <==> C.Finish(w.conn, cfg, exc, nativeFails, fallbackFails).raised)
      && (!r.raised ==> !r.w.inst.bound)
  {
    var a := ExitAsWritten(w, cfg, exc, nativeFails, fallbackFails);
    if a.raised then Step(a.w, a.events + C.Release(cfg), true) else a
  }

  /** As written, a failing commit whose fallback rollback fails too leaves the
      serialisation lock taken. */
  lemma ExitAsWrittenKeepsLock()
    ensures var cfg := C.Config(false, true);
      var r := ExitAsWritten(World(Inst(1, Some(Persistent), true), C.Conn(0, 1)), cfg, false, true, true);
      r.raised && LockRelease !in r.events
  {
    var cfg := C.Config(false, true);
    var f := C.Finish(C.Conn(0, 1), cfg, false, true, true);
    assert f.raised;
  }

  /** Every exit gives the lock back exactly once and takes nothing. */
  lemma ExitReleasesOnce(w: World, cfg: C.Config, exc: bool, nativeFails: bool, fallbackFails: bool)
    requires cfg.serialized
    ensures var r := Exit(w, cfg, exc, nativeFails, fallbackFails);
      Count(r.events, LockRelease) == 1 && LockAcquire !in r.events
  {
    var a := ExitAsWritten(w, cfg, exc, nativeFails, fallbackFails);
    if w.inst.depth == 1 {
      var f := C.Finish(w.conn, cfg, exc, nativeFails, fallbackFails);
      CountConcat(f.events, [LockRelease], LockRelease);
    }
  }

  /** Entered while a transaction of the connection is open and the instance
      itself is idle, a block leaves the depth at 0 and neither commits nor rolls
      back; it only takes and gives back the lock. */
  lemma OpenTransactionUntouched(w: World, cfg: C.Config, exc: bool, nativeFails: bool, fallbackFails: bool)
    requires w.inst.depth == 0 && C.TransactionDepth(w.conn) >= 1 && w.inst.row.Some? && w.inst.row.value != Detached
    ensures var e := Enter(w, cfg, NoFailure);
      var x := Exit(e.w, cfg, exc, nativeFails, fallbackFails);
      && !e.raised && e.w.inst.depth == 0 && e.w.conn == w.conn
      && e.events + x.events == C.Acquire(cfg) + C.Release(cfg)
  {
  }

  /** A block on a known row outside any context and transaction: begun by the
      instance, committed (or rolled back) by its exit, the connection back at
      "no transaction" and unbound. */
  lemma FreshBlock(cfg: C.Config, exc: bool)
    ensures var w := World(Inst(0, Some(Persistent), false), C.Fresh);
      var e := Enter(w, cfg, NoFailure);
      var x := Exit(e.w, cfg, exc, false, false);
      && !e.raised && e.w.inst.depth == 1 && e.w.conn.transactions == 1
      && x.w == World(Inst(0, Some(Persistent), false), C.Fresh)
      && e.events + x.events == C.Acquire(cfg) + [if exc then SessionRollback else SessionCommit] + C.Release(cfg)
  {
    var w := World(Inst(0, Some(Persistent), false), C.Fresh);
    assert EnterBody(w, cfg, NoFailure) == Step(World(Inst(1, Some(Persistent), true), C.Conn(0, 1)), [], false);
    var e := Enter(w, cfg, NoFailure);
    Append(C.Acquire(cfg), [], []);
    assert e.events == C.Acquire(cfg);
    var native := if exc then SessionRollback else SessionCommit;
    if exc {
      assert C.Rollback(C.Conn(0, 1), cfg, C.NoFault) == C.Step(C.Fresh, [SessionRollback], false);
    } else {
      assert C.Commit(C.Conn(0, 1), false) == C.Step(C.Fresh, [SessionCommit], false);
    }
    assert C.Finish(C.Conn(0, 1), cfg, exc, false, false) == C.Step(C.Fresh, [native], false);
    var x := Exit(e.w, cfg, exc, false, false);
    assert x.events == [native] + C.Release(cfg);
    Append(C.Acquire(cfg), [native], C.Release(cfg));
  }

  /** `with self:` around a body that raises or not and touches nothing. */
  function Cycle(w: World, cfg: C.Config, bodyRaises: bool): (r: Step)
    ensures Enter(w, cfg, NoFailure).raised ==> r == Enter(w, cfg, NoFailure)
  {
    var e := Enter(w, cfg, NoFailure);
    if e.raised then e
    else
      var x := Exit(e.w, cfg, bodyRaises, false, false);
      Step(x.w, e.events + x.events, bodyRaises || x.raised)
  }

  /** `is_known()`: the row's identity, read inside its own `with self` block. */
  datatype Answer = Answer(step: Step, known: bool)

  function IsKnown(w: World, cfg: C.Config): (r: Answer)
    ensures r.step.raised <==> w.inst.row.None?
    ensures !r.step.raised ==> (r.known <==> Known(w.inst.row))
  {
    Answer(Cycle(w, cfg, false), Known(w.inst.row))
  }

  /** `delete()`: a known row is deleted inside `with self` and dropped, and
      True returned; any other row costs only the `is_known()` block. */
  function Delete(w: World, cfg: C.Config): (r: Answer)
    ensures r.known <==> Known(w.inst.row)
    ensures r.known ==> RowDelete in r.step.events && r.step.w.inst.row.None?
    ensures !r.known ==> RowDelete !in r.step.events
  {
    var k := IsKnown(w, cfg);
    if k.step.raised || !k.known then Answer(k.step, false)
    else
      var e := Enter(k.step.w, cfg, NoFailure);
      var x := Exit(e.w.(inst := e.w.inst.(row := None)), cfg, false, false, false);
      Answer(Step(x.w, k.step.events + e.events + [RowDelete] + x.events, x.raised), true)
  }

  /** `_insert()`: inside the connection's own `with` block, a transient row is
      added through `_database`, which is unbound outside an instance block, so
      that the add raises there. */
  function Insert(w: World, cfg: C.Config): (r: Step)
    ensures RowAdd in r.events <==> w.inst.row == Some(Transient) && w.inst.bound
    ensures r.raised <==> w.inst.row.None? || (w.inst.row == Some(Transient) && !w.inst.bound)
  {
    var ce := C.Enter(w.conn, cfg, false);
    var added := w.inst.row == Some(Transient) && w.inst.bound;
    var raised := w.inst.row.None? || (w.inst.row == Some(Transient) && !w.inst.bound);
    var cx := C.Exit(ce.conn, cfg, raised, false, false);
    var row := if added then Some(Pending) else w.inst.row;
    Step(World(w.inst.(row := row), cx.conn), ce.events + (if added then [RowAdd] else []) + cx.events, raised)
  }

  /** `save()`: `_update()` (a no-op) for a known row, `_insert()` otherwise,
      with `is_known()` asked in a block of its own. */
  function Save(w: World, cfg: C.Config): (r: Step)
    ensures w.inst.row == Some(Persistent) ==> RowAdd !in r.events
  {
    var k := IsKnown(w, cfg);
    if k.step.raised || k.known then k.step
    else Insert(k.step.w, cfg)
  }

  /** Saving a new row outside an instance block fails: the `is_known()` block
      unbinds the connection before `_insert()` needs it. */
  lemma SaveOutsideBlockRaises(cfg: C.Config)
    ensures var r := Save(World(Inst(0, Some(Transient), false), C.Fresh), cfg);
      r.raised && RowAdd !in r.events
  {
    var w := World(Inst(0, Some(Transient), false), C.Fresh);
    var e := Enter(w, cfg, NoFailure);
    assert e.w == World(Inst(1, Some(Transient), true), C.Conn(0, 1));
    assert C.Commit(C.Conn(0, 1), false) == C.Step(C.Fresh, [SessionCommit], false);
    assert !IsKnown(w, cfg).step.w.inst.bound;
  }

  /** Inside an instance block the same save adds the row once. */
  lemma SaveInsideBlockAdds(w: World, cfg: C.Config)
    requires w.inst.depth >= 1 && w.inst.bound && w.inst.row == Some(Transient)
    ensures var r := Save(w, cfg);
      !r.raised && RowAdd in r.events
  {
  }

  /** `data_set(**kwargs)` is not implemented in this generation: it raises
      whatever it is given and leaves the row as it was. */
  function DataSet(cols: M.Columns, kwargs: map<string, Value>): (r: Result<M.Columns>)
    ensures r.Failure? && r.error == NotImplementedException
  {
    Failure(NotImplementedException)
  }
  /** `data_get(*names)`: one entry per requested name, the row's attribute or
      None for an attribute the row does not have. */
  function DataGet(cols: M.Columns, names: seq<string>): (r: map<string, Value>)
    ensures r.Keys == set n | n in names
    ensures forall n :: n in r && n in cols ==> r[n] == cols[n]
    ensures forall n :: n in r && n !in cols ==> r[n] == VNone
  {
    M.GetAttributes(cols, names)
  }

  /** `_reload()`: a wrapper without a row is refused; otherwise the row is
      refreshed through `_database`, which is unbound outside an instance
      block, so that the refresh raises there. */
  function Reload(w: World): (r: Step)
    ensures r.w == w
    ensures r.raised <==> w.inst.row.None? || !w.inst.bound
    ensures RowRefresh in r.events <==> !r.raised
    ensures LockAcquire !in r.events && SessionCommit !in r.events && SessionRollback !in r.events
  {
    if w.inst.row.None? || !w.inst.bound then Step(w, [], true) else Step(w, [RowRefresh], false)
  }
}

=== FILE: key_store.dfy ===
/** The database key-value store entry of src/pas_database/instances/key_store.py
    and, with the same guards, src/dNG/data/text/key_store.py.

    An entry's row is the column map of InstanceModern; the clock is the
    parameter `now` (seconds, as `time()` returns them), the JSON codec's
    results are parameters, and the table the maintenance purge runs on is a
    sequence of rows. */
module KeyStore {
  import opened Wrappers
  import opened Values
  import M = InstanceModern

  const IdColumn := "id"
  const KeyColumn := "key"
  const ValueColumn := "value"
  const StartColumn := "validity_start_time"
  const EndColumn := "validity_end_time"

  /** A Python number (`True` and `False` count as 1 and 0). */
  function Number(v: Value): (r: Option<int>)
    ensures r.Some? <==> v.VInt? || v.VBool?
  {
    match v
    case VInt(i) => Some(i)
    case VBool(b) => Some(if b then 1 else 0)
    case _ => None
  }

  /** Python's `x < now` for a stored value and the float clock: anything but
      a number raises TypeError. */
  function Before(v: Value, now: real): (r: Result<bool>)
    ensures r.Failure? <==> Number(v).None?
    ensures r.Failure? ==> r.error == PythonTypeError
    ensures r.Success? ==> (r.value <==> (Number(v).value as real) < now)
  {
    match Number(v)
    case None => Failure(PythonTypeError)
    case Some(i) => Success((i as real) < now)
  }

  /** The validity rule of `is_valid`: a start of 0 or before `now`, and no
      non-zero end before `now`. The end is only looked at once the start
      passed. */
  function Window(start: Value, end: Value, now: real): (r: Result<bool>)
    ensures r.Failure? ==> r.error == PythonTypeError
    ensures Number(start).Some? && Number(end).Some? ==> r.Success?
  {
    var started :- if EqualsInt(start, 0) then Success(true) else Before(start, now);
    if !started || EqualsInt(end, 0) then Success(started)
    else
      var ended :- Before(end, now);
      Success(!ended)
  }

  /** The rule on numbers: valid exactly between start and end, where 0 means
      "no bound". */
  lemma WindowOnNumbers(start: int, end: int, now: real)
    ensures Window(VInt(start), VInt(end), now)
      == Success((start == 0 || (start as real) < now) && (end == 0 || now <= (end as real)))
  {
  }

  /** An entry that has started and has no end stays valid from then on. */
  lemma {:induction false} OpenEndedStaysValid(start: int, now: real, later: real)
    requires Window(VInt(start), VInt(0), now) == Success(true) && now <= later
    ensures Window(VInt(start), VInt(0), later) == Success(true)
  {
    WindowOnNumbers(start, 0, now);
    WindowOnNumbers(start, 0, later);
  }

  /** `is_valid`. */
  function IsValid(row: M.Columns, now: real): (r: Result<bool>)
    ensures r.Failure? ==> r.error == PythonTypeError
  {
    Window(M.GetAttribute(row, StartColumn), M.GetAttribute(row, EndColumn), now)
  }

  /** `_id` (`db_id` in the dNG generation), with Python's None as `VNone`,
      and the row the thread holds. */
  datatype Entry = Entry(id: Value, row: Option<M.Columns>)

  /** The constructor: the id is read from the row given, None without one. */
  function New(row: Option<M.Columns>): (e: Entry)
    ensures e.row == row
    ensures row.None? ==> e.id == VNone
    ensures row.Some? ==> e.id == M.GetAttribute(row.value, IdColumn)
  {
    match row
    case None => Entry(VNone, None)
    case Some(r) => Entry(M.GetAttribute(r, IdColumn), row)
  }

  /** `is_reloadable`. */
  predicate IsReloadable(e: Entry) {
    e.id != VNone
  }

  /** `_reload()`: without a row the entry is fetched by its id, which an
      entry without id cannot; with a row the row is refreshed. `stored` is
      what the table holds for the entry; `.one()` and `refresh()` raise when
      it holds nothing. */
  function Reload(e: Entry, stored: Option<M.Columns>): (r: Result<Entry>)
    ensures r.Failure? <==> (e.row.None? && !IsReloadable(e)) || stored.None?
    ensures r.Failure? && e.row.None? && !IsReloadable(e) ==> r.error == IOException
    ensures r.Failure? && (e.row.Some? || IsReloadable(e)) ==> r.error == BackendError
    ensures r.Success? ==> r.value == Entry(e.id, stored)
  {
    if e.row.None? && !IsReloadable(e) then Failure(IOException)
    else if stored.None? then Failure(BackendError)
    else Success(Entry(e.id, stored))
  }

  /** A fresh entry (built without a row) cannot be reloaded. */
  lemma FreshEntryNotReloadable(stored: Option<M.Columns>)
    ensures !IsReloadable(New(None))
    ensures Reload(New(None), stored) == Failure(IOException)
  {
  }

  /** The `value_dict` getter: an empty dict for a None value; otherwise what
      decoding the stored JSON gives (`decoded`), and ValueException when that
      is None. */
  function ValueDict(row: M.Columns, decoded: Option<Value>): (r: Result<Value>)
    ensures M.GetAttribute(row, ValueColumn) == VNone ==> r == Success(VDict(map[]))
    ensures M.GetAttribute(row, ValueColumn) != VNone ==> (r.Failure? <==> decoded.None?)
    ensures r.Failure? ==> r.error == ValueException
  {
    if M.GetAttribute(row, ValueColumn) == VNone then Success(VDict(map[]))
    else match decoded
      case None => Failure(ValueException)
      case Some(v) => Success(v)
  }

  /** The `value_dict` setter: only a dict is accepted, and its JSON text
      (`encoded`) is written to the value column. */
  function SetValueDict(row: M.Columns, data: Value, encoded: string): (r: Result<M.Columns>)
    ensures !data.VDict? ==> r == Failure(TypeException)
    ensures data.VDict? ==> r == M.SetAttribute(row, ValueColumn, VStr(encoded))
    decreases 1
  {
    if !data.VDict? then Failure(TypeException) else SetDataAttribute(row, ValueColumn, VStr(encoded), encoded)
  }

  /** `_set_data_attribute()`: a dict for the value goes through the
      `value_dict` setter; anything else is written as the base class writes
      it (`Binary.utf8` leaves a string as it is). */
  function SetDataAttribute(row: M.Columns, attribute: string, v: Value, encoded: string): (r: Result<M.Columns>)
    ensures attribute == ValueColumn && v.VDict? ==> r == M.SetAttribute(row, ValueColumn, VStr(encoded))
    ensures !(attribute == ValueColumn && v.VDict?) ==> r == M.SetAttribute(row, attribute, v)
    decreases if attribute == ValueColumn && v.VDict? then 2 else 0
  {
    if attribute == ValueColumn && v.VDict? then SetValueDict(row, v, encoded)
    else M.SetAttribute(row, attribute, v)
  }

  /** What the setter writes, the getter reads back, provided the codec
      decodes its own encoding. */
  lemma ValueDictRoundTrip(row: M.Columns, data: Value, encoded: string)
    requires ValueColumn in row && data.VDict?
    ensures SetValueDict(row, data, encoded).Success?
    ensures ValueDict(SetValueDict(row, data, encoded).value, Some(data)) == Success(data)
  {
  }

  /** `get_value_dict()` of the dNG generation: the stored value is always
      decoded, and ValueException is raised when that gives None. */
  function ValueDictDng(decoded: Option<Value>): (r: Result<Value>)
    ensures r.Failure? <==> decoded.None?
    ensures r.Failure? ==> r.error == ValueException
    ensures r.Success? ==> r.value == decoded.value
  {
    match decoded
    case None => Failure(ValueException)
    case Some(v) => Success(v)
  }

  /** The keywords `set_data_attributes()` of the dNG generation writes. */
  const DngColumns := {KeyColumn, StartColumn, EndColumn, ValueColumn}

  /** `set_data_attributes(**kwargs)` of the dNG generation: the four column
      keywords are written, every other keyword is ignored. */
  function SetDataAttributesDng(row: M.Columns, kwargs: map<string, Value>): (r: M.Columns)
    ensures forall a :: a in DngColumns && a in kwargs ==> a in r && r[a] == kwargs[a]
    ensures forall a :: a in row && !(a in DngColumns && a in kwargs) ==> a in r && r[a] == row[a]
    ensures r.Keys == row.Keys + (kwargs.Keys * DngColumns)
  {
    row + map a | a in kwargs && a in DngColumns :: kwargs[a]
  }

  /** `set_value_dict()` of the dNG generation. */
  function SetValueDictDng(row: M.Columns, data: Value, encoded: string): (r: Result<M.Columns>)
    ensures r.Failure? <==> !data.VDict?
    ensures r.Failure? ==> r.error == TypeException
    ensures r.Success? ==> (
      && M.GetAttribute(r.value, ValueColumn) == VStr(encoded)
      && forall a :: a in row && a != ValueColumn ==> a in r.value && r.value[a] == row[a])
  {
    if !data.VDict? then Failure(TypeException)
    else Success(SetDataAttributesDng(row, map[ValueColumn := VStr(encoded)]))
  }

  /** Only the four column keywords matter, and writing twice is writing once. */
  lemma SetDataAttributesDngIgnoresOthers(row: M.Columns, kwargs: map<string, Value>)
    ensures SetDataAttributesDng(row, kwargs)
      == SetDataAttributesDng(row, map a | a in kwargs && a in DngColumns :: kwargs[a])
    ensures SetDataAttributesDng(SetDataAttributesDng(row, kwargs), kwargs) == SetDataAttributesDng(row, kwargs)
  {
  }

  // Loading and the maintenance purge

  /** Python's `int()` of the clock: truncation toward zero. */
  function Truncate(now: real): (t: int)
    ensures now >= 0.0 ==> (t as real) <= now < (t as real) + 1.0
    ensures now < 0.0 ==> now <= (t as real) < now + 1.0
  {
    if now >= 0.0 then now.Floor else -((-now).Floor)
  }

  /** The end condition of the purge, `validity_end_time > 0` and
      `validity_end_time < int(time())`: a NULL or non-numeric end compares as
      unknown, which deletes nothing. */
  predicate Ended(end: Value, now: real) {
    var n := Number(end);
    n.Some? && n.value > 0 && n.value < Truncate(now)
  }

  /** The rows the purge deletes. */
  predicate Expired(row: M.Columns, now: real) {
    Ended(M.GetAttribute(row, EndColumn), now)
  }

  /** `query(...).filter(condition).delete()` on a table: the rows the
      condition holds for go, the others stay in order. */
  function Delete(table: seq<M.Columns>, condition: M.Columns -> bool): (r: seq<M.Columns>)
    ensures forall x :: x in r <==> x in table && !condition(x)
    ensures |r| <= |table|
  {
    if |table| == 0 then []
    else (if condition(table[0]) then [] else [table[0]]) + Delete(table[1..], condition)
  }

  /** The table after the purge. */
  function Purge(table: seq<M.Columns>, now: real): (r: seq<M.Columns>)
    ensures forall x :: x in r <==> x in table && !Expired(x, now)
  {
    Delete(table, row => Expired(row, now))
  }

  /** An end that the validity rule accepts has not ended for the purge. */
  lemma {:induction false} ValidNotEnded(start: Value, end: Value, now: real)
    requires Window(start, end, now) == Success(true)
    ensures !Ended(end, now)
  {
    var n := Number(end);
    if n.Some? && n.value > 0 {
      assert now <= n.value as real;
      assert Truncate(now) <= n.value;
    }
  }

  /** The purge never deletes an entry that `is_valid` accepts, so the loaders
      never lose an entry they would return. */
  lemma PurgeKeepsValid(table: seq<M.Columns>, now: real, row: M.Columns)
    requires row in table && IsValid(row, now) == Success(true)
    ensures row in Purge(table, now)
  {
    ValidNotEnded(M.GetAttribute(row, StartColumn), M.GetAttribute(row, EndColumn), now);
  }

  /** `_load(cls, db_instance)`: a missing row gives None; a row of another
      class raises ValueException; an entry that is not valid gives None. */
  function Load(row: Option<M.Columns>, ofClass: bool, now: real): (r: Result<Option<Entry>>)
    ensures row.None? ==> r == Success(None)
    ensures row.Some? && !ofClass ==> r == Failure(ValueException)
    ensures r.Success? && r.value.Some? ==> row.Some? && r.value.value == New(row) && IsValid(row.value, now) == Success(true)
    ensures row.Some? && ofClass && IsValid(row.value, now) == Success(true) ==> r == Success(Some(New(row)))
    ensures row.Some? && ofClass && IsValid(row.value, now) == Success(false) ==> r == Success(None)
    ensures r.Failure? ==> r.error in {ValueException, PythonTypeError}
  {
    match row
    case None => Success(None)
    case Some(x) =>
      if !ofClass then Failure(ValueException)
      else
        var valid :- IsValid(x, now);
        if valid then Success(Some(New(row))) else Success(None)
  }

  /** The first row whose column holds the value (`.first()`, and `.get()` on
      the primary key). */
  function Find(table: seq<M.Columns>, column: string, v: Value): (r: Option<M.Columns>)
    ensures r.Some? <==> exists i :: 0 <= i < |table| && M.GetAttribute(table[i], column) == v
    ensures r.Some? ==> r.value in table && M.GetAttribute(r.value, column) == v
  {
    if |table| == 0 then None
    else if M.GetAttribute(table[0], column) == v then Some(table[0])
    else
      var rest := Find(table[1..], column, v);
      assert forall i :: 1 <= i < |table| ==> table[1..][i - 1] == table[i];
      rest
  }

  /** The maintenance step `_load()` opens with: unless automatic maintenance
      is configured, one call in three (`randrange(0, 3) < 1`, the drawn number
      being `draw`) purges the expired entries. */
  function Maintain(table: seq<M.Columns>, now: real, autoMaintenance: bool, draw: int): (r: seq<M.Columns>)
    ensures !autoMaintenance && draw < 1 ==> r == Purge(table, now)
    ensures autoMaintenance || draw >= 1 ==> r == table
    ensures forall x :: x in r ==> x in table
  {
    if !autoMaintenance && draw < 1 then Purge(table, now) else table
  }

  /** Maintenance never takes away an entry the loaders would return. */
  lemma MaintainKeepsValid(table: seq<M.Columns>, now: real, autoMaintenance: bool, draw: int, row: M.Columns)
    requires row in table && IsValid(row, now) == Success(true)
    ensures row in Maintain(table, now, autoMaintenance, draw)
  {
    if !autoMaintenance && draw < 1 {
      PurgeKeepsValid(table, now, row);
    }
  }

  /** `load_id()` and `load_key()`: None, a missing row or an entry that is not
      valid raises NothingMatchedException; otherwise the entry of the first
      matching row. */
  function LoadBy(table: seq<M.Columns>, column: string, v: Value, ofClass: bool, now: real): (r: Result<Entry>)
    ensures v == VNone ==> r == Failure(NothingMatchedException)
    ensures v != VNone && Find(table, column, v).None? ==> r == Failure(NothingMatchedException)
    ensures r.Success? ==> (
      && r.value.row.Some? && r.value.row.value in table
      && M.GetAttribute(r.value.row.value, column) == v
      && IsValid(r.value.row.value, now) == Success(true))
    ensures v != VNone && ofClass && Find(table, column, v).Some? && IsValid(Find(table, column, v).value, now) == Success(true) ==>
      r == Success(New(Find(table, column, v)))
    ensures v != VNone && ofClass && Find(table, column, v).Some? && IsValid(Find(table, column, v).value, now) == Success(false) ==>
      r == Failure(NothingMatchedException)
    ensures v != VNone && !ofClass && Find(table, column, v).Some? ==> r == Failure(ValueException)
    ensures r.Failure? ==> r.error in {NothingMatchedException, ValueException, PythonTypeError}
  {
    if v == VNone then Failure(NothingMatchedException)
    else
      var row := Find(table, column, v);
      var e :- Load(row, ofClass, now);
      if e.None? then Failure(NothingMatchedException) else Success(e.value)
  }

  /** `load_id()`: an entry loaded by its id can be reloaded by it. */
  function LoadId(table: seq<M.Columns>, id: Value, ofClass: bool, now: real): (r: Result<Entry>)
    ensures id == VNone ==> r == Failure(NothingMatchedException)
    ensures r.Success? ==> IsReloadable(r.value) && r.value.id == id
  {
    LoadBy(table, IdColumn, id, ofClass, now)
  }

  /** `load_key()`. */
  function LoadKey(table: seq<M.Columns>, key: Value, ofClass: bool, now: real): (r: Result<Entry>)
    ensures key == VNone ==> r == Failure(NothingMatchedException)
    ensures r.Success? ==> r.value.row.Some? && M.GetAttribute(r.value.row.value, KeyColumn) == key
  {
    LoadBy(table, KeyColumn, key, ofClass, now)
  }

  /** A valid entry whose key is stored is found by `load_key()`, whether or
      not the maintenance purge ran. The model purges the table before the
      lookup; the source looks the row up first and purges inside `_load()`.
      The order makes no difference here, because the purge keeps every valid
      entry (`MaintainKeepsValid`), the row looked up included. */
  lemma LoadKeyFindsValid(table: seq<M.Columns>, row: M.Columns, ofClass: bool, now: real, autoMaintenance: bool, draw: int)
    requires ofClass && row in table && M.GetAttribute(row, KeyColumn) != VNone
    requires forall x :: x in table && M.GetAttribute(x, KeyColumn) == M.GetAttribute(row, KeyColumn) ==> x == row
    requires IsValid(row, now) == Success(true)
    ensures LoadKey(Maintain(table, now, autoMaintenance, draw), M.GetAttribute(row, KeyColumn), ofClass, now) == Success(New(Some(row)))
  {
    var t := Maintain(table, now, autoMaintenance, draw);
    MaintainKeepsValid(table, now, autoMaintenance, draw, row);
    var i :| 0 <= i < |t| && t[i] == row;
    assert Find(t, KeyColumn, M.GetAttribute(row, KeyColumn)) == Some(row);
  }
}

=== FILE: key_store_pas.dfy ===
/** The oldest key-value store entry, src/dNG/pas/data/text/key_store.py. Its
    validity columns are `validity_start_date` and `validity_end_date`; the
    validity rule, the entry, the reload and the lookups are those of
    KeyStore. Two statements do not do what the surrounding code relies on:
    `data_set()` writes both dates to an attribute no column backs, and the
    maintenance purge deletes the entries that never expire. */
module KeyStorePas {
  import opened Wrappers
  import opened Values
  import M = InstanceModern
  import K = KeyStore

  const StartColumn := "validity_start_date"
  const EndColumn := "validity_end_date"

  /** The attribute `data_set()` writes either date to. */
  const StrayAttribute := "validity_date"

  /** A new `_DbKeyStore()`: its constructor gives it a fresh id (`uuid().hex`,
      passed in as `freshId`); every other column is unset. */
  function FreshRow(freshId: string): (row: M.Columns)
    ensures M.GetAttribute(row, K.IdColumn) == VStr(freshId)
    ensures forall a :: a in {K.KeyColumn, StartColumn, EndColumn, K.ValueColumn} ==> M.GetAttribute(row, a) == VNone
  {
    map[K.IdColumn := VStr(freshId), K.KeyColumn := VNone, StartColumn := VNone, EndColumn := VNone, K.ValueColumn := VNone]
  }

  /** The constructor on a given row: the id to reload by is the row's. */
  function Wrap(row: M.Columns): (e: K.Entry)
    ensures e.row == Some(row)
    ensures e.id == M.GetAttribute(row, K.IdColumn)
    ensures K.IsReloadable(e) <==> M.GetAttribute(row, K.IdColumn) != VNone
  {
    K.Entry(M.GetAttribute(row, K.IdColumn), Some(row))
  }

  /** The constructor: without a row a new one is created, so the entry always
      holds a row, and a new row comes with its fresh id, which the entry keeps
      for reloading. */
  function New(row: Option<M.Columns>, freshId: string): (e: K.Entry)
    ensures e.row.Some?
    ensures row.Some? ==> e == Wrap(row.value)
    ensures row.None? ==> e.row == Some(FreshRow(freshId)) && e.id == VStr(freshId) && K.IsReloadable(e)
  {
    Wrap(if row.Some? then row.value else FreshRow(freshId))
  }

  /** `is_valid()`: the rule of KeyStore on the `_date` columns. */
  function IsValid(row: M.Columns, now: real): (r: Result<bool>)
    ensures r.Failure? ==> r.error == PythonTypeError
  {
    K.Window(M.GetAttribute(row, StartColumn), M.GetAttribute(row, EndColumn), now)
  }

  /** A new entry cannot answer `is_valid()` before its dates are set: None
      does not compare with the clock. */
  lemma FreshRowNotComparable(freshId: string, now: real)
    ensures IsValid(FreshRow(freshId), now) == Failure(PythonTypeError)
  {
    assert M.GetAttribute(FreshRow(freshId), StartColumn) == VNone;
  }

  /** The writes `data_set()` shares with its corrected form: the key and the
      value (`Binary.utf8` leaves a string as it is). */
  function SetKeyAndValue(row: M.Columns, kwargs: map<string, Value>): (r: M.Columns)
    ensures forall a :: a in {K.KeyColumn, K.ValueColumn} && a in kwargs ==> a in r && r[a] == kwargs[a]
    ensures forall a :: a in row && !(a in {K.KeyColumn, K.ValueColumn} && a in kwargs) ==> a in r && r[a] == row[a]
  {
    var withKey := if K.KeyColumn in kwargs then row[K.KeyColumn := kwargs[K.KeyColumn]] else row;
    if K.ValueColumn in kwargs then withKey[K.ValueColumn := kwargs[K.ValueColumn]] else withKey
  }

  /** `data_set(**kwargs)` as written: both dates go to `validity_date`, an
      attribute no column backs, the end date last. */
  function DataSetAsWritten(row: M.Columns, kwargs: map<string, Value>): (r: M.Columns)
    ensures EndColumn in kwargs ==> M.GetAttribute(r, StrayAttribute) == kwargs[EndColumn]
    ensures StartColumn in kwargs && EndColumn !in kwargs ==> M.GetAttribute(r, StrayAttribute) == kwargs[StartColumn]
  {
    var withKey := SetKeyAndValue(row, kwargs);
    var withStart := if StartColumn in kwargs then withKey[StrayAttribute := kwargs[StartColumn]] else withKey;
    if EndColumn in kwargs then withStart[StrayAttribute := kwargs[EndColumn]] else withStart
  }

  /** As written, `data_set()` never changes whether the entry is valid,
      whatever dates it is given. */
  lemma DataSetAsWrittenKeepsValidity(row: M.Columns, kwargs: map<string, Value>, now: real)
    ensures IsValid(DataSetAsWritten(row, kwargs), now) == IsValid(row, now)
  {
    var r := DataSetAsWritten(row, kwargs);
    assert M.GetAttribute(r, StartColumn) == M.GetAttribute(row, StartColumn);
    assert M.GetAttribute(r, EndColumn) == M.GetAttribute(row, EndColumn);
  }

  /** `data_set(**kwargs)` with each date written to its own column. */
  function DataSet(row: M.Columns, kwargs: map<string, Value>): (r: M.Columns)
    ensures forall a :: a in {K.KeyColumn, StartColumn, EndColumn, K.ValueColumn} && a in kwargs ==> a in r && r[a] == kwargs[a]
    ensures forall a :: a in row && !(a in {K.KeyColumn, StartColumn, EndColumn, K.ValueColumn} && a in kwargs) ==> a in r && r[a] == row[a]
  {
    var withKey := SetKeyAndValue(row, kwargs);
    var withStart := if StartColumn in kwargs then withKey[StartColumn := kwargs[StartColumn]] else withKey;
    if EndColumn in kwargs then withStart[EndColumn := kwargs[EndColumn]] else withStart
  }

  /** Corrected, the dates given decide validity by the rule on numbers. */
  lemma DataSetDecidesValidity(row: M.Columns, start: int, end: int, now: real)
    ensures IsValid(DataSet(row, map[StartColumn := VInt(start), EndColumn := VInt(end)]), now)
      == Success((start == 0 || (start as real) < now) && (end == 0 || now <= (end as real)))
  {
    var r := DataSet(row, map[StartColumn := VInt(start), EndColumn := VInt(end)]);
    assert M.GetAttribute(r, StartColumn) == VInt(start);
    assert M.GetAttribute(r, EndColumn) == VInt(end);
    K.WindowOnNumbers(start, end, now);
  }

  /** An entry valid from 0 for ever, ended at 5 by `data_set()`: at 10 it is
      still valid as written and no longer valid corrected. */
  lemma DataSetExample()
    ensures var row := FreshRow("0")[StartColumn := VInt(0)][EndColumn := VInt(0)];
      var kwargs := map[EndColumn := VInt(5)];
      && IsValid(DataSetAsWritten(row, kwargs), 10.0) == Success(true)
      && IsValid(DataSet(row, kwargs), 10.0) == Success(false)
  {
    var row := FreshRow("0")[StartColumn := VInt(0)][EndColumn := VInt(0)];
    var kwargs := map[EndColumn := VInt(5)];
    DataSetAsWrittenKeepsValidity(row, kwargs, 10.0);
    K.WindowOnNumbers(0, 0, 10.0);
    assert M.GetAttribute(DataSet(row, kwargs), StartColumn) == VInt(0);
    assert M.GetAttribute(DataSet(row, kwargs), EndColumn) == VInt(5);
    K.WindowOnNumbers(0, 5, 10.0);
  }

  /** The purge condition as written, `validity_end_date <= int(time())`: it
      holds for an end of 0, the entry that never expires. */
  predicate ExpiredAsWritten(row: M.Columns, now: real) {
    var n := K.Number(M.GetAttribute(row, EndColumn));
    n.Some? && n.value <= K.Truncate(now)
  }

  function PurgeAsWritten(table: seq<M.Columns>, now: real): (r: seq<M.Columns>)
    ensures forall x :: x in r <==> x in table && !ExpiredAsWritten(x, now)
  {
    K.Delete(table, row => ExpiredAsWritten(row, now))
  }

  /** An entry valid for ever (start 0, end 0) is deleted by the purge as
      written. */
  lemma PurgeAsWrittenDeletesValid()
    ensures var row := FreshRow("0")[StartColumn := VInt(0)][EndColumn := VInt(0)];
      && IsValid(row, 10.0) == Success(true)
      && row !in PurgeAsWritten([row], 10.0)
  {
    var row := FreshRow("0")[StartColumn := VInt(0)][EndColumn := VInt(0)];
    assert M.GetAttribute(row, EndColumn) == VInt(0);
    assert M.GetAttribute(row, StartColumn) == VInt(0);
    assert ExpiredAsWritten(row, 10.0);
  }

  /** The purge with the newer generations' condition on the `_date` column. */
  predicate Expired(row: M.Columns, now: real) {
    K.Ended(M.GetAttribute(row, EndColumn), now)
  }

  function Purge(table: seq<M.Columns>, now: real): (r: seq<M.Columns>)
    ensures forall x :: x in r <==> x in table && !Expired(x, now)
  {
    K.Delete(table, row => Expired(row, now))
  }

  /** Corrected, the purge never deletes an entry `is_valid()` accepts. */
  lemma PurgeKeepsValid(table: seq<M.Columns>, now: real, row: M.Columns)
    requires row in table && IsValid(row, now) == Success(true)
    ensures row in Purge(table, now)
  {
    K.ValidNotEnded(M.GetAttribute(row, StartColumn), M.GetAttribute(row, EndColumn), now);
  }

  /** `_load(db_instance)`: no class check; a missing row or an entry that is
      not valid gives None. */
  function Load(row: Option<M.Columns>, now: real): (r: Result<Option<K.Entry>>)
    ensures row.None? ==> r == Success(None)
    ensures r.Failure? ==> r.error == PythonTypeError
    ensures r.Success? && r.value.Some? ==> row.Some? && r.value.value == Wrap(row.value) && IsValid(row.value, now) == Success(true)
    ensures row.Some? && IsValid(row.value, now) == Success(true) ==> r == Success(Some(Wrap(row.value)))
    ensures row.Some? && IsValid(row.value, now) == Success(false) ==> r == Success(None)
  {
    match row
    case None => Success(None)
    case Some(x) =>
      var valid :- IsValid(x, now);
      if valid then Success(Some(Wrap(x))) else Success(None)
  }

  /** `load_id()`: the first row with the id, with None meaning `IS NULL`;
      nothing found is None, not an exception. */
  function LoadId(table: seq<M.Columns>, id: Value, now: real): (r: Result<Option<K.Entry>>)
    ensures K.Find(table, K.IdColumn, id).None? ==> r == Success(None)
    ensures r.Success? && r.value.Some? ==> r.value.value.row.Some? && r.value.value.id == id
  {
    Load(K.Find(table, K.IdColumn, id), now)
  }

  /** `load_key()`. */
  function LoadKey(table: seq<M.Columns>, key: Value, now: real): (r: Result<Option<K.Entry>>)
    ensures K.Find(table, K.KeyColumn, key).None? ==> r == Success(None)
    ensures r.Success? && r.value.Some? ==> r.value.value.row.Some? && M.GetAttribute(r.value.value.row.value, K.KeyColumn) == key
  {
    Load(K.Find(table, K.KeyColumn, key), now)
  }

  /** A valid entry whose key is stored only once is what `load_key()` gives. */
  lemma LoadKeyFindsValid(table: seq<M.Columns>, row: M.Columns, now: real)
    requires row in table
    requires forall x :: x in table && M.GetAttribute(x, K.KeyColumn) == M.GetAttribute(row, K.KeyColumn) ==> x == row
    requires IsValid(row, now) == Success(true)
    ensures LoadKey(table, M.GetAttribute(row, K.KeyColumn), now) == Success(Some(Wrap(row)))
  {
    var i :| 0 <= i < |table| && table[i] == row;
    assert K.Find(table, K.KeyColumn, M.GetAttribute(row, K.KeyColumn)) == Some(row);
  }

  /** An entry `load_id()` gives for an id other than None can be reloaded by
      that id. */
  lemma LoadIdReloadable(table: seq<M.Columns>, id: Value, now: real)
    requires id != VNone
    ensures var r := LoadId(table, id, now);
      r.Success? && r.value.Some? ==> K.IsReloadable(r.value.value) && r.value.value.id == id
  {
  }
}

=== FILE: rows.dfy ===
/** The life-cycle states of an ORM row object as the instance wrappers inspect
    them (`inspect(row)`), and the polymorphic class a row may name.

    A transient row belongs to no session and has no identity; `add()` makes it
    pending; a flush makes it persistent (it has an identity); a persistent row
    whose session went away is detached and keeps its identity. */
module Rows {
  import opened Wrappers

  datatype RowState = Transient | Pending | Persistent | Detached

  /** `has_identity`: the row has a primary key in the database. */
  predicate HasIdentity(s: RowState) {
    s == Persistent || s == Detached
  }

  /** `is_known`: a row is present and has an identity. */
  predicate Known(row: Option<RowState>) {
    row.Some? && HasIdentity(row.value)
  }

  /** `isinstance(row, Abstract)` and the row's `db_instance_class` column. */
  datatype RowClass = RowClass(isAbstract: bool, instanceClass: Option<string>)

  /** `Instance.__new__(cls, row)`: the class actually constructed. A row of the
      declarative base that names a class the loader (`load`) resolves to a
      different class redirects construction to that class; otherwise `cls`
      itself is built. All three instance generations decide alike. */
  function ConstructedClass(cls: string, row: Option<RowClass>, load: string -> Option<string>): (r: string)
    ensures r != cls <==>
      row.Some? && row.value.isAbstract && row.value.instanceClass.Some?
      && load(row.value.instanceClass.value).Some? && load(row.value.instanceClass.value).value != cls
    ensures r != cls ==> Some(r) == load(row.value.instanceClass.value)
  {
    var named :=
      if row.Some? && row.value.isAbstract && row.value.instanceClass.Some?
      then load(row.value.instanceClass.value) else None;
    if named.None? || named.value == cls then cls else named.value
  }

  /** The redirect target constructs itself: following the redirect once more
      changes nothing, so construction never bounces between classes. */
  lemma ConstructedClassIsFixpoint(cls: string, row: Option<RowClass>, load: string -> Option<string>)
    ensures var c := ConstructedClass(cls, row, load); ConstructedClass(c, row, load) == c
  {
  }
}

=== FILE: schema.dfy ===
/** The schema migration runner of the current and the dNG generation
    (src/pas_database/schema.py and src/dNG/database/schema.py, which agree in
    everything modelled here): `apply_version()`, `_upgrade()`,
    `_check_upgrade_dependencies()` and `load_latest_name_entry()`.

    The schema version table is a sequence of recorded `(name, version)` rows.
    The directory listing, the SQL files' text and the parsed JSON settings
    files are parameters; a file missing from those maps could not be opened.
    An upgrade runs in one transaction: when it raises, nothing it recorded
    stays, so a `Failure` carries no table. */
module SchemaRunner {
  import opened Wrappers
  import opened Values
  import Text
  import SqlFile

  /** One row of the schema version table. */
  datatype Entry = Entry(name: string, version: int)

  /** The highest version recorded for `name` (the row `load_latest_name_entry()`
      selects), `None` when the name has no row. */
  function LatestVersion(db: seq<Entry>, name: string): (r: Option<int>)
    ensures r.None? <==> forall i :: 0 <= i < |db| ==> db[i].name != name
    ensures r.Some? ==> Entry(name, r.value) in db
    ensures r.Some? ==> forall i :: 0 <= i < |db| && db[i].name == name ==> db[i].version <= r.value
  {
    if |db| == 0 then None
    else
      var rest := LatestVersion(db[..|db| - 1], name);
      var e := db[|db| - 1];
      assert forall i :: 0 <= i < |db| - 1 ==> db[..|db| - 1][i] == db[i];
      assert db == db[..|db| - 1] + [e];
      if e.name != name then rest
      else if rest.Some? && e.version <= rest.value then rest
      else Some(e.version)
  }

  /** `load_latest_name_entry()`: the latest row, or NothingMatchedException. */
  function LoadLatest(db: seq<Entry>, name: string): (r: Result<Entry>)
    ensures r.Failure? <==> LatestVersion(db, name).None?
    ensures r.Failure? ==> r.error == NothingMatchedException
    ensures r.Success? ==> r.value.name == name && r.value in db
  {
    match LatestVersion(db, name)
    case None => Failure(NothingMatchedException)
    case Some(v) => Success(Entry(name, v))
  }

  /** The version the runner starts from: the latest recorded one, 0 when the
      lookup raises NothingMatchedException. */
  function CurrentVersion(db: seq<Entry>, name: string): (v: int)
    ensures LoadLatest(db, name).Success? ==> v == LoadLatest(db, name).value.version
    ensures LoadLatest(db, name).Failure? ==> v == 0
  {
    LatestVersion(db, name).GetOr(0)
  }

  /** Recording one more row for `name` makes its latest version the larger of
      the old one and the new; other names keep theirs. */
  lemma {:induction false} RecordLatest(db: seq<Entry>, name: string, v: int, other: string)
    requires other != name
    ensures LatestVersion(db + [Entry(name, v)], name)
      == if LatestVersion(db, name).Some? && v <= LatestVersion(db, name).value
         then LatestVersion(db, name) else Some(v)
    ensures LatestVersion(db + [Entry(name, v)], other) == LatestVersion(db, other)
  {
    var d := db + [Entry(name, v)];
    assert d[..|d| - 1] == db;
  }

  /** The rows `_upgrade()` records for the versions it applied, in order. */
  function Entries(name: string, versions: seq<int>): (r: seq<Entry>)
    ensures |r| == |versions|
    ensures forall i :: 0 <= i < |r| ==> r[i] == Entry(name, versions[i])
  {
    seq(|versions|, i requires 0 <= i < |versions| => Entry(name, versions[i]))
  }

  /** Recording versions keeps the table before them and adds rows of that
      schema only. */
  lemma RecordKeeps(db: seq<Entry>, name: string, versions: seq<int>)
    ensures var r := db + Entries(name, versions);
      && |db| <= |r| && r[..|db|] == db
      && forall i :: |db| <= i < |r| ==> r[i].name == name
  {
    var r := db + Entries(name, versions);
    assert r[..|db|] == db;
    forall i | |db| <= i < |r| ensures r[i].name == name {
      assert r[i] == Entries(name, versions)[i - |db|];
    }
  }

  /** Recording a version and then some more is recording them all at once. */
  lemma RecordCons(db: seq<Entry>, name: string, v: int, vs: seq<int>)
    ensures db + Entries(name, [v] + vs) == (db + [Entry(name, v)]) + Entries(name, vs)
  {
    assert Entries(name, [v] + vs) == [Entry(name, v)] + Entries(name, vs);
  }

  // The file listing

  /** Lower-case an ASCII letter (the model's reading of `re.I`). */
  function LowerAscii(c: char): (r: char)
    ensures 'A' <= c <= 'Z' ==> r as int == c as int + 32
    ensures !('A' <= c <= 'Z') ==> r == c
  {
    if 'A' <= c <= 'Z' then (c as int + 32) as char else c
  }

  /** `t` equals the lower-case literal `lit` ignoring case. */
  predicate EqualsIgnoreCase(t: string, lit: string) {
    |t| == |lit| && forall i :: 0 <= i < |t| ==> LowerAscii(t[i]) == lit[i]
  }

  /** `lit` followed by the end of the name, where `$` also accepts one final
      line break. */
  predicate EndsWith(t: string, lit: string) {
    EqualsIgnoreCase(t, lit) || (|t| == |lit| + 1 && t[|lit|] == '\n' && EqualsIgnoreCase(t[..|lit|], lit))
  }

  /** The first index at or after `p` that is not a decimal digit. */
  function DigitEnd(s: string, p: nat): (q: nat)
    requires p <= |s|
    ensures p <= q <= |s|
    ensures forall i :: p <= i < q ==> Text.IsDigit(s[i])
    ensures q < |s| ==> !Text.IsDigit(s[q])
    decreases |s| - p
  {
    if p < |s| && Text.IsDigit(s[p]) then DigitEnd(s, p + 1) else p
  }

  /** Which settings files a runner lists besides `.sql` scripts. The current
      and the dNG runner list `.json` too (`schema\_\d+\.(json|sql)$`); the
      oldest one lists `.sql` only. */
  datatype Listing = SqlAndJson | SqlOnly

  /** `re_object.match(file_name)` for the listing's pattern, ignoring case. */
  predicate SchemaFileName(n: string, listing: Listing) {
    && |n| >= 7 && EqualsIgnoreCase(n[..7], "schema_")
    && var e := DigitEnd(n, 7);
    && 7 < e < |n| && n[e] == '.'
    && (EndsWith(n[e + 1..], "sql") || (listing == SqlAndJson && EndsWith(n[e + 1..], "json")))
  }

  /** The names in the schema directory the runner considers; a directory it
      cannot read (`None`) gives none. */
  function SchemaFiles(names: Option<seq<string>>, listing: Listing): (files: set<string>)
    ensures forall n :: n in files <==> names.Some? && n in names.value && SchemaFileName(n, listing)
  {
    if names.None? then {} else set n | n in names.value && SchemaFileName(n, listing)
  }

  function SqlName(v: int): string {
    "schema_" + Text.IntToString(v) + ".sql"
  }

  function JsonName(v: int): string {
    "schema_" + Text.IntToString(v) + ".json"
  }

  /** The digits of `s` from `p` on run exactly up to `q`. */
  lemma {:induction false} DigitEndAt(s: string, p: nat, q: nat)
    requires p <= q < |s|
    requires forall i :: p <= i < q ==> Text.IsDigit(s[i])
    requires !Text.IsDigit(s[q])
    ensures DigitEnd(s, p) == q
    decreases q - p
  {
    if p < q {
      DigitEndAt(s, p + 1, q);
    }
  }

  /** The names looked up for a version `v >= 0` pass the listing's pattern:
      every script name passes both patterns, a settings name only the current
      one. */
  lemma {:induction false} LookupNamesListed(v: nat)
    ensures SchemaFileName(SqlName(v), SqlAndJson) && SchemaFileName(SqlName(v), SqlOnly)
    ensures SchemaFileName(JsonName(v), SqlAndJson) && !SchemaFileName(JsonName(v), SqlOnly)
  {
    SqlNameListed(v);
    JsonNameListed(v);
  }

  /** The layout of a looked-up name: `schema_`, the digits of `v`, then `tail`,
      which starts with a dot. */
  lemma NameParts(v: nat, tail: string)
    requires |tail| > 0 && tail[0] == '.'
    ensures var n := "schema_" + Text.IntToString(v) + tail;
      var e := 7 + |Text.IntToString(v)|;
      && e < |n| && n[..7] == "schema_" && DigitEnd(n, 7) == e && n[e] == '.' && n[e + 1..] == tail[1..]
  {
    var d := Text.IntToString(v);
    var n := "schema_" + d + tail;
    assert d == Text.NatToString(v);
    assert n[..7] == "schema_";
    assert forall i :: 7 <= i < 7 + |d| ==> n[i] == d[i - 7];
    DigitEndAt(n, 7, 7 + |d|);
    assert n[7 + |d| + 1..] == tail[1..];
  }

  lemma SqlNameListed(v: nat)
    ensures SchemaFileName(SqlName(v), SqlAndJson) && SchemaFileName(SqlName(v), SqlOnly)
  {
    NameParts(v, ".sql");
  }

  lemma JsonNameListed(v: nat)
    ensures SchemaFileName(JsonName(v), SqlAndJson) && !SchemaFileName(JsonName(v), SqlOnly)
  {
    NameParts(v, ".json");
  }


  // Dependencies

  /** A `version_required` value compared with an `int`: a bool counts as 0 or
      1, anything else but an integer makes `<` raise TypeError. */
  function RequiredVersion(v: Value): (r: Result<int>)
    ensures r.Failure? <==> !(v.VInt? || v.VBool?)
    ensures r.Failure? ==> r.error == PythonTypeError
    ensures v.VInt? ==> r == Success(v.i)
  {
    match v
    case VInt(i) => Success(i)
    case VBool(b) => Success(if b then 1 else 0)
    case _ => Failure(PythonTypeError)
  }

  /** One entry of a `dependencies` list: whether it stops the upgrade. A dict
      with both `name` and `version_required` stops it when the named schema
      is below the required version; a dict lacking either key is ignored.
      For other values, `"name" in dependency` searches a string or a list, or
      raises TypeError; a string or list holding both keys then fails on
      `dependency['name']`. */
  function Unmet(db: seq<Entry>, dependency: Value): (r: Result<bool>)
    ensures dependency.VDict? && !("name" in dependency.entries && "version_required" in dependency.entries)
      ==> r == Success(false)
    ensures dependency.VDict? && "name" in dependency.entries && dependency.entries["name"].VStr?
      && "version_required" in dependency.entries && dependency.entries["version_required"].VInt?
      ==> r == Success(CurrentVersion(db, dependency.entries["name"].s) < dependency.entries["version_required"].i)
    ensures r.Failure? ==> r.error == PythonTypeError
  {
    match dependency
    case VDict(m) =>
      if "name" in m && "version_required" in m then
        var current := if m["name"].VStr? then CurrentVersion(db, m["name"].s) else 0;
        var required :- RequiredVersion(m["version_required"]);
        Success(current < required)
      else Success(false)
    case VStr(s) =>
      if Text.Contains(s, "name") && Text.Contains(s, "version_required") then Failure(PythonTypeError)
      else Success(false)
    case VList(items) =>
      if VStr("name") in items && VStr("version_required") in items then Failure(PythonTypeError)
      else Success(false)
    case _ => Failure(PythonTypeError)
  }

  /** `_check_upgrade_dependencies()`: the entries are checked in order; the
      first that stops the upgrade gives False, the first error propagates. */
  function DependenciesMet(db: seq<Entry>, dependencies: seq<Value>): (r: Result<bool>)
    ensures r == Success(true) <==> forall i :: 0 <= i < |dependencies| ==> Unmet(db, dependencies[i]) == Success(false)
    ensures r.Success? && !r.value ==> exists i :: 0 <= i < |dependencies| && Unmet(db, dependencies[i]) == Success(true)
    ensures r.Failure? ==> r.error == PythonTypeError
  {
    if |dependencies| == 0 then Success(true)
    else
      var unmet :- Unmet(db, dependencies[0]);
      if unmet then Success(false)
      else
        var rest := DependenciesMet(db, dependencies[1..]);
        assert forall i :: 1 <= i < |dependencies| ==> dependencies[1..][i - 1] == dependencies[i];
        rest
  }

  /** The settings file of a step: one that cannot be opened, is not JSON
      (`None`) raises IOException; a document that is not an object fails on
      `.get()`; a `dependencies` list that is not met stops the upgrade (false). */
  function Proceed(db: seq<Entry>, settings: Option<Value>): (r: Result<bool>)
    ensures settings.None? || settings == Some(VNone) ==> r == Failure(IOException)
    ensures settings.Some? && settings.value.VDict? && "dependencies" !in settings.value.entries
      ==> r == Success(true)
    ensures r.Failure? ==> r.error in {IOException, PythonTypeError, PythonAttributeError}
  {
    match settings
    case None => Failure(IOException)
    case Some(VNone) => Failure(IOException)
    case Some(VDict(m)) =>
      if "dependencies" in m && m["dependencies"].VList? then DependenciesMet(db, m["dependencies"].items)
      else Success(true)
    case Some(_) => Failure(PythonAttributeError)
  }

  // The upgrade

  /** `range(current + 1, target + 1)` filtered to the versions that have a
      script, ascending. */
  function Steps(current: int, target: int, files: set<string>): (r: seq<int>)
    ensures forall i :: 0 <= i < |r| ==> current < r[i] <= target && SqlName(r[i]) in files
    ensures forall i, j :: 0 <= i < j < |r| ==> r[i] < r[j]
    decreases target - current
  {
    if target <= current then []
    else (if SqlName(current + 1) in files then [current + 1] else []) + Steps(current + 1, target, files)
  }

  /** No version with a script in the range is skipped. */
  lemma {:induction false} StepsComplete(current: int, target: int, files: set<string>, v: int)
    requires current < v <= target && SqlName(v) in files
    ensures v in Steps(current, target, files)
    decreases target - current
  {
    if v > current + 1 {
      StepsComplete(current + 1, target, files, v);
    }
  }

  /** One version of the range unfolded. */
  lemma StepsFrom(current: int, target: int, files: set<string>)
    requires current < target
    ensures Steps(current, target, files)
      == (if SqlName(current + 1) in files then [current + 1] else []) + Steps(current + 1, target, files)
  {
  }

  /** Nothing to apply in an empty range or without scripts. */
  lemma {:induction false} NoSteps(current: int, target: int, files: set<string>)
    requires files == {} || target <= current
    ensures Steps(current, target, files) == []
    decreases target - current
  {
    if current < target {
      NoSteps(current + 1, target, files);
    }
  }

  /** The files of one schema directory: scripts by name, and the settings
      files already decoded; a name that is missing could not be opened. */
  datatype Store = Store(scripts: map<string, string>, settings: map<string, Value>)

  /** What `_apply_sql_file()` runs for each script that can be opened, with
      each escaped `;` kept in its statement. */
  function Prepared(scripts: map<string, string>, prefix: string): (r: map<string, seq<string>>)
    ensures r.Keys == scripts.Keys
  {
    map n | n in scripts :: SqlFile.Statements(Text.Replace(scripts[n], SqlFile.PrefixPlaceholder, prefix))
  }

  /** What `_apply_sql_file()` as written runs for each script that can be
      opened: each escaped `;` is dropped. */
  function PreparedAsWritten(scripts: map<string, string>, prefix: string): (r: map<string, seq<string>>)
    ensures r.Keys == scripts.Keys
  {
    map n | n in scripts :: SqlFile.StatementsAsWritten(Text.Replace(scripts[n], SqlFile.PrefixPlaceholder, prefix))
  }

  /** Running a prepared script is `_apply_sql_file()` on that file: an
      unopenable one raises IOException, any other runs its statements; the
      as-written preparation matches the as-written `_apply_sql_file()`. */
  lemma PreparedIsApplySqlFile(scripts: map<string, string>, prefix: string, n: string)
    ensures n !in Prepared(scripts, prefix) ==> SqlFile.ApplySqlFile(Lookup(scripts, n), prefix) == Failure(IOException)
    ensures n in Prepared(scripts, prefix) ==> SqlFile.ApplySqlFile(Lookup(scripts, n), prefix) == Success(Prepared(scripts, prefix)[n])
    ensures n !in PreparedAsWritten(scripts, prefix) ==> SqlFile.ApplySqlFileAsWritten(Lookup(scripts, n), prefix) == Failure(IOException)
    ensures n in PreparedAsWritten(scripts, prefix) ==>
      SqlFile.ApplySqlFileAsWritten(Lookup(scripts, n), prefix) == Success(PreparedAsWritten(scripts, prefix)[n])
  {
  }

  function Lookup<T>(m: map<string, T>, key: string): Option<T> {
    if key in m then Some(m[key]) else None
  }

  /** What a successful upgrade did: the versions applied, in order, the
      statements executed, and whether missing dependencies stopped it. */
  datatype Run = Run(applied: seq<int>, executed: seq<string>, stopped: bool)

  /** `_upgrade()`'s loop over `steps`, with `db` the table as the loop sees
      it (the rows recorded so far included), `scripts` the statements of each
      script that can be opened (see `Prepared`) and `settings` the decoded
      settings files. A step with a settings file may stop the loop before its
      script; otherwise its script runs (a missing one raises IOException) and
      the step is recorded. */
  function Upgrade(name: string, steps: seq<int>, files: set<string>, scripts: map<string, seq<string>>, settings: map<string, Value>, db: seq<Entry>): (r: Result<Run>)
    ensures r.Success? ==> |r.value.applied| <= |steps| && r.value.applied == steps[..|r.value.applied|]
    ensures r.Success? ==> (r.value.stopped <==> |r.value.applied| < |steps|)
    ensures r.Failure? ==> r.error in {IOException, PythonTypeError, PythonAttributeError}
    decreases |steps|
  {
    if |steps| == 0 then Success(Run([], [], false))
    else
      var v := steps[0];
      var proceed :- if JsonName(v) in files then Proceed(db, Lookup(settings, JsonName(v))) else Success(true);
      if !proceed then Success(Run([], [], true))
      else
        var statements :- if SqlName(v) in scripts then Success(scripts[SqlName(v)]) else Failure(IOException);
        var rest :- Upgrade(name, steps[1..], files, scripts, settings, db + [Entry(name, v)]);
        assert [v] + rest.applied == steps[..|rest.applied| + 1] by {
          PrefixCons(steps, rest.applied);
        }
        Success(Run([v] + rest.applied, statements + rest.executed, rest.stopped))
  }

  /** A prefix of the steps after the first, behind the first, is a prefix of
      the steps. */
  lemma PrefixCons(steps: seq<int>, tail: seq<int>)
    requires |steps| > 0 && |tail| <= |steps| - 1 && tail == steps[1..][..|tail|]
    ensures [steps[0]] + tail == steps[..|tail| + 1]
  {
  }

  /** Unfolding one step the settings file lets through. */
  lemma UpgradeStep(name: string, steps: seq<int>, files: set<string>, scripts: map<string, seq<string>>, settings: map<string, Value>, db: seq<Entry>)
    requires |steps| > 0
    requires Upgrade(name, steps, files, scripts, settings, db).Success?
    requires JsonName(steps[0]) in files ==> Proceed(db, Lookup(settings, JsonName(steps[0]))) == Success(true)
    ensures var rest := Upgrade(name, steps[1..], files, scripts, settings, db + [Entry(name, steps[0])]);
      && rest.Success?
      && Upgrade(name, steps, files, scripts, settings, db).value.applied == [steps[0]] + rest.value.applied
      && Upgrade(name, steps, files, scripts, settings, db).value.stopped == rest.value.stopped
  {
  }

  /** A stopped upgrade stopped at the first step it did not apply: that step
      has a settings file, and its dependencies were not met by the table as
      it stood after the steps before it. */
  lemma {:induction false} UpgradeStopsAtUnmet(name: string, steps: seq<int>, files: set<string>, scripts: map<string, seq<string>>, settings: map<string, Value>, db: seq<Entry>)
    requires Upgrade(name, steps, files, scripts, settings, db).Success?
    requires Upgrade(name, steps, files, scripts, settings, db).value.stopped
    ensures var run := Upgrade(name, steps, files, scripts, settings, db).value;
      var v := steps[|run.applied|];
      && JsonName(v) in files
      && Proceed(db + Entries(name, run.applied), Lookup(settings, JsonName(v))) == Success(false)
    decreases |steps|
  {
    var v := steps[0];
    var run := Upgrade(name, steps, files, scripts, settings, db).value;
    if JsonName(v) in files ==> Proceed(db, Lookup(settings, JsonName(v))) == Success(true) {
      var db' := db + [Entry(name, v)];
      var rest := Upgrade(name, steps[1..], files, scripts, settings, db');
      UpgradeStep(name, steps, files, scripts, settings, db);
      UpgradeStopsAtUnmet(name, steps[1..], files, scripts, settings, db');
      assert steps[|run.applied|] == steps[1..][|rest.value.applied|];
      RecordCons(db, name, v, rest.value.applied);
    } else {
      UpgradeStopsFirst(name, steps, files, scripts, settings, db);
      assert db + Entries(name, []) == db;
    }
  }

  /** A first step whose settings file does not let it through stops the
      upgrade before anything is applied. */
  lemma UpgradeStopsFirst(name: string, steps: seq<int>, files: set<string>, scripts: map<string, seq<string>>, settings: map<string, Value>, db: seq<Entry>)
    requires |steps| > 0
    requires Upgrade(name, steps, files, scripts, settings, db).Success?
    requires !(JsonName(steps[0]) in files ==> Proceed(db, Lookup(settings, JsonName(steps[0]))) == Success(true))
    ensures JsonName(steps[0]) in files && Proceed(db, Lookup(settings, JsonName(steps[0]))) == Success(false)
    ensures Upgrade(name, steps, files, scripts, settings, db).value.applied == []
  {
  }

  /** Recording ascending versions above every recorded one leaves the last of
      them as the latest. */
  lemma {:induction false} RecordAscending(db: seq<Entry>, name: string, versions: seq<int>)
    requires forall i, j :: 0 <= i < j < |versions| ==> versions[i] < versions[j]
    requires forall i :: 0 <= i < |versions| ==> CurrentVersion(db, name) < versions[i]
    requires |versions| > 0
    ensures LatestVersion(db + Entries(name, versions), name) == Some(versions[|versions| - 1])
    decreases |versions|
  {
    var n := |versions|;
    var v := versions[n - 1];
    var front := versions[..n - 1];
    var d := db + Entries(name, front);
    RecordSnoc(db, name, versions);
    RecordLatest(d, name, v, name + "'");
    if n > 1 {
      RecordAscending(db, name, front);
      assert LatestVersion(d, name) == Some(versions[n - 2]);
    } else {
      assert d == db + [];
      assert CurrentVersion(db, name) < v;
    }
  }

  /** Recording versions is recording all but the last, then the last. */
  lemma RecordSnoc(db: seq<Entry>, name: string, versions: seq<int>)
    requires |versions| > 0
    ensures db + Entries(name, versions)
      == (db + Entries(name, versions[..|versions| - 1])) + [Entry(name, versions[|versions| - 1])]
  {
    var n := |versions|;
    assert Entries(name, versions) == Entries(name, versions[..n - 1]) + [Entry(name, versions[n - 1])];
  }

  // `apply_version()`

  /** The class handed to `apply_version()`: anything that is not a database
      instance class, or one with its name and `db_schema_version`. */
  datatype InstanceClass = NotADatabaseClass | DatabaseClass(name: string, schemaVersion: Option<int>)

  /** The schema version table afterwards and the statements executed. */
  datatype Outcome = Outcome(db: seq<Entry>, executed: seq<string>, stopped: bool)

  /** `apply_version()` once the directory is listed: an invalid class raises
      TypeException. A schema with
      no recorded version (below 1) gets its target recorded with no script
      run, since its tables are created afresh. Otherwise, when the directory
      lists some schema file and the recorded version is below the target,
      the steps up to the target are applied in one transaction. */
  function Apply(cls: InstanceClass, db: seq<Entry>, files: set<string>, scripts: map<string, seq<string>>, settings: map<string, Value>): (r: Result<Outcome>)
    ensures r == Failure(TypeException) <==> cls.NotADatabaseClass? || cls.schemaVersion.None?
    ensures r.Success? ==> |db| <= |r.value.db| && r.value.db[..|db|] == db
    ensures r.Success? ==> forall i :: |db| <= i < |r.value.db| ==> r.value.db[i].name == cls.name
    ensures r.Success? && r.value.executed != [] ==> 1 <= CurrentVersion(db, cls.name) < cls.schemaVersion.value
  {
    if cls.NotADatabaseClass? || cls.schemaVersion.None? then Failure(TypeException)
    else
      var name := cls.name;
      var target := cls.schemaVersion.value;
      var current := CurrentVersion(db, name);
      if current < 1 then
        Success(Outcome(db + [Entry(name, target)], [], false))
      else if files != {} && current < target then
        var run := Upgrade(name, Steps(current, target, files), files, scripts, settings, db);
        if run.Failure? then Failure(run.error)
        else
          RecordKeeps(db, name, run.value.applied);
          Success(Outcome(db + Entries(name, run.value.applied), run.value.executed, run.value.stopped))
      else Success(Outcome(db, [], false))
  }

  /** The loop depends on the scripts only through which of them can be
      opened: what they contain changes the statements executed and nothing
      else. */
  lemma {:induction false} UpgradeScriptsIrrelevant(name: string, steps: seq<int>, files: set<string>, s1: map<string, seq<string>>, s2: map<string, seq<string>>, settings: map<string, Value>, db: seq<Entry>)
    requires s1.Keys == s2.Keys
    ensures var a := Upgrade(name, steps, files, s1, settings, db);
      var b := Upgrade(name, steps, files, s2, settings, db);
      && a.Success? == b.Success?
      && (a.Failure? ==> a.error == b.error)
      && (a.Success? ==> a.value.applied == b.value.applied && a.value.stopped == b.value.stopped)
    decreases |steps|
  {
    if |steps| > 0 {
      UpgradeScriptsIrrelevant(name, steps[1..], files, s1, s2, settings, db + [Entry(name, steps[0])]);
    }
  }

  /** The same for the whole run: the version table and the stop flag do not
      depend on what the scripts contain. */
  lemma ApplyScriptsIrrelevant(cls: InstanceClass, db: seq<Entry>, files: set<string>, s1: map<string, seq<string>>, s2: map<string, seq<string>>, settings: map<string, Value>)
    requires s1.Keys == s2.Keys
    ensures var a := Apply(cls, db, files, s1, settings);
      var b := Apply(cls, db, files, s2, settings);
      && a.Success? == b.Success?
      && (a.Failure? ==> a.error == b.error)
      && (a.Success? ==> a.value.db == b.value.db && a.value.stopped == b.value.stopped)
  {
    if cls.DatabaseClass? && cls.schemaVersion.Some? {
      var current := CurrentVersion(db, cls.name);
      UpgradeScriptsIrrelevant(cls.name, Steps(current, cls.schemaVersion.value, files), files, s1, s2, settings, db);
    }
  }

  /** `apply_version()` as written, whose scripts drop each escaped `;`. */
  function ApplyVersionAsWritten(cls: InstanceClass, db: seq<Entry>, names: Option<seq<string>>, store: Store, prefix: string): (r: Result<Outcome>)
    ensures r == Failure(TypeException) <==> cls.NotADatabaseClass? || cls.schemaVersion.None?
    ensures names.None? ==> r == Apply(cls, db, {}, PreparedAsWritten(store.scripts, prefix), store.settings)
  {
    Apply(cls, db, SchemaFiles(names, SqlAndJson), PreparedAsWritten(store.scripts, prefix), store.settings)
  }

  /** The as-written and the corrected `apply_version()` fail alike and record
      the same versions; only the statements they execute can differ. */
  lemma ApplyVersionAgreesAsWritten(cls: InstanceClass, db: seq<Entry>, names: Option<seq<string>>, store: Store, prefix: string)
    ensures var a := ApplyVersionAsWritten(cls, db, names, store, prefix);
      var c := ApplyVersion(cls, db, names, store, prefix);
      && a.Success? == c.Success?
      && (a.Failure? ==> a.error == c.error)
      && (a.Success? ==> a.value.db == c.value.db && a.value.stopped == c.value.stopped)
  {
    ApplyScriptsIrrelevant(cls, db, SchemaFiles(names, SqlAndJson), PreparedAsWritten(store.scripts, prefix), Prepared(store.scripts, prefix), store.settings);
  }

  /** `apply_version()` with the directory's names, filtered by the current
      pattern, and the escaped `;` kept. */
  function ApplyVersion(cls: InstanceClass, db: seq<Entry>, names: Option<seq<string>>, store: Store, prefix: string): (r: Result<Outcome>)
    ensures r == Failure(TypeException) <==> cls.NotADatabaseClass? || cls.schemaVersion.None?
    ensures names.None? ==> r == Apply(cls, db, {}, Prepared(store.scripts, prefix), store.settings)
  {
    Apply(cls, db, SchemaFiles(names, SqlAndJson), Prepared(store.scripts, prefix), store.settings)
  }

  /** A schema without a recorded version gets its target recorded and no
      script runs. */
  lemma FreshSchemaRecordsTarget(name: string, target: int, db: seq<Entry>, files: set<string>, scripts: map<string, seq<string>>, settings: map<string, Value>)
    requires CurrentVersion(db, name) < 1 <= target
    ensures var r := Apply(DatabaseClass(name, Some(target)), db, files, scripts, settings);
      && r.Success? && r.value.executed == []
      && CurrentVersion(r.value.db, name) == target
  {
    RecordLatest(db, name, target, name + "'");
  }

  /** An upgrade that was not stopped applied and recorded every step. */
  lemma UpgradeRecordsSteps(name: string, target: int, db: seq<Entry>, files: set<string>, scripts: map<string, seq<string>>, settings: map<string, Value>)
    requires 1 <= CurrentVersion(db, name) < target
    requires files != {}
    requires Apply(DatabaseClass(name, Some(target)), db, files, scripts, settings).Success?
    requires !Apply(DatabaseClass(name, Some(target)), db, files, scripts, settings).value.stopped
    ensures Apply(DatabaseClass(name, Some(target)), db, files, scripts, settings).value.db
      == db + Entries(name, Steps(CurrentVersion(db, name), target, files))
  {
    var steps := Steps(CurrentVersion(db, name), target, files);
    assert Upgrade(name, steps, files, scripts, settings, db).value.applied == steps;
  }

  /** An upgrade that was not stopped leaves the schema at the highest version
      in `(current, target]` that has a script, or where it was when there is
      none. */
  lemma {:induction false} UpgradeReachesLastStep(name: string, target: int, db: seq<Entry>, files: set<string>, scripts: map<string, seq<string>>, settings: map<string, Value>)
    requires 1 <= CurrentVersion(db, name) < target
    requires files != {}
    requires Apply(DatabaseClass(name, Some(target)), db, files, scripts, settings).Success?
    requires !Apply(DatabaseClass(name, Some(target)), db, files, scripts, settings).value.stopped
    ensures var steps := Steps(CurrentVersion(db, name), target, files);
      var r := Apply(DatabaseClass(name, Some(target)), db, files, scripts, settings).value;
      && (steps == [] ==> r.db == db)
      && (steps != [] ==> CurrentVersion(r.db, name) == steps[|steps| - 1])
  {
    var steps := Steps(CurrentVersion(db, name), target, files);
    UpgradeRecordsSteps(name, target, db, files, scripts, settings);
    if steps == [] {
      assert db + Entries(name, []) == db;
    } else {
      RecordAscending(db, name, steps);
    }
  }

  /** A recorded schema with no script left up to its target is left alone. */
  lemma NothingToApply(name: string, target: int, db: seq<Entry>, files: set<string>, scripts: map<string, seq<string>>, settings: map<string, Value>)
    requires 1 <= CurrentVersion(db, name)
    requires Steps(CurrentVersion(db, name), target, files) == []
    ensures Apply(DatabaseClass(name, Some(target)), db, files, scripts, settings) == Success(Outcome(db, [], false))
  {
    assert db + Entries(name, []) == db;
  }

  /** After a complete upgrade no version up to the target has a script left. */
  lemma {:induction false} UpgradeLeavesNothing(name: string, target: int, db: seq<Entry>, files: set<string>, scripts: map<string, seq<string>>, settings: map<string, Value>)
    requires 1 <= CurrentVersion(db, name) < target
    requires files != {}
    requires Apply(DatabaseClass(name, Some(target)), db, files, scripts, settings).Success?
    requires !Apply(DatabaseClass(name, Some(target)), db, files, scripts, settings).value.stopped
    ensures var first := Apply(DatabaseClass(name, Some(target)), db, files, scripts, settings).value;
      && 1 <= CurrentVersion(first.db, name)
      && Steps(CurrentVersion(first.db, name), target, files) == []
  {
    var current := CurrentVersion(db, name);
    var first := Apply(DatabaseClass(name, Some(target)), db, files, scripts, settings).value;
    var steps := Steps(current, target, files);
    UpgradeReachesLastStep(name, target, db, files, scripts, settings);
    var next := CurrentVersion(first.db, name);
    if steps == [] {
      assert next == current;
    } else {
      assert next == steps[|steps| - 1];
    }
    NothingAfterLastStep(current, target, files, next);
  }

  /** Past the last version of a range that has a script, or from the start
      of a range with none, nothing is left up to the target. */
  lemma NothingAfterLastStep(current: int, target: int, files: set<string>, next: int)
    requires var steps := Steps(current, target, files);
      && (steps == [] ==> next == current)
      && (steps != [] ==> next == steps[|steps| - 1])
    ensures current <= next
    ensures Steps(next, target, files) == []
  {
    var steps := Steps(current, target, files);
    if steps != [] {
      assert current < steps[|steps| - 1];
      LastIsLargest(steps);
    }
    forall v | next < v <= target && SqlName(v) in files
      ensures false
    {
      StepsComplete(current, target, files, v);
    }
    NoScriptNoSteps(next, target, files);
  }

  /** A range without a script has no steps. */
  lemma {:induction false} NoScriptNoSteps(current: int, target: int, files: set<string>)
    requires forall v :: current < v <= target ==> SqlName(v) !in files
    ensures Steps(current, target, files) == []
    decreases target - current
  {
    if current < target {
      assert SqlName(current + 1) !in files;
      NoScriptNoSteps(current + 1, target, files);
    }
  }

  /** The last of an ascending sequence is its largest element. */
  lemma LastIsLargest(s: seq<int>)
    requires forall i, j :: 0 <= i < j < |s| ==> s[i] < s[j]
    requires |s| > 0
    ensures forall x :: x in s ==> x <= s[|s| - 1]
  {
    forall x | x in s ensures x <= s[|s| - 1] {
      var k :| 0 <= k < |s| && s[k] == x;
      if k < |s| - 1 {
        assert s[k] < s[|s| - 1];
      }
    }
  }

  /** Applying the version twice changes nothing the second time, once the
      first run was not stopped by missing dependencies. */
  lemma {:induction false} ApplyVersionIdempotent(name: string, target: int, db: seq<Entry>, files: set<string>, scripts: map<string, seq<string>>, settings: map<string, Value>)
    requires 1 <= target
    requires Apply(DatabaseClass(name, Some(target)), db, files, scripts, settings).Success?
    requires !Apply(DatabaseClass(name, Some(target)), db, files, scripts, settings).value.stopped
    ensures var first := Apply(DatabaseClass(name, Some(target)), db, files, scripts, settings).value;
      Apply(DatabaseClass(name, Some(target)), first.db, files, scripts, settings) == Success(Outcome(first.db, [], false))
  {
    var first := Apply(DatabaseClass(name, Some(target)), db, files, scripts, settings).value;
    var current := CurrentVersion(db, name);
    if current < 1 {
      FreshSchemaRecordsTarget(name, target, db, files, scripts, settings);
      assert Steps(target, target, files) == [];
    } else if files != {} && current < target {
      UpgradeLeavesNothing(name, target, db, files, scripts, settings);
    } else {
      assert first.db == db;
      NoSteps(current, target, files);
    }
    NothingToApply(name, target, first.db, files, scripts, settings);
  }

  /** Versions 2, 3 and 5 have scripts: an upgrade from 1 to 5 runs them in
      that order and skips 4. */
  lemma StepsExample()
    ensures Steps(1, 5, {"schema_2.sql", "schema_3.sql", "schema_5.sql"}) == [2, 3, 5]
  {
    var files := {"schema_2.sql", "schema_3.sql", "schema_5.sql"};
    assert SqlName(2) in files by {
      assert Text.IntToString(2) == "2";
      assert SqlName(2) == "schema_2.sql";
    }
    assert SqlName(3) in files by {
      assert Text.IntToString(3) == "3";
      assert SqlName(3) == "schema_3.sql";
    }
    assert SqlName(5) in files by {
      assert Text.IntToString(5) == "5";
      assert SqlName(5) == "schema_5.sql";
    }
    assert SqlName(4) !in files by {
      assert Text.IntToString(4) == "4";
      assert SqlName(4)[7] == '4';
    }
    StepsFrom(4, 5, files);
    StepsFrom(3, 5, files);
    StepsFrom(2, 5, files);
    StepsFrom(1, 5, files);
    NoSteps(5, 5, files);
  }

  /** Step 3's settings require version 2 of `Other`, which has no row: step
      2 is applied and recorded, the upgrade stops before step 3's script, and
      nothing is raised. */
  lemma DependencyStopsExample()
    ensures var files := {"schema_2.sql", "schema_3.sql", "schema_3.json"};
      var dependency := VDict(map["name" := VStr("Other"), "version_required" := VInt(2)]);
      var settings := map["schema_3.json" := VDict(map["dependencies" := VList([dependency])])];
      var scripts := map["schema_2.sql" := ["CREATE a"], "schema_3.sql" := ["CREATE b"]];
      Upgrade("Kind", [2, 3], files, scripts, settings, [Entry("Kind", 1)])
        == Success(Run([2], ["CREATE a"], true))
  {
    var files := {"schema_2.sql", "schema_3.sql", "schema_3.json"};
    var dependency := VDict(map["name" := VStr("Other"), "version_required" := VInt(2)]);
    var document := VDict(map["dependencies" := VList([dependency])]);
    var settings := map["schema_3.json" := document];
    var scripts := map["schema_2.sql" := ["CREATE a"], "schema_3.sql" := ["CREATE b"]];
    var db := [Entry("Kind", 1)] + [Entry("Kind", 2)];
    ExampleNames();
    assert JsonName(2) !in files by {
      assert JsonName(2)[7] == '2';
    }
    assert SqlName(2) in scripts && scripts[SqlName(2)] == ["CREATE a"];
    assert JsonName(3) in files && Lookup(settings, JsonName(3)) == Some(document);
    UnmetDependencyExample();
    assert Upgrade("Kind", [3], files, scripts, settings, db) == Success(Run([], [], true));
    assert [2, 3][1..] == [3];
    assert [2] + [] == [2] && ["CREATE a"] + [] == ["CREATE a"];
    assert Upgrade("Kind", [2, 3], files, scripts, settings, [Entry("Kind", 1)])
      == Success(Run([2] + [], ["CREATE a"] + [], true));
  }

  /** The file names of versions 2 and 3. */
  lemma ExampleNames()
    ensures SqlName(2) == "schema_2.sql" && JsonName(2) == "schema_2.json"
    ensures SqlName(3) == "schema_3.sql" && JsonName(3) == "schema_3.json"
  {
    assert Text.IntToString(2) == "2";
    assert Text.IntToString(3) == "3";
  }

  /** A dependency on a schema the table has no row for is not met. */
  lemma UnmetDependencyExample()
    ensures var dependency := VDict(map["name" := VStr("Other"), "version_required" := VInt(2)]);
      Proceed([Entry("Kind", 1)] + [Entry("Kind", 2)], Some(VDict(map["dependencies" := VList([dependency])]))) == Success(false)
  {
    var db := [Entry("Kind", 1)] + [Entry("Kind", 2)];
    var dependency := VDict(map["name" := VStr("Other"), "version_required" := VInt(2)]);
    assert LatestVersion(db, "Other") == None;
    assert Unmet(db, dependency) == Success(true);
    assert [dependency][1..] == [];
  }

  // `set_data_attributes()` of the dNG schema entry

  /** The columns of a schema version row the entry writes. */
  datatype SchemaRow = SchemaRow(name: Value, version: Value, applied: Value)

  /** `set_data_attributes(**kwargs)`: `name`, `version` and `applied` are
      written when given; every other keyword is ignored. */
  function SetDataAttributes(row: SchemaRow, kwargs: map<string, Value>): (r: SchemaRow)
    ensures "name" !in kwargs && "version" !in kwargs && "applied" !in kwargs ==> r == row
  {
    SchemaRow(
      if "name" in kwargs then kwargs["name"] else row.name,
      if "version" in kwargs then kwargs["version"] else row.version,
      if "applied" in kwargs then kwargs["applied"] else row.applied)
  }

  /** Only the three column keywords matter, and writing them twice is writing
      them once. */
  lemma SetDataAttributesWritesColumnsOnly(row: SchemaRow, kwargs: map<string, Value>)
    ensures SetDataAttributes(row, kwargs)
      == SetDataAttributes(row, map k | k in kwargs && k in {"name", "version", "applied"} :: kwargs[k])
    ensures SetDataAttributes(SetDataAttributes(row, kwargs), kwargs) == SetDataAttributes(row, kwargs)
  {
  }
}

=== FILE: schema_pas.dfy ===
/** The oldest schema runner, src/dNG/pas/database/schema.py: it lists `.sql`
    scripts only and applies every step without settings files or dependency
    checks. The schema version table, the file-name pattern, the steps and the
    SQL splitting are those of SchemaRunner and SqlFile. */
module SchemaPas {
  import opened Wrappers
  import opened Values
  import R = SchemaRunner

  /** The loop of `apply_version()`: every step's script runs and the step is
      recorded; a script that cannot be opened raises IOException. Returns
      the statements executed. */
  function Upgrade(name: string, steps: seq<int>, scripts: map<string, seq<string>>): (r: Result<seq<string>>)
    ensures r.Failure? ==> r.error == IOException
    ensures |steps| > 0 && r.Success? ==> R.SqlName(steps[0]) in scripts && scripts[R.SqlName(steps[0])] <= r.value
  {
    if |steps| == 0 then Success([])
    else if R.SqlName(steps[0]) !in scripts then Failure(IOException)
    else
      var rest :- Upgrade(name, steps[1..], scripts);
      Success(scripts[R.SqlName(steps[0])] + rest)
  }

  /** The loop raises exactly when the script of some step cannot be opened. */
  lemma {:induction false} UpgradeFails(name: string, steps: seq<int>, scripts: map<string, seq<string>>)
    ensures Upgrade(name, steps, scripts).Failure? <==> exists i :: 0 <= i < |steps| && R.SqlName(steps[i]) !in scripts
    decreases |steps|
  {
    if |steps| > 0 && R.SqlName(steps[0]) in scripts {
      var tail := steps[1..];
      UpgradeFails(name, tail, scripts);
      assert forall i :: 0 <= i < |tail| ==> tail[i] == steps[i + 1];
      if exists i :: 0 <= i < |steps| && R.SqlName(steps[i]) !in scripts {
        var i :| 0 <= i < |steps| && R.SqlName(steps[i]) !in scripts;
        assert 0 <= i - 1 < |tail| && R.SqlName(tail[i - 1]) !in scripts;
      }
    }
  }

  /** `apply_version()` once the directory is listed: an invalid class raises
      TypeException; a schema without a recorded version gets its target
      recorded; otherwise, with some script listed and the recorded version
      below the target, every step is applied and recorded in one
      transaction. */
  function Apply(cls: R.InstanceClass, db: seq<R.Entry>, files: set<string>, scripts: map<string, seq<string>>): (r: Result<R.Outcome>)
    ensures r == Failure(TypeException) <==> cls.NotADatabaseClass? || cls.schemaVersion.None?
    ensures r.Failure? && r.error != TypeException ==> r.error == IOException
    ensures r.Success? ==> !r.value.stopped
  {
    if cls.NotADatabaseClass? || cls.schemaVersion.None? then Failure(TypeException)
    else
      var name := cls.name;
      var target := cls.schemaVersion.value;
      var current := R.CurrentVersion(db, name);
      if current < 1 then Success(R.Outcome(db + [R.Entry(name, target)], [], false))
      else if files != {} && current < target then
        var steps := R.Steps(current, target, files);
        var executed :- Upgrade(name, steps, scripts);
        Success(R.Outcome(db + R.Entries(name, steps), executed, false))
      else Success(R.Outcome(db, [], false))
  }

  /** The version table and whether the run fails do not depend on what the
      scripts contain, only on which of them can be opened. */
  lemma ApplyScriptsIrrelevant(cls: R.InstanceClass, db: seq<R.Entry>, files: set<string>, s1: map<string, seq<string>>, s2: map<string, seq<string>>)
    requires s1.Keys == s2.Keys
    ensures var a := Apply(cls, db, files, s1);
      var b := Apply(cls, db, files, s2);
      && a.Success? == b.Success?
      && (a.Failure? ==> a.error == b.error)
      && (a.Success? ==> a.value.db == b.value.db)
  {
    if cls.DatabaseClass? && cls.schemaVersion.Some? {
      var steps := R.Steps(R.CurrentVersion(db, cls.name), cls.schemaVersion.value, files);
      UpgradeFails(cls.name, steps, s1);
      UpgradeFails(cls.name, steps, s2);
    }
  }

  /** `apply_version()` as written, whose scripts drop each escaped `;`. */
  function ApplyVersionAsWritten(cls: R.InstanceClass, db: seq<R.Entry>, names: Option<seq<string>>, store: R.Store, prefix: string): (r: Result<R.Outcome>)
    ensures r == Failure(TypeException) <==> cls.NotADatabaseClass? || cls.schemaVersion.None?
    ensures r.Success? ==> !r.value.stopped
  {
    Apply(cls, db, R.SchemaFiles(names, R.SqlOnly), R.PreparedAsWritten(store.scripts, prefix))
  }

  /** The as-written and the corrected `apply_version()` fail alike and record
      the same versions; only the statements they execute can differ. */
  lemma ApplyVersionAgreesAsWritten(cls: R.InstanceClass, db: seq<R.Entry>, names: Option<seq<string>>, store: R.Store, prefix: string)
    ensures var a := ApplyVersionAsWritten(cls, db, names, store, prefix);
      var c := ApplyVersion(cls, db, names, store, prefix);
      && a.Success? == c.Success?
      && (a.Failure? ==> a.error == c.error)
      && (a.Success? ==> a.value.db == c.value.db)
  {
    ApplyScriptsIrrelevant(cls, db, R.SchemaFiles(names, R.SqlOnly), R.PreparedAsWritten(store.scripts, prefix), R.Prepared(store.scripts, prefix));
  }

  /** `apply_version()` with the directory's names, filtered by the `.sql`
      pattern, and the escaped `;` kept. */
  function ApplyVersion(cls: R.InstanceClass, db: seq<R.Entry>, names: Option<seq<string>>, store: R.Store, prefix: string): (r: Result<R.Outcome>)
    ensures r == Failure(TypeException) <==> cls.NotADatabaseClass? || cls.schemaVersion.None?
    ensures r.Success? ==> !r.value.stopped
  {
    Apply(cls, db, R.SchemaFiles(names, R.SqlOnly), R.Prepared(store.scripts, prefix))
  }

  /** One step of the newer loop when the step has no settings file. */
  lemma NewerStep(name: string, steps: seq<int>, files: set<string>, scripts: map<string, seq<string>>, settings: map<string, Value>, db: seq<R.Entry>)
    requires |steps| > 0 && R.JsonName(steps[0]) !in files
    ensures var rest := R.Upgrade(name, steps[1..], files, scripts, settings, db + [R.Entry(name, steps[0])]);
      R.Upgrade(name, steps, files, scripts, settings, db)
        == if R.SqlName(steps[0]) !in scripts then Failure(IOException)
           else if rest.Failure? then Failure(rest.error)
           else Success(R.Run([steps[0]] + rest.value.applied, scripts[R.SqlName(steps[0])] + rest.value.executed, rest.value.stopped))
  {
  }

  /** A non-empty list of steps is its first step followed by the rest. */
  lemma SplitFirst(steps: seq<int>)
    requires |steps| > 0
    ensures steps == [steps[0]] + steps[1..]
  {
  }

  /** One step of this loop whose script can be opened. */
  lemma UpgradeUnfold(name: string, steps: seq<int>, scripts: map<string, seq<string>>)
    requires |steps| > 0 && R.SqlName(steps[0]) in scripts
    ensures var older := Upgrade(name, steps[1..], scripts);
      Upgrade(name, steps, scripts) == if older.Failure? then Failure(older.error) else Success(scripts[R.SqlName(steps[0])] + older.value)
  {
  }

  /** Without settings files among the steps, the newer loop does what this one
      does: it applies every step, stops nowhere, and raises where this one
      raises. */
  lemma {:induction false} UpgradeAgrees(name: string, steps: seq<int>, files: set<string>, scripts: map<string, seq<string>>, settings: map<string, Value>, db: seq<R.Entry>)
    requires forall i :: 0 <= i < |steps| ==> R.JsonName(steps[i]) !in files
    ensures var newer := R.Upgrade(name, steps, files, scripts, settings, db);
      && (newer.Success? <==> Upgrade(name, steps, scripts).Success?)
      && (newer.Success? ==> newer.value == R.Run(steps, Upgrade(name, steps, scripts).value, false))
      && (newer.Failure? ==> newer.error == IOException)
    decreases |steps|
  {
    if |steps| > 0 {
      var v := steps[0];
      var tail := steps[1..];
      NewerStep(name, steps, files, scripts, settings, db);
      if R.SqlName(v) in scripts {
        assert forall i :: 0 <= i < |tail| ==> tail[i] == steps[i + 1];
        UpgradeAgrees(name, tail, files, scripts, settings, db + [R.Entry(name, v)]);
        UpgradeUnfold(name, steps, scripts);
        SplitFirst(steps);
      }
    }
  }

  /** The `.sql` listing holds no settings file for a positive version. */
  lemma NoSettingsListed(names: Option<seq<string>>, v: int)
    requires v >= 0
    ensures R.JsonName(v) !in R.SchemaFiles(names, R.SqlOnly)
  {
    R.LookupNamesListed(v);
  }

  /** The upgrade branch of both runners yields the same outcome when no step
      has a settings file. */
  lemma UpgradeBranchAgrees(name: string, steps: seq<int>, files: set<string>, scripts: map<string, seq<string>>, settings: map<string, Value>, db: seq<R.Entry>)
    requires forall i :: 0 <= i < |steps| ==> R.JsonName(steps[i]) !in files
    ensures var run := R.Upgrade(name, steps, files, scripts, settings, db);
      var executed := Upgrade(name, steps, scripts);
      (if executed.Failure? then Failure(executed.error) else Success(R.Outcome(db + R.Entries(name, steps), executed.value, false)))
        == (if run.Failure? then Failure(run.error)
            else Success(R.Outcome(db + R.Entries(name, run.value.applied), run.value.executed, run.value.stopped)))
  {
    UpgradeAgrees(name, steps, files, scripts, settings, db);
  }

  /** Over any listing without settings files the two runners agree. */
  lemma ApplyAgreesOn(cls: R.InstanceClass, db: seq<R.Entry>, files: set<string>, scripts: map<string, seq<string>>, settings: map<string, Value>)
    requires forall v :: 0 <= v ==> R.JsonName(v) !in files
    ensures Apply(cls, db, files, scripts) == R.Apply(cls, db, files, scripts, settings)
  {
    if cls.DatabaseClass? && cls.schemaVersion.Some? {
      var current := R.CurrentVersion(db, cls.name);
      var target := cls.schemaVersion.value;
      if 1 <= current && files != {} && current < target {
        var steps := R.Steps(current, target, files);
        UpgradeBranchAgrees(cls.name, steps, files, scripts, settings, db);
      }
    }
  }

  /** This runner is the newer one fed the `.sql` listing: the settings files
      never come into play, so nothing is gated. */
  lemma ApplyAgrees(cls: R.InstanceClass, db: seq<R.Entry>, names: Option<seq<string>>, scripts: map<string, seq<string>>, settings: map<string, Value>)
    ensures var files := R.SchemaFiles(names, R.SqlOnly);
      Apply(cls, db, files, scripts) == R.Apply(cls, db, files, scripts, settings)
  {
    var files := R.SchemaFiles(names, R.SqlOnly);
    forall v | 0 <= v
      ensures R.JsonName(v) !in files
    {
      NoSettingsListed(names, v);
    }
    ApplyAgreesOn(cls, db, files, scripts, settings);
  }
}

=== FILE: sort_definition.dfy ===
/** `SortDefinition`, the ordered list of (attribute, direction) pairs of
    src/pas_database/sort_definition.py and, with the same rules,
    src/dNG/pas/database/sort_definition.py.

    A query is modelled by the list of `ORDER BY` terms it has accumulated. */
module SortDefinition {
  import opened Wrappers
  import opened Values

  const Ascending := 1
  const Descending := 2

  /** One stored tuple; both parts keep the Python values they were given. */
  datatype SortKey = SortKey(attribute: Value, direction: Value)

  datatype Def = Def(tuples: seq<SortKey>)

  const Empty := Def([])

  /** A direction `validate_sort_direction` accepts. */
  predicate ValidDirection(d: Value) {
    EqualsInt(d, Ascending) || EqualsInt(d, Descending)
  }

  /** Every stored direction is one of the two constants. */
  predicate Valid(s: Def) {
    forall i :: 0 <= i < |s.tuples| ==> ValidDirection(s.tuples[i].direction)
  }

  /** `validate_sort_direction()`: the direction back, or ValueException. */
  function ValidateDirection(d: Value): (r: Result<Value>)
    ensures r.Success? <==> d == VInt(1) || d == VInt(2) || d == VBool(true)
    ensures r.Success? ==> r.value == d
    ensures r.Failure? ==> r.error == ValueException
  {
    if ValidDirection(d) then Success(d) else Failure(ValueException)
  }

  /** `append()`: the pair goes last, after validation. */
  function Append(s: Def, attribute: Value, direction: Value): (r: Result<Def>)
    ensures r.Success? <==> ValidDirection(direction)
    ensures r.Failure? ==> r.error == ValueException
    ensures r.Success? ==> (
      && |r.value.tuples| == |s.tuples| + 1
      && r.value.tuples[..|s.tuples|] == s.tuples
      && r.value.tuples[|s.tuples|] == SortKey(attribute, direction))
    ensures r.Success? && Valid(s) ==> Valid(r.value)
  {
    var _ :- ValidateDirection(direction);
    Success(Def(s.tuples + [SortKey(attribute, direction)]))
  }

  /** `prepend()`: the pair goes first, after validation. */
  function Prepend(s: Def, attribute: Value, direction: Value): (r: Result<Def>)
    ensures r.Success? <==> ValidDirection(direction)
    ensures r.Failure? ==> r.error == ValueException
    ensures r.Success? ==> (
      && |r.value.tuples| == |s.tuples| + 1
      && r.value.tuples[1..] == s.tuples
      && r.value.tuples[0] == SortKey(attribute, direction))
    ensures r.Success? && Valid(s) ==> Valid(r.value)
  {
    var _ :- ValidateDirection(direction);
    Success(Def([SortKey(attribute, direction)] + s.tuples))
  }

  /** `clear()`. */
  function Clear(s: Def): (r: Def)
    ensures |r.tuples| == 0 && Valid(r)
  {
    Empty
  }

  /** `get_list()` of the older generation. */
  function GetList(s: Def): (r: seq<SortKey>)
    ensures |r| == |s.tuples| && forall i :: 0 <= i < |r| ==> r[i] == s.tuples[i]
  {
    s.tuples
  }

  /** One element handed to the constructor: a tuple of some length, or anything else. */
  datatype Item = Tuple(parts: seq<Value>) | NotATuple

  /** What the constructor demands of one element, as the exception it raises. */
  function ItemError(item: Item): Option<Error> {
    match item
    case NotATuple => Some(TypeException)
    case Tuple(parts) =>
      if |parts| != 2 then Some(ValueException)
      else if !ValidDirection(parts[1]) then Some(ValueException)
      else None
  }

  /** The constructor: every element must be a valid pair; the first bad one
      decides the exception, and a good list keeps its order. */
  function Construct(items: seq<Item>): (r: Result<Def>)
    ensures r.Success? <==> forall i :: 0 <= i < |items| ==> ItemError(items[i]).None?
    ensures r.Failure? ==> exists i | 0 <= i < |items| ::
      ItemError(items[i]) == Some(r.error) && forall j :: 0 <= j < i ==> ItemError(items[j]).None?
    ensures r.Success? ==> (
      && Valid(r.value) && |r.value.tuples| == |items|
      && forall i :: 0 <= i < |items| ==>
           items[i].Tuple? && r.value.tuples[i] == SortKey(items[i].parts[0], items[i].parts[1]))
    decreases |items|
  {
    if |items| == 0 then Success(Empty)
    else
      var rest := items[..|items| - 1];
      var last := items[|items| - 1];
      var s :- Construct(rest);
      match ItemError(last)
      case Some(e) => Failure(e)
      case None => Append(s, last.parts[0], last.parts[1])
  }

  /** An `ORDER BY` term of a query. */
  datatype Order = Asc(column: Value) | Desc(column: Value)

  /** The term `apply()` emits for one tuple: `asc()` only for ASCENDING. */
  function OrderOf(k: SortKey): Order {
    if EqualsInt(k.direction, Ascending) then Asc(k.attribute) else Desc(k.attribute)
  }

  /** `apply()`: one `order_by` per tuple, in list order, after the query's own terms. */
  function Apply(s: Def, query: seq<Order>): (r: seq<Order>)
    ensures |r| == |query| + |s.tuples|
    ensures r[..|query|] == query
    ensures forall i :: 0 <= i < |s.tuples| ==>
      (r[|query| + i] == Asc(s.tuples[i].attribute) <==> EqualsInt(s.tuples[i].direction, Ascending))
    ensures Valid(s) ==> forall i :: 0 <= i < |s.tuples| ==>
      (r[|query| + i] == Desc(s.tuples[i].attribute) <==> EqualsInt(s.tuples[i].direction, Descending))
    decreases |s.tuples|
  {
    if |s.tuples| == 0 then query
    else Apply(Def(s.tuples[1..]), query + [OrderOf(s.tuples[0])])
  }

  /** Applying a definition grown by `append()` adds its new term last. */
  lemma {:induction false} ApplyAppend(s: Def, attribute: Value, direction: Value, query: seq<Order>)
    requires ValidDirection(direction)
    ensures Apply(Append(s, attribute, direction).value, query)
         == Apply(s, query) + [OrderOf(SortKey(attribute, direction))]
    decreases |s.tuples|
  {
    var k := SortKey(attribute, direction);
    if |s.tuples| > 0 {
      var grown := Append(s, attribute, direction).value;
      assert grown.tuples[1..] == s.tuples[1..] + [k];
      ApplyAppend(Def(s.tuples[1..]), attribute, direction, query + [OrderOf(s.tuples[0])]);
    }
  }

  /** Applying a definition grown by `prepend()` puts its new term first. */
  lemma ApplyPrepend(s: Def, attribute: Value, direction: Value, query: seq<Order>)
    requires ValidDirection(direction)
    ensures Apply(Prepend(s, attribute, direction).value, query)
         == Apply(s, query + [OrderOf(SortKey(attribute, direction))])
  {
    var grown := Prepend(s, attribute, direction).value;
    assert grown.tuples[1..] == s.tuples;
  }
}

=== FILE: sql_file.dfy ===
/** `_apply_sql_file()` of the schema runners (src/pas_database/schema.py,
    src/dNG/database/schema.py and src/dNG/pas/database/schema.py, which agree):
    the text of a schema file becomes the list of SQL statements executed, in
    file order.

    The table prefix is substituted, whole comment lines are removed, the text is
    split at `;`, and a piece that ends in an odd number of backslashes is glued
    to the next piece. Every executed statement is stripped and non-empty. */
module SqlFile {
  import opened Wrappers
  import Text

  const PrefixPlaceholder := "__db_prefix__"

  // Comment lines: `^\s*\-\-.*$` under `re.M`, replaced by nothing

  /** The end of the line holding index `p`: the next `\n`, or the end of the text. */
  function LineEnd(s: string, p: nat): (q: nat)
    requires p <= |s|
    ensures p <= q <= |s|
    ensures forall i :: p <= i < q ==> s[i] != '\n'
    ensures q < |s| ==> s[q] == '\n'
    decreases |s| - p
  {
    if p < |s| && s[p] != '\n' then LineEnd(s, p + 1) else p
  }

  /** `^` under `re.M`: the start of the text or just after a `\n`. */
  predicate LineStart(s: string, p: nat)
    requires p <= |s|
  {
    p == 0 || s[p - 1] == '\n'
  }

  /** Where a comment match that starts at `p` ends: white space (which may run
      over blank lines), two dashes, then the rest of that line. */
  function CommentEnd(s: string, p: nat): (r: Option<nat>)
    requires p <= |s|
    ensures r.Some? ==> p + 2 <= r.value <= |s|
    ensures r.Some? ==> r.value == |s| || s[r.value] == '\n'
  {
    var w := Text.LeftEnd(s, p);
    if w + 2 <= |s| && s[w] == '-' && s[w + 1] == '-' then Some(LineEnd(s, w + 2)) else None
  }

  /** `re.sub` from index `p` on: each comment match found scanning left to
      right is dropped, every other character kept. */
  function StripCommentsFrom(s: string, p: nat): (r: string)
    requires p <= |s|
    ensures |r| <= |s| - p
    decreases |s| - p
  {
    if p == |s| then ""
    else if LineStart(s, p) && CommentEnd(s, p).Some? then StripCommentsFrom(s, CommentEnd(s, p).value)
    else [s[p]] + StripCommentsFrom(s, p + 1)
  }

  function StripComments(s: string): (r: string)
    ensures |r| <= |s|
  {
    StripCommentsFrom(s, 0)
  }

  /** A text without two dashes in a row (from `p` on) has no comment line and
      is kept as is. */
  lemma {:induction false} NoDashesNoChange(s: string, p: nat)
    requires p <= |s|
    requires forall i :: p <= i < |s| - 1 ==> !(s[i] == '-' && s[i + 1] == '-')
    ensures StripCommentsFrom(s, p) == s[p..]
    decreases |s| - p
  {
    if p < |s| {
      assert CommentEnd(s, p).None?;
      NoDashesNoChange(s, p + 1);
      assert s[p..] == [s[p]] + s[p + 1..];
    }
  }

  /** A comment on its own line disappears with its indentation; the line break
      after it stays. */
  lemma CommentLineRemoved(s: string)
    requires s == "  -- note\nDROP t"
    ensures StripComments(s) == "\nDROP t"
  {
    assert Text.LeftEnd(s, 2) == 2;
    assert Text.LeftEnd(s, 1) == 2;
    assert Text.LeftEnd(s, 0) == 2;
    assert LineEnd(s, 9) == 9;
    assert LineEnd(s, 8) == 9;
    assert LineEnd(s, 7) == 9;
    assert LineEnd(s, 6) == 9;
    assert LineEnd(s, 5) == 9;
    assert LineEnd(s, 4) == 9;
    assert CommentEnd(s, 0) == Some(9);
    NoDashesNoChange(s, 9);
    assert s[9..] == "\nDROP t";
  }

  // Escaped semicolons: `(\\+)$` searched in each piece

  /** The number of backslashes that end `t[..j]`. */
  function BackslashRunTo(t: string, j: nat): (n: nat)
    requires j <= |t|
    ensures n <= j
  {
    if j > 0 && t[j - 1] == '\\' then BackslashRunTo(t, j - 1) + 1 else 0
  }

  /** The run counted is all backslashes, and it cannot be extended to the left. */
  lemma {:induction false} BackslashRunMaximal(t: string, j: nat)
    requires j <= |t|
    ensures forall i :: j - BackslashRunTo(t, j) <= i < j ==> t[i] == '\\'
    ensures BackslashRunTo(t, j) < j ==> t[j - BackslashRunTo(t, j) - 1] != '\\'
  {
    if j > 0 && t[j - 1] == '\\' {
      BackslashRunMaximal(t, j - 1);
    }
  }

  /** The length of the group `(\\+)$` captures in `f` (0 when nothing matches).
      `$` also matches just before a final `\n`, so backslashes that end the
      last line of the piece count as well. */
  function TrailingBackslashes(f: string): (n: nat)
    ensures n <= |f|
  {
    if |f| > 0 && f[|f| - 1] == '\n' then BackslashRunTo(f, |f| - 1) else BackslashRunTo(f, |f|)
  }

  /** Whether the backslashes that end `t[..j]` are odd in number. */
  predicate OddRunTo(t: string, j: nat)
    requires j <= |t|
  {
    j > 0 && t[j - 1] == '\\' && !OddRunTo(t, j - 1)
  }

  /** The parity agrees with the count. */
  lemma {:induction false} OddRunCounts(t: string, j: nat)
    requires j <= |t|
    ensures OddRunTo(t, j) <==> BackslashRunTo(t, j) % 2 == 1
  {
    if j > 0 && t[j - 1] == '\\' {
      OddRunCounts(t, j - 1);
    }
  }

  /** A piece whose `;` was escaped: the captured run is odd. */
  predicate Escaped(f: string) {
    if |f| > 0 && f[|f| - 1] == '\n' then OddRunTo(f, |f| - 1) else OddRunTo(f, |f|)
  }

  /** The escape test is the parity of the group `(\\+)$` captures. */
  lemma EscapedOdd(f: string)
    ensures Escaped(f) <==> TrailingBackslashes(f) % 2 == 1
  {
    if |f| > 0 && f[|f| - 1] == '\n' {
      OddRunCounts(f, |f| - 1);
    } else {
      OddRunCounts(f, |f|);
    }
  }

  /** An escaped piece holds at least its backslash. */
  lemma EscapedNonEmpty(f: string)
    requires Escaped(f)
    ensures |f| > 0
  {
  }

  /** One turn of the statement loop: the text collected after piece `f`, and
      the statement `f` completes, if any. An escaped piece is appended to the
      collected text followed by `glue`; any other piece completes the
      statement, which runs when it is not blank. `glue` is what is put back for
      the escaped `;`: the code as written puts back nothing (""), the evident
      intent is ";". */
  function Turn(cur: string, f: string, glue: string): (r: (string, Option<string>))
    ensures r.1.Some? ==> r.1.value != "" && Text.Stripped(r.1.value)
  {
    if Escaped(f) then (cur + f + glue, None)
    else
      var c := Text.Strip(if cur == "" then f else cur + f);
      if c != "" then ("", Some(c)) else (c, None)
  }

  /** The statement a turn runs, as a list of zero or one. */
  function Emitted(o: Option<string>): (r: seq<string>)
    ensures |r| <= 1
  {
    if o.Some? then [o.value] else []
  }

  /** The statement loop over the pieces, with the text `cur` collected so far.
      An escaped last piece is never run. */
  function Collect(pieces: seq<string>, cur: string, glue: string): (r: seq<string>)
    ensures forall i :: 0 <= i < |r| ==> r[i] != "" && Text.Stripped(r[i])
    ensures |r| <= |pieces|
    decreases |pieces|
  {
    if |pieces| == 0 then []
    else
      var t := Turn(cur, pieces[0], glue);
      Emitted(t.1) + Collect(pieces[1..], t.0, glue)
  }

  /** One escaped piece: its text and the glue join the collected text. */
  lemma CollectEscaped(f: string, rest: seq<string>, cur: string, glue: string)
    requires Escaped(f)
    ensures Collect([f] + rest, cur, glue) == Collect(rest, cur + f + glue, glue)
  {
    assert ([f] + rest)[1..] == rest;
  }

  /** One unescaped piece: it completes the collected statement. */
  lemma CollectCompletes(f: string, rest: seq<string>, cur: string, glue: string)
    requires !Escaped(f)
    ensures var c := Text.Strip(if cur == "" then f else cur + f);
      Collect([f] + rest, cur, glue) == if c != "" then [c] + Collect(rest, "", glue) else Collect(rest, c, glue)
  {
    assert ([f] + rest)[1..] == rest;
  }

  /** The statements of a file's text once the prefix is substituted, as the code
      is written: an escaped `;` is dropped and its backslashes are kept. */
  function StatementsAsWritten(text: string): seq<string> {
    Collect(Text.Split(StripComments(text), ';'), "", "")
  }

  /** The statements of a file's text once the prefix is substituted, with the
      escaped `;` kept in its statement. */
  function Statements(text: string): (r: seq<string>)
    ensures forall i :: 0 <= i < |r| ==> r[i] != "" && Text.Stripped(r[i])
  {
    Collect(Text.Split(StripComments(text), ';'), "", ";")
  }

  /** The stripped pieces that are not blank, in order. */
  function NonBlank(pieces: seq<string>): (r: seq<string>)
    ensures |r| <= |pieces|
  {
    if |pieces| == 0 then []
    else
      var c := Text.Strip(pieces[0]);
      (if c != "" then [c] else []) + NonBlank(pieces[1..])
  }

  /** Without escapes, each piece is one statement: the statements are exactly
      the non-blank stripped pieces, whatever the glue. */
  lemma {:induction false} CollectUnescaped(pieces: seq<string>, glue: string)
    requires forall i :: 0 <= i < |pieces| ==> !Escaped(pieces[i])
    ensures Collect(pieces, "", glue) == NonBlank(pieces)
    decreases |pieces|
  {
    if |pieces| > 0 {
      CollectUnescaped(pieces[1..], glue);
    }
  }

  /** The stripped single piece, when not blank. */
  lemma NonBlankSingle(x: string)
    ensures NonBlank([x]) == if Text.Strip(x) != "" then [Text.Strip(x)] else []
  {
    assert [x][1..] == [];
  }

  /** An escaped piece followed by an unescaped one make one statement: the two
      pieces with the glue between them. */
  lemma {:induction false} CollectPair(a: string, b: string, glue: string)
    requires Escaped(a) && !Escaped(b)
    ensures Collect([a, b], "", glue) == NonBlank([a + glue + b])
  {
    CollectPairCarries(a, b, glue);
    EscapedNonEmpty(a);
    CollectLastCompletes(b, a + glue, glue);
  }

  /** The escaped first piece of a pair is carried into the second. */
  lemma CollectPairCarries(a: string, b: string, glue: string)
    requires Escaped(a)
    ensures Collect([a, b], "", glue) == Collect([b], a + glue, glue)
  {
    assert [a, b] == [a] + [b];
    assert "" + a == a;
    CollectEscaped(a, [b], "", glue);
  }

  /** An unescaped last piece completes the text collected so far. */
  lemma CollectLastCompletes(b: string, cur: string, glue: string)
    requires !Escaped(b) && cur != ""
    ensures Collect([b], cur, glue) == NonBlank([cur + b])
  {
    assert [b] == [b] + [];
    CollectCompletes(b, [], cur, glue);
    NonBlankSingle(cur + b);
  }

  /** A statement with an escaped `;` inside: as written the `;` is lost, while
      the corrected loop keeps the statement's text. */
  lemma {:induction false} EscapedSemicolon(a: string, b: string)
    requires Escaped(a) && !Escaped(b)
    ensures Collect([a, b], "", ";") == NonBlank([a + ";" + b])
    ensures Collect([a, b], "", "") == NonBlank([a + b])
  {
    CollectPair(a, b, ";");
    CollectPair(a, b, "");
    assert a + "" == a;
  }

  /** `x\;y` splits into `x\` and `y`. */
  lemma ExamplePieces(s: string)
    requires s == "x\\;y"
    ensures Text.Split(StripComments(s), ';') == ["x\\", "y"]
  {
    NoDashesNoChange(s, 0);
    assert s[0..] == s;
    assert s == "x\\" + [';'] + "y";
    Text.SplitPrefix("x\\", "y", ';');
    Text.SplitNoSep("y", ';');
  }

  /** `x\` escapes its `;`, `y` does not. */
  lemma ExampleEscapes()
    ensures Escaped("x\\") && !Escaped("y")
  {
  }

  /** The two ways of joining the pieces. */
  lemma ExampleJoins()
    ensures "x\\" + ";" + "y" == "x\\;y"
    ensures "x\\" + "" + "y" == "x\\y"
  {
  }

  /** A non-blank statement with no white space at its ends runs as it is. */
  lemma NonBlankFixed(x: string)
    requires x != "" && Text.Stripped(x)
    ensures NonBlank([x]) == [x]
  {
    Text.StrippedFixed(x);
    NonBlankSingle(x);
  }

  /** As written, `x\;y` runs as `x\y`. */
  lemma ExampleAsWritten(s: string)
    requires s == "x\\;y"
    ensures StatementsAsWritten(s) == ["x\\y"]
  {
    ExamplePieces(s);
    ExampleEscapes();
    CollectPair("x\\", "y", "");
    ExampleJoins();
    NonBlankFixed("x\\y");
  }

  /** Corrected, `x\;y` runs as it is. */
  lemma ExampleCorrected(s: string)
    requires s == "x\\;y"
    ensures Statements(s) == ["x\\;y"]
  {
    ExamplePieces(s);
    ExampleEscapes();
    CollectPair("x\\", "y", ";");
    ExampleJoins();
    NonBlankFixed("x\\;y");
  }

  /** The smallest input that shows the lost `;`: `x\;y`. */
  lemma EscapedSemicolonExample(s: string)
    requires s == "x\\;y"
    ensures StatementsAsWritten(s) == ["x\\y"]
    ensures Statements(s) == ["x\\;y"]
  {
    ExampleAsWritten(s);
    ExampleCorrected(s);
  }

  /** `_apply_sql_file()` as written: an unreadable file (`None` content) raises
      IOException before anything runs; otherwise the prefix is substituted and
      the statements of the text, each escaped `;` dropped, are run in order. */
  function ApplySqlFileAsWritten(content: Option<string>, tablePrefix: string): (r: Result<seq<string>>)
    ensures r.Failure? <==> content.None?
    ensures r.Failure? ==> r.error == IOException
    ensures r.Success? ==> forall i :: 0 <= i < |r.value| ==> r.value[i] != "" && Text.Stripped(r.value[i])
  {
    match content
    case None => Failure(IOException)
    case Some(text) => Success(StatementsAsWritten(Text.Replace(text, PrefixPlaceholder, tablePrefix)))
  }

  /** `_apply_sql_file()` with the escaped `;` kept in its statement. */
  function ApplySqlFile(content: Option<string>, tablePrefix: string): (r: Result<seq<string>>)
    ensures r.Failure? <==> content.None?
    ensures r.Failure? ==> r.error == IOException
    ensures r.Success? ==> forall i :: 0 <= i < |r.value| ==> r.value[i] != "" && Text.Stripped(r.value[i])
  {
    match content
    case None => Failure(IOException)
    case Some(text) => Success(Statements(Text.Replace(text, PrefixPlaceholder, tablePrefix)))
  }

  /** A file in which no `;` is escaped runs the same statements as written and
      corrected: one per non-blank piece between the `;`. */
  lemma ApplySqlFileAgrees(text: string, tablePrefix: string, pieces: seq<string>)
    requires pieces == Text.Split(StripComments(Text.Replace(text, PrefixPlaceholder, tablePrefix)), ';')
    requires forall i :: 0 <= i < |pieces| ==> !Escaped(pieces[i])
    ensures ApplySqlFileAsWritten(Some(text), tablePrefix) == Success(NonBlank(pieces))
    ensures ApplySqlFile(Some(text), tablePrefix) == Success(NonBlank(pieces))
  {
    CollectUnescaped(pieces, "");
    CollectUnescaped(pieces, ";");
  }

  /** One turn of the loop at piece `k`: the statements run so far plus what
      the rest of the loop runs stay the same. */
  lemma CollectAt(executed: seq<string>, pieces: seq<string>, k: nat, cur: string, glue: string)
    requires k < |pieces|
    ensures var t := Turn(cur, pieces[k], glue);
      (executed + Emitted(t.1)) + Collect(pieces[k + 1..], t.0, glue) == executed + Collect(pieces[k..], cur, glue)
  {
    assert pieces[k..][1..] == pieces[k + 1..];
    var t := Turn(cur, pieces[k], glue);
    assert Collect(pieces[k..], cur, glue) == Emitted(t.1) + Collect(pieces[k + 1..], t.0, glue);
  }

  /** The loop of `_apply_sql_file()` itself, over the pieces of the text, with
      `glue` put back for each escaped `;`: "" as written, ";" corrected. */
  method RunStatements(pieces: seq<string>, glue: string) returns (executed: seq<string>)
    ensures executed == Collect(pieces, "", glue)
    ensures forall i :: 0 <= i < |executed| ==> executed[i] != "" && Text.Stripped(executed[i])
    ensures (forall i :: 0 <= i < |pieces| ==> !Escaped(pieces[i])) ==> executed == NonBlank(pieces)
  {
    executed := [];
    var cur := "";
    var k := 0;
    assert pieces[0..] == pieces;
    while k < |pieces|
      invariant 0 <= k <= |pieces|
      invariant executed + Collect(pieces[k..], cur, glue) == Collect(pieces, "", glue)
    {
      var t := Turn(cur, pieces[k], glue);
      CollectAt(executed, pieces, k, cur, glue);
      executed := executed + Emitted(t.1);
      cur := t.0;
      k := k + 1;
    }
    assert executed + [] == executed;
    if forall i :: 0 <= i < |pieces| ==> !Escaped(pieces[i]) {
      CollectUnescaped(pieces, glue);
    }
  }
}

=== FILE: text.dfy ===
/** String operations of Python's `str` that the library relies on: `isspace`,
    `strip`, `split`, `join`, `replace`, `startswith` and decimal formatting. */
module Text {

  /** Python's `str.isspace` for one character (the set `str.strip()` removes and
      the regular expression class `\s` matches). */
  predicate IsSpace(c: char) {
    c == ' ' || ('\t' <= c <= '\r') || ('\U{1C}' <= c <= '\U{1F}')
    || c == '\U{85}' || c == '\U{A0}' || c == '\U{1680}'
    || ('\U{2000}' <= c <= '\U{200A}') || c == '\U{2028}' || c == '\U{2029}'
    || c == '\U{202F}' || c == '\U{205F}' || c == '\U{3000}'
  }

  /** ASCII decimal digit (the model's reading of `\d`). */
  predicate IsDigit(c: char) {
    '0' <= c <= '9'
  }

  /** ASCII word character (the model's reading of `\w`). */
  predicate IsWordChar(c: char) {
    ('a' <= c <= 'z') || ('A' <= c <= 'Z') || IsDigit(c) || c == '_'
  }

  /** No leading and no trailing white space. */
  predicate Stripped(s: string) {
    |s| == 0 || (!IsSpace(s[0]) && !IsSpace(s[|s| - 1]))
  }

  /** The first index at or after `i` that does not hold white space. */
  function LeftEnd(s: string, i: nat): (k: nat)
    requires i <= |s|
    ensures i <= k <= |s|
    ensures forall j :: i <= j < k ==> IsSpace(s[j])
    ensures k < |s| ==> !IsSpace(s[k])
    decreases |s| - i
  {
    if i < |s| && IsSpace(s[i]) then LeftEnd(s, i + 1) else i
  }

  /** The end of `s[..j]` once its trailing white space is dropped. */
  function RightEnd(s: string, j: nat): (k: nat)
    requires j <= |s|
    ensures k <= j
    ensures forall i :: k <= i < j ==> IsSpace(s[i])
    ensures k > 0 ==> !IsSpace(s[k - 1])
  {
    if j > 0 && IsSpace(s[j - 1]) then RightEnd(s, j - 1) else j
  }

  /** `s.lstrip()`: the longest suffix of `s` that does not start with white space. */
  function TrimLeft(s: string): (r: string)
    ensures |r| <= |s| && r == s[|s| - |r|..]
    ensures |r| == 0 || !IsSpace(r[0])
    ensures forall i :: 0 <= i < |s| - |r| ==> IsSpace(s[i])
  {
    s[LeftEnd(s, 0)..]
  }

  /** `s.rstrip()`: the longest prefix of `s` that does not end in white space. */
  function TrimRight(s: string): (r: string)
    ensures |r| <= |s| && r == s[..|r|]
    ensures |r| == 0 || !IsSpace(r[|r| - 1])
    ensures forall i :: |r| <= i < |s| ==> IsSpace(s[i])
  {
    s[..RightEnd(s, |s|)]
  }

  /** `s.strip()`: `s` without its leading and trailing white space. */
  function Strip(s: string): (r: string)
    ensures Stripped(r)
    ensures |r| <= |s|
  {
    TrimRight(TrimLeft(s))
  }

  /** A string with no white space at either end is already stripped. */
  lemma StrippedFixed(s: string)
    requires Stripped(s)
    ensures Strip(s) == s
  {
    assert LeftEnd(s, 0) == 0;
    assert RightEnd(s, |s|) == |s|;
  }

  /** Stripping leaves nothing exactly when every character is white space. */
  lemma StripEmpty(s: string)
    ensures Strip(s) == "" <==> forall i :: 0 <= i < |s| ==> IsSpace(s[i])
  {
    var l := TrimLeft(s);
    assert Strip(s) == "" ==> l == "";
  }

  /** `s.split(sep)` for a one-character separator: the maximal pieces between
      separators, always at least one. */
  function Split(s: string, sep: char): (r: seq<string>)
    ensures |r| >= 1
    ensures forall i :: 0 <= i < |r| ==> sep !in r[i]
  {
    if |s| == 0 then [""]
    else
      var rest := Split(s[1..], sep);
      if s[0] == sep then [""] + rest else [[s[0]] + rest[0]] + rest[1..]
  }

  /** `sep.join(pieces)`. */
  function Join(pieces: seq<string>, sep: char): string
    requires |pieces| >= 1
  {
    if |pieces| == 1 then pieces[0] else pieces[0] + [sep] + Join(pieces[1..], sep)
  }

  /** Joining the pieces of a split gives the original string back. */
  lemma {:induction false} JoinSplit(s: string, sep: char)
    ensures Join(Split(s, sep), sep) == s
  {
    if |s| > 0 {
      var rest := Split(s[1..], sep);
      JoinSplit(s[1..], sep);
      if s[0] != sep && |rest| > 1 {
        assert Split(s, sep)[1..] == rest[1..];
      }
    }
  }

  /** Splitting a join of separator-free pieces gives the pieces back. */
  lemma {:induction false} SplitJoin(pieces: seq<string>, sep: char)
    requires |pieces| >= 1
    requires forall i :: 0 <= i < |pieces| ==> sep !in pieces[i]
    ensures Split(Join(pieces, sep), sep) == pieces
  {
    if |pieces| == 1 {
      SplitNoSep(pieces[0], sep);
    } else {
      SplitJoin(pieces[1..], sep);
      SplitPrefix(pieces[0], Join(pieces[1..], sep), sep);
      assert pieces == [pieces[0]] + pieces[1..];
    }
  }

  lemma {:induction false} SplitNoSep(s: string, sep: char)
    requires sep !in s
    ensures Split(s, sep) == [s]
  {
    if |s| > 0 {
      assert sep !in s[1..] by {
        forall i | 0 <= i < |s| - 1 ensures s[1..][i] != sep {
          assert s[1..][i] == s[i + 1];
        }
      }
      SplitNoSep(s[1..], sep);
      assert [s[0]] + s[1..] == s;
    }
  }

  lemma {:induction false} SplitPrefix(p: string, t: string, sep: char)
    requires sep !in p
    ensures Split(p + [sep] + t, sep) == [p] + Split(t, sep)
  {
    if |p| == 0 {
      assert p + [sep] + t == [sep] + t;
      assert ([sep] + t)[1..] == t;
    } else {
      assert (p + [sep] + t)[1..] == p[1..] + [sep] + t;
      SplitPrefix(p[1..], t, sep);
      assert [p[0]] + p[1..] == p;
    }
  }

  /** `s` holds `pat` starting at index `i`. */
  predicate OccursAt(s: string, pat: string, i: int) {
    0 <= i && i + |pat| <= |s| && s[i..i + |pat|] == pat
  }

  /** `pat in s`. */
  predicate Contains(s: string, pat: string) {
    exists i | 0 <= i <= |s| :: OccursAt(s, pat, i)
  }

  /** `s.startswith(pat)`. */
  predicate StartsWith(s: string, pat: string) {
    |pat| <= |s| && s[..|pat|] == pat
  }

  /** `s.replace(pat, rep)`: every occurrence of `pat`, scanned left to right
      without overlap, replaced by `rep`. */
  function Replace(s: string, pat: string, rep: string): string
    requires |pat| > 0
  {
    if |s| < |pat| then s
    else if s[..|pat|] == pat then rep + Replace(s[|pat|..], pat, rep)
    else [s[0]] + Replace(s[1..], pat, rep)
  }

  /** Replacing a pattern that does not occur leaves the string unchanged. */
  lemma {:induction false} ReplaceAbsent(s: string, pat: string, rep: string)
    requires |pat| > 0
    requires !Contains(s, pat)
    ensures Replace(s, pat, rep) == s
  {
    if |s| >= |pat| {
      assert !OccursAt(s, pat, 0);
      assert !Contains(s[1..], pat) by {
        forall i | OccursAt(s[1..], pat, i) ensures false {
          assert s[1..][i..i + |pat|] == s[i + 1..i + 1 + |pat|];
          assert OccursAt(s, pat, i + 1);
        }
      }
      ReplaceAbsent(s[1..], pat, rep);
    }
  }

  /** Every occurrence of the character `c` replaced by `rep`, one character at a time. */
  function ReplaceChar(s: string, c: char, rep: string): string {
    if |s| == 0 then "" else (if s[0] == c then rep else [s[0]]) + ReplaceChar(s[1..], c, rep)
  }

  lemma {:induction false} ReplaceCharConcat(a: string, b: string, c: char, rep: string)
    ensures ReplaceChar(a + b, c, rep) == ReplaceChar(a, c, rep) + ReplaceChar(b, c, rep)
  {
    if |a| > 0 {
      assert (a + b)[1..] == a[1..] + b;
      ReplaceCharConcat(a[1..], b, c, rep);
    } else {
      assert a + b == b;
    }
  }

  /** Replacing a character that does not occur changes nothing. */
  lemma {:induction false} ReplaceCharAbsent(s: string, c: char, rep: string)
    requires c !in s
    ensures ReplaceChar(s, c, rep) == s
  {
    if |s| > 0 {
      assert s[1..] <= s[1..] && forall i :: 0 <= i < |s| - 1 ==> s[1..][i] == s[i + 1];
      ReplaceCharAbsent(s[1..], c, rep);
      assert [s[0]] + s[1..] == s;
    }
  }

  /** For a one-character pattern, `str.replace` is the character-wise replacement. */
  lemma {:induction false} ReplaceSingle(s: string, c: char, rep: string)
    ensures Replace(s, [c], rep) == ReplaceChar(s, c, rep)
  {
    if |s| > 0 {
      ReplaceSingle(s[1..], c, rep);
      assert s[..1] == [s[0]];
    }
  }

  /** `str(n)` / `"{0:d}".format(n)`. */
  function IntToString(n: int): (r: string)
    ensures |r| >= 1
  {
    if n < 0 then "-" + NatToString(-n) else NatToString(n)
  }

  function NatToString(n: nat): (r: string)
    ensures |r| >= 1
    ensures forall i :: 0 <= i < |r| ==> IsDigit(r[i])
  {
    if n < 10 then [DigitChar(n)] else NatToString(n / 10) + [DigitChar(n % 10)]
  }

  function DigitChar(d: nat): (c: char)
    requires d < 10
    ensures IsDigit(c)
  {
    ['0', '1', '2', '3', '4', '5', '6', '7', '8', '9'][d]
  }
}

=== FILE: trace.dfy ===
/** Observable effects of the transaction and lock protocols.

    The native SQLAlchemy session, the serialisation lock and the calls one
    component makes into another are not executed by the model; each call is
    recorded as an event instead, and the properties of the protocols are stated
    as counts and orders of these events. */
module Trace {

  datatype Event =
    /** The serialisation lock is taken. */
    | LockAcquire
    /** The serialisation lock is given back. */
    | LockRelease
    /** `session.begin_nested()` (a SAVEPOINT). */
    | SessionBeginNested
    /** `session.begin(subtransactions = True)`. */
    | SessionBeginSub
    /** `session.commit()`. */
    | SessionCommit
    /** `session.rollback()`. */
    | SessionRollback
    /** `Connection._enter_context()` (or `with Connection.get_instance()`). */
    | ConnEnter
    /** `Connection._exit_context()`; `failed` tells whether an exception is passed on. */
    | ConnExit(failed: bool)
    /** `Connection.begin()`. */
    | ConnBegin
    /** `Connection.commit()`. */
    | ConnCommit
    /** `Connection.rollback()`. */
    | ConnRollback
    /** `session.add(row)`. */
    | RowAdd
    /** `session.merge(row, load)`. */
    | RowMerge(load: bool)
    /** `session.delete(row)`. */
    | RowDelete
    /** `session.refresh(row)`. */
    | RowRefresh
    /** `query(row class).filter(id == ...).one()`: the row fetched by its id. */
    | RowQuery
    /** An exception is logged and swallowed. */
    | ErrorLogged

  /** How often `e` occurs in `t[..j]`. */
  function CountTo(t: seq<Event>, e: Event, j: nat): (n: nat)
    requires j <= |t|
    ensures n <= j
    ensures n == 0 <==> forall i :: 0 <= i < j ==> t[i] != e
  {
    if j == 0 then 0 else CountTo(t, e, j - 1) + (if t[j - 1] == e then 1 else 0)
  }

  /** How often `e` occurs in `t`. */
  function Count(t: seq<Event>, e: Event): (n: nat)
    ensures n <= |t|
    ensures n == 0 <==> e !in t
  {
    CountTo(t, e, |t|)
  }

  /** Traces run one after another regardless of grouping. */
  lemma Append(a: seq<Event>, b: seq<Event>, c: seq<Event>)
    ensures a + (b + c) == a + b + c
    ensures a + [] == a
  {
  }

  /** A prefix of a longer trace counts the same. */
  lemma {:induction false} CountToPrefix(a: seq<Event>, b: seq<Event>, e: Event, j: nat)
    requires j <= |a|
    ensures CountTo(a + b, e, j) == CountTo(a, e, j)
  {
    if j > 0 {
      CountToPrefix(a, b, e, j - 1);
    }
  }

  /** Past the first trace, the second one counts on top. */
  lemma {:induction false} CountToSuffix(a: seq<Event>, b: seq<Event>, e: Event, j: nat)
    requires j <= |b|
    ensures CountTo(a + b, e, |a| + j) == CountTo(a, e, |a|) + CountTo(b, e, j)
  {
    if j == 0 {
      CountToPrefix(a, b, e, |a|);
    } else {
      CountToSuffix(a, b, e, j - 1);
    }
  }

  /** Counting distributes over concatenation of traces. */
  lemma CountConcat(a: seq<Event>, b: seq<Event>, e: Event)
    ensures Count(a + b, e) == Count(a, e) + Count(b, e)
  {
    CountToSuffix(a, b, e, |b|);
  }

  /** A one-event trace counts its event once and nothing else. */
  lemma CountSingle(x: Event, e: Event)
    ensures Count([x], e) == if x == e then 1 else 0
  {
    assert CountTo([x], e, 0) == 0;
  }

  /** A trace of one repeated event counts it at every position. */
  lemma {:induction false} CountToAll(t: seq<Event>, e: Event, j: nat)
    requires j <= |t|
    requires forall i :: 0 <= i < |t| ==> t[i] == e
    ensures CountTo(t, e, j) == j
  {
    if j > 0 {
      CountToAll(t, e, j - 1);
    }
  }

  lemma CountAll(t: seq<Event>, e: Event)
    requires forall x :: x in t ==> x == e
    ensures Count(t, e) == |t|
  {
    assert forall i :: 0 <= i < |t| ==> t[i] in t;
    CountToAll(t, e, |t|);
  }

  /** The first event of a trace counts on its own. */
  lemma CountCons(x: Event, t: seq<Event>, e: Event)
    ensures Count([x] + t, e) == (if x == e then 1 else 0) + Count(t, e)
  {
    CountConcat([x], t, e);
  }

  /** A trace of `n` copies of `e`. */
  function Repeat(e: Event, n: nat): (r: seq<Event>)
    ensures |r| == n
    ensures forall i :: 0 <= i < n ==> r[i] == e
  {
    if n == 0 then [] else [e] + Repeat(e, n - 1)
  }

  lemma {:induction false} CountRepeat(e: Event, n: nat, f: Event)
    ensures Count(Repeat(e, n), f) == if e == f then n else 0
  {
    if n > 0 {
      CountConcat([e], Repeat(e, n - 1), f);
      CountRepeat(e, n - 1, f);
    }
  }

  /** One more copy at the end. */
  lemma {:induction false} RepeatSnoc(e: Event, n: nat)
    ensures Repeat(e, n) + [e] == Repeat(e, n + 1)
  {
    if n > 0 {
      RepeatSnoc(e, n - 1);
      assert [e] + Repeat(e, n - 1) + [e] == [e] + (Repeat(e, n - 1) + [e]);
    }
  }
}

=== FILE: transaction_context.dfy ===
/** The `with TransactionContext():` protocol of src/pas_database/transaction_context.py.

    Each `TransactionContext()` object keeps its own thread-local depth. A block
    entered on an object whose depth is below 1 enters the connection context,
    and every block begins one transaction level. Every exit commits (or rolls
    back) its level, and the exit that brings the object's depth below 1 also
    exits the connection context. Re-entering the same object nests levels
    inside one connection context; a fresh object (as `wrap_callable` and most
    callers create) starts at depth 0 and enters the connection context itself.
    The Connection of this generation is not part of this model: its methods
    appear as `Conn*` events. */
module TxContext {
  import opened Trace

  /** `local.context_depth` of one `TransactionContext` object in the current thread. */
  datatype Tx = Tx(depth: int)

  /** A thread that has not entered a transaction context yet. */
  const Fresh := Tx(0)

  /** What can fail inside the protocol: entering the connection context, the
      `begin()`, the commit or rollback at exit, and the fallback rollback after
      a failed commit. */
  datatype Env = Env(connEnterFails: bool, beginFails: bool, nativeFails: bool, fallbackFails: bool)

  const NoFailure := Env(false, false, false, false)

  /** One call: the state afterwards, the calls made, and whether an exception escapes. */
  datatype Step = Step(tx: Tx, events: seq<Event>, raised: bool)

  /** `__enter__()`: the outermost block enters the connection context; every
      block begins a level. A failing `begin()` exits a connection context this
      call entered, and the depth stays as it was. */
  function Enter(t: Tx, env: Env): (r: Step)
    ensures r.raised <==> (t.depth < 1 && env.connEnterFails) || env.beginFails
    ensures r.raised ==> r.tx == t
    ensures !r.raised ==> r.tx.depth == t.depth + 1
  {
    var outer := t.depth < 1;
    var enter := if outer then [ConnEnter] else [];
    if outer && env.connEnterFails then Step(t, enter, true)
    else if env.beginFails then
      Step(t, enter + [ConnBegin] + (if outer then [ConnExit(false)] else []), true)
    else Step(Tx(t.depth + 1), enter + [ConnBegin], false)
  }

  /** `__exit__()`: commit on a clean exit, rollback otherwise; a failed commit
      is logged and followed by a rollback, a failed rollback after an exception
      is logged. Whatever happens, the depth drops by one and the outermost exit
      leaves the connection context with the body's exception. Only a failing
      fallback rollback escapes; `False` is returned, so the body's own exception
      is never suppressed. */
  function Exit(t: Tx, exc: bool, env: Env): (r: Step)
    ensures r.tx.depth == t.depth - 1
    ensures r.raised <==> !exc && env.nativeFails && env.fallbackFails
  {
    var native :=
      if !exc then [ConnCommit] + (if env.nativeFails then [ErrorLogged, ConnRollback] else [])
      else [ConnRollback] + (if env.nativeFails then [ErrorLogged] else []);
    var depth := t.depth - 1;
    Step(Tx(depth), native + (if depth < 1 then [ConnExit(exc)] else []), !exc && env.nativeFails && env.fallbackFails)
  }

  /** The calls an entry makes: the connection context is entered by the
      outermost block only, and left again only when that block's `begin()`
      fails; a block that does not raise has begun its level; nothing is
      committed or rolled back. */
  lemma EnterCalls(t: Tx, env: Env)
    ensures var r := Enter(t, env);
      && (!r.raised ==> ConnBegin in r.events)
      && (ConnEnter in r.events <==> t.depth < 1)
      && (ConnExit(false) in r.events <==> t.depth < 1 && !env.connEnterFails && env.beginFails)
      && ConnCommit !in r.events && ConnRollback !in r.events && ConnExit(true) !in r.events
  {
  }

  /** The calls an exit makes: a commit exactly on a clean exit, a rollback
      after an exception or a failed native call, and the connection context
      left, with the body's exception, exactly by the outermost block. */
  lemma ExitCalls(t: Tx, exc: bool, env: Env)
    ensures var r := Exit(t, exc, env);
      && (ConnCommit in r.events <==> !exc)
      && (ConnRollback in r.events <==> exc || env.nativeFails)
      && (ConnExit(exc) in r.events <==> t.depth - 1 < 1)
      && ConnExit(!exc) !in r.events && ConnEnter !in r.events && ConnBegin !in r.events
  {
  }

  /** `with TransactionContext(): <body>`, and equally a call through
      `wrap_callable()`: the body's exception always escapes. */
  function With(t: Tx, bodyRaises: bool, env: Env): (r: Step)
    ensures bodyRaises ==> r.raised
    ensures !env.connEnterFails && !env.beginFails && !env.fallbackFails ==> r.raised == bodyRaises
    ensures r.tx == t
    ensures t.depth == 0 && !env.connEnterFails ==> ConnEnter in r.events && ConnExit(bodyRaises && !env.beginFails) in r.events
  {
    var enter := Enter(t, env);
    if enter.raised then enter
    else
      var exit := Exit(enter.tx, bodyRaises, env);
      EnterCalls(t, env);
      ExitCalls(enter.tx, bodyRaises, env);
      Step(exit.tx, enter.events + exit.events, bodyRaises || exit.raised)
  }

  /** `k` nested blocks of ONE transaction context object around a body that
      raises or not. */
  function Nest(t: Tx, k: nat, bodyRaises: bool): Step
    decreases k
  {
    if k == 0 then Step(t, [], bodyRaises)
    else
      var enter := Enter(t, NoFailure);
      var inner := Nest(enter.tx, k - 1, bodyRaises);
      var exit := Exit(inner.tx, inner.raised, NoFailure);
      Step(exit.tx, enter.events + inner.events + exit.events, inner.raised || exit.raised)
  }

  /** An inner block that begins its level without failure. */
  lemma EnterInner(t: Tx)
    requires t.depth >= 1
    ensures Enter(t, NoFailure) == Step(Tx(t.depth + 1), [ConnBegin], false)
  {
  }

  /** An inner block that ends its level without failure. */
  lemma ExitInner(t: Tx, exc: bool)
    requires t.depth >= 2
    ensures Exit(t, exc, NoFailure) == Step(Tx(t.depth - 1), [if exc then ConnRollback else ConnCommit], false)
  {
  }

  /** Inside an open block of the same object, `k` further blocks begin `k` levels and then commit
      (or roll back) `k` levels, innermost first, and touch nothing else. */
  lemma {:induction false} NestInner(t: Tx, k: nat, bodyRaises: bool)
    requires t.depth >= 1
    ensures var r := Nest(t, k, bodyRaises);
      && r.tx == t && r.raised == bodyRaises
      && r.events == Repeat(ConnBegin, k) + Repeat(if bodyRaises then ConnRollback else ConnCommit, k)
    decreases k
  {
    if k > 0 {
      var close := if bodyRaises then ConnRollback else ConnCommit;
      var next := Tx(t.depth + 1);
      var bs := Repeat(ConnBegin, k - 1);
      var cs := Repeat(close, k - 1);
      EnterInner(t);
      NestInner(next, k - 1, bodyRaises);
      assert Nest(next, k - 1, bodyRaises) == Step(next, bs + cs, bodyRaises);
      ExitInner(next, bodyRaises);
      var events := [ConnBegin] + (bs + cs) + [close];
      assert Nest(t, k, bodyRaises) == Step(t, events, bodyRaises);
      Append([ConnBegin], bs, cs);
      Append([ConnBegin] + bs, cs, [close]);
      assert events == ([ConnBegin] + bs) + (cs + [close]);
      RepeatSnoc(close, k - 1);
      assert Repeat(ConnBegin, k) == [ConnBegin] + bs;
    }
  }

  /** The outermost block of a nest, unfolded once. */
  lemma OutermostUnfold(k: nat, bodyRaises: bool)
    requires k >= 1
    ensures var close := if bodyRaises then ConnRollback else ConnCommit;
      Nest(Fresh, k, bodyRaises)
        == Step(Fresh, [ConnEnter, ConnBegin] + (Repeat(ConnBegin, k - 1) + Repeat(close, k - 1)) + [close, ConnExit(bodyRaises)], bodyRaises)
  {
    var close := if bodyRaises then ConnRollback else ConnCommit;
    var enter := Enter(Fresh, NoFailure);
    assert enter == Step(Tx(1), [ConnEnter, ConnBegin], false);
    NestInner(enter.tx, k - 1, bodyRaises);
    var inner := Nest(enter.tx, k - 1, bodyRaises);
    var exit := Exit(inner.tx, inner.raised, NoFailure);
    assert exit == Step(Fresh, [close, ConnExit(bodyRaises)], false);
  }

  /** `k` nested blocks of one object that has not been entered yet enter the
      connection context once, begin `k` levels, end all `k` the same way, and
      exit the connection context once with the body's exception. */
  lemma Outermost(k: nat, bodyRaises: bool)
    requires k >= 1
    ensures var r := Nest(Fresh, k, bodyRaises);
      var close := if bodyRaises then ConnRollback else ConnCommit;
      && r.tx == Fresh && r.raised == bodyRaises
      && r.events == [ConnEnter] + Repeat(ConnBegin, k) + Repeat(close, k) + [ConnExit(bodyRaises)]
  {
    var close := if bodyRaises then ConnRollback else ConnCommit;
    OutermostUnfold(k, bodyRaises);
    var bs := Repeat(ConnBegin, k - 1);
    var cs := Repeat(close, k - 1);
    RepeatSnoc(close, k - 1);
    assert Repeat(ConnBegin, k) == [ConnBegin] + bs;
    assert [ConnEnter, ConnBegin] + (bs + cs) + [close, ConnExit(bodyRaises)]
        == [ConnEnter] + ([ConnBegin] + bs) + (cs + [close]) + [ConnExit(bodyRaises)];
  }

  /** A failing `begin()` in the outermost block leaves the connection context it
      entered and the depth untouched. */
  lemma BeginFailureCleansUp()
    ensures Enter(Fresh, Env(false, true, false, false)) == Step(Fresh, [ConnEnter, ConnBegin, ConnExit(false)], true)
  {
  }

  /** `k` nested blocks, each on a FRESH transaction context object, as
      `with TransactionContext():` inside a function wrapped by `wrap_callable`
      produces. */
  function NestFresh(k: nat, bodyRaises: bool): Step
    decreases k
  {
    if k == 0 then Step(Fresh, [], bodyRaises)
    else
      var enter := Enter(Fresh, NoFailure);
      var inner := NestFresh(k - 1, bodyRaises);
      var exit := Exit(enter.tx, inner.raised, NoFailure);
      Step(exit.tx, enter.events + inner.events + exit.events, inner.raised || exit.raised)
  }

  /** An outermost block that enters without failure. */
  lemma EnterOutermost()
    ensures Enter(Fresh, NoFailure) == Step(Tx(1), [ConnEnter, ConnBegin], false)
  {
  }

  /** An outermost block that exits without failure. */
  lemma ExitOutermost(exc: bool)
    ensures Exit(Tx(1), exc, NoFailure) == Step(Fresh, [if exc then ConnRollback else ConnCommit, ConnExit(exc)], false)
  {
  }

  /** The outermost of `k` fresh objects wraps the blocks of the other ones. */
  lemma NestFreshUnfold(k: nat, bodyRaises: bool)
    requires k >= 1
    ensures var inner := NestFresh(k - 1, bodyRaises);
      var close := if inner.raised then ConnRollback else ConnCommit;
      NestFresh(k, bodyRaises)
        == Step(Fresh, [ConnEnter, ConnBegin] + inner.events + [close, ConnExit(inner.raised)], inner.raised)
  {
    EnterOutermost();
    ExitOutermost(NestFresh(k - 1, bodyRaises).raised);
  }

  /** The calls one outermost block makes when nothing fails: enter, begin,
      commit (or rollback), exit. */
  function BlockCalls(bodyRaises: bool): seq<Event> {
    [ConnEnter, ConnBegin, if bodyRaises then ConnRollback else ConnCommit, ConnExit(bodyRaises)]
  }

  /** How often `e` occurs among the calls of `n` outermost blocks. */
  function BlockShare(e: Event, bodyRaises: bool, n: nat): nat {
    if e in BlockCalls(bodyRaises) then n else 0
  }

  /** One more outermost block around calls `inner` that hold each call of a
      block `n` times adds one of each. */
  lemma BlockCount(inner: seq<Event>, n: nat, bodyRaises: bool, e: Event)
    requires Count(inner, e) == BlockShare(e, bodyRaises, n)
    ensures var close := if bodyRaises then ConnRollback else ConnCommit;
      Count([ConnEnter, ConnBegin] + inner + [close, ConnExit(bodyRaises)], e)
        == BlockShare(e, bodyRaises, n + 1)
  {
    var close := if bodyRaises then ConnRollback else ConnCommit;
    var a := [ConnEnter, ConnBegin];
    var b := [close, ConnExit(bodyRaises)];
    CountConcat(a + inner, b, e);
    CountConcat(a, inner, e);
    CountCons(ConnEnter, [ConnBegin], e);
    CountSingle(ConnBegin, e);
    CountCons(close, [ConnExit(bodyRaises)], e);
    CountSingle(ConnExit(bodyRaises), e);
  }

  /** A nest of fresh objects leaves its outermost object fresh again and lets
      the body's exception through. */
  lemma {:induction false} NestFreshRestores(k: nat, bodyRaises: bool)
    ensures var r := NestFresh(k, bodyRaises);
      r.tx == Fresh && r.raised == bodyRaises
    decreases k
  {
    if k > 0 {
      NestFreshRestores(k - 1, bodyRaises);
      NestFreshUnfold(k, bodyRaises);
    }
  }

  /** The outermost of `k` fresh objects adds the calls of one block to those
      of the other ones. */
  lemma NestFreshStep(k: nat, bodyRaises: bool, e: Event)
    requires k >= 1
    requires Count(NestFresh(k - 1, bodyRaises).events, e) == BlockShare(e, bodyRaises, k - 1)
    ensures Count(NestFresh(k, bodyRaises).events, e) == BlockShare(e, bodyRaises, k)
  {
    var inner := NestFresh(k - 1, bodyRaises);
    NestFreshRestores(k - 1, bodyRaises);
    NestFreshUnfold(k, bodyRaises);
    BlockCount(inner.events, k - 1, bodyRaises, e);
  }

  /** The induction behind `NestFreshCounts`, one block per step. */
  lemma {:induction false} NestFreshShare(k: nat, bodyRaises: bool, e: Event)
    ensures Count(NestFresh(k, bodyRaises).events, e) == BlockShare(e, bodyRaises, k)
    decreases k
  {
    if k > 0 {
      NestFreshShare(k - 1, bodyRaises, e);
      NestFreshStep(k, bodyRaises, e);
    }
  }

  /** Every fresh object makes the calls of one outermost block: each of those
      calls occurs `k` times in the nest, and no other call occurs. */
  lemma NestFreshCounts(k: nat, bodyRaises: bool, e: Event)
    ensures Count(NestFresh(k, bodyRaises).events, e) == if e in BlockCalls(bodyRaises) then k else 0
  {
    NestFreshShare(k, bodyRaises, e);
  }

  /** `k` nested fresh objects enter and exit the connection context `k` times,
      once per object, and pair each of their `k` begins with a commit (or a
      rollback after an exception). */
  lemma FreshInstancesPairs(k: nat, bodyRaises: bool)
    ensures var r := NestFresh(k, bodyRaises);
      var close := if bodyRaises then ConnRollback else ConnCommit;
      && r.tx == Fresh && r.raised == bodyRaises
      && Count(r.events, ConnEnter) == k && Count(r.events, ConnExit(bodyRaises)) == k
      && Count(r.events, ConnBegin) == k && Count(r.events, close) == k
  {
    var close := if bodyRaises then ConnRollback else ConnCommit;
    NestFreshRestores(k, bodyRaises);
    NestFreshCounts(k, bodyRaises, ConnEnter);
    NestFreshCounts(k, bodyRaises, ConnExit(bodyRaises));
    NestFreshCounts(k, bodyRaises, ConnBegin);
    NestFreshCounts(k, bodyRaises, close);
  }
}

=== FILE: transaction_context_pas.dfy ===
/** The `with TransactionContext():` protocol of the older
    src/dNG/pas/database/transaction_context.py.

    Every block calls `Connection._acquire()` on entry and `Connection._release()`
    on exit (the lock is taken only in serialised mode; the events record the
    calls) and begins one transaction level on the connection. */
module TxContextPas {
  import opened Trace

  /** `context_depth` and whether `_database` is bound to the connection. */
  datatype Tx = Tx(depth: int, bound: bool)

  const Fresh := Tx(0, false)

  datatype Step = Step(tx: Tx, events: seq<Event>, raised: bool)

  /** `__enter__()`: acquire, count the block, begin a level; a failing begin
      releases and escapes, with the depth already counted. */
  function Enter(t: Tx, beginFails: bool): (r: Step)
    ensures r.tx == Tx(t.depth + 1, true)
    ensures r.raised == beginFails
    ensures r.events == [LockAcquire, ConnBegin] + (if beginFails then [LockRelease] else [])
  {
    Step(Tx(t.depth + 1, true), [LockAcquire, ConnBegin] + (if beginFails then [LockRelease] else []), beginFails)
  }

  /** The commit or rollback of `__exit__()`: on success the level is counted
      off and the connection unbound after the last one; on failure the error is
      logged, a clean exit falls back to a rollback, and the depth stays. A
      failing fallback rollback escapes. */
  function Finish(t: Tx, exc: bool, nativeFails: bool, fallbackFails: bool): (r: Step)
    requires t.depth > 0
    ensures r.raised <==> !exc && nativeFails && fallbackFails
    ensures !nativeFails ==> r.tx == Tx(t.depth - 1, t.depth - 1 >= 1 && t.bound)
    ensures nativeFails ==> r.tx == t
    ensures ConnCommit in r.events <==> !exc
    ensures LockAcquire !in r.events && LockRelease !in r.events
  {
    if !exc then
      if !nativeFails then Step(Tx(t.depth - 1, t.depth - 1 >= 1 && t.bound), [ConnCommit], false)
      else Step(t, [ConnCommit, ErrorLogged, ConnRollback], fallbackFails)
    else
      if !nativeFails then Step(Tx(t.depth - 1, t.depth - 1 >= 1 && t.bound), [ConnRollback], false)
      else Step(t, [ConnRollback, ErrorLogged], false)
  }

  /** `__exit__()` as written: the release is skipped when the fallback rollback
      escapes. */
  function ExitAsWritten(t: Tx, exc: bool, nativeFails: bool, fallbackFails: bool): (r: Step)
    ensures r.raised <==> t.depth > 0 && !exc && nativeFails && fallbackFails
    ensures r.raised ==> LockRelease !in r.events
    ensures Count(r.events, LockRelease) == (if r.raised then 0 else 1) && Count(r.events, LockAcquire) == 0
  {
    if t.depth > 0 then
      var f := Finish(t, exc, nativeFails, fallbackFails);
      CountConcat(f.events, [LockRelease], LockRelease);
      CountConcat(f.events, [LockRelease], LockAcquire);
      if f.raised then f else Step(f.tx, f.events + [LockRelease], false)
    else Step(t, [LockRelease], false)
  }

  /** `__exit__()` with the release in every case: exactly one release. */
  function Exit(t: Tx, exc: bool, nativeFails: bool, fallbackFails: bool): (r: Step)
    ensures Count(r.events, LockRelease) == 1 && Count(r.events, LockAcquire) == 0
    ensures r.events[|r.events| - 1] == LockRelease
    ensures t.depth <= 0 ==> r == Step(t, [LockRelease], false)
    ensures r.raised <==> t.depth > 0 && !exc && nativeFails && fallbackFails
  {
    if t.depth > 0 then
      var f := Finish(t, exc, nativeFails, fallbackFails);
      CountConcat(f.events, [LockRelease], LockRelease);
      CountConcat(f.events, [LockRelease], LockAcquire);
      Step(f.tx, f.events + [LockRelease], f.raised)
    else Step(t, [LockRelease], false)
  }

  /** As written, a commit and its fallback rollback that both fail leave the
      acquired lock taken. */
  lemma ExitAsWrittenKeepsLock()
    ensures var e := Enter(Fresh, false);
      var x := ExitAsWritten(e.tx, false, true, true);
      x.raised && e.events + x.events == [LockAcquire, ConnBegin, ConnCommit, ErrorLogged, ConnRollback]
  {
  }

  /** `with TransactionContext(): <body>`: every acquisition is paired with a
      release, and the body's exception escapes. */
  function With(t: Tx, bodyRaises: bool, beginFails: bool, nativeFails: bool, fallbackFails: bool): (r: Step)
    ensures Count(r.events, LockAcquire) == Count(r.events, LockRelease) == 1
    ensures bodyRaises ==> r.raised
  {
    var enter := Enter(t, beginFails);
    if enter.raised then enter
    else
      var exit := Exit(enter.tx, bodyRaises, nativeFails, fallbackFails);
      assert enter.events == [LockAcquire] + [ConnBegin];
      CountCons(LockAcquire, [ConnBegin], LockAcquire);
      CountCons(LockAcquire, [ConnBegin], LockRelease);
      CountConcat(enter.events, exit.events, LockAcquire);
      CountConcat(enter.events, exit.events, LockRelease);
      Step(exit.tx, enter.events + exit.events, bodyRaises || exit.raised)
  }

  /** `with TransactionContext(): <body>` with the exit as written: from a
      depth that is not negative, the lock stays taken exactly when a clean
      body's commit and its fallback rollback both fail. */
  function WithAsWritten(t: Tx, bodyRaises: bool, beginFails: bool, nativeFails: bool, fallbackFails: bool): (r: Step)
    ensures Count(r.events, LockAcquire) == 1
    ensures Count(r.events, LockRelease) == if !beginFails && !bodyRaises && t.depth >= 0 && nativeFails && fallbackFails then 0 else 1
    ensures bodyRaises ==> r.raised
  {
    var enter := Enter(t, beginFails);
    if enter.raised then enter
    else
      var exit := ExitAsWritten(enter.tx, bodyRaises, nativeFails, fallbackFails);
      assert enter.events == [LockAcquire] + [ConnBegin];
      CountCons(LockAcquire, [ConnBegin], LockAcquire);
      CountCons(LockAcquire, [ConnBegin], LockRelease);
      CountConcat(enter.events, exit.events, LockAcquire);
      CountConcat(enter.events, exit.events, LockRelease);
      Step(exit.tx, enter.events + exit.events, bodyRaises || exit.raised)
  }

  /** The corrected block does what the block as written does, and gives the
      lock back in the one case where the as-written one keeps it. */
  lemma WithAgreesAsWritten(t: Tx, bodyRaises: bool, beginFails: bool, nativeFails: bool, fallbackFails: bool)
    ensures var w := WithAsWritten(t, bodyRaises, beginFails, nativeFails, fallbackFails);
      With(t, bodyRaises, beginFails, nativeFails, fallbackFails)
        == if !beginFails && !bodyRaises && t.depth >= 0 && nativeFails && fallbackFails
           then Step(w.tx, w.events + [LockRelease], true) else w
  {
    var enter := Enter(t, beginFails);
    if !beginFails && enter.tx.depth > 0 {
      var f := Finish(enter.tx, bodyRaises, nativeFails, fallbackFails);
      if !f.raised {
        assert enter.events + (f.events + [LockRelease]) == (enter.events + f.events) + [LockRelease];
      } else {
        assert enter.events + (f.events + [LockRelease]) == (enter.events + f.events) + [LockRelease];
      }
    }
  }

  /** A clean block from a fresh context begins and commits one level and leaves
      the context as it found it. */
  lemma CleanBlock(exc: bool)
    ensures var r := With(Fresh, exc, false, false, false);
      r.tx == Fresh && r.events == [LockAcquire, ConnBegin, if exc then ConnRollback else ConnCommit, LockRelease]
  {
  }
}

=== FILE: values.dfy ===
/** The dynamically typed values that flow through attribute setters, filters and
    JSON documents. */
module Values {

  datatype Value =
    | VNone
    | VBool(b: bool)
    | VInt(i: int)
    | VStr(s: string)
    | VList(items: seq<Value>)
    | VDict(entries: map<string, Value>)

  /** Python's `==` between a value and an integer constant: `True` equals 1
      and `False` equals 0. */
  predicate EqualsInt(v: Value, n: int) {
    match v
    case VInt(i) => i == n
    case VBool(b) => (if b then 1 else 0) == n
    case _ => false
  }
}

=== FILE: wrappers.dfy ===
/** Failure-compatible wrappers shared by every component of the model, and the
    exception kinds the library raises, so that every error path is a value. */
module Wrappers {

  /** A value that may be missing (Python's `None`). */
  datatype Option<+T> = None | Some(value: T) {

    predicate IsFailure() {
      None?
    }

    function PropagateFailure<U>(): Option<U>
      requires None?
    {
      None
    }

    function Extract(): T
      requires Some?
    {
      value
    }

    /** The encapsulated value, or `default` for `None`. */
    function GetOr(default: T): T {
      match this
      case Some(v) => v
      case None => default
    }
  }

  /** The exceptions the library raises, plus the ones the Python runtime or the
      database back end raise into it. */
  datatype Error =
    | ValueException
    | TypeException
    | IOException
    | NotImplementedException
    | NothingMatchedException
    | InputValidationException
    | OperationNotSupportedException
    /** Python's built-in `RuntimeError`. */
    | RuntimeError
    /** Python's built-in `TypeError` (raised by the interpreter, not the library). */
    | PythonTypeError
    /** Python's built-in `AttributeError`. */
    | PythonAttributeError
    /** Anything the database driver raises (no row found, integrity errors, ...). */
    | BackendError

  /** Either a value or the exception that ends the call. */
  datatype Result<+R> = Success(value: R) | Failure(error: Error) {

    predicate IsFailure() {
      Failure?
    }

    function PropagateFailure<U>(): Result<U>
      requires Failure?
    {
      Failure(error)
    }

    function Extract(): R
      requires Success?
    {
      value
    }
  }
}
